=== FILE: README.md ===
# Video platform realtime and engagement core, in Dafny

This project models the server core of a video-sharing platform (long-form
videos, shorts and posts), written in Dafny as immutable data and pure
functions with proved contracts. The modelled parts are:

- **Presence and realtime delivery.**
  - The multi-socket presence registry (`Presence`) and the older single-socket registry (`SocketService`).
  - The user notification dispatcher (`Dispatcher`): socket first, push only when the socket was not used, and batches that stop at the first failing save.
  - The push gateway (`PushGateway`), which deactivates failed device tokens.
  - The device-token registry with its two unique indexes (`DeviceTokens`).
  - The admin dispatcher, the `notifyAdmin*` wrappers and the admin test endpoint (`AdminDispatcher`).
- **Notification records and stores.**
  - The two record schemas with their enums, length limits and expiry times (`NotificationModel`).
  - The user and admin notification stores: listing, badge count, mark-read, soft delete and clear (`NotificationStore`, `AdminStore`).
  - The notification service's domain wrappers, i.e. upload fan-out and the comment, reply, like and follower notices (`DomainEvents`).
- **Engagement.**
  - The like/dislike toggle for videos, shorts and posts and for comments (`Reactions`, `ReactController`, `CommentReactController`).
  - Channel subscriptions with the notification bell (`Follows`).
  - Comments and replies with their denormalised counters (`Comments`).
  - Saved content (`Saves`).
- **Content.**
  - The video/short request rules (`Media`): hashtag normalisation, field defaults, the private-item check, `streamingUrl`, the publish guards (transcode `COMPLETE`; shorts at most 60 seconds), listing and trending.
  - The admin content screens (`ManageContent`): per-type listing, the merged all-types listing, the creator-name fallback, details and delete.
- **Access.** The bearer-token middleware (`Auth`).
- **Shared modules.**
  - `Wrappers` (Option/Result).
  - `Text` (trim, ASCII case mapping, split/join, JavaScript UTF-16 length and `substring`).
  - `Paging` (the `|| default` query idiom, skip/limit, page counts, newest-first sort, JavaScript `Array.prototype.slice`).
  - `Content` (content types, object-id syntax, sign-in test).

The database, the socket server, the push provider, the JWT library and the
clock are not modelled as code. Each becomes a parameter of the operations
that use it:

- an emitted event is read off the registry;
- push answers are a per-token success list, or `None` when the provider throws;
- a store save that may fail is a boolean;
- `JSON.parse` is a function from string to an optional string list;
- `jwt.verify` is a function from token to a payload id or a thrown error;
- the time is `now`.

Where the code and the documented design disagree, the model follows the
code:

- a batch stops at the first failing save and rethrows;
- `markAsRead` rewrites `readAt` on every call;
- a `user_status` "online" is broadcast on every successful `authenticate`, not only on a user's first socket;
- re-authenticating a socket as another user does not remove it from the first user's set (see Findings).

The controller imports the compiled `dist/utils/notification.utils.js`.
That file and `src/utils/userNotification.utils.ts` have the same control
flow for every modelled operation, and the rows below cite the TypeScript
file.

## Model

| member | source | states |
|---|---|---|
| Presence.BoundUser | src/utils/socket.manager.ts:56 | the bound user of a socket is present only when it is a non-empty id (JavaScript truthiness of `socket.userId`) |
| Presence.StatusEffects | src/utils/socket.manager.ts:79-82 | a `user_status` broadcast is sent exactly when the server is initialised, and carries the user and the status |
| Presence.Authenticate | src/utils/socket.manager.ts:34-53 | a verified token adds the socket to that user's set, binds the socket, answers `authenticated` and broadcasts "online" every time; a failed verification answers `authentication_error`, closes the socket and changes no set |
| Presence.RemoveUserSocket | src/utils/socket.manager.ts:84-93 | drops the socket from that user's set only; an emptied set is deleted and "offline" is broadcast; other users keep their sockets |
| Presence.Disconnect | src/utils/socket.manager.ts:55-69 | a socket with a bound user leaves that user's set exactly as removeUserSocket leaves it, with the same `offline` broadcast; an unbound socket leaves every set unchanged and emits nothing; either way the socket is unbound |
| Presence.Logout | src/utils/socket.manager.ts:71-75 | the same removal for a bound socket; the socket stays bound to its user; an unbound socket changes nothing |
| Presence.GetUserSocketCount | src/utils/socket.manager.ts:132-134 | the size of the user's socket set, 0 when absent |
| Presence.EmitToUser | src/utils/socket.manager.ts:95-113 | succeeds and reaches every socket of the user exactly when the server is initialised and the user is online |
| Presence.OnlineIffKey | src/utils/socket.manager.ts:124-130 | with no empty set stored, "online", "is a key" and "a non-zero socket count" coincide, and the online users are the keys |
| Presence.EmitSucceedsIffOnline | src/utils/socket.manager.ts:95-113 | emitToUser's result is true exactly for online users of an initialised server |
| Presence.AuthenticateMakesOnline | src/utils/socket.manager.ts:34-53 | after a successful authenticate the user is online and the socket is in their set |
| Presence.AuthenticateThenDisconnect | src/utils/socket.manager.ts:34-69 | a fresh socket that authenticates and then disconnects leaves the registry as it was, broadcasting "offline" exactly when the user had no other socket |
| Presence.OwnersConsistentSingleOwner | src/utils/socket.manager.ts:37-42 | under consistent ownership a socket appears in at most one user's set |
| Presence.AuthenticateFreshKeepsOwners | src/utils/socket.manager.ts:34-53 | authenticating an unbound socket, or re-authenticating as the same user, keeps ownership consistent |
| Presence.DisconnectKeepsOwners | src/utils/socket.manager.ts:55-69 | disconnect keeps ownership consistent |
| Presence.LogoutKeepsOwners | src/utils/socket.manager.ts:71-75 | logout keeps ownership consistent |
| Presence.StaleSocketAfterReauthenticate | src/utils/socket.manager.ts:37-42 | counterexample: re-authenticating a bound socket as another user leaves it in both users' sets |
| Presence.AuthenticateRebinding | src/utils/socket.manager.ts:34-53 | corrected authenticate: the new user's set gains the socket, the socket is bound to the new user, "online" is broadcast exactly when the server is initialised, and no empty set is stored |
| Presence.AuthenticateRebindingKeepsOwners | src/utils/socket.manager.ts:34-53 | the corrected authenticate keeps ownership consistent for every socket and verdict |
| SocketService.Register | src/utils/socket.utils.ts:23-35 | a non-empty user id maps to this socket (replacing any earlier socket) and the socket remembers it, while every other user's socket and every other socket's user are unchanged; an empty id changes nothing |
| SocketService.Disconnect | src/utils/socket.utils.ts:37-43 | the user id this socket registered is unmapped, whichever socket it currently maps to |
| SocketService.Ping | src/utils/socket.utils.ts:45-47 | answers `pong` to the same socket and changes nothing |
| SocketService.EmitToUser | src/utils/socket.utils.ts:53-69 | sends to the single mapped socket exactly when the server is initialised and the user maps to a non-empty socket id; never more than one recipient |
| SocketService.LastRegisterWins | src/utils/socket.utils.ts:23-35 | after two registrations of one user, emits reach only the second socket |
| SocketService.StaleDisconnectDropsNewerSocket | src/utils/socket.utils.ts:37-43 | disconnecting the older socket makes the user offline although the newer socket is still connected |
| SocketService.RegisterThenDisconnect | src/utils/socket.utils.ts:23-43 | register then disconnect of a socket for an unmapped user restores the user-to-socket map |
| NotificationModel.ParseKind | src/modules/notification/notification.model.ts:61-77 | accepts exactly the ten user notification type names |
| NotificationModel.ParseAdminKind | src/modules/adminNotification/adminNotification.model.ts:41-46 | accepts exactly `new_user`, `new_channel`, `new_report` |
| NotificationModel.ParseTargetType | src/modules/notification/notification.model.ts:90-94 | accepts exactly the target type names of the schema |
| NotificationModel.KindRoundTrip | src/modules/notification/notification.model.ts:61-77 | every user kind's stored name parses back to that kind |
| NotificationModel.AdminKindRoundTrip | src/modules/adminNotification/adminNotification.model.ts:41-46 | every admin kind's stored name parses back to that kind |
| NotificationModel.TargetTypeRoundTrip | src/modules/notification/notification.model.ts:90-94 | every target type's name parses back to it |
| NotificationModel.KindsDisjoint | src/modules/adminNotification/adminNotification.model.ts:41-46 | no string is both a user and an admin notification type |
| NotificationModel.Validate | src/modules/notification/notification.model.ts:61-89 | succeeds exactly when the type is a user kind and the trimmed title (1..200) and message (1..500) fit, lengths counted in UTF-16 units as `maxlength` counts them; otherwise it names every failing field |
| NotificationModel.ValidateAdmin | src/modules/adminNotification/adminNotification.model.ts:47-58 | the same trimmed title and message limits, in UTF-16 units, for admin records |
| NotificationModel.SameTextRules | src/modules/adminNotification/adminNotification.model.ts:47-58 | an admin record's text is valid exactly when the user schema's text rules accept it |
| NotificationModel.NewRecord | src/modules/notification/notification.model.ts:98-129 | a record is created exactly when the payload validates; it carries the id, recipient, kind, trimmed text and metadata, is unread, undeleted and undelivered, with priority defaulting to medium |
| NotificationModel.Fresh | src/modules/notification/notification.model.ts:98-129 | the record created for one recipient from validated fields has the schema defaults |
| NotificationModel.NewAdminRecord | src/modules/adminNotification/adminNotification.model.ts:59-97 | an admin record is created exactly when its text validates; it carries the kind and trimmed text, is unread, undeleted and undelivered, with priority defaulting to medium |
| DeviceTokens.FindKey | src/modules/user/userToken.model.ts:52 | the position of the record for (user, deviceId), or none exactly when no record has that pair |
| DeviceTokens.Upsert | src/utils/userNotification.utils.ts:254-277 | upserts the (user, deviceId) record with the token, type, active flag and last-used time; other records are unchanged; a token already held by another record is refused |
| DeviceTokens.FindKeyUnique | src/modules/user/userToken.model.ts:25-52 | under the unique indexes the found record is the only one with its pair |
| DeviceTokens.Remove | src/utils/userNotification.utils.ts:282-293 | no record with that (user, deviceId) pair remains, every other record is kept, and nothing new appears |
| DeviceTokens.RemoveKeepsUnique | src/modules/user/userToken.model.ts:25-52 | removal keeps both unique indexes |
| DeviceTokens.RemoveThenUpsert | src/utils/userNotification.utils.ts:254-293 | after removing a pair, upserting it again yields a record for it with the new token |
| DeviceTokens.ActiveTokens | src/utils/userNotification.utils.ts:36-43 | exactly the tokens of the user's active records |
| DeviceTokens.Deactivate | src/utils/userNotification.utils.ts:65-79 | exactly the records whose token failed become inactive; nothing else changes |
| DeviceTokens.DeactivateKeepsUnique | src/modules/user/userToken.model.ts:25-52 | deactivation keeps both unique indexes |
| DeviceTokens.DeactivateRemovesFailed | src/utils/userNotification.utils.ts:65-79 | a token is addressed after deactivation exactly when it was addressed before and did not fail |
| DeviceTokens.ParseDeviceType | src/modules/notification/notification.controller.ts:182-188 | accepts exactly `android`, `ios`, `web` |
| DeviceTokens.RegisterToken | src/modules/notification/notification.controller.ts:169-203 | a missing token, device type or device id is rejected without change, then an unknown device type; a valid request registers the upserted store, or answers a server error with the store unchanged when the upsert fails; both unique indexes are kept |
| DeviceTokens.UnregisterToken | src/modules/notification/notification.controller.ts:209-235 | a missing device id is rejected without change; otherwise the pair is removed |
| PushGateway.FailedTokens | src/utils/userNotification.utils.ts:65-72 | exactly the tokens whose same-index answer failed |
| PushGateway.ImageIfTruthy | src/utils/userNotification.utils.ts:57-59 | an image is attached only when the url is present and non-empty |
| PushGateway.SendPush | src/utils/userNotification.utils.ts:30-86 | with no active token the provider is never called and false is returned; otherwise one multicast to all active tokens, failed tokens deactivated, true exactly when some answer succeeded; a throwing provider returns false and changes nothing |
| PushGateway.ActiveTokensDistinct | src/modules/user/userToken.model.ts:25 | under the unique token index the addressed tokens are distinct |
| PushGateway.SucceededTokenStaysActive | src/utils/userNotification.utils.ts:65-79 | a token whose answer succeeded is addressed by the next push |
| PushGateway.FailedTokenDropped | src/utils/userNotification.utils.ts:65-79 | a token whose answer failed is not addressed by the next push |
| PushGateway.SendAdminPush | src/utils/adminNotification.utils.ts:18-67 | without a configured admin id nothing is sent and false is returned; otherwise the admin's failed tokens are deactivated (none when the admin has no token or the provider throws), and delivered holds exactly when the admin has an active token and some answer succeeded; no image is sent |
| Dispatcher.PushData | src/utils/userNotification.utils.ts:155-160 | the push data has exactly the record id, the type, and the target type and id; the target type parses back to the payload's type and is "" exactly when absent |
| Dispatcher.Thumbnail | src/utils/userNotification.utils.ts:161 | the push image is the metadata thumbnail when present |
| Dispatcher.EmitSocketNotification | src/utils/userNotification.utils.ts:91-106 | the socket emit succeeds exactly when the recipient is online on an initialised server |
| Dispatcher.DeliveryStep | src/utils/userNotification.utils.ts:140-169 | the socket flag is set exactly when the recipient is online on an initialised server; push is tried only otherwise and its flag is its result; the flags are never both set |
| Dispatcher.SendNotification | src/utils/userNotification.utils.ts:111-176 | an invalid payload throws and stores nothing; otherwise exactly one record is appended with the delivery flags, and a failing save throws with the record left as created |
| Dispatcher.Created | src/utils/userNotification.utils.ts:186-204 | insertMany creates one fresh record per recipient, in recipient order |
| Dispatcher.DeliverAllChangesOnlyFlags | src/utils/userNotification.utils.ts:206-242 | the loop changes only the delivery flags of each record |
| Dispatcher.FirstFailure | src/utils/userNotification.utils.ts:241-248 | the position of the first failing save, or the length when none fails |
| Dispatcher.SendBatch | src/utils/userNotification.utils.ts:181-249 | no recipients succeeds with nothing stored; an invalid payload stores nothing; otherwise all records are inserted, the loop runs until the first failing save, and on failure earlier records keep their flags, later ones stay as created, and the error is rethrown |
| Dispatcher.DeliveryLoop | src/utils/userNotification.utils.ts:206-248 | the imperative loop equals the reference definition up to and including the first failing save |
| Dispatcher.DeliverUntilFailure | src/utils/userNotification.utils.ts:206-242 | for any delivery step, the loop stops exactly at the first failing save (or the end), every earlier save succeeded, and the records and token store it holds are the reference definition's for those records |
| Dispatcher.DeliverNext | src/utils/userNotification.utils.ts:207-242 | one iteration's attempt extends the reference definition by exactly that record and leaves the earlier records as they were |
| Dispatcher.BatchOfOneMatchesSingle | src/utils/userNotification.utils.ts:111-249 | a batch of one recipient delivers exactly as a single send does |
| Dispatcher.BatchSocketFlags | src/utils/userNotification.utils.ts:206-242 | in a batch, each recipient's socket flag is set exactly when that recipient is online |
| Dispatcher.OrElse | src/modules/notification/notification.controller.ts:246-252 | `x || d` on an optional field |
| Dispatcher.TestPayload | src/modules/notification/notification.controller.ts:241-266 | the test payload goes to the caller with high priority; type, title and message default to "system", "Test Notification", "This is a test notification" |
| Dispatcher.TestNotification | src/modules/notification/notification.controller.ts:241-266 | replies "sent" exactly when the underlying send succeeds, with a record for the caller |
| Dispatcher.TestSentIffValid | src/modules/notification/notification.controller.ts:241-266 | with a working store the test endpoint succeeds exactly when the defaulted fields pass the schema |
| AdminDispatcher.AdminPushData | src/utils/adminNotification.utils.ts:112-115 | the admin push data is the record id and type |
| AdminDispatcher.AdminDeliveryStep | src/utils/adminNotification.utils.ts:88-123 | without a configured admin id nothing is delivered; otherwise socket first, push when offline or the socket failed |
| AdminDispatcher.AdminDeliveryIsUserDelivery | src/utils/adminNotification.utils.ts:88-123 | with an admin configured, admin delivery is the user delivery rule applied to the admin id |
| AdminDispatcher.SendAdminNotification | src/utils/adminNotification.utils.ts:73-130 | an invalid record throws and stores nothing; otherwise one admin record is appended with its delivery flags, and a failing save throws |
| AdminDispatcher.Settle | src/utils/adminNotification.utils.ts:100-121 | a set delivery flag is saved; a failing save throws with the record as created |
| AdminDispatcher.SendAdminAdds | src/utils/adminNotification.utils.ts:73-130 | a send never changes earlier records and adds at most one, of the requested kind and priority |
| AdminDispatcher.AdminRecordShape | src/utils/adminNotification.utils.ts:78-86 | a stored admin record is unread, undeleted, of the requested kind, and priority defaults to medium |
| AdminDispatcher.NotifyAdminNewUser | src/utils/adminNotification.utils.ts:135-158 | adds at most one record, of kind `new_user` and low priority, and leaves earlier records unchanged, whatever the send's outcome |
| AdminDispatcher.NewUserMetadata | src/utils/adminNotification.utils.ts:146-151 | the metadata keys are the user id, username and email, plus the avatar only when one is given |
| AdminDispatcher.NotifyAdminNewChannel | src/utils/adminNotification.utils.ts:163-187 | adds at most one record, of kind `new_channel` and low priority, and leaves earlier records unchanged |
| AdminDispatcher.NewChannelMetadata | src/utils/adminNotification.utils.ts:175-181 | the metadata carries the channel id and name and the owner id and username, and the channel icon exactly when one is given |
| AdminDispatcher.NotifyAdminNewReport | src/utils/adminNotification.utils.ts:192-216 | adds at most one record, of kind `new_report` and high priority, and leaves earlier records unchanged |
| AdminDispatcher.NotifyAddsAtMostOne | src/utils/adminNotification.utils.ts:135-216 | with the error swallowed, a send adds a record exactly when the record passes the admin schema, even when a later save fails |
| AdminDispatcher.ReplaceFirst | src/modules/adminNotification/adminNotification.controller.ts:156 | only the first occurrence of the character is replaced; without one the string is unchanged |
| AdminDispatcher.TestNotification | src/modules/adminNotification/adminNotification.controller.ts:114-171 | a supplied type outside the three admin kinds is refused with nothing stored; the type defaults to `new_user`; `new_report` gets high priority, the others low |
| AdminDispatcher.TestSend | src/modules/adminNotification/adminNotification.controller.ts:154-170 | for an accepted type the reply is never "bad type"; a sent reply carries a record of that kind, high priority exactly for `new_report`, appended as one new record; with a working store and a valid record the reply is "sent" |
| AdminDispatcher.TestMetadata | src/modules/adminNotification/adminNotification.controller.ts:131-152 | the sample metadata keys of each admin kind |
| AdminDispatcher.TestStoresIffAccepted | src/modules/adminNotification/adminNotification.controller.ts:114-171 | with a working store, the reply is "bad type" exactly when the defaulted type names no admin kind, a refusal changes nothing, and a sent reply stores one record |
| NotificationStore.ParseFilter | src/modules/notification/notification.service.ts:271-275 | "read" and "unread" restrict the listing; anything else, or nothing, does not |
| NotificationStore.Select | src/modules/notification/notification.service.ts:267-277 | a record is selected exactly when it is in the store, belongs to the recipient, is not deleted and matches the read filter |
| NotificationStore.GetUserNotifications | src/modules/notification/notification.service.ts:253-302 | a negative skip fails; otherwise the page is exactly the skip/limit window of the matching records sorted newest first, every returned record matches the query, the total counts every match, and the unread count ignores the filter |
| NotificationStore.FilterPartition | src/modules/notification/notification.service.ts:271-275 | the unfiltered listing's size is the read listing's plus the unread listing's |
| NotificationStore.UnreadCountIgnoresFilter | src/modules/notification/notification.service.ts:285-290 | whatever the filter and page, the reported unread count is the unread listing's total |
| NotificationStore.FindOwned | src/modules/notification/notification.service.ts:307-318 | the first record with that id and recipient, or none when no record has both |
| NotificationStore.MarkAsRead | src/modules/notification/notification.service.ts:307-318 | a malformed id fails (the cast error the controller turns into 500); otherwise the user's record with that id becomes read at `now` and every other record is unchanged |
| NotificationStore.MarkAsReadRewritesReadAt | src/modules/notification/notification.service.ts:310-313 | marking read a second time moves `readAt` to the later time |
| NotificationStore.MarkAsReadUnreadCount | src/modules/notification/notification.service.ts:307-318 | after a successful mark the badge drops by one exactly when the record was the user's, unread and undeleted; otherwise it is unchanged |
| NotificationStore.MarkAsReadScoped | src/modules/notification/notification.service.ts:307-318 | a user can never change another user's record |
| NotificationStore.MarkAllAsRead | src/modules/notification/notification.service.ts:323-334 | every unread record of the user becomes read at `now`; records of others are unchanged |
| NotificationStore.MarkAllAsReadClearsBadge | src/modules/notification/notification.service.ts:323-334 | afterwards the user's badge is zero and every other user's badge is unchanged |
| NotificationStore.DeleteNotification | src/modules/notification/notification.service.ts:339-350 | a malformed id fails (500); otherwise the user's record with that id is soft-deleted and nothing else changes |
| NotificationStore.DeleteHidesRecord | src/modules/notification/notification.service.ts:339-350 | after a successful delete the record leaves every listing, and each listing shrinks by one exactly when the record was in it |
| NotificationStore.ClearAll | src/modules/notification/notification.service.ts:355-366 | every record of the user is soft-deleted; others are unchanged |
| NotificationStore.ClearAllEmptiesListing | src/modules/notification/notification.service.ts:355-366 | afterwards every listing of the user is empty and other users' listings are unchanged |
| NotificationStore.Expire | src/modules/notification/notification.model.ts:140 | the expiry index keeps exactly the records created less than 2592000 s (30 days) before now |
| NotificationStore.ExpiryListing | src/modules/notification/notification.model.ts:140 | after expiry every listing is the earlier listing minus its expired records, in the same order: a listed record stays listed exactly while it is within its 30 days |
| NotificationStore.ExpireLater | src/modules/notification/notification.model.ts:140 | expiry seen at one time and then at a later time leaves the same records as expiry at the later time alone |
| NotificationStore.GetNotifications | src/modules/notification/notification.controller.ts:11-45 | page and limit default to 1 and 20 (missing, unparsable or zero); the reply carries the page, total, page count and unread count |
| NotificationStore.DefaultQueryFirstPage | src/modules/notification/notification.controller.ts:14-16 | with no query the handler shows page 1 with min(total, 20) records, and the page count covers the total |
| NotificationStore.GetUnreadCountReply | src/modules/notification/notification.controller.ts:51-69 | the badge endpoint reports the user's unread count |
| NotificationStore.BadgeMatchesListings | src/modules/notification/notification.controller.ts:51-69 | the badge equals the unread listing's total, and the read and unread totals add up to the unfiltered total |
| AdminStore.Select | src/modules/adminNotification/adminNotification.service.ts:21-25 | a record is selected exactly when it is in the store, not deleted, and matches the read filter and any non-empty type |
| AdminStore.GetNotifications | src/modules/adminNotification/adminNotification.service.ts:8-46 | a negative skip fails; otherwise the page is exactly the skip/limit window of the matching records sorted newest first, the total counts every match, and the unread count ignores both filters |
| AdminStore.TypePartition | src/modules/adminNotification/adminNotification.service.ts:25 | the untyped listing's size is the sum of the three typed listings' sizes |
| AdminStore.UnknownTypeListsNothing | src/modules/adminNotification/adminNotification.service.ts:25 | a type that names no admin kind lists nothing |
| AdminStore.FindId | src/modules/adminNotification/adminNotification.service.ts:58-63 | the first record with that id, or none when no record has it |
| AdminStore.MarkAsRead | src/modules/adminNotification/adminNotification.service.ts:58-69 | a malformed id fails (500); otherwise the record with that id becomes read at `now` whoever asks, and others are unchanged |
| AdminStore.MarkAsReadUnreadCount | src/modules/adminNotification/adminNotification.service.ts:58-69 | after a successful mark the badge drops by one exactly when the record was unread and undeleted |
| AdminStore.MarkAllAsRead | src/modules/adminNotification/adminNotification.service.ts:74-85 | unread undeleted records become read; deleted ones are untouched |
| AdminStore.MarkAllAsReadClearsBadge | src/modules/adminNotification/adminNotification.service.ts:74-85 | afterwards the badge is zero and the unfiltered listing of any type keeps its size |
| AdminStore.DeleteNotification | src/modules/adminNotification/adminNotification.service.ts:90-98 | a malformed id fails (500); otherwise the record with that id is soft-deleted and nothing else changes |
| AdminStore.DeleteHidesRecord | src/modules/adminNotification/adminNotification.service.ts:90-98 | after a successful delete the record leaves every listing, which shrinks by one exactly when the record was in it |
| AdminStore.ClearAll | src/modules/adminNotification/adminNotification.service.ts:103-114 | every record ends soft-deleted and nothing else in it changes |
| AdminStore.ClearAllEmptiesListing | src/modules/adminNotification/adminNotification.service.ts:103-114 | afterwards every listing is empty and the badge is zero |
| AdminStore.Expire | src/modules/adminNotification/adminNotification.model.ts:97 | the expiry index keeps exactly the admin records created less than 7776000 s (90 days) before now |
| AdminStore.ExpiryListing | src/modules/adminNotification/adminNotification.model.ts:97 | after expiry every admin listing is the earlier listing minus its expired records, in the same order |
| AdminStore.GetNotificationsReply | src/modules/adminNotification/adminNotification.controller.ts:11-37 | page and limit default to 1 and 20; the reply carries the page, total, page count and unread count |
| AdminStore.BadgeMatchesListing | src/modules/adminNotification/adminNotification.controller.ts:42-53 | under any read filter and type, the list handler reports the badge's unread count |
| DomainEvents.BellFollowers | src/modules/notification/notification.service.ts:23-32 | a user is listed exactly when some follow record of the channel with notifications enabled names them as follower |
| DomainEvents.UploadPayload | src/modules/notification/notification.service.ts:34-48 | the payload is a high-priority new_video or new_short from the channel owner, with the channel, the title as message, the content as target and the thumbnail in the metadata |
| DomainEvents.NotifyNewUpload | src/modules/notification/notification.service.ts:12-100 | a missing channel or no bell-enabled follower sends nothing; otherwise the batch succeeds exactly when the payload validates and every save succeeds, and then appends one unread fan-out record per bell-enabled follower, in order; an invalid payload changes nothing |
| DomainEvents.BatchRecordsFanned | src/modules/notification/notification.service.ts:34-48 | every record the batch delivers is a fan-out record for one follower |
| DomainEvents.FanOutReachesBellFollowers | src/modules/notification/notification.service.ts:23-35 | the fan-out reaches exactly the channel's bell-enabled followers |
| DomainEvents.Excerpt | src/modules/notification/notification.service.ts:123 | a prefix of the comment of at most 100 UTF-16 units: the whole comment when it fits, otherwise at least 99 units |
| DomainEvents.NotifyNewComment | src/modules/notification/notification.service.ts:105-140 | a comment by the owner sends nothing and changes nothing; a stored notice goes to the owner from the commenter, is a medium comment notice targeting the comment, carries the trimmed excerpt of at most 100 characters, and is appended to the store |
| DomainEvents.NotifyCommentReply | src/modules/notification/notification.service.ts:145-180 | a reply by the parent's author sends nothing and changes nothing; a stored notice goes to the author from the replier, is a medium reply notice targeting the reply, carries the trimmed excerpt of at most 100 characters, and is appended to the store |
| DomainEvents.NotifyLike | src/modules/notification/notification.service.ts:217-248 | a like by the owner sends nothing and changes nothing; a stored notice goes to the owner from the liker, is a low-priority like targeting the content, and is appended to the store |
| DomainEvents.NotifyNewFollower | src/modules/notification/notification.service.ts:185-212 | a stored notice goes to the channel owner from the follower, is a low-priority new_follower notice naming the channel and no target, and is appended to the store |
| DomainEvents.CommentStoresIffNotSelf | src/modules/notification/notification.service.ts:116-133 | a comment notice stores a record exactly when commenter and owner differ and the payload validates, and never more than one |
| DomainEvents.LikeStoresIffNotSelf | src/modules/notification/notification.service.ts:226-242 | a like notice stores a record exactly when liker and owner differ and the payload validates, and never more than one |
| DomainEvents.ReplyStoresIffNotSelf | src/modules/notification/notification.service.ts:156-173 | a reply notice stores a record exactly when replier and owner differ and the payload validates, and never more than one |
| DomainEvents.FollowerStoresEvenForSelf | src/modules/notification/notification.service.ts:185-212 | when the follower owns the channel the notice still stores a record exactly when the payload validates |
| Content.ParseContentType | dist/modules/react/react.controller.js:18 | accepts exactly "Video", "Short", "Post" |
| Content.ContentTypeRoundTrip | dist/modules/react/react.controller.js:18 | every content type's name parses back to it |
| Content.AsTargetType | src/modules/notification/notification.model.ts:90-94 | each content type maps to the notification target type of the same name, never to Comment |
| Reactions.ParseReaction | dist/modules/react/react.controller.js:24 | accepts exactly "like" and "dislike" |
| Reactions.Bump | dist/modules/react/react.controller.js:68-123 | an `$inc` moves only the counter of that reaction |
| Reactions.Toggle | dist/modules/react/react.controller.js:58-123 | no record: create it and increment; the same reaction: delete it and decrement; the other reaction: switch it and move one count across |
| Reactions.ToggleKeepsCounters | dist/modules/react/react.controller.js:58-123 | if the counters matched the records before a toggle, they match after it |
| Reactions.ToggleTwiceRestores | dist/modules/react/react.controller.js:63-78 | toggling the same reaction twice from none restores records and counters |
| ReactController.CheckToggle | dist/modules/react/react.controller.js:7-56 | the rejections come in the handler's order: 401 unsigned, 400 type, 400 reaction, 400 id, 404 missing target |
| ReactController.ToggleReaction | dist/modules/react/react.controller.js:7-138 | a rejected request changes nothing; an accepted one applies the toggle to that target only, replying 201 added, 200 removed or 200 updated |
| ReactController.ToggleReactionKeepsConsistent | dist/modules/react/react.controller.js:7-138 | the counters of every target stay equal to the record counts |
| ReactController.GetUserReaction | dist/modules/react/react.controller.js:141-168 | 401 when unsigned; 500 for a malformed target id, which the query's cast rejects; otherwise the user's record on the target, if any |
| ReactController.GetReactionStats | dist/modules/react/react.controller.js:170-198 | 400 exactly on a malformed id; an unknown content type gives zero counts; otherwise the like and dislike record counts of the target |
| ReactController.StatsMatchCounters | dist/modules/react/react.controller.js:170-198 | in a consistent store the stats equal the target's stored counters |
| CommentReactController.CheckToggle | dist/modules/commentReact/commentReact.controller.js:5-34 | 401, 400 reaction, 400 id, then 404 for a missing or soft-deleted comment |
| CommentReactController.ToggleCommentReaction | dist/modules/commentReact/commentReact.controller.js:5-113 | a rejected request changes nothing; an accepted one toggles the user's record and moves only that comment's counters |
| CommentReactController.ToggleCommentReactionKeepsConsistent | dist/modules/commentReact/commentReact.controller.js:36-100 | every comment's counters stay equal to its record counts |
| CommentReactController.ToggleCommentReactionKeepsComments | dist/modules/commentReact/commentReact.controller.js:36-100 | reacting never disturbs the comment counters' invariant |
| CommentReactController.ToggleCommentReactionTwice | dist/modules/commentReact/commentReact.controller.js:36-58 | the same reaction twice from none replies added then removed and restores the store |
| CommentReactController.GetUserCommentReaction | dist/modules/commentReact/commentReact.controller.js:116-141 | 401 when unsigned; 500 for a malformed comment id; otherwise the user's record on the comment, if any |
| CommentReactController.GetCommentReactionStats | dist/modules/commentReact/commentReact.controller.js:144-174 | 400 on a malformed id; otherwise the like and dislike record counts |
| CommentReactController.CommentStatsMatchCounters | dist/modules/commentReact/commentReact.controller.js:144-174 | in a consistent store the stats equal the comment's stored counters |
| Follows.FindFollow | dist/modules/follow/follow.controller.js:37-40 | the position of the (user, channel) follow, or none exactly when there is none |
| Follows.FindChannel | dist/modules/follow/follow.controller.js:21-26 | the position of the channel with that id, or none |
| Follows.CheckFollow | dist/modules/follow/follow.controller.js:4-35 | 401 unsigned, 400 malformed id, 404 missing channel, then 500 for an ownerless channel and 400 for the user's own; any other channel is accepted |
| Follows.ToggleFollow | dist/modules/follow/follow.controller.js:4-91 | a rejected request changes nothing; otherwise the reply is 200 unfollowed exactly when the user followed the channel and 201 followed exactly when not, and with unique pairs the following status flips; an unfollow deletes exactly the found follow, a follow appends one bell-on follow dated now, and the channel records stay as they were because the `$inc` names a path the channel schema does not declare |
| Follows.UniqueAfterCheck | dist/modules/follow/follow.controller.js:37-40 | with unique pairs, removing the found follow leaves none for the pair |
| Follows.FollowChannel | dist/modules/follow/follow.controller.js:94-171 | a rejected request or an existing follow (400) changes nothing; otherwise it replies 201 with a new bell-on follow and appends exactly that follow; the channel records stay as they were (the `$inc` path is undeclared), the same store toggleFollow reaches |
| Follows.ToggleFollowKeepsConsistent | dist/modules/follow/follow.controller.js:4-91 | toggleFollow keeps follow pairs unique and channel ids unique |
| Follows.SubscribeKeepsConsistent | dist/modules/follow/follow.controller.js:55-68 | creating a follow for a pair with none keeps pairs unique and channel ids unique |
| Follows.FollowChannelKeepsConsistent | dist/modules/follow/follow.controller.js:94-171 | followChannel keeps pairs unique and channel ids unique |
| Follows.FollowThenUnfollowRestores | dist/modules/follow/follow.controller.js:4-91 | following then toggling again replies unfollowed and restores the store exactly |
| Follows.FollowMovesCountNotChannel | dist/modules/follow/follow.controller.js:41-68 | an accepted toggle leaves the channel records unchanged while the channel's follow records go up by one on a follow and down by one on an unfollow, so no stored count tracks them |
| Follows.ToggleNotifications | dist/modules/follow/follow.controller.js:382-426 | 401 unsigned, 400 malformed id, 404 when the user does not follow; otherwise only that follow's bell flips and the reply carries the new state |
| Follows.ToggleNotificationsKeepsConsistent | dist/modules/follow/follow.controller.js:382-426 | flipping the bell keeps pairs and channel ids unique and leaves every channel's number of follow records unchanged |
| Follows.ToggleNotificationsTwice | dist/modules/follow/follow.controller.js:382-426 | flipping the bell twice restores the store |
| Follows.CheckFollowStatus | dist/modules/follow/follow.controller.js:344-380 | 401 unsigned, 400 malformed id; otherwise whether the user follows the channel, a follow date exactly when they do, which is the createdAt of their follow record, and with unique pairs the bell of their follow |
| Follows.PageOf | dist/modules/follow/follow.controller.js:185-230 | a negative skip fails; otherwise the items are the skip/limit slice, the total is the list length, total pages are present exactly for a non-zero limit, and the previous and next flags are as the handler computes them |
| Follows.GetMyFollowedChannels | dist/modules/follow/follow.controller.js:174-243 | 401 unsigned; the page is exactly the skip/limit window of the user's follows sorted newest first, only follows whose channel and owner exist, and the total counts all of the user's follows |
| Follows.NextFlagIffNextPageNonEmpty | dist/modules/follow/follow.controller.js:230 | for positive paging, hasNextPage holds exactly when the next page is non-empty |
| Follows.GetChannelFollowers | dist/modules/follow/follow.controller.js:429-486 | 400 malformed id, 404 missing channel; the page is exactly the skip/limit window of the channel's follows sorted newest first, and the total is the channel's follow record count |
| Follows.FollowersTotalIsCounter | dist/modules/follow/follow.controller.js:458 | with the corrected stored counter kept in step, the followers listing's countDocuments total equals that counter |
| Follows.Excluded | dist/modules/follow/follow.controller.js:259-268 | exactly the channels the user follows or owns |
| Follows.GetUnfollowedChannels | dist/modules/follow/follow.controller.js:246-342 | 401 unsigned; the page is exactly the skip/limit window of the owned channels outside the excluded set, sorted descending by totalViews or createdAt when asked, and otherwise by the default totalfollowers key, which no stored channel holds, so every channel ties |
| Follows.DiscoveryDefaultKeepsStoreOrder | dist/modules/follow/follow.controller.js:249-283 | with the default (or any unlisted) sortBy the key ties for every channel, so the page is the skip/limit window of the eligible channels in store order |
| Follows.DiscoveryExcludes | dist/modules/follow/follow.controller.js:284-301 | discovery never offers a channel the user follows or owns, and its total counts exactly the owned channels the user neither follows nor owns |
| Follows.Inc | dist/modules/follow/follow.controller.js:46 | `$inc` on a kept path moves that channel's counter by delta, a missing counter counting as 0, and no other counter |
| Follows.ToggleFollowCounted | dist/modules/follow/follow.controller.js:41-68 | with the counter kept: the same reply and follow records as toggleFollow, other channels' counters unchanged, and the channel's counter moved by exactly the change in its follow records |
| Follows.FollowChannelCounted | dist/modules/follow/follow.controller.js:131-147 | with the counter kept: the same reply and follow records as followChannel, other counters unchanged, and the channel's counter moved by exactly the change in its follow records |
| Follows.ToggleFollowCountedKeepsConsistent | dist/modules/follow/follow.controller.js:41-68 | with the counter kept, every channel's counter stays equal to its number of follow records, and pairs and channel ids stay unique |
| Follows.FollowChannelCountedKeepsConsistent | dist/modules/follow/follow.controller.js:131-147 | with the counter kept, followChannel keeps every counter equal to the channel's follow records |
| Comments.Find | src/modules/comment/comment.controller.ts:275-278 | the position of the comment with that id, or none exactly when there is none |
| Comments.CheckCreate | src/modules/comment/comment.controller.ts:10-107 | an accepted create carries the signed-in user and the parsed target, which exists, and for a non-empty parent id exactly the parent's position |
| Comments.Validated | src/modules/comment/comment.model.ts:30-36 | the schema check `Comment.create` runs: the request passes exactly when the trimmed content is at most 10000 UTF-16 units, and otherwise fails with the 500 reply |
| Comments.CreateRejectionOrder | src/modules/comment/comment.controller.ts:10-107 | 401 first, then 400 blank content, 400 type, 400 id, 404 target, 400 parent id, 404 parent, 400 parent on another target, and last the 500 of schema validation for content over 10000 units |
| Comments.CreateAcceptedIff | src/modules/comment/comment.controller.ts:10-107 | a create is accepted exactly when signed in, the trimmed content is 1 to 10000 UTF-16 units, well-typed, and the target and any parent exist on the same target |
| Comments.CreateComment | src/modules/comment/comment.controller.ts:10-138 | a rejected request, including over-long content, changes nothing; an accepted one replies with the new comment, which is appended at the end |
| Comments.CreateCommentEffects | src/modules/comment/comment.controller.ts:98-120 | the new comment carries the given id, the author, the target, the trimmed content, the target's channel, the reply flag and parent, cleared flags and zero counters; the target's count goes up by one, a reply's parent gets one more reply, and no other comment changes |
| Comments.BumpReplies | src/modules/comment/comment.controller.ts:115-118 | only the parent's reply count moves |
| Comments.CheckOwned | src/modules/comment/comment.controller.ts:269-290 | 400 malformed id, 404 missing, 403 not the author; success exactly for the author's own comment, at its position |
| Comments.UpdateComment | src/modules/comment/comment.controller.ts:249-312 | 401 unsigned, 400 blank, then the ownership checks, then 500 for content over 10000 units with no change; an accepted edit replaces only that comment, with its trimmed content and marked edited |
| Comments.UpdateKeepsConsistent | src/modules/comment/comment.controller.ts:249-312 | editing keeps the counters in agreement with the comments |
| Comments.DecTarget | src/modules/comment/comment.controller.ts:370-372 | the target's count drops by one; a missing target is left alone |
| Comments.DecParent | src/modules/comment/comment.controller.ts:375-378 | the parent's reply count drops by one; a missing parent is left alone |
| Comments.SoftDelete | src/modules/comment/comment.controller.ts:351-378 | the comment is marked deleted with the placeholder text and no comment is added or removed |
| Comments.DeleteComment | src/modules/comment/comment.controller.ts:315-391 | as written: the author's delete soft-deletes and decrements even when the comment is already deleted |
| Comments.DeleteCommentOnce | src/modules/comment/comment.controller.ts:315-391 | corrected: 401 and the ownership checks as written; an already-deleted comment replies 404 and changes nothing; a live one is soft-deleted |
| Comments.CreateKeepsConsistent | src/modules/comment/comment.controller.ts:10-138 | creating keeps every counter equal to its live comments |
| Comments.SoftDeleteCounts | src/modules/comment/comment.controller.ts:351-378 | a soft delete keeps every comment's id, parent, author and target; each live count drops by one exactly where the deleted comment counted, the parent's stored reply count drops by one, and the target's count drops by one |
| Comments.SoftDeleteLiveKeepsConsistent | src/modules/comment/comment.controller.ts:351-378 | soft-deleting a live comment keeps the counters in agreement |
| Comments.DeleteOnceKeepsConsistent | src/modules/comment/comment.controller.ts:315-391 | the corrected delete keeps the counters in agreement |
| Comments.DeleteOnceTwice | src/modules/comment/comment.controller.ts:315-391 | a second corrected delete of the same comment replies 404 and changes nothing |
| Comments.DeleteOnceAgreesWhenLive | src/modules/comment/comment.controller.ts:315-391 | on a live comment the corrected and the as-written delete agree |
| Comments.DeleteTwiceBreaksConsistency | src/modules/comment/comment.controller.ts:334-379 | counterexample: deleting the same comment twice decrements the target's count twice |
| Comments.Filter | src/modules/comment/comment.controller.ts:158-162 | exactly the comments satisfying the query, as many as the query counts |
| Comments.GetComments | src/modules/comment/comment.controller.ts:142-195 | 400 exactly on a malformed id; 500 exactly when the defaulted page and limit give a negative skip; otherwise the page is exactly the skip/limit window of the live top-level comments of the target, pinned first then newest, with the total of such comments and its page count |
| Comments.GetReplies | src/modules/comment/comment.controller.ts:198-246 | 400 exactly on a malformed id; 500 exactly when the defaulted page and limit give a negative skip; otherwise the page is exactly the skip/limit window of the live replies to the comment, oldest first, with the total of such replies and its page count |
| Comments.RepliesOldestFirst | src/modules/comment/comment.controller.ts:216 | the replies page is in ascending creation order |
| Comments.PinnedFirst | src/modules/comment/comment.controller.ts:163 | on a comments page every pinned comment precedes every unpinned one |
| Comments.ListingTotalWithinCount | src/modules/comment/comment.controller.ts:169-174 | in a consistent store the listing total is at most the target's stored count |
| Comments.RepliesTotalIsRepliesCount | src/modules/comment/comment.controller.ts:222-225 | in a consistent store the replies total is the parent's stored reply count |
| Saves.Normalize | src/modules/save/save.controller.ts:18-19 | the first character upper-cased and the rest lower-cased |
| Saves.NormalizeMatchesIgnoringCase | src/modules/save/save.controller.ts:18-22 | normalising yields a capitalised name exactly when the input equals it ignoring case |
| Saves.ContentTypeCaseInsensitive | src/modules/save/save.controller.ts:18-22 | the normalised type parses to a content type exactly when the input equals its name ignoring case |
| Saves.CheckSave | src/modules/save/save.controller.ts:9-47 | in the handler's order: 400 on a malformed id, 500 when contentType is absent (charAt throws), 400 when the normalised type is not Video/Short/Post, 404 when no such content exists, 400 when the user already lists the id; accepted exactly when none of these applies, and the entry carries that id and the normalised type |
| Saves.SaveContent | src/modules/save/save.controller.ts:9-64 | a refused save changes nothing; an accepted one appends the entry to the user's list, creating it if needed, replies with the new list, and leaves other users' lists unchanged |
| Saves.Without | src/modules/save/save.controller.ts:89-93 | exactly the entries not carrying the id |
| Saves.UnsaveContent | src/modules/save/save.controller.ts:67-100 | 400 malformed id, 404 not saved, both changing nothing; otherwise the id is no longer listed, every other entry of the user stays, nothing is added, and other users' lists are unchanged |
| Saves.CheckSaved | src/modules/save/save.controller.ts:103-126 | 400 malformed id; otherwise whether the user's list holds the id |
| Saves.SaveThenCheck | src/modules/save/save.controller.ts:9-126 | after a save the id checks as saved, and a second save is refused |
| Saves.SaveThenUnsaveRestores | src/modules/save/save.controller.ts:9-100 | unsave undoes save, restoring the user's list (emptied when it was created) |
| Saves.UnsaveKeepsOthers | src/modules/save/save.controller.ts:67-100 | unsaving one id keeps every other id saved |
| Saves.SaveKeepsNoDuplicates | src/modules/save/save.controller.ts:39-57 | the save path never lists an id twice |
| Media.ParsedOr | src/modules/video/video.controller.ts:52-71 | the parsed list when the field is given and parses, else the fallback |
| Media.Hashtag | src/modules/video/video.controller.ts:57 | a tag gets a leading "#" unless it has one |
| Media.HashtagIdempotent | src/modules/video/video.controller.ts:57 | tagging twice is tagging once |
| Media.Hashtags | src/modules/video/video.controller.ts:56-58 | as many tags as inputs, each the tagged input, so every tag starts with "#" |
| Media.HashtagsKeepTagged | src/modules/video/video.controller.ts:56-58 | an already-tagged list passes through unchanged |
| Media.CreateHashtags | src/modules/video/video.controller.ts:52-62 | every tag starts with "#"; [] when the field is absent or unparsable, otherwise one tag per parsed entry |
| Media.UpdateHashtags | src/modules/video/video.controller.ts:460-470 | the stored list when the field is absent or unparsable; otherwise one tag per parsed entry, each starting with "#" |
| Media.HashtagsAreParsedOrFallback | src/modules/video/video.controller.ts:460-470 | create tags the parsed list or []; update tags the parsed list or the stored list; a tagged stored list stays tagged |
| Media.CreateLinks | src/modules/video/video.controller.ts:64-71 | either [] or exactly the list a given field parses to |
| Media.UpdateLinks | src/modules/video/video.controller.ts:472-478 | either the stored list or exactly the list a given field parses to; an unparsable field keeps the stored list |
| Media.Visibility | src/modules/video/video.controller.ts:91 | always trimmed and lower-case, no longer than the given value, and "public" when absent |
| Media.VisibilityFixedPoint | src/modules/video/video.controller.ts:91 | a value already produced by the rule is kept |
| Media.TrimmedOr | src/modules/video/video.controller.ts:86-90 | a trimmed value when given, else the default |
| Media.Language | src/modules/video/video.controller.ts:90 | a trimmed value when given, else "en" |
| Media.StreamingUrl | src/modules/video/video.controller.ts:169-172 | the video url exactly when the transcode status is COMPLETE |
| Media.GetById | src/modules/video/video.controller.ts:117-172 | 400 malformed id, 404 missing, 403 private to a non-owner; otherwise the stored item, with a streaming url exactly when it is transcoded |
| Media.ViewAccess | src/modules/video/video.controller.ts:140-145 | the owner always sees the item; anyone else exactly when it is not private |
| Media.CheckPublish | src/modules/video/video.controller.ts:545-599 | accepted exactly for an existing item of the signed-in owner that is transcoded and, for a short with a given duration, at most 60 seconds long; the owner's untranscoded item gets 400; the published item differs from the stored one only in being published at `now` and taking a given duration |
| Media.Publish | dist/modules/shorts/shorts.controller.js:442-500 | a refused request changes nothing; an accepted one marks only that item published at `now`, storing a given duration |
| Media.PublishedStreams | src/modules/video/video.controller.ts:574-590 | a published item always has a streaming url |
| Media.PublishShortKeepsLimit | dist/modules/shorts/shorts.controller.js:472-481 | publishing never stores a short duration above 60 |
| Media.RepublishRestamps | src/modules/video/video.controller.ts:545-599 | publishing an already-published item is accepted and moves its publish date |
| Media.PageOf | src/modules/video/video.controller.ts:252-306 | 500 exactly on a negative skip; otherwise the items are exactly the skip/limit window of the sorted list, with the total, the defaulted page, the page count and `hasMore` meaning `page * limit < total` |
| Media.GetAll | src/modules/video/video.controller.ts:250-316 | 500 exactly on a negative skip; otherwise the page is exactly the skip/limit window of the public items of the given category sorted descending by the chosen key, with the total of such items |
| Media.TrendingScore | src/modules/video/video.controller.ts:616-624 | the score is at least the views, ten times the likes and five times the comments |
| Media.TrendingWeights | src/modules/video/video.controller.ts:616-624 | one more like raises the score by ten, one more comment by five |
| Media.GetTrending | src/modules/video/video.controller.ts:601-682 | 500 when the aggregation's `$limit` or `$skip` is negative; otherwise the page is exactly the skip/limit window of the published public items of the last seven days, highest score first, with the total of such items |
| Media.PublishedTrendsForAWeek | src/modules/video/video.controller.ts:609-613 | a public item published at `now` is trending exactly for the following seven days |
| ManageContent.CreatorName | src/modules/manageContent/manageContent.controller.ts:231-235 | never empty: the first non-empty of channelName, name, title, else "Unknown" |
| ManageContent.CreatorNameFromChannel | src/modules/manageContent/manageContent.controller.ts:231-235 | the creator name is "Unknown" or one of the channel's names, and a channel with a non-empty name shows "Unknown" only when one of its names is literally that |
| ManageContent.RowTitle | src/modules/manageContent/manageContent.controller.ts:300 | videos and shorts show their title; a post shows its non-empty text and never an empty title |
| ManageContent.Format | src/modules/manageContent/manageContent.controller.ts:227-237 | a row carries the id, type, title, creator name and upload date |
| ManageContent.Rows | src/modules/manageContent/manageContent.controller.ts:227-237 | one row per document, in order |
| ManageContent.ParseKind | src/modules/manageContent/manageContent.controller.ts:214-284 | accepts exactly "video", "short", "post" |
| ManageContent.ListOne | src/modules/manageContent/manageContent.controller.ts:214-320 | 500 exactly on a negative skip; otherwise the rows are exactly the formatted skip/limit window of that collection sorted newest first, with the collection's size as total and its page count |
| ManageContent.Merged | src/modules/manageContent/manageContent.controller.ts:346-383 | one row per document across the three collections |
| ManageContent.ListAll | src/modules/manageContent/manageContent.controller.ts:385-400 | the total counts all three collections, page, limit and page count follow the defaulted query, and the data are merged rows, newest first |
| ManageContent.GetAllContent | src/modules/manageContent/manageContent.controller.ts:203-409 | a known type pages one collection; any other value succeeds with the merged listing over all three collections |
| ManageContent.MergedRowsFromTheirCollection | src/modules/manageContent/manageContent.controller.ts:346-383 | every merged row comes from the collection its type names |
| ManageContent.AllPagesLikeStore | src/modules/manageContent/manageContent.controller.ts:391-392 | for positive page and limit the in-memory slice pages like the store's skip/limit |
| ManageContent.NegativePageReadsFromEnd | src/modules/manageContent/manageContent.controller.ts:209-392 | page -1 is not an error on the merged path and reads a window from the end |
| ManageContent.Find | src/modules/manageContent/manageContent.controller.ts:420-436 | the position of the document with that id, or none |
| ManageContent.GetContentDetails | src/modules/manageContent/manageContent.controller.ts:414-455 | an unknown type is 404 and a malformed id of a known type is 500; success exactly when the document exists, returning it |
| ManageContent.DeleteContent | src/modules/manageContent/manageContent.controller.ts:460-494 | fails exactly when the details lookup fails, with its error and no change; success removes exactly that document and leaves the other collections alone |
| ManageContent.DeleteThenNotFound | src/modules/manageContent/manageContent.controller.ts:414-494 | with unique ids a deleted document is 404 for details and for a second delete, and its collection shrank by one |
| Auth.BearerSpace | src/middlewares/auth.middleware.ts:23 | a header passing the prefix test has a space at position 6 |
| Auth.Token | src/middlewares/auth.middleware.ts:31 | the extracted token never contains a space |
| Auth.Classify | src/middlewares/auth.middleware.ts:47-66 | TokenExpiredError and JsonWebTokenError give 401 with their reason; any other throw gives 500 |
| Auth.VerifyUser | src/middlewares/auth.middleware.ts:14-68 | no bearer header or an empty token gives 401; the request continues exactly when the token verifies, with the payload id; any other failure is the verifier's error classified |
| Auth.VerifyUserOptional | src/middlewares/auth.middleware.ts:71-92 | always continues; a user id is attached only when the token verifies |
| Auth.OptionalAgreesWithStrict | src/middlewares/auth.middleware.ts:14-92 | the optional guard attaches the same user the strict guard admits, and none when the strict guard refuses |
| Auth.BearerRoundTrip | src/middlewares/auth.middleware.ts:23-31 | a header built as "Bearer " + token (token without spaces) hands that token to the verifier |
| Auth.StrictSignedInCarriesPayloadId | src/utils/jwt.utils.ts:26-28 | a well-formed header with a verifying token signs the request in as the payload's id |
| Text.Trim | src/modules/comment/comment.controller.ts:23 | the result is the piece of the input starting after its leading whitespace (Text.Lead) with only whitespace after it, and it neither starts nor ends with whitespace |
| Text.Utf16Length | src/modules/notification/notification.model.ts:61-89 | the JavaScript length of a string: at least one and at most two units per character |
| Text.Utf16LengthBmp | src/modules/notification/notification.model.ts:61-89 | text of Basic Multilingual Plane characters is as long in UTF-16 units as in characters |
| Text.Take | src/modules/notification/notification.service.ts:123 | `substring(0, n)`: a prefix of at most n UTF-16 units, the whole string when it fits, and otherwise one the next character would push past n |
| Text.TrimEmptyIffAllSpace | src/modules/comment/comment.controller.ts:23 | the trim is empty exactly when the input is all spaces |
| Text.TrimIdempotent | src/modules/comment/comment.controller.ts:100 | trimming twice is trimming once |
| Text.Split | src/middlewares/auth.middleware.ts:31 | the parts contain no separator, and with a separator present the first part is the prefix before it |
| Text.JoinSplit | src/middlewares/auth.middleware.ts:31 | joining the split parts gives back the string |
| Text.SplitJoin | src/middlewares/auth.middleware.ts:31 | splitting a join of separator-free parts gives back the parts |
| Paging.OrDefault | src/modules/video/video.controller.ts:252-253 | `parseInt(q) \|\| d`: a missing or zero value falls back to the default, otherwise it is kept |
| Paging.Skip | src/modules/video/video.controller.ts:254 | skip is non-negative for a positive page and non-negative limit, and for a positive limit negative exactly when the page is below 1 |
| Paging.SkipLimit | src/modules/notification/notification.service.ts:278-284 | a negative skip fails; otherwise consecutive elements from position skip on, exactly the smaller of the limit and the number of elements left after skip (a negative limit counting as its absolute value, 0 meaning all that are left) |
| Paging.TotalPages | src/modules/video/video.controller.ts:303 | for a positive limit, the least page count covering the total, zero exactly for an empty total |
| Paging.HasMoreIffNextPageNonEmpty | src/modules/video/video.controller.ts:305 | for positive paging, hasMore holds exactly when the next page is non-empty |
| Paging.PageWithinTotalIffNonEmpty | src/modules/video/video.controller.ts:303 | for positive paging, a page is within totalPages exactly when it is non-empty |
| Paging.SortDescBy | src/modules/notification/notification.service.ts:281 | a permutation of the input, in descending key order |
| Paging.SkipLimitSortedDesc | src/modules/notification/notification.service.ts:281-283 | a page of a newest-first list is itself newest first |
| Paging.Where | src/modules/notification/notification.service.ts:267-277 | exactly the elements satisfying the predicate, no more of them than the input has |
| Paging.JsSlice | src/modules/manageContent/manageContent.controller.ts:392 | the slice runs from the resolved start to the resolved end, empty when they cross; bounds within the list are used as given and every resolved bound lies within it |
| Paging.JsSliceIsSkipLimit | src/modules/manageContent/manageContent.controller.ts:392 | for non-negative skip and positive limit, slice(skip, skip + limit) equals skip/limit |
| Paging.JsSliceNegativePage | src/modules/manageContent/manageContent.controller.ts:209-392 | for page -1, the slice is a window ending limit from the end, while skip/limit fails |

## Left out

- Sockets, HTTP, the database driver, the push provider, JWT signing and the clock are parameters, not code; no concurrency between requests is modelled.
- The duplicate-key race between two concurrent saves or follows is not modelled (requests are sequential here).
- Populated fields are read only as far as the rules use them. Records whose populated owner or channel is null (filtered out in some listings) and the `$unwind` in the trending pipelines, which drops items without a channel or owner, are not modelled.
- Sort ties: the model sorts with one fixed insertion order, and each listing's page is the skip/limit window of that order. The store's order among equal keys is unspecified, so on ties the model's page is one of the pages the store may return.
- Text search (`search` query regex) on the video and short listings is not modelled.
- sortBy values on listings are modelled for the listed keys only; an arbitrary field name passed to the followed-channels sort is modelled as the default `createdAt`.
- Non-numeric page and limit values: where a handler writes `parseInt(q) || d`, NaN falls back to the default and the model treats it as absent. The three follow listings (dist/modules/follow/follow.controller.js:184-186, 256-258, 446-448) call `parseInt` without `||`, so a non-numeric value gives a NaN skip and null page numbers there; that case is outside the model, which takes only numeric or absent values for them. Fractional numbers are out of scope.
- A malformed id that reaches a query in a handler without its own id check throws a cast error (500). The model covers this on the admin details and delete screens, in getUserReaction and getUserCommentReaction, and in both stores' mark-read and delete. The user id taken from a verified token is assumed well formed.
- Schema enum validation of `visibility` on save is not modelled: the normalised string is stored as given.
- JSON `links` that parse to a non-array value are modelled as unparsable.
- getSavedContent, the channel video/short listings, createVideo/createShort (upload, S3, transcoding jobs), getTranscodeStatus, incrementViewCount and deleteVideo/deleteShort are not part of this model.
- Media.Language: its contract states the "en" default and the given-value case, but not that the given value is trimmed, to keep the proof small.
- Media.TrimmedOr: the same; the trimmed-value property is stated through Text.Trim's own contract only (the input with its outer whitespace removed).
- Console logging, response JSON shapes beyond the modelled fields, and socket event payloads are not modelled.
- Unicode case mapping is not modelled, and trim removes only the six ASCII whitespace characters space, tab (U+0009), line feed (U+000A), vertical tab (U+000B), form feed (U+000C) and carriage return (U+000D); no-break space, line and paragraph separators, the byte-order mark and other Unicode spaces are kept.
- Ids are compared as exact strings. The store casts a hex id to an ObjectId, so an id that differs only in the case of its hex digits finds the same record there; the model assumes ids arrive in the store's lower-case form, and an upper-cased id of an existing record is answered as not found.
- The expiry monitor runs about once a minute, so a record can outlive its interval briefly; the model removes it at the interval's end.
- DomainEvents.Excerpt (and Text.Take): when a surrogate pair straddles the 100th UTF-16 unit, JavaScript's `substring` keeps its first half, a lone surrogate. Dafny strings cannot hold one, so the model's excerpt stops before the pair (99 units).

## Findings

| source | as written | input that shows it | evidently intended | confidence | as-written member | corrected member |
|---|---|---|---|---|---|---|
| src/utils/socket.manager.ts:37-42 | `authenticate` adds the socket to the new user's set without removing it from the set of the user it was bound to | socket s authenticates as u1, then as u2: s is in both sets, so emits to u1 still reach u2's session and u1 stays online after u2 logs out | a socket belongs to at most one user: rebinding first removes it from the old user's set | not executed | Presence.StaleSocketAfterReauthenticate | Presence.AuthenticateRebindingKeepsOwners |
| src/modules/comment/comment.controller.ts:334-379 | `deleteComment` does not check `isDeleted`, so deleting an already-deleted comment decrements the counters again | the author deletes comment c twice: the target's commentsCount drops by 2 for one comment | a deleted comment is not found, so counters move once | not executed | Comments.DeleteTwiceBreaksConsistency | Comments.DeleteOnceKeepsConsistent |
| dist/modules/follow/follow.controller.js:46 | toggleFollow and followChannel `$inc` `totalfollowers`, a path the channel schema (src/modules/channel/channel.model.ts:56-75) does not declare, so strict mode drops the update | follow channel c: c's record is unchanged, discovery reads its totalfollowers as 0, and the default totalfollowers sort ties for every channel | a stored follower counter that moves with every follow and unfollow and equals the channel's follow records | not executed | Follows.FollowMovesCountNotChannel | Follows.ToggleFollowCountedKeepsConsistent |

=== FILE: admin_dispatcher.dfy ===
/** The admin notification dispatcher: persist an admin record with both
    flags false, then, when an admin user id is configured, try the
    `admin_notification` socket event and fall back to the admin's push
    tokens. Covers sendAdminNotification, the three notifyAdmin* wrappers
    that never throw, and the admin test endpoint. The configured admin id
    is a parameter. */
module AdminDispatcher {
  import opened Wrappers
  import opened NotificationModel
  import Presence
  import DeviceTokens
  import PushGateway
  import Dispatcher
  import Text

  datatype AdminWorld = AdminWorld(notifications: seq<AdminNotification>, tokens: DeviceTokens.Store)

  datatype AdminDispatch = AdminDispatch(outcome: Result<AdminNotification, Dispatcher.DispatchError>, world: AdminWorld)

  /** An environment value that is set and non-empty. */
  predicate Configured(adminUserId: Option<string>) {
    adminUserId.Some? && adminUserId.value != ""
  }

  /** The push data of an admin record: its id and type only. */
  function AdminPushData(id: Id, kind: AdminKind): (r: map<string, string>)
    ensures r.Keys == {"notificationId", "type"}
    ensures r["notificationId"] == id && r["type"] == AdminKindName(kind)
  {
    map["notificationId" := id, "type" := AdminKindName(kind)]
  }

  /** The delivery attempt for the admin. Without a configured admin id
      nothing is tried. Otherwise the socket is tried when the admin is
      online and push only when the admin is offline or the socket failed. */
  function AdminDeliveryStep(reg: Presence.Registry, tokens: DeviceTokens.Store, adminUserId: Option<string>,
                             title: string, body: string, data: map<string, string>,
                             answers: Option<seq<bool>>): (r: Dispatcher.Delivered)
    ensures !Configured(adminUserId) ==> r.flags == Delivery(false, false) && r.tokens == tokens && r.push.None?
    ensures !(r.flags.socket && r.flags.push)
    ensures r.flags.socket <==> Configured(adminUserId) && reg.io && Presence.IsUserOnline(reg, adminUserId.value)
    ensures Configured(adminUserId) && !r.flags.socket ==>
      var o := PushGateway.SendAdminPush(tokens, adminUserId, title, body, data, answers);
      r.flags.push == o.delivered && r.tokens == o.store && r.push == o.sent
  {
    if !Configured(adminUserId) then Dispatcher.Delivered(Delivery(false, false), tokens, {}, None)
    else
      var admin := adminUserId.value;
      var online := Presence.IsUserOnline(reg, admin);
      var emitted := Presence.EmitToUser(reg, admin, "admin_notification");
      if online && emitted.sent then
        Dispatcher.Delivered(Delivery(true, false), tokens, emitted.recipients, None)
      else
        var o := PushGateway.SendAdminPush(tokens, adminUserId, title, body, data, answers);
        Dispatcher.Delivered(Delivery(false, o.delivered), o.store, {}, o.sent)
  }

  /** With an admin configured, the admin delivery rule is the user
      delivery rule for the admin's id with no image attached. */
  lemma AdminDeliveryIsUserDelivery(reg: Presence.Registry, tokens: DeviceTokens.Store, adminUserId: Option<string>,
                                    title: string, body: string, data: map<string, string>,
                                    answers: Option<seq<bool>>)
    requires Configured(adminUserId)
    ensures var a := AdminDeliveryStep(reg, tokens, adminUserId, title, body, data, answers);
      var u := Dispatcher.DeliveryStep(reg, tokens, adminUserId.value, title, body, data, None, answers);
      a.flags == u.flags && a.tokens == u.tokens && a.push == u.push
  {
  }

  /** sendAdminNotification. A record the schema rejects throws before
      anything is stored. Otherwise one record is appended with both flags
      false; a flag a channel sets is saved, and a failing save throws,
      leaving the record as created. */
  function SendAdminNotification(w: AdminWorld, reg: Presence.Registry, adminUserId: Option<string>, id: Id,
                                 kind: AdminKind, title: string, message: string,
                                 metadata: Option<map<string, string>>, priority: Option<Priority>, now: int,
                                 answers: Option<seq<bool>>, saveOk: bool): (r: AdminDispatch)
    ensures var created := NewAdminRecord(id, kind, title, message, metadata, priority, now);
      && (created.Failure? ==> r == AdminDispatch(Failure(Dispatcher.Invalid(created.error)), w))
      && (created.Success? ==>
            var d := AdminDeliveryStep(reg, w.tokens, adminUserId, title, message, AdminPushData(id, kind), answers);
            && r.world.tokens == d.tokens
            && r.world.notifications == w.notifications + [if r.outcome.Success? then r.outcome.value else created.value]
            && (r.outcome.Success? <==> saveOk || d.flags == Delivery(false, false))
            && (r.outcome.Success? ==> r.outcome.value == created.value.(delivery := d.flags))
            && (r.outcome.Failure? ==> r.outcome.error == Dispatcher.StoreError))
    ensures !Configured(adminUserId) && r.outcome.Success? ==>
      r.outcome.value.delivery == Delivery(false, false) && r.world.tokens == w.tokens
  {
    match NewAdminRecord(id, kind, title, message, metadata, priority, now)
    case Failure(e) => AdminDispatch(Failure(Dispatcher.Invalid(e)), w)
    case Success(created) =>
      Settle(w, created, AdminDeliveryStep(reg, w.tokens, adminUserId, title, message, AdminPushData(id, kind), answers), saveOk)
  }

  /** The admin store after a send: earlier records untouched and at most
      one record appended, of the given kind and priority. */
  predicate Added(before: AdminWorld, after: AdminWorld, kind: AdminKind, priority: Priority) {
    && |before.notifications| <= |after.notifications| <= |before.notifications| + 1
    && after.notifications[..|before.notifications|] == before.notifications
    && (|after.notifications| > |before.notifications| ==>
          after.notifications[|before.notifications|].kind == kind
          && after.notifications[|before.notifications|].priority == priority)
  }

  /** Saving the delivery flags of a created record: a set flag is saved,
      and a failing save throws with the record left as created. */
  function Settle(w: AdminWorld, created: AdminNotification, d: Dispatcher.Delivered, saveOk: bool): (r: AdminDispatch)
    ensures r.world.tokens == d.tokens
    ensures r.world.notifications == w.notifications + [if r.outcome.Success? then r.outcome.value else created]
    ensures r.outcome.Success? <==> saveOk || d.flags == Delivery(false, false)
    ensures r.outcome.Success? ==> r.outcome.value == created.(delivery := d.flags)
    ensures r.outcome.Failure? ==> r.outcome.error == Dispatcher.StoreError
    ensures Added(w, r.world, created.kind, created.priority)
  {
    if d.flags != Delivery(false, false) && !saveOk then
      AdminDispatch(Failure(Dispatcher.StoreError), AdminWorld(w.notifications + [created], d.tokens))
    else
      var n := created.(delivery := d.flags);
      assert (w.notifications + [n])[..|w.notifications|] == w.notifications;
      AdminDispatch(Success(n), AdminWorld(w.notifications + [n], d.tokens))
  }

  /** A send never touches earlier records and adds at most one, of the
      requested kind and priority. */
  lemma SendAdminAdds(w: AdminWorld, reg: Presence.Registry, adminUserId: Option<string>, id: Id,
                      kind: AdminKind, title: string, message: string,
                      metadata: Option<map<string, string>>, priority: Option<Priority>, now: int,
                      answers: Option<seq<bool>>, saveOk: bool)
    ensures Added(w, SendAdminNotification(w, reg, adminUserId, id, kind, title, message, metadata, priority,
                                           now, answers, saveOk).world, kind, priority.GetOr(Medium))
  {
    var r := SendAdminNotification(w, reg, adminUserId, id, kind, title, message, metadata, priority, now, answers, saveOk);
    match NewAdminRecord(id, kind, title, message, metadata, priority, now)
    case Failure(e) =>
      assert Added(w, r.world, kind, priority.GetOr(Medium)) by {
        assert r.world == w;
        assert w.notifications[..|w.notifications|] == w.notifications;
      }
    case Success(c) =>
      assert Added(w, r.world, kind, priority.GetOr(Medium)) by {
        var d := AdminDeliveryStep(reg, w.tokens, adminUserId, title, message, AdminPushData(id, kind), answers);
        assert r == Settle(w, c, d, saveOk);
        assert c.kind == kind && c.priority == priority.GetOr(Medium);
      }
  }

  /** A stored admin record is unread, not deleted, of the requested kind,
      and has at most one delivery flag set. */
  lemma AdminRecordShape(w: AdminWorld, reg: Presence.Registry, adminUserId: Option<string>, id: Id,
                         kind: AdminKind, title: string, message: string,
                         metadata: Option<map<string, string>>, priority: Option<Priority>, now: int,
                         answers: Option<seq<bool>>, saveOk: bool)
    ensures var r := SendAdminNotification(w, reg, adminUserId, id, kind, title, message, metadata, priority, now, answers, saveOk);
      r.outcome.Success? ==>
        && r.outcome.value.kind == kind && !r.outcome.value.isRead && !r.outcome.value.isDeleted
        && r.outcome.value.priority == priority.GetOr(Medium)
        && !(r.outcome.value.delivery.socket && r.outcome.value.delivery.push)
  {
  }

  /** What the notifyAdmin* wrappers leave behind: the send's state, with
      any error swallowed so the caller's flow is never broken. */
  function Swallow(d: AdminDispatch): (w: AdminWorld)
    ensures w == d.world
  {
    d.world
  }

  /** notifyAdminNewUser: a low-priority new_user record. */
  function NotifyAdminNewUser(w: AdminWorld, reg: Presence.Registry, adminUserId: Option<string>, id: Id,
                              userId: Id, username: string, email: string, avatar: Option<string>, now: int,
                              answers: Option<seq<bool>>, saveOk: bool): (r: AdminWorld)
    ensures Added(w, r, NewUser, Low)
  {
    var message := username + " just signed up with " + email;
    var metadata := Some(NewUserMetadata(userId, username, email, avatar));
    SendAdminAdds(w, reg, adminUserId, id, NewUser, NewUserTitle, message, metadata, Some(Low), now, answers, saveOk);
    Swallow(SendAdminNotification(w, reg, adminUserId, id, NewUser, NewUserTitle, message, metadata,
                                  Some(Low), now, answers, saveOk))
  }

  const NewUserTitle := "New User Registered"
  const NewChannelTitle := "New Channel Created"
  const NewReportTitle := "New Report Submitted"

  /** The metadata of a new-user record; an absent avatar is left out. */
  function NewUserMetadata(userId: Id, username: string, email: string, avatar: Option<string>): (m: map<string, string>)
    ensures m.Keys == {"userId", "username", "email"} + (if avatar.Some? then {"avatar"} else {})
  {
    var base := map["userId" := userId, "username" := username, "email" := email];
    if avatar.Some? then base["avatar" := avatar.value] else base
  }

  /** The metadata of a new-channel record; an absent channel icon is left
      out. */
  function NewChannelMetadata(channelId: Id, channelName: string, channelIcon: Option<string>,
                              ownerId: Id, ownerUsername: string): (m: map<string, string>)
    ensures m.Keys == {"channelId", "channelName", "ownerId", "ownerUsername"}
                      + (if channelIcon.Some? then {"channelIcon"} else {})
    ensures m["channelId"] == channelId && m["channelName"] == channelName
    ensures m["ownerId"] == ownerId && m["ownerUsername"] == ownerUsername
    ensures channelIcon.Some? ==> m["channelIcon"] == channelIcon.value
  {
    var base := map["channelId" := channelId, "channelName" := channelName,
                    "ownerId" := ownerId, "ownerUsername" := ownerUsername];
    if channelIcon.Some? then base["channelIcon" := channelIcon.value] else base
  }

  /** notifyAdminNewChannel: a low-priority new_channel record. */
  function NotifyAdminNewChannel(w: AdminWorld, reg: Presence.Registry, adminUserId: Option<string>, id: Id,
                                 channelId: Id, channelName: string, channelIcon: Option<string>,
                                 ownerId: Id, ownerUsername: string, now: int,
                                 answers: Option<seq<bool>>, saveOk: bool): (r: AdminWorld)
    ensures Added(w, r, NewChannel, Low)
  {
    var message := ownerUsername + " created a new channel: \"" + channelName + "\"";
    var metadata := Some(NewChannelMetadata(channelId, channelName, channelIcon, ownerId, ownerUsername));
    SendAdminAdds(w, reg, adminUserId, id, NewChannel, NewChannelTitle, message, metadata, Some(Low), now, answers, saveOk);
    Swallow(SendAdminNotification(w, reg, adminUserId, id, NewChannel, NewChannelTitle, message, metadata,
                                  Some(Low), now, answers, saveOk))
  }

  /** notifyAdminNewReport: a high-priority new_report record. */
  function NotifyAdminNewReport(w: AdminWorld, reg: Presence.Registry, adminUserId: Option<string>, id: Id,
                                reporterId: Id, reporterUsername: string, reason: string,
                                targetType: string, targetId: Id, now: int,
                                answers: Option<seq<bool>>, saveOk: bool): (r: AdminWorld)
    ensures Added(w, r, NewReport, High)
  {
    var message := reporterUsername + " reported a " + targetType + ": \"" + reason + "\"";
    var metadata := Some(map["reporterId" := reporterId, "reporterUsername" := reporterUsername,
                             "reason" := reason, "targetType" := targetType, "targetId" := targetId]);
    SendAdminAdds(w, reg, adminUserId, id, NewReport, NewReportTitle, message, metadata, Some(High), now, answers, saveOk);
    Swallow(SendAdminNotification(w, reg, adminUserId, id, NewReport, NewReportTitle, message, metadata,
                                  Some(High), now, answers, saveOk))
  }

  /** Whatever happens, a notifyAdmin* call adds at most one record and
      never removes or changes an earlier one; when the record is valid it
      is added even if delivery or saving fails. */
  lemma NotifyAddsAtMostOne(w: AdminWorld, reg: Presence.Registry, adminUserId: Option<string>, id: Id,
                            kind: AdminKind, title: string, message: string,
                            metadata: Option<map<string, string>>, priority: Option<Priority>, now: int,
                            answers: Option<seq<bool>>, saveOk: bool)
    ensures var r := Swallow(SendAdminNotification(w, reg, adminUserId, id, kind, title, message, metadata, priority, now, answers, saveOk));
      |r.notifications| == |w.notifications| + 1 <==> NewAdminRecord(id, kind, title, message, metadata, priority, now).Success?
  {
  }

  /** String.prototype.replace with a one-character pattern: only the first
      occurrence is replaced. */
  function ReplaceFirst(s: string, from: char, to: char): (r: string)
    ensures |r| == |s|
    ensures from !in s ==> r == s
    ensures from in s ==> exists i :: 0 <= i < |s| && s[i] == from && from !in s[..i] && r == s[i := to]
  {
    if |s| == 0 then s
    else if s[0] == from then [to] + s[1..]
    else
      var rest := ReplaceFirst(s[1..], from, to);
      if from in s[1..] then
        var i :| 0 <= i < |s[1..]| && s[1..][i] == from && from !in s[1..][..i] && rest == s[1..][i := to];
        assert s[..i + 1] == [s[0]] + s[1..][..i];
        assert [s[0]] + rest == s[i + 1 := to];
        [s[0]] + rest
      else
        assert s == [s[0]] + s[1..];
        [s[0]] + rest
  }

  datatype AdminTestReply = BadType | AdminTestSent(n: AdminNotification) | AdminTestFailed

  /** The admin test endpoint: a supplied type outside the three admin
      kinds is rejected before anything is stored; an absent (or empty)
      type means new_user. Title and message default to texts naming the
      type, and the priority is high for a new_report and low otherwise. */
  function TestNotification(w: AdminWorld, reg: Presence.Registry, adminUserId: Option<string>, id: Id,
                            kind: Option<string>, title: Option<string>, message: Option<string>, now: int,
                            answers: Option<seq<bool>>, saveOk: bool): (r: (AdminTestReply, AdminWorld))
    ensures Dispatcher.OrElse(kind, "new_user") != "new_user" && ParseAdminKind(Dispatcher.OrElse(kind, "new_user")).None? ==>
      r == (BadType, w)
    ensures r.0.AdminTestSent? ==>
      && AdminKindName(r.0.n.kind) == Dispatcher.OrElse(kind, "new_user")
      && (r.0.n.priority == High <==> r.0.n.kind == NewReport)
      && r.0.n.priority in {Low, High}
  {
    var selected := Dispatcher.OrElse(kind, "new_user");
    match ParseAdminKind(selected)
    case None => (BadType, w)
    case Some(k) => TestSend(w, reg, adminUserId, id, k, selected, title, message, now, answers, saveOk)
  }

  /** The test endpoint once the type names admin kind k: the defaulted
      title and message go through the admin send, and the reply reports
      its outcome. A sent reply means one record was appended. */
  function TestSend(w: AdminWorld, reg: Presence.Registry, adminUserId: Option<string>, id: Id,
                    k: AdminKind, selected: string, title: Option<string>, message: Option<string>, now: int,
                    answers: Option<seq<bool>>, saveOk: bool): (r: (AdminTestReply, AdminWorld))
    ensures r.0 != BadType
    ensures r.0.AdminTestSent? ==>
      && r.0.n.kind == k
      && r.0.n.priority == (if k == NewReport then High else Low)
      && |r.1.notifications| == |w.notifications| + 1
    ensures saveOk && NewAdminRecord(id, k, Dispatcher.OrElse(title, "Test " + ReplaceFirst(selected, '_', ' ') + " notification"),
                                     Dispatcher.OrElse(message, "This is a test notification for type: " + selected),
                                     Some(TestMetadata(k)), Some(if k == NewReport then High else Low), now).Success?
            ==> r.0.AdminTestSent?
  {
    var t := Dispatcher.OrElse(title, "Test " + ReplaceFirst(selected, '_', ' ') + " notification");
    var m := Dispatcher.OrElse(message, "This is a test notification for type: " + selected);
    var d := SendAdminNotification(w, reg, adminUserId, id, k, t, m, Some(TestMetadata(k)),
                                   Some(if k == NewReport then High else Low), now, answers, saveOk);
    match d.outcome
    case Success(n) => (AdminTestSent(n), d.world)
    case Failure(_) => (AdminTestFailed, d.world)
  }

  /** Sample metadata for each admin kind. */
  function TestMetadata(k: AdminKind): (m: map<string, string>)
    ensures k == NewUser ==> m.Keys == {"userId", "username", "email", "avatar"}
    ensures k == NewChannel ==> m.Keys == {"channelId", "channelName", "channelIcon", "ownerId", "ownerUsername"}
    ensures k == NewReport ==> m.Keys == {"reporterId", "reporterUsername", "reason", "targetType", "targetId"}
  {
    var avatar := "https://cdn.pixabay.com/photo/2015/10/05/22/37/blank-profile-picture-973460_1280.png";
    match k
    case NewUser => map["userId" := "test_user_123", "username" := "test_user",
                        "email" := "testuser@example.com", "avatar" := avatar]
    case NewChannel => map["channelId" := "test_channel_456", "channelName" := "Test Channel",
                           "channelIcon" := avatar, "ownerId" := "test_user_123", "ownerUsername" := "test_user"]
    case NewReport => map["reporterId" := "test_user_123", "reporterUsername" := "test_user",
                          "reason" := "Inappropriate content", "targetType" := "Video", "targetId" := "test_video_789"]
  }

  /** The test endpoint stores a record exactly when the type is accepted
      and the defaulted title and message pass the schema (with a working
      store); a rejected type stores nothing. */
  lemma TestStoresIffAccepted(w: AdminWorld, reg: Presence.Registry, adminUserId: Option<string>, id: Id,
                              kind: Option<string>, title: Option<string>, message: Option<string>, now: int,
                              answers: Option<seq<bool>>)
    ensures var r := TestNotification(w, reg, adminUserId, id, kind, title, message, now, answers, true);
      var k := ParseAdminKind(Dispatcher.OrElse(kind, "new_user"));
      && (r.0 == BadType <==> k.None?)
      && (r.0.AdminTestSent? ==> |r.1.notifications| == |w.notifications| + 1)
      && (r.0 == BadType ==> r.1 == w)
  {
    var selected := Dispatcher.OrElse(kind, "new_user");
    match ParseAdminKind(selected)
    case None =>
    case Some(k) =>
      var r := TestSend(w, reg, adminUserId, id, k, selected, title, message, now, answers, true);
      assert TestNotification(w, reg, adminUserId, id, kind, title, message, now, answers, true) == r;
  }
}

=== FILE: admin_store.dfy ===
/** The admin notification store as the admin notification service reads
    and writes it. There is no recipient: every admin sees the same records.
    The listing combines the read/unread filter with an optional type
    filter; the unread count ignores both. Mutations address records by id
    alone. Also the list handler of the admin controller. */
module AdminStore {
  import opened Wrappers
  import opened NotificationModel
  import Paging
  import NotificationStore
  import Content

  type Store = seq<AdminNotification>

  /** The listing query: not deleted, the read state the filter asks for,
      and, when a type is given (a non-empty query value), that type. A type
      that names no admin kind matches nothing. */
  predicate Listed(n: AdminNotification, f: NotificationStore.ReadFilter, kind: Option<string>) {
    && !n.isDeleted
    && (f == NotificationStore.ReadOnly ==> n.isRead)
    && (f == NotificationStore.UnreadOnly ==> !n.isRead)
    && (kind.Some? && kind.value != "" ==> AdminKindName(n.kind) == kind.value)
  }

  function Query(f: NotificationStore.ReadFilter, kind: Option<string>): AdminNotification -> bool {
    n => Listed(n, f, kind)
  }

  /** The records the query matches, in store order. */
  function Select(s: Store, f: NotificationStore.ReadFilter, kind: Option<string>): (r: seq<AdminNotification>)
    ensures |r| <= |s|
    ensures forall n :: n in r <==> n in s && Listed(n, f, kind)
  {
    Paging.Where(s, Query(f, kind))
  }

  /** getUnreadCount: unread, non-deleted records of any type. */
  function UnreadCount(s: Store): nat {
    |Select(s, NotificationStore.UnreadOnly, None)|
  }

  function CreatedAt(n: AdminNotification): int {
    n.createdAt
  }

  datatype Listing = Listing(notifications: seq<AdminNotification>, total: nat, unreadCount: nat)

  /** getNotifications: the matching records newest first, paged by
      offset; the total counts the filtered records and the unread count
      ignores both filters. */
  function GetNotifications(s: Store, page: int, limit: int, f: NotificationStore.ReadFilter,
                            kind: Option<string>): (r: Result<Listing, Paging.PageError>)
    ensures r.Failure? <==> Paging.Skip(page, limit) < 0
    ensures r.Success? ==>
      && (forall n :: n in r.value.notifications ==> n in s && Listed(n, f, kind))
      && Paging.SortedDesc(r.value.notifications, CreatedAt)
      && r.value.total == |Select(s, f, kind)|
      && r.value.unreadCount == UnreadCount(s)
      && |r.value.notifications| <= r.value.total
    ensures r.Success? ==>
      Success(r.value.notifications) ==
        Paging.SkipLimit(Paging.SortDesc(Select(s, f, kind), CreatedAt), Paging.Skip(page, limit), limit)
  {
    var sorted := Paging.SortDesc(Select(s, f, kind), CreatedAt);
    match Paging.SkipLimit(sorted, Paging.Skip(page, limit), limit)
    case Failure(e) => Failure(e)
    case Success(items) =>
      Paging.SkipLimitWithin(sorted, Paging.Skip(page, limit), limit);
      Paging.PermutationWithin(sorted, Select(s, f, kind));
      Paging.SkipLimitSortedDesc(sorted, Paging.Skip(page, limit), limit, CreatedAt);
      Success(Listing(items, |Select(s, f, kind)|, UnreadCount(s)))
  }

  /** The type filter splits the unfiltered listing by kind. */
  lemma {:induction false} TypePartition(s: Store, f: NotificationStore.ReadFilter)
    ensures |Select(s, f, None)| ==
            |Select(s, f, Some("new_user"))| + |Select(s, f, Some("new_channel"))| + |Select(s, f, Some("new_report"))|
    decreases |s|
  {
    if |s| > 0 {
      TypePartition(s[..|s| - 1], f);
    }
  }

  /** A type that names no admin kind lists nothing. */
  lemma {:induction false} UnknownTypeListsNothing(s: Store, f: NotificationStore.ReadFilter, kind: string)
    requires kind != "" && ParseAdminKind(kind).None?
    ensures Select(s, f, Some(kind)) == []
    decreases |s|
  {
    if |s| > 0 {
      UnknownTypeListsNothing(s[..|s| - 1], f, kind);
      assert AdminKindName(s[|s| - 1].kind) != kind;
    }
  }

  /** The position findByIdAndUpdate picks: the first record with the id. */
  function FindId(s: Store, nid: Id): (r: Option<nat>)
    ensures r.Some? ==> r.value < |s| && s[r.value].id == nid
    ensures r.Some? ==> forall j :: 0 <= j < r.value ==> s[j].id != nid
    ensures r.None? ==> forall j :: 0 <= j < |s| ==> s[j].id != nid
  {
    if |s| == 0 then None
    else if s[0].id == nid then Some(0)
    else match FindId(s[1..], nid)
      case None => None
      case Some(j) => Some(j + 1)
  }

  /** markAsRead: a malformed id fails the cast (500); otherwise the record
      with this id becomes read at now, whoever asks and whether or not it
      was deleted. */
  function MarkAsRead(s: Store, nid: Id, now: int): (r: Result<Store, NotificationStore.WriteError>)
    ensures r.Failure? <==> !Content.IsObjectId(nid)
    ensures r.Success? ==> |r.value| == |s|
    ensures r.Success? && FindId(s, nid).None? ==> r.value == s
    ensures r.Success? && FindId(s, nid).Some? ==>
      var i := FindId(s, nid).value;
      && r.value[i].isRead && r.value[i].readAt == Some(now)
      && r.value[i].(isRead := s[i].isRead, readAt := s[i].readAt) == s[i]
      && forall j :: 0 <= j < |s| && j != i ==> r.value[j] == s[j]
  {
    if !Content.IsObjectId(nid) then Failure(NotificationStore.MalformedId)
    else match FindId(s, nid)
      case None => Success(s)
      case Some(i) => Success(s[i := s[i].(isRead := true, readAt := Some(now))])
  }

  /** Marking one record read lowers the badge by one exactly when it was
      unread and not deleted. */
  lemma MarkAsReadUnreadCount(s: Store, nid: Id, now: int)
    ensures var i := FindId(s, nid);
      var r := MarkAsRead(s, nid, now);
      r.Success? ==>
        UnreadCount(r.value) ==
          UnreadCount(s) - (if i.Some? && !s[i.value].isRead && !s[i.value].isDeleted then 1 else 0)
  {
    if Content.IsObjectId(nid) {
      match FindId(s, nid)
      case None =>
      case Some(i) =>
        Paging.WhereUpdateCount(s, i, s[i].(isRead := true, readAt := Some(now)), Query(NotificationStore.UnreadOnly, None));
    }
  }

  /** markAllAsRead: unread, non-deleted records become read at now; deleted
      and already-read records are untouched. */
  function MarkAllAsRead(s: Store, now: int): (r: Store)
    ensures |r| == |s|
    ensures forall i :: 0 <= i < |s| && !s[i].isRead && !s[i].isDeleted ==>
      r[i] == s[i].(isRead := true, readAt := Some(now))
    ensures forall i :: 0 <= i < |s| && (s[i].isRead || s[i].isDeleted) ==> r[i] == s[i]
  {
    seq(|s|, i requires 0 <= i < |s| =>
      if !s[i].isRead && !s[i].isDeleted then s[i].(isRead := true, readAt := Some(now)) else s[i])
  }

  /** After mark-all the badge is zero and the unfiltered listing keeps its
      size. */
  lemma MarkAllAsReadClearsBadge(s: Store, now: int, kind: Option<string>)
    ensures UnreadCount(MarkAllAsRead(s, now)) == 0
    ensures |Select(MarkAllAsRead(s, now), NotificationStore.AnyState, kind)| == |Select(s, NotificationStore.AnyState, kind)|
  {
    var r := MarkAllAsRead(s, now);
    Paging.WhereNone(r, Query(NotificationStore.UnreadOnly, None));
    Paging.WhereSameCount(s, r, Query(NotificationStore.AnyState, kind));
  }

  /** deleteNotification: a malformed id fails the cast (500); otherwise
      the record with this id is soft-deleted. */
  function DeleteNotification(s: Store, nid: Id): (r: Result<Store, NotificationStore.WriteError>)
    ensures r.Failure? <==> !Content.IsObjectId(nid)
    ensures r.Success? ==> |r.value| == |s|
    ensures r.Success? && FindId(s, nid).None? ==> r.value == s
    ensures r.Success? && FindId(s, nid).Some? ==>
      var i := FindId(s, nid).value;
      && r.value[i].isDeleted && r.value[i].(isDeleted := s[i].isDeleted) == s[i]
      && forall j :: 0 <= j < |s| && j != i ==> r.value[j] == s[j]
  {
    if !Content.IsObjectId(nid) then Failure(NotificationStore.MalformedId)
    else match FindId(s, nid)
      case None => Success(s)
      case Some(i) => Success(s[i := s[i].(isDeleted := true)])
  }

  /** A deleted record leaves every listing. */
  lemma DeleteHidesRecord(s: Store, nid: Id, f: NotificationStore.ReadFilter, kind: Option<string>)
    requires FindId(s, nid).Some?
    ensures var i := FindId(s, nid).value;
      var r := DeleteNotification(s, nid);
      r.Success? ==>
        && r.value[i] !in Select(r.value, f, kind)
        && |Select(r.value, f, kind)| == |Select(s, f, kind)| - (if Listed(s[i], f, kind) then 1 else 0)
  {
    if Content.IsObjectId(nid) {
      var i := FindId(s, nid).value;
      Paging.WhereUpdateCount(s, i, s[i].(isDeleted := true), Query(f, kind));
    }
  }

  /** clearAll: every non-deleted record is soft-deleted. */
  function ClearAll(s: Store): (r: Store)
    ensures |r| == |s|
    ensures forall i :: 0 <= i < |s| ==> r[i] == s[i].(isDeleted := true)
  {
    seq(|s|, i requires 0 <= i < |s| => if !s[i].isDeleted then s[i].(isDeleted := true) else s[i])
  }

  /** After clearing, every listing is empty and the badge is zero. */
  lemma ClearAllEmptiesListing(s: Store, f: NotificationStore.ReadFilter, kind: Option<string>)
    ensures Select(ClearAll(s), f, kind) == []
    ensures UnreadCount(ClearAll(s)) == 0
  {
    Paging.WhereNone(ClearAll(s), Query(f, kind));
    Paging.WhereNone(ClearAll(s), Query(NotificationStore.UnreadOnly, None));
  }

  // ----- Expiry -----

  function LiveAt(now: int): AdminNotification -> bool {
    n => AdminLive(n, now)
  }

  /** The expiry index on createdAt, with the admin interval. */
  function Expire(s: Store, now: int): (r: Store)
    ensures |r| <= |s|
    ensures forall n :: n in r <==> n in s && now < n.createdAt + AdminTtlSeconds
  {
    Paging.Where(s, LiveAt(now))
  }

  /** After expiry the listing is the old listing minus the expired
      records, in the same order. */
  lemma ExpiryListing(s: Store, now: int, f: NotificationStore.ReadFilter, kind: Option<string>)
    ensures Select(Expire(s, now), f, kind) == Paging.Where(Select(s, f, kind), LiveAt(now))
    ensures forall n :: n in Select(Expire(s, now), f, kind) <==> n in Select(s, f, kind) && AdminLive(n, now)
  {
    Paging.WhereCommute(s, LiveAt(now), Query(f, kind));
  }

  datatype PageReply =
    | NotificationPage(notifications: seq<AdminNotification>, page: int, limit: int,
                       total: nat, totalPages: int, unreadCount: nat)
    | ListFailed

  /** The admin list handler: page and limit default to 1 and 20, the
      filter and type come from the query, and the page count is the
      ceiling of total over limit. */
  function GetNotificationsReply(s: Store, pageQ: Option<int>, limitQ: Option<int>,
                                 filterQ: Option<string>, kindQ: Option<string>): (r: PageReply)
    ensures var page := Paging.OrDefault(pageQ, 1);
      var limit := Paging.OrDefault(limitQ, 20);
      var l := GetNotifications(s, page, limit, NotificationStore.ParseFilter(filterQ), kindQ);
      && (r.ListFailed? <==> l.Failure?)
      && (r.NotificationPage? ==>
            && r.page == page && r.limit == limit
            && r.notifications == l.value.notifications
            && r.total == l.value.total && r.unreadCount == l.value.unreadCount
            && r.totalPages == Paging.TotalPages(r.total, limit))
  {
    var page := Paging.OrDefault(pageQ, 1);
    var limit := Paging.OrDefault(limitQ, 20);
    match GetNotifications(s, page, limit, NotificationStore.ParseFilter(filterQ), kindQ)
    case Failure(_) => ListFailed
    case Success(l) => NotificationPage(l.notifications, page, limit, l.total,
                                        Paging.TotalPages(l.total, limit), l.unreadCount)
  }

  /** The badge handler and the list handler report the same unread count,
      whatever filters the list used. */
  lemma BadgeMatchesListing(s: Store, filterQ: Option<string>, kindQ: Option<string>)
    ensures var r := GetNotificationsReply(s, None, None, filterQ, kindQ);
      r.NotificationPage? && r.unreadCount == UnreadCount(s)
  {
  }
}

=== FILE: auth.dfy ===
/** The bearer-token middleware: verifyUser (the guard every signed-in
    route sits behind) and verifyUserOptional. Token verification is a
    parameter: it yields the payload's id (possibly absent) or the thrown
    value. */
module Auth {
  import opened Wrappers
  import Text

  /** What a throw carries, as far as the handler inspects it: whether it
      is an Error instance, and its `name`. */
  datatype Thrown = Thrown(isError: bool, name: string)

  /** jwt.verify under the access secret: the decoded payload's id, or the
      thrown value. */
  type Verifier = string -> Result<Option<string>, Thrown>

  datatype Denial =
    | NoToken        // 401 "No token provided"
    | TokenExpired   // 401 "Token expired"
    | InvalidToken   // 401 "Invalid token"

  datatype Outcome =
    | Next(userId: Option<string>)   // next() called once, with req.userId
    | Unauthorized(denial: Denial)
    | ServerError                    // 500

  const Bearer: string := "Bearer "

  /** The header passes the prefix test. */
  predicate HasBearer(header: Option<string>) {
    header.Some? && header.value != "" && Text.StartsWith(header.value, Bearer)
  }

  lemma BearerSpace(h: string)
    requires Text.StartsWith(h, Bearer)
    ensures ' ' in h && Text.IndexOf(h, ' ') == 6
  {
    assert h[..7] == Bearer;
    assert h[6] == ' ';
    assert forall j :: 0 <= j < 6 ==> h[j] == Bearer[j];
  }

  /** `authHeader.split(" ")[1]`: after the prefix, up to the next space. */
  function Token(h: string): (r: string)
    requires Text.StartsWith(h, Bearer)
    ensures ' ' !in r
  {
    BearerSpace(h);
    Text.Split(h, ' ')[1]
  }

  /** The error classification of the catch block. */
  function Classify(e: Thrown): (r: Outcome)
    ensures r.Unauthorized? ==> e.isError
    ensures r == Unauthorized(TokenExpired) <==> e.isError && e.name == "TokenExpiredError"
    ensures r == Unauthorized(InvalidToken) <==> e.isError && e.name == "JsonWebTokenError"
    ensures r.ServerError? <==> !(e.isError && (e.name == "TokenExpiredError" || e.name == "JsonWebTokenError"))
  {
    if e.isError && e.name == "TokenExpiredError" then Unauthorized(TokenExpired)
    else if e.isError && e.name == "JsonWebTokenError" then Unauthorized(InvalidToken)
    else ServerError
  }

  /** verifyUser. */
  function VerifyUser(header: Option<string>, verify: Verifier): (r: Outcome)
    ensures !HasBearer(header) ==> r == Unauthorized(NoToken)
    ensures HasBearer(header) && Token(header.value) == "" ==> r == Unauthorized(NoToken)
    ensures r.Next? <==> HasBearer(header) && Token(header.value) != "" && verify(Token(header.value)).Success?
    ensures r.Next? ==> r.userId == verify(Token(header.value)).value
    ensures r != Unauthorized(NoToken) && !r.Next? ==>
      HasBearer(header) && r == Classify(verify(Token(header.value)).error)
  {
    if !HasBearer(header) then Unauthorized(NoToken)
    else
      var token := Token(header.value);
      if token == "" then Unauthorized(NoToken)
      else match verify(token)
        case Success(id) => Next(id)
        case Failure(e) =>
          var c := Classify(e);
          assert c != Unauthorized(NoToken);
          c
  }

  /** verifyUserOptional: always continues; a user id is attached only
      for a bearer token that verifies. */
  function VerifyUserOptional(header: Option<string>, verify: Verifier): (r: Outcome)
    ensures r.Next?
    ensures r.userId.Some? ==>
      HasBearer(header) && Token(header.value) != "" && verify(Token(header.value)) == Success(r.userId)
  {
    if HasBearer(header) && Token(header.value) != "" && verify(Token(header.value)).Success? then
      Next(verify(Token(header.value)).value)
    else Next(None)
  }

  /** The optional guard sees the same user the strict guard admits, and
      proceeds anonymously whenever the strict guard would refuse. */
  lemma OptionalAgreesWithStrict(header: Option<string>, verify: Verifier)
    ensures VerifyUser(header, verify).Next? ==> VerifyUserOptional(header, verify) == VerifyUser(header, verify)
    ensures !VerifyUser(header, verify).Next? ==> VerifyUserOptional(header, verify) == Next(None)
  {
  }

  /** A header built as "Bearer " + token hands exactly that token to the
      verifier, provided the token has no space. */
  lemma BearerRoundTrip(token: string)
    requires ' ' !in token
    ensures HasBearer(Some(Bearer + token)) && Token(Bearer + token) == token
  {
    var h := Bearer + token;
    assert h[..7] == Bearer;
    BearerSpace(h);
    assert h[7..] == token;
    assert Text.Split(h, ' ') == [h[..6]] + Text.Split(token, ' ');
  }

  /** A well-formed bearer header with a verifying token signs the request
      in as the payload's id. */
  lemma StrictSignedInCarriesPayloadId(token: string, verify: Verifier)
    requires ' ' !in token && token != "" && verify(token).Success?
    ensures VerifyUser(Some(Bearer + token), verify) == Next(verify(token).value)
  {
    BearerRoundTrip(token);
  }
}

=== FILE: comment_react_controller.dfy ===
/** The like/dislike endpoints for comments: toggleCommentReaction,
    getUserCommentReaction and getCommentReactionStats. The reaction records
    are keyed by (user, comment id); the counters live on the comments
    themselves. */
module CommentReactController {
  import opened Wrappers
  import opened Content
  import opened Reactions
  import Comments

  datatype Store = Store(reactions: map<(Id, Id), Reaction>, comments: Comments.Store)

  /** Each comment's likesCount and dislikesCount agree with its reaction
      records, and comment ids are unique. */
  predicate Consistent(s: Store) {
    && Comments.UniqueIds(s.comments.comments)
    && forall i :: 0 <= i < |s.comments.comments| ==>
         Matches(s.reactions, s.comments.comments[i].id, s.comments.comments[i].counters)
  }

  datatype Reply =
    | Unauthenticated      // 401
    | BadReactionType      // 400
    | BadCommentId         // 400
    | CommentNotFound      // 404: missing or soft-deleted
    | ServerError          // 500: a query on a malformed id throws
    | ReactionAdded        // 201
    | ReactionRemoved      // 200
    | ReactionUpdated      // 200

  /** The request checks, in the handler's order; success carries the user,
      the comment's position and the reaction. */
  function CheckToggle(s: Store, userId: Option<Id>, commentId: string, reactionType: string)
    : (r: Result<(Id, nat, Reaction), Reply>)
    ensures !SignedIn(userId) ==> r == Failure(Unauthenticated)
    ensures SignedIn(userId) ==>
      var x := ParseReaction(reactionType);
      var at := Comments.Find(s.comments.comments, commentId);
      && (x.None? ==> r == Failure(BadReactionType))
      && (x.Some? && !IsObjectId(commentId) ==> r == Failure(BadCommentId))
      && (x.Some? && IsObjectId(commentId) ==>
            if at.Some? && !s.comments.comments[at.value].isDeleted
            then r == Success((userId.value, at.value, x.value))
            else r == Failure(CommentNotFound))
  {
    if !SignedIn(userId) then Failure(Unauthenticated)
    else if ParseReaction(reactionType).None? then Failure(BadReactionType)
    else if !IsObjectId(commentId) then Failure(BadCommentId)
    else match Comments.Find(s.comments.comments, commentId)
      case None => Failure(CommentNotFound)
      case Some(i) =>
        if s.comments.comments[i].isDeleted then Failure(CommentNotFound)
        else Success((userId.value, i, ParseReaction(reactionType).value))
  }

  /** toggleCommentReaction. A rejected request changes nothing; an accepted
      one toggles the user's record on the comment and moves that comment's
      counters only. */
  function ToggleCommentReaction(s: Store, userId: Option<Id>, commentId: string, reactionType: string)
    : (r: (Reply, Store))
    ensures var c := CheckToggle(s, userId, commentId, reactionType);
      && (c.Failure? ==> r == (c.error, s))
      && (c.Success? ==>
            var (user, i, reaction) := c.value;
            var cs := s.comments.comments;
            var t := Toggle(s.reactions, user, commentId, reaction, cs[i].counters);
            && r.1.reactions == t.reactions
            && r.1.comments.targets == s.comments.targets
            && |r.1.comments.comments| == |cs|
            && r.1.comments.comments[i] == cs[i].(counters := t.counters)
            && (forall k :: 0 <= k < |cs| && k != i ==> r.1.comments.comments[k] == cs[k])
            && (r.0 == ReactionAdded <==> t.change == Added)
            && (r.0 == ReactionRemoved <==> t.change == Removed)
            && (r.0 == ReactionUpdated <==> t.change.Switched?))
  {
    match CheckToggle(s, userId, commentId, reactionType)
    case Failure(e) => (e, s)
    case Success((user, i, reaction)) =>
      var cs := s.comments.comments;
      var t := Toggle(s.reactions, user, commentId, reaction, cs[i].counters);
      var reply := match t.change
        case Added => ReactionAdded
        case Removed => ReactionRemoved
        case Switched(_) => ReactionUpdated;
      (reply, Store(t.reactions, s.comments.(comments := cs[i := cs[i].(counters := t.counters)])))
  }

  /** The counters stay equal to the record counts across every request. */
  lemma ToggleCommentReactionKeepsConsistent(s: Store, userId: Option<Id>, commentId: string, reactionType: string)
    requires Consistent(s)
    ensures Consistent(ToggleCommentReaction(s, userId, commentId, reactionType).1)
  {
    var c := CheckToggle(s, userId, commentId, reactionType);
    if c.Success? {
      var (user, i, reaction) := c.value;
      var cs := s.comments.comments;
      ToggleKeepsCounters(s.reactions, user, commentId, reaction, cs[i].counters);
      assert forall k :: 0 <= k < |cs| && k != i ==> cs[k].id != commentId;
    }
  }

  /** Reacting only moves reaction counters: the comment invariant of the
      comment store is untouched. */
  lemma ToggleCommentReactionKeepsComments(s: Store, userId: Option<Id>, commentId: string, reactionType: string)
    requires Comments.Consistent(s.comments)
    ensures Comments.Consistent(ToggleCommentReaction(s, userId, commentId, reactionType).1.comments)
  {
    var after := ToggleCommentReaction(s, userId, commentId, reactionType).1.comments;
    assert Comments.SameShape(s.comments.comments, after.comments);
    Comments.SameShapeCounts(s.comments.comments, after.comments);
  }

  /** Toggling the same reaction twice on a comment the user had not
      reacted to restores the records and the counters. */
  lemma ToggleCommentReactionTwice(s: Store, userId: Option<Id>, commentId: string, reactionType: string)
    requires CheckToggle(s, userId, commentId, reactionType).Success?
    requires (userId.value, commentId) !in s.reactions
    ensures var once := ToggleCommentReaction(s, userId, commentId, reactionType);
      var twice := ToggleCommentReaction(once.1, userId, commentId, reactionType);
      once.0 == ReactionAdded && twice == (ReactionRemoved, s)
  {
    var (user, i, reaction) := CheckToggle(s, userId, commentId, reactionType).value;
    var cs := s.comments.comments;
    var once := ToggleCommentReaction(s, userId, commentId, reactionType);
    ToggleTwiceRestores(s.reactions, user, commentId, reaction, cs[i].counters);
    Comments.FindSameIds(once.1.comments.comments, cs, commentId);
    assert once.1.comments.comments[i := cs[i]] == cs;
  }

  /** getUserCommentReaction: the user's record on the comment, if any. The
      id is not checked first, so a malformed one makes `findOne` throw its
      cast error and the handler answer 500. */
  function GetUserCommentReaction(s: Store, userId: Option<Id>, commentId: string)
    : (r: Result<Option<Reaction>, Reply>)
    ensures !SignedIn(userId) ==> r == Failure(Unauthenticated)
    ensures SignedIn(userId) && !IsObjectId(commentId) ==> r == Failure(ServerError)
    ensures r.Success? <==> SignedIn(userId) && IsObjectId(commentId)
    ensures r.Success? ==> (r.value.Some? <==> (userId.value, commentId) in s.reactions)
    ensures r.Success? && r.value.Some? ==> r.value.value == s.reactions[(userId.value, commentId)]
  {
    if !SignedIn(userId) then Failure(Unauthenticated)
    else if !IsObjectId(commentId) then Failure(ServerError)
    else
      var key := (userId.value, commentId);
      Success(if key in s.reactions then Some(s.reactions[key]) else None)
  }

  /** getCommentReactionStats: the like and dislike record counts. */
  function GetCommentReactionStats(s: Store, commentId: string): (r: Result<Counters, Reply>)
    ensures r.Failure? <==> !IsObjectId(commentId)
    ensures r.Failure? ==> r.error == BadCommentId
    ensures r.Success? ==> Matches(s.reactions, commentId, r.value)
  {
    if !IsObjectId(commentId) then Failure(BadCommentId)
    else Success(Counters(Count(s.reactions, commentId, Like), Count(s.reactions, commentId, Dislike)))
  }

  /** While the store is consistent, the stats endpoint reports exactly the
      comment's denormalised counters. */
  lemma CommentStatsMatchCounters(s: Store, i: nat)
    requires Consistent(s) && i < |s.comments.comments| && IsObjectId(s.comments.comments[i].id)
    ensures GetCommentReactionStats(s, s.comments.comments[i].id) == Success(s.comments.comments[i].counters)
  {
    var c := s.comments.comments[i];
    assert Counter(c.counters, Like) == Count(s.reactions, c.id, Like);
    assert Counter(c.counters, Dislike) == Count(s.reactions, c.id, Dislike);
  }
}

=== FILE: comments.dfy ===
/** Comments and replies on videos, shorts and posts: create with its
    validation chain, the pinned-first and oldest-first listings, author-only
    update and soft delete, and the denormalised counters a comment moves:
    the target's commentsCount and, for a reply, the parent's repliesCount.

    Comments are kept in creation order; the store assigns each new comment
    an id no other comment has, and the clock is an input. */
module Comments {
  import opened Wrappers
  import opened Content
  import Text
  import Paging
  import Reactions

  type TargetKey = (ContentType, Id)

  /** The text a soft-deleted comment keeps. */
  const DeletedContent := "[deleted]"

  /** The schema's `maxlength` for content, in UTF-16 units. */
  const MaxContentLength := 10000

  datatype Comment = Comment(
    id: Id,
    content: string,
    user: Id,
    channel: Id,
    target: TargetKey,
    parent: Option<Id>,
    isReply: bool,
    isDeleted: bool,
    isEdited: bool,
    isPinned: bool,
    repliesCount: int,
    counters: Reactions.Counters,
    createdAt: int)

  /** The part of a video, short or post the comment handlers read and
      write. */
  datatype Target = Target(channel: Id, commentsCount: int)

  datatype Store = Store(comments: seq<Comment>, targets: map<TargetKey, Target>)

  /** findById: the position of the comment with this id. */
  function Find(cs: seq<Comment>, id: Id): (r: Option<nat>)
    ensures r.Some? ==> r.value < |cs| && cs[r.value].id == id
    ensures r.Some? ==> forall k :: 0 <= k < r.value ==> cs[k].id != id
    ensures r.None? ==> forall k :: 0 <= k < |cs| ==> cs[k].id != id
  {
    if |cs| == 0 then None
    else if cs[0].id == id then Some(0)
    else match Find(cs[1..], id)
      case None => None
      case Some(j) => Some(j + 1)
  }

  /** The number of comments satisfying p. */
  function CountWhere(cs: seq<Comment>, p: Comment -> bool): (r: nat)
    ensures r <= |cs|
  {
    if |cs| == 0 then 0
    else CountWhere(cs[..|cs| - 1], p) + (if p(cs[|cs| - 1]) then 1 else 0)
  }

  /** Comments a target's commentsCount counts: the live ones on it,
      replies included. */
  function LiveOn(key: TargetKey): Comment -> bool {
    (c: Comment) => c.target == key && !c.isDeleted
  }

  /** Comments a comment's repliesCount counts: its live replies. */
  function LiveReplyTo(id: Id): Comment -> bool {
    (c: Comment) => c.parent == Some(id) && !c.isDeleted
  }

  predicate UniqueIds(cs: seq<Comment>) {
    forall i, j :: 0 <= i < j < |cs| ==> cs[i].id != cs[j].id
  }

  /** Every reply's parent is an earlier comment. */
  predicate ParentsEarlier(cs: seq<Comment>) {
    forall i :: 0 <= i < |cs| && cs[i].parent.Some? ==>
      exists j :: 0 <= j < i && cs[j].id == cs[i].parent.value
  }

  /** The counters agree with the comments: each target's commentsCount is
      the number of its live comments, and each comment's repliesCount the
      number of its live replies. */
  predicate Consistent(s: Store) {
    && UniqueIds(s.comments)
    && ParentsEarlier(s.comments)
    && ReplyFlags(s.comments)
    && TargetCountsMatch(s.comments, s.targets)
    && ReplyCountsMatch(s.comments)
  }

  /** isReply records whether the comment has a parent. */
  predicate ReplyFlags(cs: seq<Comment>) {
    forall i :: 0 <= i < |cs| ==> (cs[i].isReply <==> cs[i].parent.Some?)
  }

  predicate TargetCountsMatch(cs: seq<Comment>, targets: map<TargetKey, Target>) {
    forall key :: key in targets ==> targets[key].commentsCount == CountWhere(cs, LiveOn(key))
  }

  predicate ReplyCountsMatch(cs: seq<Comment>) {
    forall i :: 0 <= i < |cs| ==> cs[i].repliesCount == CountWhere(cs, LiveReplyTo(cs[i].id))
  }

  datatype Reply =
    | Unauthenticated      // 401
    | EmptyContent         // 400
    | BadTargetType        // 400
    | BadTargetId          // 400
    | TargetNotFound       // 404
    | BadParentId          // 400
    | ParentNotFound       // 404
    | ParentMismatch       // 400
    | BadCommentId         // 400
    | CommentNotFound      // 404
    | NotAuthor            // 403
    | ContentTooLong       // 500: the schema rejects the save
    | CommentCreated(comment: Comment)
    | CommentUpdated(comment: Comment)
    | CommentDeleted

  /** `!content || content.trim().length === 0` */
  predicate Blank(content: string) {
    Text.Trim(content) == ""
  }

  /** Trimmed content over the schema's `maxlength`; `Comment.create` and
      `comment.save()` fail validation on it and the handler answers 500. */
  predicate TooLong(content: string) {
    Text.Utf16Length(Text.Trim(content)) > MaxContentLength
  }

  /** `!!parentCommentId` */
  predicate GivesParent(parentId: Option<Id>) {
    parentId.Some? && parentId.value != ""
  }

  /** A request to create a comment that passed every check: the author,
      the target and, for a reply, the parent's position. */
  datatype NewComment = NewComment(user: Id, key: TargetKey, parentAt: Option<nat>)

  /** The checks of createComment, in the handler's order, followed by the
      schema validation `Comment.create` runs before anything is written. A
      reply's parent is looked up by id whether or not it has been deleted,
      and must be on the same target. */
  function CheckCreate(s: Store, userId: Option<Id>, content: string, targetType: string, targetId: string,
                       parentId: Option<Id>): (r: Result<NewComment, Reply>)
    ensures r.Success? ==>
      && SignedIn(userId) && r.value.user == userId.value
      && ParseContentType(targetType) == Some(r.value.key.0) && r.value.key.1 == targetId && r.value.key in s.targets
      && (r.value.parentAt.Some? <==> GivesParent(parentId))
      && (r.value.parentAt.Some? ==> r.value.parentAt == Find(s.comments, parentId.value))
  {
    if !SignedIn(userId) then Failure(Unauthenticated)
    else if Blank(content) then Failure(EmptyContent)
    else match ParseContentType(targetType)
      case None => Failure(BadTargetType)
      case Some(t) =>
        if !IsObjectId(targetId) then Failure(BadTargetId)
        else if (t, targetId) !in s.targets then Failure(TargetNotFound)
        else if !GivesParent(parentId) then Validated(NewComment(userId.value, (t, targetId), None), content)
        else if !IsObjectId(parentId.value) then Failure(BadParentId)
        else match Find(s.comments, parentId.value)
          case None => Failure(ParentNotFound)
          case Some(j) =>
            if s.comments[j].target != (t, targetId) then Failure(ParentMismatch)
            else Validated(NewComment(userId.value, (t, targetId), Some(j)), content)
  }

  /** The schema validation of `Comment.create`: the request passes only
      when its trimmed content fits `maxlength`. */
  function Validated(nc: NewComment, content: string): (r: Result<NewComment, Reply>)
    ensures r.Success? <==> !TooLong(content)
    ensures r.Success? ==> r.value == nc
    ensures r.Failure? ==> r.error == ContentTooLong
  {
    if TooLong(content) then Failure(ContentTooLong) else Success(nc)
  }

  /** The rejections of createComment come in the handler's order: 401
      for no user, then 400 for blank content, an unknown target type or a
      malformed target id, 404 for a missing target, and for a reply 400
      for a malformed parent id, 404 for a missing parent and 400 for a
      parent on another target. */
  lemma CreateRejectionOrder(s: Store, userId: Option<Id>, content: string, targetType: string, targetId: string,
                             parentId: Option<Id>)
    ensures var r := CheckCreate(s, userId, content, targetType, targetId, parentId);
      var t := ParseContentType(targetType);
      var found := if GivesParent(parentId) then Find(s.comments, parentId.value) else None;
      if !SignedIn(userId) then r == Failure(Unauthenticated)
      else if Blank(content) then r == Failure(EmptyContent)
      else if t.None? then r == Failure(BadTargetType)
      else if !IsObjectId(targetId) then r == Failure(BadTargetId)
      else if (t.value, targetId) !in s.targets then r == Failure(TargetNotFound)
      else if !GivesParent(parentId) then (if TooLong(content) then r == Failure(ContentTooLong) else r.Success?)
      else if !IsObjectId(parentId.value) then r == Failure(BadParentId)
      else if found.None? then r == Failure(ParentNotFound)
      else if s.comments[found.value].target != (t.value, targetId) then r == Failure(ParentMismatch)
      else if TooLong(content) then r == Failure(ContentTooLong)
      else r.Success?
  {
  }

  /** A create request is accepted exactly when the author is signed in,
      the content is neither blank nor over 10000 UTF-16 units once trimmed, the target type and id are well formed and
      the target exists, and a given parent id is well formed, names an
      existing comment (deleted or not) and that comment is on the same
      target. */
  lemma CreateAcceptedIff(s: Store, userId: Option<Id>, content: string, targetType: string, targetId: string,
                          parentId: Option<Id>)
    ensures CheckCreate(s, userId, content, targetType, targetId, parentId).Success? <==>
      && SignedIn(userId) && !Blank(content) && !TooLong(content)
      && ParseContentType(targetType).Some? && IsObjectId(targetId)
      && (ParseContentType(targetType).value, targetId) in s.targets
      && (GivesParent(parentId) ==>
            && IsObjectId(parentId.value)
            && Find(s.comments, parentId.value).Some?
            && s.comments[Find(s.comments, parentId.value).value].target == (ParseContentType(targetType).value, targetId))
  {
  }

  /** createComment. A rejected request changes nothing; an accepted one
      appends exactly one comment and replies with it. */
  function CreateComment(s: Store, userId: Option<Id>, content: string, targetType: string, targetId: string,
                         parentId: Option<Id>, newId: Id, now: int): (r: (Reply, Store))
    ensures CheckCreate(s, userId, content, targetType, targetId, parentId).Failure? ==>
      r == (CheckCreate(s, userId, content, targetType, targetId, parentId).error, s)
    ensures CheckCreate(s, userId, content, targetType, targetId, parentId).Success? ==>
      && r.0.CommentCreated?
      && |r.1.comments| == |s.comments| + 1
      && r.1.comments[|s.comments|] == r.0.comment
  {
    match CheckCreate(s, userId, content, targetType, targetId, parentId)
    case Failure(e) => (e, s)
    case Success(nc) =>
      var c := NewCommentOf(s, nc, parentId, content, newId, now);
      (CommentCreated(c), Append(s, nc.parentAt, c))
  }

  /** The comment an accepted create stores. */
  function NewCommentOf(s: Store, nc: NewComment, parentId: Option<Id>, content: string, newId: Id, now: int): Comment
    requires nc.key in s.targets
  {
    Comment(newId, Text.Trim(content), nc.user, s.targets[nc.key].channel, nc.key,
            if nc.parentAt.Some? then parentId else None, nc.parentAt.Some?,
            false, false, false, 0, Reactions.Counters(0, 0), now)
  }

  /** The writes of an accepted create: the comment is appended, and its
      target's commentsCount and its parent's repliesCount go up by one. */
  function Append(s: Store, parentAt: Option<nat>, c: Comment): Store
    requires c.target in s.targets
    requires parentAt.Some? ==> parentAt.value < |s.comments|
  {
    Store(BumpReplies(s.comments, parentAt) + [c],
          s.targets[c.target := s.targets[c.target].(commentsCount := s.targets[c.target].commentsCount + 1)])
  }

  /** What an accepted create stores: the trimmed content under the new id,
      a reply exactly when a parent id was given, no replies, reactions,
      edit, pin or deletion yet; the target's commentsCount goes up by one,
      so does the parent's repliesCount for a reply, and nothing else
      changes. */
  lemma CreateCommentEffects(s: Store, userId: Option<Id>, content: string, targetType: string, targetId: string,
                             parentId: Option<Id>, newId: Id, now: int)
    requires CheckCreate(s, userId, content, targetType, targetId, parentId).Success?
    ensures var nc := CheckCreate(s, userId, content, targetType, targetId, parentId).value;
      var r := CreateComment(s, userId, content, targetType, targetId, parentId, newId, now);
      var n := |s.comments|;
      var c := r.1.comments[n];
      && c.id == newId && c.user == userId.value && c.target == nc.key
      && ContentTypeName(c.target.0) == targetType && c.target.1 == targetId
      && c.content == Text.Trim(content) && c.channel == s.targets[nc.key].channel
      && (c.isReply <==> GivesParent(parentId)) && (c.isReply ==> c.parent == parentId) && (!c.isReply ==> c.parent.None?)
      && !c.isDeleted && !c.isEdited && !c.isPinned && c.repliesCount == 0
      && c.counters == Reactions.Counters(0, 0) && c.createdAt == now
      && r.1.targets == s.targets[nc.key := s.targets[nc.key].(commentsCount := s.targets[nc.key].commentsCount + 1)]
      && forall k :: 0 <= k < n ==>
           r.1.comments[k] == if Some(k) == nc.parentAt
                              then s.comments[k].(repliesCount := s.comments[k].repliesCount + 1)
                              else s.comments[k]
  {
    var nc := CheckCreate(s, userId, content, targetType, targetId, parentId).value;
    var c := NewCommentOf(s, nc, parentId, content, newId, now);
    assert CreateComment(s, userId, content, targetType, targetId, parentId, newId, now)
        == (CommentCreated(c), Append(s, nc.parentAt, c));
    AppendEffects(s, nc, parentId, content, newId, now);
    assert ContentTypeName(nc.key.0) == targetType;
  }

  /** The store writes of an accepted create, stated on the checked request. */
  lemma AppendEffects(s: Store, nc: NewComment, parentId: Option<Id>, content: string, newId: Id, now: int)
    requires nc.key in s.targets
    requires nc.parentAt.Some? ==> nc.parentAt.value < |s.comments|
    requires nc.parentAt.Some? <==> GivesParent(parentId)
    ensures var c := NewCommentOf(s, nc, parentId, content, newId, now);
      var a := Append(s, nc.parentAt, c);
      var n := |s.comments|;
      && |a.comments| == n + 1 && a.comments[n] == c
      && c.id == newId && c.user == nc.user && c.target == nc.key
      && c.content == Text.Trim(content) && c.channel == s.targets[nc.key].channel
      && (c.isReply <==> GivesParent(parentId)) && (c.isReply ==> c.parent == parentId) && (!c.isReply ==> c.parent.None?)
      && !c.isDeleted && !c.isEdited && !c.isPinned && c.repliesCount == 0
      && c.counters == Reactions.Counters(0, 0) && c.createdAt == now
      && a.targets == s.targets[nc.key := s.targets[nc.key].(commentsCount := s.targets[nc.key].commentsCount + 1)]
      && forall k :: 0 <= k < n ==>
           a.comments[k] == if Some(k) == nc.parentAt
                            then s.comments[k].(repliesCount := s.comments[k].repliesCount + 1)
                            else s.comments[k]
  {
    var c := NewCommentOf(s, nc, parentId, content, newId, now);
    var cs := BumpReplies(s.comments, nc.parentAt);
    assert Append(s, nc.parentAt, c).comments == cs + [c];
  }

  /** `$inc: { repliesCount: 1 }` on the parent of a new reply. */
  function BumpReplies(cs: seq<Comment>, parentAt: Option<nat>): (r: seq<Comment>)
    requires parentAt.Some? ==> parentAt.value < |cs|
    ensures |r| == |cs|
    ensures forall k :: 0 <= k < |cs| ==>
      r[k] == if Some(k) == parentAt then cs[k].(repliesCount := cs[k].repliesCount + 1) else cs[k]
  {
    match parentAt
    case None => cs
    case Some(j) => cs[j := cs[j].(repliesCount := cs[j].repliesCount + 1)]
  }

  /** The checks updateComment and deleteComment share after their own
      first steps: a well-formed id, an existing comment, and the caller as
      its author. */
  function CheckOwned(s: Store, userId: Id, commentId: Id): (r: Result<nat, Reply>)
    ensures !IsObjectId(commentId) ==> r == Failure(BadCommentId)
    ensures IsObjectId(commentId) && Find(s.comments, commentId).None? ==> r == Failure(CommentNotFound)
    ensures r.Success? <==>
      IsObjectId(commentId) && Find(s.comments, commentId).Some?
      && s.comments[Find(s.comments, commentId).value].user == userId
    ensures r.Success? ==> r.value == Find(s.comments, commentId).value
    ensures r.Failure? && IsObjectId(commentId) && Find(s.comments, commentId).Some? ==> r.error == NotAuthor
  {
    if !IsObjectId(commentId) then Failure(BadCommentId)
    else match Find(s.comments, commentId)
      case None => Failure(CommentNotFound)
      case Some(i) => if s.comments[i].user != userId then Failure(NotAuthor) else Success(i)
  }

  /** updateComment: only the author may edit; the content is trimmed and
      the comment marked edited, and nothing else changes. Content over
      `maxlength` fails the save (500) and changes nothing. A soft-deleted
      comment can still be edited. */
  function UpdateComment(s: Store, userId: Option<Id>, commentId: Id, content: string): (r: (Reply, Store))
    ensures !SignedIn(userId) ==> r == (Unauthenticated, s)
    ensures SignedIn(userId) && Blank(content) ==> r == (EmptyContent, s)
    ensures SignedIn(userId) && !Blank(content) ==>
      var o := CheckOwned(s, userId.value, commentId);
      && (o.Failure? ==> r == (o.error, s))
      && (o.Success? && TooLong(content) ==> r == (ContentTooLong, s))
      && (o.Success? && !TooLong(content) ==>
            var c := s.comments[o.value].(content := Text.Trim(content), isEdited := true);
            r == (CommentUpdated(c), s.(comments := s.comments[o.value := c])))
  {
    if !SignedIn(userId) then (Unauthenticated, s)
    else if Blank(content) then (EmptyContent, s)
    else match CheckOwned(s, userId.value, commentId)
      case Failure(e) => (e, s)
      case Success(i) =>
        if TooLong(content) then (ContentTooLong, s)
        else
          var c := s.comments[i].(content := Text.Trim(content), isEdited := true);
          (CommentUpdated(c), s.(comments := s.comments[i := c]))
  }

  /** `$inc: { commentsCount: -1 }` on the target, a no-op when the target
      is gone. */
  function DecTarget(targets: map<TargetKey, Target>, key: TargetKey): (r: map<TargetKey, Target>)
    ensures r.Keys == targets.Keys
    ensures key in targets ==> r[key] == targets[key].(commentsCount := targets[key].commentsCount - 1)
    ensures forall k :: k in targets && k != key ==> r[k] == targets[k]
  {
    if key in targets then targets[key := targets[key].(commentsCount := targets[key].commentsCount - 1)]
    else targets
  }

  /** `$inc: { repliesCount: -1 }` on the parent, a no-op when it is gone. */
  function DecParent(cs: seq<Comment>, parentId: Id): (r: seq<Comment>)
    ensures |r| == |cs|
    ensures forall k :: 0 <= k < |cs| ==>
      r[k] == if Some(k) == Find(cs, parentId) then cs[k].(repliesCount := cs[k].repliesCount - 1) else cs[k]
  {
    match Find(cs, parentId)
    case None => cs
    case Some(j) => cs[j := cs[j].(repliesCount := cs[j].repliesCount - 1)]
  }

  /** The soft delete and counter updates of deleteComment, applied to the
      comment at position i. */
  function SoftDelete(s: Store, i: nat): (r: Store)
    requires i < |s.comments|
    ensures |r.comments| == |s.comments|
    ensures r.comments[i].isDeleted && r.comments[i].content == DeletedContent
  {
    var c := s.comments[i];
    var cs := s.comments[i := c.(isDeleted := true, content := DeletedContent)];
    var cs' := if c.isReply && c.parent.Some? then DecParent(cs, c.parent.value) else cs;
    Store(cs', DecTarget(s.targets, c.target))
  }

  /** deleteComment as written: only the author may delete; the comment is
      soft-deleted and the counters are decremented, without looking at
      whether the comment was already deleted. */
  function DeleteComment(s: Store, userId: Option<Id>, commentId: Id): (r: (Reply, Store))
    ensures !SignedIn(userId) ==> r == (Unauthenticated, s)
    ensures SignedIn(userId) ==>
      var o := CheckOwned(s, userId.value, commentId);
      && (o.Failure? ==> r == (o.error, s))
      && (o.Success? ==> r == (CommentDeleted, SoftDelete(s, o.value)))
  {
    if !SignedIn(userId) then (Unauthenticated, s)
    else match CheckOwned(s, userId.value, commentId)
      case Failure(e) => (e, s)
      case Success(i) => (CommentDeleted, SoftDelete(s, i))
  }

  /** deleteComment with an already-deleted comment treated as not found,
      as the comment reaction handler treats it; the counters then move once
      per comment. */
  function DeleteCommentOnce(s: Store, userId: Option<Id>, commentId: Id): (r: (Reply, Store))
    ensures !SignedIn(userId) ==> r == (Unauthenticated, s)
    ensures SignedIn(userId) ==>
      var o := CheckOwned(s, userId.value, commentId);
      && (o.Failure? ==> r == (o.error, s))
      && (o.Success? && s.comments[o.value].isDeleted ==> r == (CommentNotFound, s))
      && (o.Success? && !s.comments[o.value].isDeleted ==> r == (CommentDeleted, SoftDelete(s, o.value)))
  {
    if !SignedIn(userId) then (Unauthenticated, s)
    else match CheckOwned(s, userId.value, commentId)
      case Failure(e) => (e, s)
      case Success(i) => if s.comments[i].isDeleted then (CommentNotFound, s) else (CommentDeleted, SoftDelete(s, i))
  }

  lemma CountWhereAppend(cs: seq<Comment>, c: Comment, p: Comment -> bool)
    ensures CountWhere(cs + [c], p) == CountWhere(cs, p) + (if p(c) then 1 else 0)
  {
    assert (cs + [c])[..|cs|] == cs;
  }

  /** Replacing one comment changes a count only by what p says of the old
      and the new comment. */
  lemma {:induction false} CountWhereUpdate(cs: seq<Comment>, i: nat, c: Comment, p: Comment -> bool)
    requires i < |cs|
    ensures CountWhere(cs[i := c], p) == CountWhere(cs, p) - (if p(cs[i]) then 1 else 0) + (if p(c) then 1 else 0)
    decreases |cs|
  {
    var last := |cs| - 1;
    if i < last {
      CountWhereUpdate(cs[..last], i, c, p);
      assert cs[i := c][..last] == cs[..last][i := c];
    } else {
      assert cs[i := c][..last] == cs[..last];
    }
  }

  /** Two sequences that p cannot tell apart position by position have the
      same count. */
  lemma {:induction false} CountWhereSame(a: seq<Comment>, b: seq<Comment>, p: Comment -> bool)
    requires |a| == |b|
    requires forall k :: 0 <= k < |a| ==> p(a[k]) == p(b[k])
    ensures CountWhere(a, p) == CountWhere(b, p)
    decreases |a|
  {
    if |a| > 0 {
      CountWhereSame(a[..|a| - 1], b[..|b| - 1], p);
    }
  }

  lemma {:induction false} CountWhereNone(cs: seq<Comment>, p: Comment -> bool)
    requires forall k :: 0 <= k < |cs| ==> !p(cs[k])
    ensures CountWhere(cs, p) == 0
    decreases |cs|
  {
    if |cs| > 0 {
      CountWhereNone(cs[..|cs| - 1], p);
    }
  }

  /** Two comment sequences agreeing on every field the counters and the
      invariant look at. */
  predicate SameShape(a: seq<Comment>, b: seq<Comment>) {
    |a| == |b| &&
    forall k :: 0 <= k < |a| ==>
      a[k].id == b[k].id && a[k].target == b[k].target && a[k].parent == b[k].parent
      && a[k].isReply == b[k].isReply && a[k].isDeleted == b[k].isDeleted
  }

  lemma SameShapeCounts(a: seq<Comment>, b: seq<Comment>)
    requires SameShape(a, b)
    ensures forall key :: CountWhere(a, LiveOn(key)) == CountWhere(b, LiveOn(key))
    ensures forall id :: CountWhere(a, LiveReplyTo(id)) == CountWhere(b, LiveReplyTo(id))
  {
    forall key ensures CountWhere(a, LiveOn(key)) == CountWhere(b, LiveOn(key)) {
      CountWhereSame(a, b, LiveOn(key));
    }
    forall id ensures CountWhere(a, LiveReplyTo(id)) == CountWhere(b, LiveReplyTo(id)) {
      CountWhereSame(a, b, LiveReplyTo(id));
    }
  }

  /** No comment is a reply to an id that no comment has. */
  lemma NoRepliesToUnknown(cs: seq<Comment>, id: Id)
    requires ParentsEarlier(cs)
    requires forall k :: 0 <= k < |cs| ==> cs[k].id != id
    ensures CountWhere(cs, LiveReplyTo(id)) == 0
  {
    assert forall k :: 0 <= k < |cs| ==> !LiveReplyTo(id)(cs[k]);
    CountWhereNone(cs, LiveReplyTo(id));
  }

  lemma BumpRepliesShape(cs: seq<Comment>, parentAt: Option<nat>)
    requires parentAt.Some? ==> parentAt.value < |cs|
    ensures SameShape(cs, BumpReplies(cs, parentAt))
  {
  }

  /** Creating a comment keeps the counters in agreement with the
      comments. */
  lemma CreateKeepsConsistent(s: Store, userId: Option<Id>, content: string, targetType: string, targetId: string,
                              parentId: Option<Id>, newId: Id, now: int)
    requires Consistent(s)
    requires forall k :: 0 <= k < |s.comments| ==> s.comments[k].id != newId
    ensures Consistent(CreateComment(s, userId, content, targetType, targetId, parentId, newId, now).1)
  {
    var ch := CheckCreate(s, userId, content, targetType, targetId, parentId);
    if ch.Success? {
      var nc := ch.value;
      var c := NewCommentOf(s, nc, parentId, content, newId, now);
      AppendKeepsConsistent(s, nc.parentAt, c);
    }
  }

  /** Appending a fresh live comment with no replies keeps the counters in
      agreement with the comments. */
  lemma AppendKeepsConsistent(s: Store, parentAt: Option<nat>, c: Comment)
    requires Consistent(s)
    requires forall k :: 0 <= k < |s.comments| ==> s.comments[k].id != c.id
    requires c.target in s.targets && !c.isDeleted && c.repliesCount == 0
    requires (c.isReply <==> c.parent.Some?) && (c.parent.Some? <==> parentAt.Some?)
    requires parentAt.Some? ==> parentAt.value < |s.comments| && s.comments[parentAt.value].id == c.parent.value
    ensures Consistent(Append(s, parentAt, c))
  {
    var cs := s.comments;
    var cs' := BumpReplies(cs, parentAt) + [c];
    BumpRepliesShape(cs, parentAt);
    assert forall k :: 0 <= k < |cs| ==> cs'[k].id == cs[k].id && cs'[k].parent == cs[k].parent && cs'[k].isReply == cs[k].isReply;
    AppendParents(cs, cs', c, parentAt);
    AppendTargetCounts(cs, s.targets, parentAt, c);
    AppendReplyCounts(cs, parentAt, c);
    assert UniqueIds(cs') by {
      forall i, j | 0 <= i < j < |cs'| ensures cs'[i].id != cs'[j].id {
        if j < |cs| { assert cs[i].id != cs[j].id; }
      }
    }
    assert ReplyFlags(cs') by {
      forall k | 0 <= k < |cs'| ensures (cs'[k].isReply <==> cs'[k].parent.Some?) {
        if k < |cs| { assert cs[k].isReply <==> cs[k].parent.Some?; }
      }
    }
    assert Append(s, parentAt, c).comments == cs';
  }

  lemma AppendParents(cs: seq<Comment>, cs': seq<Comment>, c: Comment, parentAt: Option<nat>)
    requires ParentsEarlier(cs)
    requires |cs'| == |cs| + 1 && cs'[|cs|] == c
    requires forall k :: 0 <= k < |cs| ==> cs'[k].id == cs[k].id && cs'[k].parent == cs[k].parent
    requires (c.parent.Some? <==> parentAt.Some?)
    requires parentAt.Some? ==> parentAt.value < |cs| && cs[parentAt.value].id == c.parent.value
    ensures ParentsEarlier(cs')
  {
    var n := |cs|;
    forall k | 0 <= k < n + 1 && cs'[k].parent.Some?
      ensures exists j :: 0 <= j < k && cs'[j].id == cs'[k].parent.value
    {
      if k < n {
        var j :| 0 <= j < k && cs[j].id == cs[k].parent.value;
        assert cs'[j].id == cs[j].id;
      } else {
        var j := parentAt.value;
        assert cs'[j].id == cs[j].id;
      }
    }
  }

  lemma AppendTargetCounts(cs: seq<Comment>, targets: map<TargetKey, Target>, parentAt: Option<nat>, c: Comment)
    requires TargetCountsMatch(cs, targets)
    requires c.target in targets && !c.isDeleted
    requires parentAt.Some? ==> parentAt.value < |cs|
    ensures TargetCountsMatch(BumpReplies(cs, parentAt) + [c],
                              targets[c.target := targets[c.target].(commentsCount := targets[c.target].commentsCount + 1)])
  {
    var bumped := BumpReplies(cs, parentAt);
    BumpRepliesShape(cs, parentAt);
    forall key | key in targets
      ensures CountWhere(bumped + [c], LiveOn(key)) == CountWhere(cs, LiveOn(key)) + (if key == c.target then 1 else 0)
    {
      CountWhereSame(cs, bumped, LiveOn(key));
      CountWhereAppend(bumped, c, LiveOn(key));
    }
  }

  lemma AppendReplyCounts(cs: seq<Comment>, parentAt: Option<nat>, c: Comment)
    requires ReplyCountsMatch(cs) && UniqueIds(cs) && ParentsEarlier(cs)
    requires forall k :: 0 <= k < |cs| ==> cs[k].id != c.id
    requires !c.isDeleted && c.repliesCount == 0
    requires c.parent.Some? <==> parentAt.Some?
    requires parentAt.Some? ==> parentAt.value < |cs| && cs[parentAt.value].id == c.parent.value
    ensures ReplyCountsMatch(BumpReplies(cs, parentAt) + [c])
  {
    var n := |cs|;
    var bumped := BumpReplies(cs, parentAt);
    var cs' := bumped + [c];
    BumpRepliesShape(cs, parentAt);
    forall i | 0 <= i < n + 1
      ensures cs'[i].repliesCount == CountWhere(cs', LiveReplyTo(cs'[i].id))
    {
      var x := cs'[i].id;
      CountWhereSame(cs, bumped, LiveReplyTo(x));
      CountWhereAppend(bumped, c, LiveReplyTo(x));
      if i == n {
        NoRepliesToUnknown(cs, c.id);
      }
    }
  }

  /** Editing a comment keeps the counters in agreement with the
      comments. */
  lemma UpdateKeepsConsistent(s: Store, userId: Option<Id>, commentId: Id, content: string)
    requires Consistent(s)
    ensures Consistent(UpdateComment(s, userId, commentId, content).1)
  {
    var r := UpdateComment(s, userId, commentId, content);
    if !SignedIn(userId) || Blank(content) {
      assert r.1 == s;
    } else {
      var o := CheckOwned(s, userId.value, commentId);
      if o.Failure? || TooLong(content) {
        assert r.1 == s;
      } else {
        var i := o.value;
        var c := s.comments[i].(content := Text.Trim(content), isEdited := true);
        var cs' := s.comments[i := c];
        assert r.1 == s.(comments := cs');
        EditKeepsShape(s.comments, i, c);
        SameShapeKeepsConsistent(s, cs');
      }
    }
  }

  lemma EditKeepsShape(cs: seq<Comment>, i: nat, c: Comment)
    requires i < |cs|
    requires c == cs[i].(content := c.content, isEdited := c.isEdited)
    ensures SameShape(cs, cs[i := c])
    ensures forall k :: 0 <= k < |cs| ==> cs[i := c][k].repliesCount == cs[k].repliesCount
  {
  }

  /** Rewriting fields the invariant does not read (content, edit and pin
      flags, reaction counters) keeps the store consistent. */
  lemma SameShapeKeepsConsistent(s: Store, cs': seq<Comment>)
    requires Consistent(s) && SameShape(s.comments, cs')
    requires forall k :: 0 <= k < |cs'| ==> cs'[k].repliesCount == s.comments[k].repliesCount
    ensures Consistent(s.(comments := cs'))
  {
    var cs := s.comments;
    SameShapeCounts(cs, cs');
    assert UniqueIds(cs') by {
      forall i, j | 0 <= i < j < |cs'| ensures cs'[i].id != cs'[j].id {
        assert cs[i].id != cs[j].id;
      }
    }
    assert ParentsEarlier(cs') by {
      forall k | 0 <= k < |cs'| && cs'[k].parent.Some?
        ensures exists j :: 0 <= j < k && cs'[j].id == cs'[k].parent.value
      {
        var j :| 0 <= j < k && cs[j].id == cs[k].parent.value;
        assert cs'[j].id == cs[j].id;
      }
    }
    assert ReplyFlags(cs') by {
      forall k | 0 <= k < |cs'| ensures (cs'[k].isReply <==> cs'[k].parent.Some?) {
        assert cs[k].isReply <==> cs[k].parent.Some?;
      }
    }
    assert TargetCountsMatch(cs', s.targets) by {
      forall key | key in s.targets ensures s.targets[key].commentsCount == CountWhere(cs', LiveOn(key)) {
        assert s.targets[key].commentsCount == CountWhere(cs, LiveOn(key));
      }
    }
    assert ReplyCountsMatch(cs') by {
      forall i | 0 <= i < |cs'| ensures cs'[i].repliesCount == CountWhere(cs', LiveReplyTo(cs'[i].id)) {
        assert cs[i].repliesCount == CountWhere(cs, LiveReplyTo(cs[i].id));
      }
    }
  }

  /** Lookups by id see only ids, so sequences with the same ids find the
      same position. */
  lemma {:induction false} FindSameIds(a: seq<Comment>, b: seq<Comment>, id: Id)
    requires |a| == |b| && forall k :: 0 <= k < |a| ==> a[k].id == b[k].id
    ensures Find(a, id) == Find(b, id)
    decreases |a|
  {
    if |a| > 0 && a[0].id != id {
      FindSameIds(a[1..], b[1..], id);
    }
  }

  /** The comment the delete handlers soft-delete, and the counters they
      decrement, as seen by the invariant. */
  lemma SoftDeleteCounts(s: Store, i: nat)
    requires UniqueIds(s.comments) && ReplyFlags(s.comments) && i < |s.comments|
    ensures var cs := s.comments;
      var r := SoftDelete(s, i);
      && (forall k :: 0 <= k < |cs| ==>
            (r.comments[k].id == cs[k].id && r.comments[k].parent == cs[k].parent
             && r.comments[k].isReply == cs[k].isReply && r.comments[k].user == cs[k].user
             && r.comments[k].target == cs[k].target))
      && (forall key :: CountWhere(r.comments, LiveOn(key)) ==
            CountWhere(cs, LiveOn(key)) - (if LiveOn(key)(cs[i]) then 1 else 0))
      && (forall x :: CountWhere(r.comments, LiveReplyTo(x)) ==
            CountWhere(cs, LiveReplyTo(x)) - (if LiveReplyTo(x)(cs[i]) then 1 else 0))
      && (forall k :: 0 <= k < |cs| ==>
            r.comments[k].repliesCount == cs[k].repliesCount - (if cs[i].parent == Some(cs[k].id) then 1 else 0))
      && r.targets == DecTarget(s.targets, cs[i].target)
  {
    SoftDeleteLiveCounts(s, i);
    SoftDeleteRepliesCounts(s, i);
  }

  lemma SoftDeleteLiveCounts(s: Store, i: nat)
    requires i < |s.comments|
    ensures var cs := s.comments;
      var r := SoftDelete(s, i);
      && (forall key :: CountWhere(r.comments, LiveOn(key)) ==
            CountWhere(cs, LiveOn(key)) - (if LiveOn(key)(cs[i]) then 1 else 0))
      && (forall x :: CountWhere(r.comments, LiveReplyTo(x)) ==
            CountWhere(cs, LiveReplyTo(x)) - (if LiveReplyTo(x)(cs[i]) then 1 else 0))
  {
    var cs := s.comments;
    var c := cs[i];
    var d := c.(isDeleted := true, content := DeletedContent);
    var cs1 := cs[i := d];
    var r := SoftDelete(s, i);
    assert SameShape(cs1, r.comments);
    SameShapeCounts(cs1, r.comments);
    forall key ensures CountWhere(cs1, LiveOn(key)) == CountWhere(cs, LiveOn(key)) - (if LiveOn(key)(c) then 1 else 0) {
      CountWhereUpdate(cs, i, d, LiveOn(key));
    }
    forall x ensures CountWhere(cs1, LiveReplyTo(x)) == CountWhere(cs, LiveReplyTo(x)) - (if LiveReplyTo(x)(c) then 1 else 0) {
      CountWhereUpdate(cs, i, d, LiveReplyTo(x));
    }
  }

  lemma SoftDeleteRepliesCounts(s: Store, i: nat)
    requires UniqueIds(s.comments) && ReplyFlags(s.comments) && i < |s.comments|
    ensures var cs := s.comments;
      var r := SoftDelete(s, i);
      && (forall k :: 0 <= k < |cs| ==>
            (r.comments[k].id == cs[k].id && r.comments[k].parent == cs[k].parent
             && r.comments[k].isReply == cs[k].isReply && r.comments[k].user == cs[k].user
             && r.comments[k].target == cs[k].target))
      && (forall k :: 0 <= k < |cs| ==>
            r.comments[k].repliesCount == cs[k].repliesCount - (if cs[i].parent == Some(cs[k].id) then 1 else 0))
      && r.targets == DecTarget(s.targets, cs[i].target)
  {
    var cs := s.comments;
    var c := cs[i];
    var cs1 := cs[i := c.(isDeleted := true, content := DeletedContent)];
    var r := SoftDelete(s, i);
    if c.isReply && c.parent.Some? {
      FindSameIds(cs1, cs, c.parent.value);
      forall k | 0 <= k < |cs|
        ensures r.comments[k].repliesCount == cs[k].repliesCount - (if c.parent == Some(cs[k].id) then 1 else 0)
      {
        if c.parent == Some(cs[k].id) {
          assert Find(cs, c.parent.value) == Some(k);
        }
      }
    }
  }

  /** Soft-deleting a live comment keeps the counters in agreement with the
      comments. */
  lemma SoftDeleteLiveKeepsConsistent(s: Store, i: nat)
    requires Consistent(s) && i < |s.comments| && !s.comments[i].isDeleted
    ensures Consistent(SoftDelete(s, i))
  {
    SoftDeleteCounts(s, i);
    var r := SoftDelete(s, i);
    assert UniqueIds(r.comments);
    assert ParentsEarlier(r.comments) by {
      forall k | 0 <= k < |r.comments| && r.comments[k].parent.Some?
        ensures exists j :: 0 <= j < k && r.comments[j].id == r.comments[k].parent.value
      {
        var j :| 0 <= j < k && s.comments[j].id == s.comments[k].parent.value;
        assert r.comments[j].id == s.comments[j].id;
      }
    }
  }

  /** The corrected delete keeps the counters in agreement with the
      comments on every request. */
  lemma DeleteOnceKeepsConsistent(s: Store, userId: Option<Id>, commentId: Id)
    requires Consistent(s)
    ensures Consistent(DeleteCommentOnce(s, userId, commentId).1)
  {
    if SignedIn(userId) && CheckOwned(s, userId.value, commentId).Success? {
      var i := CheckOwned(s, userId.value, commentId).value;
      if !s.comments[i].isDeleted {
        SoftDeleteLiveKeepsConsistent(s, i);
      }
    }
  }

  /** The corrected delete is idempotent: a second request for the same
      comment is answered 404 and changes nothing. */
  lemma DeleteOnceTwice(s: Store, userId: Option<Id>, commentId: Id)
    requires UniqueIds(s.comments) && ReplyFlags(s.comments)
    ensures var once := DeleteCommentOnce(s, userId, commentId);
      once.0 == CommentDeleted ==> DeleteCommentOnce(once.1, userId, commentId) == (CommentNotFound, once.1)
  {
    if SignedIn(userId) && CheckOwned(s, userId.value, commentId).Success? {
      var i := CheckOwned(s, userId.value, commentId).value;
      if !s.comments[i].isDeleted {
        SoftDeleteCounts(s, i);
        FindSameIds(SoftDelete(s, i).comments, s.comments, commentId);
      }
    }
  }

  /** On a live comment the two deletes agree. */
  lemma DeleteOnceAgreesWhenLive(s: Store, userId: Option<Id>, commentId: Id)
    requires SignedIn(userId) && CheckOwned(s, userId.value, commentId).Success?
    requires !s.comments[CheckOwned(s, userId.value, commentId).value].isDeleted
    ensures DeleteCommentOnce(s, userId, commentId) == DeleteComment(s, userId, commentId)
  {
  }

  /** The handler as written: a second delete of the same comment by its
      author decrements the target's commentsCount (and the parent's
      repliesCount) again, so a consistent store becomes inconsistent. */
  lemma DeleteTwiceBreaksConsistency(s: Store, userId: Option<Id>, commentId: Id)
    requires Consistent(s) && SignedIn(userId) && CheckOwned(s, userId.value, commentId).Success?
    requires var i := CheckOwned(s, userId.value, commentId).value;
      !s.comments[i].isDeleted && s.comments[i].target in s.targets
    ensures var once := DeleteComment(s, userId, commentId).1;
      && Consistent(once)
      && !Consistent(DeleteComment(once, userId, commentId).1)
  {
    var i := CheckOwned(s, userId.value, commentId).value;
    var key := s.comments[i].target;
    var once := SoftDelete(s, i);
    SoftDeleteLiveKeepsConsistent(s, i);
    SoftDeleteCounts(s, i);
    FindSameIds(once.comments, s.comments, commentId);
    assert CheckOwned(once, userId.value, commentId) == Success(i);
    var twice := SoftDelete(once, i);
    SoftDeleteCounts(once, i);
    assert !LiveOn(key)(once.comments[i]);
    assert twice.targets[key].commentsCount == CountWhere(twice.comments, LiveOn(key)) - 1;
  }

  // ----- Listings -----

  /** The comments satisfying p, in store order. */
  function Filter(cs: seq<Comment>, p: Comment -> bool): (r: seq<Comment>)
    ensures |r| == CountWhere(cs, p)
    ensures forall x :: x in r <==> x in cs && p(x)
  {
    if |cs| == 0 then []
    else
      var n := |cs| - 1;
      assert cs == cs[..n] + [cs[n]];
      Filter(cs[..n], p) + (if p(cs[n]) then [cs[n]] else [])
  }

  /** The query of getComments: live top-level comments on the target. The
      type is compared as the raw route text. */
  function TopLevelOn(targetType: string, targetId: Id): Comment -> bool {
    (c: Comment) => ContentTypeName(c.target.0) == targetType && c.target.1 == targetId
                    && !c.isReply && !c.isDeleted
  }

  /** sort({ isPinned: -1, createdAt: -1 }) */
  function PinnedKey(c: Comment): (int, int) {
    (if c.isPinned then 1 else 0, c.createdAt)
  }

  /** sort({ createdAt: 1 }), written as a descending sort on the negated
      time. */
  function OldestKey(c: Comment): int {
    -c.createdAt
  }

  datatype Listing = Listing(items: seq<Comment>, page: int, limit: int, total: nat, pages: int)

  datatype ListError =
    | BadListId    // 400
    | ListFailed   // 500: the store rejects a negative skip

  /** getComments: page and limit default to 1 and 20; the target id must
      be an ObjectId; pinned comments first, then newest first. */
  function GetComments(s: Store, targetType: string, targetId: Id, page: Option<int>, limit: Option<int>)
    : (r: Result<Listing, ListError>)
    ensures r == Failure(BadListId) <==> !IsObjectId(targetId)
    ensures r == Failure(ListFailed) <==>
              IsObjectId(targetId) && Paging.Skip(Paging.OrDefault(page, 1), Paging.OrDefault(limit, 20)) < 0
    ensures r.Success? ==> r.value.page == Paging.OrDefault(page, 1) && r.value.limit == Paging.OrDefault(limit, 20)
    ensures r.Success? ==> forall c :: c in r.value.items ==> c in s.comments && TopLevelOn(targetType, targetId)(c)
    ensures r.Success? ==> Paging.SortedDescBy(r.value.items, PinnedKey)
    ensures r.Success? ==> r.value.total == CountWhere(s.comments, TopLevelOn(targetType, targetId))
    ensures r.Success? ==> r.value.limit != 0 && r.value.pages == Paging.TotalPages(r.value.total, r.value.limit)
    ensures r.Success? ==>
      Success(r.value.items) ==
        Paging.SkipLimit(Paging.SortDescBy(Filter(s.comments, TopLevelOn(targetType, targetId)), PinnedKey),
                         Paging.Skip(r.value.page, r.value.limit), r.value.limit)
  {
    var p := Paging.OrDefault(page, 1);
    var l := Paging.OrDefault(limit, 20);
    if !IsObjectId(targetId) then Failure(BadListId)
    else
      var matching := Filter(s.comments, TopLevelOn(targetType, targetId));
      var sorted := Paging.SortDescBy(matching, PinnedKey);
      match Paging.SkipLimit(sorted, Paging.Skip(p, l), l)
      case Failure(_) => Failure(ListFailed)
      case Success(items) =>
        Paging.SkipLimitWithin(sorted, Paging.Skip(p, l), l);
        Paging.PermutationWithin(sorted, matching);
        Paging.SkipLimitSortedDescBy(sorted, Paging.Skip(p, l), l, PinnedKey);
        Success(Listing(items, p, l, |matching|, Paging.TotalPages(|matching|, l)))
  }

  /** getReplies: page and limit default to 1 and 10; the comment id must be
      an ObjectId; the live replies, oldest first. An unknown or deleted
      parent yields an empty list, not an error. */
  function GetReplies(s: Store, commentId: Id, page: Option<int>, limit: Option<int>)
    : (r: Result<Listing, ListError>)
    ensures r == Failure(BadListId) <==> !IsObjectId(commentId)
    ensures r == Failure(ListFailed) <==>
              IsObjectId(commentId) && Paging.Skip(Paging.OrDefault(page, 1), Paging.OrDefault(limit, 10)) < 0
    ensures r.Success? ==> r.value.page == Paging.OrDefault(page, 1) && r.value.limit == Paging.OrDefault(limit, 10)
    ensures r.Success? ==> forall c :: c in r.value.items ==> c in s.comments && LiveReplyTo(commentId)(c)
    ensures r.Success? ==> Paging.SortedDesc(r.value.items, OldestKey)
    ensures r.Success? ==> r.value.total == CountWhere(s.comments, LiveReplyTo(commentId))
    ensures r.Success? ==> r.value.limit != 0 && r.value.pages == Paging.TotalPages(r.value.total, r.value.limit)
    ensures r.Success? ==>
      Success(r.value.items) ==
        Paging.SkipLimit(Paging.SortDesc(Filter(s.comments, LiveReplyTo(commentId)), OldestKey),
                         Paging.Skip(r.value.page, r.value.limit), r.value.limit)
  {
    var p := Paging.OrDefault(page, 1);
    var l := Paging.OrDefault(limit, 10);
    if !IsObjectId(commentId) then Failure(BadListId)
    else
      var matching := Filter(s.comments, LiveReplyTo(commentId));
      var sorted := Paging.SortDesc(matching, OldestKey);
      match Paging.SkipLimit(sorted, Paging.Skip(p, l), l)
      case Failure(_) => Failure(ListFailed)
      case Success(items) =>
        Paging.SkipLimitWithin(sorted, Paging.Skip(p, l), l);
        Paging.PermutationWithin(sorted, matching);
        Paging.SkipLimitSortedDesc(sorted, Paging.Skip(p, l), l, OldestKey);
        Success(Listing(items, p, l, |matching|, Paging.TotalPages(|matching|, l)))
  }

  /** The replies listing runs oldest first. */
  lemma RepliesOldestFirst(s: Store, commentId: Id, page: Option<int>, limit: Option<int>)
    requires GetReplies(s, commentId, page, limit).Success?
    ensures var items := GetReplies(s, commentId, page, limit).value.items;
      forall i, j :: 0 <= i < j < |items| ==> items[i].createdAt <= items[j].createdAt
  {
    var items := GetReplies(s, commentId, page, limit).value.items;
    forall i, j | 0 <= i < j < |items| ensures items[i].createdAt <= items[j].createdAt {
      assert OldestKey(items[i]) >= OldestKey(items[j]);
    }
  }

  /** In the comment listing every pinned comment comes before every
      unpinned one, and among equals newer comes first. */
  lemma PinnedFirst(s: Store, targetType: string, targetId: Id, page: Option<int>, limit: Option<int>)
    requires GetComments(s, targetType, targetId, page, limit).Success?
    ensures var items := GetComments(s, targetType, targetId, page, limit).value.items;
      forall i, j :: 0 <= i < j < |items| ==>
        (items[j].isPinned ==> items[i].isPinned)
        && (items[i].isPinned == items[j].isPinned ==> items[i].createdAt >= items[j].createdAt)
  {
    var items := GetComments(s, targetType, targetId, page, limit).value.items;
    forall i, j | 0 <= i < j < |items|
      ensures items[j].isPinned ==> items[i].isPinned
      ensures items[i].isPinned == items[j].isPinned ==> items[i].createdAt >= items[j].createdAt
    {
      assert Paging.LexGeq(PinnedKey(items[i]), PinnedKey(items[j]));
    }
  }

  /** Counting is monotone in the predicate. */
  lemma {:induction false} CountWhereMono(cs: seq<Comment>, p: Comment -> bool, q: Comment -> bool)
    requires forall c :: c in cs && p(c) ==> q(c)
    ensures CountWhere(cs, p) <= CountWhere(cs, q)
    decreases |cs|
  {
    if |cs| > 0 {
      var n := |cs| - 1;
      assert forall c :: c in cs[..n] ==> c in cs;
      CountWhereMono(cs[..n], p, q);
    }
  }

  /** In a consistent store the listing's total never exceeds the target's
      commentsCount, which also counts replies. */
  lemma ListingTotalWithinCount(s: Store, t: ContentType, targetId: Id, page: Option<int>, limit: Option<int>)
    requires Consistent(s) && (t, targetId) in s.targets
    requires GetComments(s, ContentTypeName(t), targetId, page, limit).Success?
    ensures GetComments(s, ContentTypeName(t), targetId, page, limit).value.total <= s.targets[(t, targetId)].commentsCount
  {
    forall c | c in s.comments && TopLevelOn(ContentTypeName(t), targetId)(c)
      ensures LiveOn((t, targetId))(c)
    {
      ContentTypeNameInjective(c.target.0, t);
    }
    CountWhereMono(s.comments, TopLevelOn(ContentTypeName(t), targetId), LiveOn((t, targetId)));
  }

  lemma ContentTypeNameInjective(a: ContentType, b: ContentType)
    requires ContentTypeName(a) == ContentTypeName(b)
    ensures a == b
  {
    ContentTypeRoundTrip(a);
    ContentTypeRoundTrip(b);
  }

  /** In a consistent store the replies listing's total is the parent's
      repliesCount. */
  lemma RepliesTotalIsRepliesCount(s: Store, i: nat, page: Option<int>, limit: Option<int>)
    requires Consistent(s) && i < |s.comments|
    requires GetReplies(s, s.comments[i].id, page, limit).Success?
    ensures GetReplies(s, s.comments[i].id, page, limit).value.total == s.comments[i].repliesCount
  {
  }
}

=== FILE: content.dfy ===
/** What the engagement controllers share: the three content types a
    comment, reaction or save can point at, and the store's object-id
    syntax check. */
module Content {
  import opened Wrappers
  import NotificationModel

  type Id = string

  /** The content collections: videos, shorts and posts. */
  datatype ContentType = Video | Short | Post

  function ContentTypeName(t: ContentType): string {
    match t
    case Video => "Video"
    case Short => "Short"
    case Post => "Post"
  }

  /** The `["Video", "Short", "Post"].includes(targetType)` check. */
  function ParseContentType(s: string): (r: Option<ContentType>)
    ensures r.Some? ==> ContentTypeName(r.value) == s
    ensures r.None? ==> forall t: ContentType :: ContentTypeName(t) != s
  {
    if s == "Video" then Some(Video)
    else if s == "Short" then Some(Short)
    else if s == "Post" then Some(Post)
    else None
  }

  lemma ContentTypeRoundTrip(t: ContentType)
    ensures ParseContentType(ContentTypeName(t)) == Some(t)
  {
  }

  /** The notification target type of the same name. */
  function AsTargetType(t: ContentType): (r: NotificationModel.TargetType)
    ensures r != NotificationModel.Comment
    ensures NotificationModel.TargetTypeName(r) == ContentTypeName(t)
  {
    match t
    case Video => NotificationModel.Video
    case Short => NotificationModel.Short
    case Post => NotificationModel.Post
  }

  /** `req.userId` is truthy: the auth middleware set a non-empty id. */
  predicate SignedIn(userId: Option<Id>) {
    userId.Some? && userId.value != ""
  }

  predicate IsHexDigit(c: char) {
    ('0' <= c <= '9') || ('a' <= c <= 'f') || ('A' <= c <= 'F')
  }

  /** The object-id syntax check: a 24-digit hexadecimal string. */
  predicate IsObjectId(s: string) {
    |s| == 24 && forall i :: 0 <= i < |s| ==> IsHexDigit(s[i])
  }
}

=== FILE: device_tokens.dfy ===
/** The device-token registry: one record per (user, device) holding the
    push token of that device, unique across all users, with an active
    flag. Covers the two store operations the dispatcher module exports
    (updateUserToken, removeUserToken), the deactivation of failed tokens,
    the active-token query, and the register/unregister request checks. */
module DeviceTokens {
  import opened Wrappers

  type UserId = string

  datatype DeviceType = Ios | Android | Web

  datatype DeviceToken = DeviceToken(
    user: UserId,
    fcmToken: string,
    deviceType: DeviceType,
    deviceId: string,
    isActive: bool,
    lastUsedAt: int)

  /** The collection in its natural order. */
  type Store = seq<DeviceToken>

  /** The two unique indexes: the token value across all records, and the
      (user, deviceId) pair. */
  predicate Unique(s: Store) {
    forall i, j :: 0 <= i < j < |s| ==>
      s[i].fcmToken != s[j].fcmToken && (s[i].user != s[j].user || s[i].deviceId != s[j].deviceId)
  }

  predicate HasKey(t: DeviceToken, user: UserId, deviceId: string) {
    t.user == user && t.deviceId == deviceId
  }

  /** The position of the record for (user, deviceId), if there is one. */
  function FindKey(s: Store, user: UserId, deviceId: string): (r: Option<nat>)
    ensures r.Some? ==> r.value < |s| && HasKey(s[r.value], user, deviceId)
    ensures r.None? ==> forall i :: 0 <= i < |s| ==> !HasKey(s[i], user, deviceId)
  {
    if |s| == 0 then None
    else if HasKey(s[|s| - 1], user, deviceId) then Some(|s| - 1)
    else FindKey(s[..|s| - 1], user, deviceId)
  }

  /** Whether some record other than the one at `except` holds the token. */
  predicate TokenHeldElsewhere(s: Store, token: string, except: Option<nat>) {
    exists i :: 0 <= i < |s| && s[i].fcmToken == token && Some(i) != except
  }

  datatype TokenError = DuplicateToken

  /** updateUserToken: an upsert keyed on (user, deviceId) that sets the
      token and device type, reactivates the record and stamps lastUsedAt.
      The token's unique index rejects a token already held by a different
      record, and then nothing changes. */
  function Upsert(s: Store, user: UserId, token: string, deviceType: DeviceType,
                  deviceId: string, now: int): (r: Result<Store, TokenError>)
    requires Unique(s)
    ensures r.Failure? <==> TokenHeldElsewhere(s, token, FindKey(s, user, deviceId))
    ensures r.Success? ==> Unique(r.value)
    ensures r.Success? ==>
      var k := FindKey(r.value, user, deviceId);
      && k.Some?
      && r.value[k.value] == DeviceToken(user, token, deviceType, deviceId, true, now)
      && (forall i :: 0 <= i < |r.value| && i != k.value ==> r.value[i] in s)
      && (forall t :: t in s && !HasKey(t, user, deviceId) ==> t in r.value)
  {
    var k := FindKey(s, user, deviceId);
    if TokenHeldElsewhere(s, token, k) then Failure(DuplicateToken)
    else
      var rec := DeviceToken(user, token, deviceType, deviceId, true, now);
      match k
      case Some(i) =>
        var r := s[i := rec];
        assert forall t :: t in s && !HasKey(t, user, deviceId) ==> t in r by {
          forall t | t in s && !HasKey(t, user, deviceId) ensures t in r {
            var j :| 0 <= j < |s| && s[j] == t;
            assert r[j] == t;
          }
        }
        assert FindKey(r, user, deviceId) == Some(i) by { FindKeyUnique(r, user, deviceId, i); }
        Success(r)
      case None =>
        var r := s + [rec];
        assert r[|r| - 1] == rec;
        Success(r)
  }

  /** Under the unique indexes the record for a key is the only one. */
  lemma FindKeyUnique(s: Store, user: UserId, deviceId: string, i: nat)
    requires i < |s| && HasKey(s[i], user, deviceId)
    requires forall j :: 0 <= j < |s| && j != i ==> !HasKey(s[j], user, deviceId)
    ensures FindKey(s, user, deviceId) == Some(i)
  {
  }

  /** removeUserToken: deleteOne on (user, deviceId); other records keep
      their order. */
  function Remove(s: Store, user: UserId, deviceId: string): (r: Store)
    ensures |r| <= |s|
    ensures forall i :: 0 <= i < |r| ==> !HasKey(r[i], user, deviceId) && r[i] in s
    ensures forall t :: t in s && !HasKey(t, user, deviceId) ==> t in r
  {
    if |s| == 0 then []
    else
      var rest := Remove(s[1..], user, deviceId);
      assert forall t :: t in s ==> t == s[0] || t in s[1..];
      if HasKey(s[0], user, deviceId) then rest else [s[0]] + rest
  }

  /** Removing keeps both unique indexes. */
  lemma {:induction false} RemoveKeepsUnique(s: Store, user: UserId, deviceId: string)
    requires Unique(s)
    ensures Unique(Remove(s, user, deviceId))
    decreases |s|
  {
    if |s| > 0 {
      assert Unique(s[1..]) by {
        forall i, j | 0 <= i < j < |s[1..]|
          ensures s[1..][i].fcmToken != s[1..][j].fcmToken
          ensures s[1..][i].user != s[1..][j].user || s[1..][i].deviceId != s[1..][j].deviceId
        {
          assert s[1..][i] == s[i + 1] && s[1..][j] == s[j + 1];
        }
      }
      RemoveKeepsUnique(s[1..], user, deviceId);
      var rest := Remove(s[1..], user, deviceId);
      if !HasKey(s[0], user, deviceId) {
        var r := [s[0]] + rest;
        forall i, j | 0 <= i < j < |r|
          ensures r[i].fcmToken != r[j].fcmToken
          ensures r[i].user != r[j].user || r[i].deviceId != r[j].deviceId
        {
          if i == 0 {
            assert r[j] == rest[j - 1] && rest[j - 1] in s[1..];
            var m :| 0 <= m < |s[1..]| && s[1..][m] == r[j];
            assert s[m + 1] == r[j];
          }
        }
      }
    }
  }

  /** Removing a pair and upserting it again restores a record for it. */
  lemma RemoveThenUpsert(s: Store, user: UserId, token: string, deviceType: DeviceType, deviceId: string, now: int)
    requires Unique(s)
    requires forall i :: 0 <= i < |s| ==> s[i].fcmToken != token
    ensures Unique(Remove(s, user, deviceId))
    ensures var r := Upsert(Remove(s, user, deviceId), user, token, deviceType, deviceId, now);
      r.Success? && DeviceToken(user, token, deviceType, deviceId, true, now) in r.value
  {
    RemoveKeepsUnique(s, user, deviceId);
    var s' := Remove(s, user, deviceId);
    assert !TokenHeldElsewhere(s', token, FindKey(s', user, deviceId)) by {
      forall i | 0 <= i < |s'| ensures s'[i].fcmToken != token {
        assert s'[i] in s;
      }
    }
  }

  /** The tokens a push is addressed to: the user's active tokens, in store
      order. */
  function ActiveTokens(s: Store, user: UserId): (r: seq<string>)
    ensures |r| <= |s|
    ensures forall t :: t in r <==> exists d :: d in s && d.user == user && d.isActive && d.fcmToken == t
  {
    if |s| == 0 then []
    else
      var rest := ActiveTokens(s[1..], user);
      assert s == [s[0]] + s[1..];
      if s[0].user == user && s[0].isActive then [s[0].fcmToken] + rest else rest
  }

  /** updateMany({fcmToken: {$in: failed}}, {isActive: false}): exactly the
      records holding a failed token become inactive; nothing else moves. */
  function Deactivate(s: Store, failed: set<string>): (r: Store)
    ensures |r| == |s|
    ensures forall i :: 0 <= i < |s| ==> r[i] == s[i].(isActive := s[i].isActive && s[i].fcmToken !in failed)
  {
    seq(|s|, i requires 0 <= i < |s| => s[i].(isActive := s[i].isActive && s[i].fcmToken !in failed))
  }

  /** Deactivation keeps both unique indexes, since no key field moves. */
  lemma DeactivateKeepsUnique(s: Store, failed: set<string>)
    requires Unique(s)
    ensures Unique(Deactivate(s, failed))
  {
  }

  /** After deactivation none of the failed tokens is addressed again, and
      every token that did not fail still is. */
  lemma DeactivateRemovesFailed(s: Store, failed: set<string>, user: UserId, t: string)
    ensures t in ActiveTokens(Deactivate(s, failed), user) <==> t in ActiveTokens(s, user) && t !in failed
  {
    var d := Deactivate(s, failed);
    if t in ActiveTokens(s, user) && t !in failed {
      var x :| x in s && x.user == user && x.isActive && x.fcmToken == t;
      var i :| 0 <= i < |s| && s[i] == x;
      assert d[i] in d;
    }
    if t in ActiveTokens(d, user) {
      var x :| x in d && x.user == user && x.isActive && x.fcmToken == t;
      var i :| 0 <= i < |d| && d[i] == x;
      assert s[i] in s;
    }
  }

  function ParseDeviceType(s: string): (r: Option<DeviceType>)
    ensures r.Some? <==> s == "ios" || s == "android" || s == "web"
  {
    if s == "ios" then Some(Ios) else if s == "android" then Some(Android)
    else if s == "web" then Some(Web) else None
  }

  /** A request body field; absent and "" are both falsy. */
  predicate Truthy(f: Option<string>) {
    f.Some? && f.value != ""
  }

  datatype RegisterReply = Registered | MissingFields | BadDeviceType | ServerError

  /** registerToken: missing fields and an unknown device type are
      rejected before any store write; otherwise the upsert runs, and a
      store error becomes a server error. */
  function RegisterToken(s: Store, user: UserId, fcmToken: Option<string>, deviceType: Option<string>,
                         deviceId: Option<string>, now: int): (r: (RegisterReply, Store))
    requires Unique(s)
    ensures Unique(r.1)
    ensures !(Truthy(fcmToken) && Truthy(deviceType) && Truthy(deviceId)) ==> r == (MissingFields, s)
    ensures Truthy(fcmToken) && Truthy(deviceType) && Truthy(deviceId) && ParseDeviceType(deviceType.value).None? ==>
              r == (BadDeviceType, s)
    ensures r.0 == Registered ==>
      Truthy(fcmToken) && Truthy(deviceId) && ParseDeviceType(deviceType.value).Some? &&
      DeviceToken(user, fcmToken.value, ParseDeviceType(deviceType.value).value, deviceId.value, true, now) in r.1
    ensures r.0 != Registered ==> r.1 == s
    ensures Truthy(fcmToken) && Truthy(deviceType) && Truthy(deviceId) && ParseDeviceType(deviceType.value).Some? ==>
              var up := Upsert(s, user, fcmToken.value, ParseDeviceType(deviceType.value).value, deviceId.value, now);
              && (up.Success? ==> r == (Registered, up.value))
              && (up.Failure? ==> r == (ServerError, s))
  {
    if !(Truthy(fcmToken) && Truthy(deviceType) && Truthy(deviceId)) then (MissingFields, s)
    else match ParseDeviceType(deviceType.value)
      case None => (BadDeviceType, s)
      case Some(dt) =>
        match Upsert(s, user, fcmToken.value, dt, deviceId.value, now)
        case Success(s') => (Registered, s')
        case Failure(_) => (ServerError, s)
  }

  datatype UnregisterReply = Unregistered | MissingDeviceId

  /** unregisterToken: a missing deviceId is rejected before removal. */
  function UnregisterToken(s: Store, user: UserId, deviceId: Option<string>): (r: (UnregisterReply, Store))
    ensures !Truthy(deviceId) <==> r == (MissingDeviceId, s)
    ensures Truthy(deviceId) ==> r.0 == Unregistered && forall i :: 0 <= i < |r.1| ==> !HasKey(r.1[i], user, deviceId.value)
    ensures Truthy(deviceId) ==> forall t :: t in s && !HasKey(t, user, deviceId.value) ==> t in r.1
    ensures Truthy(deviceId) ==> |r.1| <= |s| && forall i :: 0 <= i < |r.1| ==> r.1[i] in s
    ensures Truthy(deviceId) ==> r.1 == Remove(s, user, deviceId.value)
  {
    if !Truthy(deviceId) then (MissingDeviceId, s)
    else (Unregistered, Remove(s, user, deviceId.value))
  }
}

=== FILE: dispatcher.dfy ===
/** The user notification dispatcher: persist a record with both delivery
    flags false, try the socket when the recipient is online, fall back to
    push when the recipient is offline or the socket failed, and set each
    flag only when its channel reports success. Covers sendNotification,
    sendBatchNotifications, emitSocketNotification and the test endpoint.

    The presence registry is read, never changed. The provider's per-token
    answers, the ids the store assigns and whether each save succeeds are
    inputs. */
module Dispatcher {
  import opened Wrappers
  import opened NotificationModel
  import Presence
  import DeviceTokens
  import PushGateway
  import Text

  /** The persistent state a send touches. */
  datatype World = World(notifications: seq<Notification>, tokens: DeviceTokens.Store)

  datatype DispatchError = Invalid(fields: set<Field>) | StoreError

  /** The outcome of a send and the state it leaves behind; a send that
      throws after persisting still leaves its records and token changes. */
  datatype Dispatch<T> = Dispatch(outcome: Result<T, DispatchError>, world: World)

  /** The result of the delivery attempt for one record. */
  datatype Delivered = Delivered(
    flags: Delivery,
    tokens: DeviceTokens.Store,
    socketRecipients: set<Presence.SocketId>,
    push: Option<PushGateway.PushMessage>)

  /** The data block of a push: the record id and type, with the target
      fields defaulting to "". */
  function PushData(id: Id, p: Payload): (r: map<string, string>)
    ensures r.Keys == {"notificationId", "type", "targetType", "targetId"}
    ensures r["notificationId"] == id && r["type"] == p.kind
    ensures r["targetType"] == "" <==> p.targetType.None?
    ensures ParseTargetType(r["targetType"]) == p.targetType
    ensures r["targetId"] == p.targetId.GetOr("")
  {
    map["notificationId" := id, "type" := p.kind,
        "targetType" := (if p.targetType.Some? then TargetTypeName(p.targetType.value) else ""),
        "targetId" := p.targetId.GetOr("")]
  }

  /** `payload.metadata?.thumbnailUrl` */
  function Thumbnail(metadata: Option<map<string, string>>): (r: Option<string>)
    ensures r.Some? <==> metadata.Some? && "thumbnailUrl" in metadata.value
    ensures r.Some? ==> r.value == metadata.value["thumbnailUrl"]
  {
    if metadata.Some? && "thumbnailUrl" in metadata.value then Some(metadata.value["thumbnailUrl"]) else None
  }

  /** emitSocketNotification: the registry's emitToUser with the
      `notification` event. */
  function EmitSocketNotification(reg: Presence.Registry, userId: Id): (r: Presence.Emission)
    ensures r.sent <==> reg.io && Presence.IsUserOnline(reg, userId)
    ensures r.recipients == if r.sent then reg.userSockets[userId] else {}
  {
    Presence.EmitToUser(reg, userId, "notification")
  }

  /** One delivery attempt: the socket when the recipient is online; push
      only when the recipient is offline or the socket failed. The two
      flags are never both set, and each is set only when its channel
      succeeded. */
  function DeliveryStep(reg: Presence.Registry, tokens: DeviceTokens.Store, recipient: Id,
                        title: string, body: string, data: map<string, string>,
                        imageUrl: Option<string>, answers: Option<seq<bool>>): (r: Delivered)
    ensures !(r.flags.socket && r.flags.push)
    ensures r.flags.socket <==> reg.io && Presence.IsUserOnline(reg, recipient)
    ensures r.flags.socket ==> r.tokens == tokens && r.push.None? && r.socketRecipients == reg.userSockets[recipient]
    ensures !r.flags.socket ==>
      var o := PushGateway.SendPush(tokens, recipient, title, body, data, imageUrl, answers);
      && r.socketRecipients == {}
      && r.flags.push == o.delivered && r.tokens == o.store && r.push == o.sent
  {
    var online := Presence.IsUserOnline(reg, recipient);
    var socket := online && EmitSocketNotification(reg, recipient).sent;
    if socket then
      Delivered(Delivery(true, false), tokens, reg.userSockets[recipient], None)
    else
      var o := PushGateway.SendPush(tokens, recipient, title, body, data, imageUrl, answers);
      Delivered(Delivery(false, o.delivered), o.store, {}, o.sent)
  }

  /** The delivery attempt for a created record of payload p. The push
      carries the caller's title and message as given. */
  function DeliverRecord(reg: Presence.Registry, tokens: DeviceTokens.Store, n: Notification, p: Payload,
                         answers: Option<seq<bool>>): Delivered
  {
    DeliveryStep(reg, tokens, n.recipient, p.title, p.message, PushData(n.id, p), Thumbnail(p.metadata), answers)
  }

  /** sendNotification. A payload the schema rejects throws before anything
      is stored. Otherwise exactly one record is appended, created with both
      flags false; each flag that a channel sets is saved at once, and a
      failing save throws, leaving the record as created. */
  function SendNotification(w: World, reg: Presence.Registry, id: Id, p: Payload, now: int,
                            answers: Option<seq<bool>>, saveOk: bool): (r: Dispatch<Notification>)
    ensures NewRecord(id, p, now).Failure? ==> r == Dispatch(Failure(Invalid(NewRecord(id, p, now).error)), w)
    ensures NewRecord(id, p, now).Success? ==>
      var created := NewRecord(id, p, now).value;
      var d := DeliverRecord(reg, w.tokens, created, p, answers);
      && r.world.tokens == d.tokens
      && |r.world.notifications| == |w.notifications| + 1
      && r.world.notifications[..|w.notifications|] == w.notifications
      && (r.outcome.Success? <==> saveOk || d.flags == Delivery(false, false))
      && (r.outcome.Success? ==> r.outcome.value == created.(delivery := d.flags)
                                 && r.world.notifications[|w.notifications|] == r.outcome.value)
      && (r.outcome.Failure? ==> r.outcome.error == StoreError
                                 && r.world.notifications[|w.notifications|] == created)
    ensures r.outcome.Success? ==> !(r.outcome.value.delivery.socket && r.outcome.value.delivery.push)
  {
    match NewRecord(id, p, now)
    case Failure(e) => Dispatch(Failure(Invalid(e)), w)
    case Success(created) =>
      var d := DeliverRecord(reg, w.tokens, created, p, answers);
      if d.flags != Delivery(false, false) && !saveOk then
        Dispatch(Failure(StoreError), World(w.notifications + [created], d.tokens))
      else
        var n := created.(delivery := d.flags);
        Dispatch(Success(n), World(w.notifications + [n], d.tokens))
  }

  /** The records insertMany creates for a batch of a validated payload:
      one per recipient, in recipient order, sharing the payload. */
  function Created(ids: seq<Id>, recipients: seq<Id>, c: Checked, p: Payload, now: int): (r: seq<Notification>)
    requires |ids| == |recipients|
    ensures |r| == |recipients|
    ensures forall k :: 0 <= k < |r| ==> r[k] == Fresh(ids[k], c, p, recipients[k], now)
  {
    seq(|recipients|, k requires 0 <= k < |recipients| => Fresh(ids[k], c, p, recipients[k], now))
  }

  datatype Batch = Batch(records: seq<Notification>, tokens: DeviceTokens.Store)

  /** A delivery attempt for one record, given the token store it sees
      and the push service's answers. */
  type Step = (DeviceTokens.Store, Notification, Option<seq<bool>>) -> Delivered

  /** The delivery attempt for records of payload p. */
  function RecordStep(reg: Presence.Registry, p: Payload): Step {
    (tokens: DeviceTokens.Store, n: Notification, answers: Option<seq<bool>>) =>
      DeliverRecord(reg, tokens, n, p, answers)
  }

  /** The records are delivered in order, each seeing the token store the
      previous ones left, and each record gets the flags of its own
      attempt. */
  function Batched(step: Step, tokens: DeviceTokens.Store, recs: seq<Notification>,
                   answers: seq<Option<seq<bool>>>): (r: Batch)
    requires |answers| == |recs|
    ensures |r.records| == |recs|
    decreases |recs|
  {
    if |recs| == 0 then Batch([], tokens)
    else
      var last := |recs| - 1;
      var prev := Batched(step, tokens, recs[..last], answers[..last]);
      var d := step(prev.tokens, recs[last], answers[last]);
      Batch(prev.records + [recs[last].(delivery := d.flags)], d.tokens)
  }

  /** The delivery loop of a batch of payload p, as a reference
      definition. */
  function DeliverAll(reg: Presence.Registry, tokens: DeviceTokens.Store, recs: seq<Notification>, p: Payload,
                      answers: seq<Option<seq<bool>>>): (r: Batch)
    requires |answers| == |recs|
    ensures |r.records| == |recs|
  {
    Batched(RecordStep(reg, p), tokens, recs, answers)
  }

  /** The batch changes nothing in a record but its delivery flags, and
      never sets both. */
  lemma {:induction false} DeliverAllChangesOnlyFlags(reg: Presence.Registry, tokens: DeviceTokens.Store,
                                                      recs: seq<Notification>, p: Payload,
                                                      answers: seq<Option<seq<bool>>>)
    requires |answers| == |recs|
    ensures var r := DeliverAll(reg, tokens, recs, p, answers);
      forall k :: 0 <= k < |recs| ==>
        r.records[k] == recs[k].(delivery := r.records[k].delivery)
        && !(r.records[k].delivery.socket && r.records[k].delivery.push)
    decreases |recs|
  {
    if |recs| > 0 {
      var last := |recs| - 1;
      DeliverAllChangesOnlyFlags(reg, tokens, recs[..last], p, answers[..last]);
      var r := DeliverAll(reg, tokens, recs, p, answers);
      var prev := DeliverAll(reg, tokens, recs[..last], p, answers[..last]);
      forall k | 0 <= k < |recs|
        ensures r.records[k] == recs[k].(delivery := r.records[k].delivery)
        ensures !(r.records[k].delivery.socket && r.records[k].delivery.push)
      {
        if k < last {
          assert r.records[k] == prev.records[k] && recs[..last][k] == recs[k];
        }
      }
    }
  }

  /** The position of the first failing save, or the length when none
      fails. */
  function FirstFailure(oks: seq<bool>): (r: nat)
    ensures r <= |oks|
    ensures forall k :: 0 <= k < r ==> oks[k]
    ensures r < |oks| ==> !oks[r]
  {
    if |oks| == 0 then 0
    else if !oks[0] then 0
    else 1 + FirstFailure(oks[1..])
  }

  /** sendBatchNotifications. With no recipients `insertMany([])` validates
      nothing and the batch succeeds empty. A payload the schema rejects
      stores nothing.
      Otherwise every record is inserted at once with both flags false,
      then each recipient in turn gets a delivery attempt followed by one
      save. The first failing save aborts the batch and the error is
      rethrown: earlier records keep their flags, that record and all later
      ones stay as created, and later recipients get no attempt. */
  method SendBatch(w: World, reg: Presence.Registry, recipients: seq<Id>, ids: seq<Id>, p: Payload, now: int,
                   answers: seq<Option<seq<bool>>>, saveOks: seq<bool>)
    returns (r: Dispatch<seq<Notification>>)
    requires |ids| == |recipients| && |answers| == |recipients| && |saveOks| == |recipients|
    ensures |recipients| == 0 ==> r == Dispatch(Success([]), w)
    ensures |recipients| > 0 && Validate(p.kind, p.title, p.message).Failure? ==>
      r == Dispatch(Failure(Invalid(Validate(p.kind, p.title, p.message).error)), w)
    ensures Validate(p.kind, p.title, p.message).Success? ==>
      var recs := Created(ids, recipients, Validate(p.kind, p.title, p.message).value, p, now);
      var f := FirstFailure(saveOks);
      && (f == |recipients| ==>
            var all := DeliverAll(reg, w.tokens, recs, p, answers);
            r == Dispatch(Success(all.records), World(w.notifications + all.records, all.tokens)))
      && (f < |recipients| ==>
            var upto := DeliverAll(reg, w.tokens, recs[..f + 1], p, answers[..f + 1]);
            && r.outcome == Failure(StoreError)
            && r.world.notifications == w.notifications + upto.records[..f] + recs[f..]
            && r.world.tokens == upto.tokens)
  {
    if |recipients| == 0 {
      return Dispatch(Success([]), w);
    }
    var v := Validate(p.kind, p.title, p.message);
    if v.Failure? {
      return Dispatch(Failure(Invalid(v.error)), w);
    }
    var recs := Created(ids, recipients, v.value, p, now);
    r := DeliveryLoop(w, reg, recs, p, answers, saveOks);
  }

  /** The loop of sendBatchNotifications over the inserted records: a
      delivery attempt, then a save, for each record in order, stopping at
      the first failing save. */
  method DeliveryLoop(w: World, reg: Presence.Registry, recs: seq<Notification>, p: Payload,
                      answers: seq<Option<seq<bool>>>, saveOks: seq<bool>)
    returns (r: Dispatch<seq<Notification>>)
    requires |answers| == |recs| && |saveOks| == |recs|
    ensures var f := FirstFailure(saveOks);
      && (f == |recs| ==>
            var all := DeliverAll(reg, w.tokens, recs, p, answers);
            r == Dispatch(Success(all.records), World(w.notifications + all.records, all.tokens)))
      && (f < |recs| ==>
            var upto := DeliverAll(reg, w.tokens, recs[..f + 1], p, answers[..f + 1]);
            && r.outcome == Failure(StoreError)
            && r.world.notifications == w.notifications + upto.records[..f] + recs[f..]
            && r.world.tokens == upto.tokens)
  {
    var step := RecordStep(reg, p);
    var i, b := DeliverUntilFailure(step, w.tokens, recs, answers, saveOks);
    if i < |recs| {
      // The save of record i failed after its delivery attempt.
      var upto, _ := DeliverNext(step, w.tokens, recs, answers, i, b);
      FirstFailureAt(saveOks, i);
      return Dispatch(Failure(StoreError), World(w.notifications + b.records + recs[i..], upto.tokens));
    }
    assert recs[..i] == recs && answers[..i] == answers;
    FirstFailureNone(saveOks);
    return Dispatch(Success(b.records), World(w.notifications + b.records, b.tokens));
  }

  /** The delivery attempts and saves of the batch loop, up to the first
      failing save (or the end): the first i records were delivered and
      saved, and b agrees with the reference definition on them. */
  method DeliverUntilFailure(step: Step, tokens: DeviceTokens.Store, recs: seq<Notification>,
                             answers: seq<Option<seq<bool>>>, saveOks: seq<bool>)
    returns (i: nat, b: Batch)
    requires |answers| == |recs| && |saveOks| == |recs|
    ensures i <= |recs|
    ensures forall k :: 0 <= k < i ==> saveOks[k]
    ensures i < |recs| ==> !saveOks[i]
    ensures b == Batched(step, tokens, recs[..i], answers[..i])
  {
    b, i := Batch([], tokens), 0;
    assert recs[..0] == [] && answers[..0] == [];
    while i < |recs| && saveOks[i]
      invariant 0 <= i <= |recs|
      invariant b == Batched(step, tokens, recs[..i], answers[..i])
      invariant forall k :: 0 <= k < i ==> saveOks[k]
    {
      var b', next := DeliverNext(step, tokens, recs, answers, i, b);
      b, i := b', next;
    }
  }

  /** One step of the batch loop: the delivery attempt for record i, given
      the batch the first i attempts left, extends the reference definition
      by that record and keeps the earlier records. */
  method DeliverNext(step: Step, tokens: DeviceTokens.Store, recs: seq<Notification>,
                     answers: seq<Option<seq<bool>>>, i: nat, b: Batch)
    returns (b': Batch, next: nat)
    requires |answers| == |recs| && i < |recs|
    requires b == Batched(step, tokens, recs[..i], answers[..i])
    ensures next == i + 1
    ensures b' == Batched(step, tokens, recs[..next], answers[..next])
    ensures b'.records[..i] == b.records
  {
    next := i + 1;
    var d := step(b.tokens, recs[i], answers[i]);
    BatchedSnoc(step, tokens, recs, answers, i);
    b' := Batch(b.records + [recs[i].(delivery := d.flags)], d.tokens);
    assert b'.records[..i] == b.records;
  }

  /** One more step of the batch loop extends the batch by one record. */
  lemma BatchedSnoc(step: Step, tokens: DeviceTokens.Store, recs: seq<Notification>,
                    answers: seq<Option<seq<bool>>>, i: nat)
    requires |answers| == |recs| && i < |recs|
    ensures var prev := Batched(step, tokens, recs[..i], answers[..i]);
      var d := step(prev.tokens, recs[i], answers[i]);
      Batched(step, tokens, recs[..i + 1], answers[..i + 1])
        == Batch(prev.records + [recs[i].(delivery := d.flags)], d.tokens)
  {
    assert recs[..i + 1][..i] == recs[..i] && answers[..i + 1][..i] == answers[..i];
  }

  lemma {:induction false} FirstFailureAt(oks: seq<bool>, i: nat)
    requires i < |oks| && !oks[i]
    requires forall k :: 0 <= k < i ==> oks[k]
    ensures FirstFailure(oks) == i
    decreases i
  {
    if i > 0 {
      FirstFailureAt(oks[1..], i - 1);
    }
  }

  lemma {:induction false} FirstFailureNone(oks: seq<bool>)
    requires forall k :: 0 <= k < |oks| ==> oks[k]
    ensures FirstFailure(oks) == |oks|
    decreases |oks|
  {
    if |oks| > 0 {
      FirstFailureNone(oks[1..]);
    }
  }

  /** A batch of one delivers to that recipient exactly as a single send of
      the same payload does, when the saves succeed. */
  lemma BatchOfOneMatchesSingle(w: World, reg: Presence.Registry, id: Id, p: Payload, now: int,
                                answers: Option<seq<bool>>)
    requires Validate(p.kind, p.title, p.message).Success?
    ensures var single := SendNotification(w, reg, id, p, now, answers, true);
      var batch := DeliverAll(reg, w.tokens, Created([id], [p.recipient], Validate(p.kind, p.title, p.message).value, p, now), p, [answers]);
      && single.outcome.Success?
      && batch.records == [single.outcome.value]
      && batch.tokens == single.world.tokens
  {
    var c := Validate(p.kind, p.title, p.message).value;
    CreatedOne(id, p.recipient, c, p, now);
    BatchedOne(RecordStep(reg, p), w.tokens, Fresh(id, c, p, p.recipient, now), answers);
  }

  lemma CreatedOne(id: Id, recipient: Id, c: Checked, p: Payload, now: int)
    ensures Created([id], [recipient], c, p, now) == [Fresh(id, c, p, recipient, now)]
  {
    var recs := Created([id], [recipient], c, p, now);
    assert recs[0] == Fresh(id, c, p, recipient, now);
  }

  lemma BatchedOne(step: Step, tokens: DeviceTokens.Store, n: Notification, answers: Option<seq<bool>>)
    ensures var d := step(tokens, n, answers);
      Batched(step, tokens, [n], [answers]) == Batch([n.(delivery := d.flags)], d.tokens)
  {
    assert [n][..0] == [] && [answers][..0] == [];
  }

  /** The batch gives each recipient the flags of its own delivery attempt:
      socket exactly for the recipients online on an initialised server,
      whatever the others' outcomes. */
  lemma {:induction false} BatchSocketFlags(reg: Presence.Registry, tokens: DeviceTokens.Store, recs: seq<Notification>,
                                            p: Payload, answers: seq<Option<seq<bool>>>, k: nat)
    requires |answers| == |recs| && k < |recs|
    ensures DeliverAll(reg, tokens, recs, p, answers).records[k].delivery.socket
            <==> reg.io && Presence.IsUserOnline(reg, recs[k].recipient)
    decreases |recs|
  {
    var last := |recs| - 1;
    var prev := DeliverAll(reg, tokens, recs[..last], p, answers[..last]);
    var d := DeliverRecord(reg, prev.tokens, recs[last], p, answers[last]);
    var r := DeliverAll(reg, tokens, recs, p, answers);
    assert r.records == prev.records + [recs[last].(delivery := d.flags)];
    if k < last {
      BatchSocketFlags(reg, tokens, recs[..last], p, answers[..last], k);
      assert recs[..last][k] == recs[k];
      assert r.records[k] == prev.records[k];
    } else {
      assert r.records[k].delivery == d.flags;
    }
  }

  datatype TestReply = TestSent(n: Notification) | TestFailed

  /** `x || d` on an optional request field. */
  function OrElse(x: Option<string>, d: string): (r: string)
    ensures x.Some? && x.value != "" ==> r == x.value
    ensures x.None? || x.value == "" ==> r == d
  {
    if x.Some? && x.value != "" then x.value else d
  }

  /** The payload of the test endpoint: addressed to the caller, type,
      title and message defaulting to "system", "Test Notification" and
      "This is a test notification", priority high. */
  function TestPayload(userId: Id, title: Option<string>, message: Option<string>, kind: Option<string>): (p: Payload)
    ensures p.recipient == userId && p.priority == Some(High)
    ensures p.kind == OrElse(kind, "system")
    ensures p.title == OrElse(title, "Test Notification")
    ensures p.message == OrElse(message, "This is a test notification")
    ensures p.metadata.None? && p.targetType.None? && p.sender.None?
  {
    Payload(userId, None, None, OrElse(kind, "system"), OrElse(title, "Test Notification"),
            OrElse(message, "This is a test notification"), None, None, None, Some(High))
  }

  /** The test endpoint; any error becomes a failure reply. */
  function TestNotification(w: World, reg: Presence.Registry, userId: Id, id: Id,
                            title: Option<string>, message: Option<string>, kind: Option<string>,
                            now: int, answers: Option<seq<bool>>, saveOk: bool): (r: (TestReply, World))
    ensures r.0.TestSent? ==>
      && r.0.n.recipient == userId && r.0.n.priority == High
      && KindName(r.0.n.kind) == OrElse(kind, "system")
    ensures r.0.TestSent? <==> SendNotification(w, reg, id, TestPayload(userId, title, message, kind), now, answers, saveOk).outcome.Success?
    ensures r.1 == SendNotification(w, reg, id, TestPayload(userId, title, message, kind), now, answers, saveOk).world
  {
    var d := SendNotification(w, reg, id, TestPayload(userId, title, message, kind), now, answers, saveOk);
    match d.outcome
    case Success(n) => (TestSent(n), d.world)
    case Failure(_) => (TestFailed, d.world)
  }

  /** With a working store, the test endpoint replies with a sent
      notification exactly when the defaulted type, title and message pass
      the user schema. */
  lemma TestSentIffValid(w: World, reg: Presence.Registry, userId: Id, id: Id,
                         title: Option<string>, message: Option<string>, kind: Option<string>,
                         now: int, answers: Option<seq<bool>>)
    ensures var p := TestPayload(userId, title, message, kind);
      (TestNotification(w, reg, userId, id, title, message, kind, now, answers, true).0.TestSent?
       <==> Validate(p.kind, p.title, p.message).Success?)
  {
  }
}

=== FILE: domain_events.dfy ===
/** The notification service's domain wrappers: the new-video and new-short
    fan-out to bell-enabled followers, and the single notifications for a
    comment, a reply, a like and a new follower. Each builds a payload and
    hands it to the dispatcher; comment, reply and like notifications are
    suppressed when the actor is the owner. Errors from the dispatcher are
    rethrown, which the outcome carries. */
module DomainEvents {
  import opened Wrappers
  import opened NotificationModel
  import Dispatcher
  import Presence
  import Follows
  import Content
  import Paging
  import Text

  /** Follow.find({ channel, notificationsEnabled: true }): the followers
      with the bell on, in store order. */
  function BellFollowers(fs: seq<Follows.Follow>, channelId: Id): (r: seq<Id>)
    ensures forall u :: u in r <==>
      exists k :: 0 <= k < |fs| && fs[k].channel == channelId && fs[k].notificationsEnabled && fs[k].follower == u
  {
    var w := Paging.Where(fs, (f: Follows.Follow) => f.channel == channelId && f.notificationsEnabled);
    var r := seq(|w|, k requires 0 <= k < |w| => w[k].follower);
    assert forall u :: u in r ==> exists k :: 0 <= k < |fs| && fs[k].channel == channelId && fs[k].notificationsEnabled && fs[k].follower == u by {
      forall u | u in r
        ensures exists k :: 0 <= k < |fs| && fs[k].channel == channelId && fs[k].notificationsEnabled && fs[k].follower == u
      {
        var j :| 0 <= j < |r| && r[j] == u;
        assert w[j] in w;
        var k :| 0 <= k < |fs| && fs[k] == w[j];
      }
    }
    assert forall k :: 0 <= k < |fs| && fs[k].channel == channelId && fs[k].notificationsEnabled ==> fs[k].follower in r by {
      forall k | 0 <= k < |fs| && fs[k].channel == channelId && fs[k].notificationsEnabled
        ensures fs[k].follower in r
      {
        assert fs[k] in w;
        var j :| 0 <= j < |w| && w[j] == fs[k];
        assert r[j] == fs[k].follower;
      }
    }
    r
  }

  datatype Upload = VideoUpload | ShortUpload

  function UploadKind(u: Upload): Kind {
    match u
    case VideoUpload => NewVideo
    case ShortUpload => NewShort
  }

  function UploadTarget(u: Upload): TargetType {
    match u
    case VideoUpload => Video
    case ShortUpload => Short
  }

  /** The payload of a new-upload notification: sent by the channel owner,
      titled after the channel, the upload's title as the message, and the
      thumbnail in the metadata; priority high. */
  function UploadPayload(u: Upload, owner: Option<Id>, channelId: Id, channelName: string,
                         contentId: Id, title: string, thumbnailUrl: string): (p: Payload)
    ensures p.kind == KindName(UploadKind(u)) && p.priority == Some(High)
    ensures p.sender == owner && p.channel == Some(channelId) && p.message == title
    ensures p.targetType == Some(UploadTarget(u)) && p.targetId == Some(contentId)
    ensures p.metadata.Some? && "thumbnailUrl" in p.metadata.value && p.metadata.value["thumbnailUrl"] == thumbnailUrl
  {
    var word := if u == VideoUpload then "video" else "short";
    var titleKey := if u == VideoUpload then "videoTitle" else "shortTitle";
    var metadata := map[titleKey := title, "channelName" := channelName, "thumbnailUrl" := thumbnailUrl];
    assert "thumbnailUrl" in metadata && metadata["thumbnailUrl"] == thumbnailUrl;
    Payload("", owner, Some(channelId), KindName(UploadKind(u)), "New " + word + " from " + channelName, title,
            Some(UploadTarget(u)), Some(contentId), Some(metadata), Some(High))
  }

  /** A fan-out record: one per follower, of the upload's kind and target,
      sent on behalf of the channel with priority high. */
  predicate Fanned(n: Notification, u: Upload, recipient: Id, owner: Option<Id>, channelId: Id, contentId: Id) {
    && n.recipient == recipient && n.kind == UploadKind(u) && n.priority == High
    && n.sender == owner && n.channel == Some(channelId)
    && n.targetType == Some(UploadTarget(u)) && n.targetId == Some(contentId)
    && !n.isRead && !n.isDeleted
  }

  /** notifyNewVideo / notifyNewShort. A missing channel or no bell-enabled
      follower sends nothing; otherwise one batch goes to exactly those
      followers. The store ids, the provider's answers and the per-record
      save results of the batch are inputs, one per follower. */
  method NotifyNewUpload(w: Dispatcher.World, reg: Presence.Registry, fs: Follows.Store, u: Upload,
                         contentId: Id, channelId: Id, title: string, thumbnailUrl: string, now: int,
                         ids: seq<Id>, answers: seq<Option<seq<bool>>>, saveOks: seq<bool>)
    returns (r: Dispatcher.Dispatch<seq<Notification>>)
    requires |ids| == |BellFollowers(fs.follows, channelId)|
    requires |answers| == |ids| && |saveOks| == |ids|
    ensures Follows.FindChannel(fs.channels, channelId).None? ==> r == Dispatcher.Dispatch(Success([]), w)
    ensures |BellFollowers(fs.follows, channelId)| == 0 ==> r == Dispatcher.Dispatch(Success([]), w)
    ensures r.outcome.Success? && |r.outcome.value| > 0 ==>
      var ch := fs.channels[Follows.FindChannel(fs.channels, channelId).value];
      var followers := BellFollowers(fs.follows, channelId);
      && |r.outcome.value| == |followers|
      && r.world.notifications == w.notifications + r.outcome.value
      && forall k :: 0 <= k < |followers| ==>
           Fanned(r.outcome.value[k], u, followers[k], ch.owner, channelId, contentId)
    ensures Follows.FindChannel(fs.channels, channelId).Some? && |BellFollowers(fs.follows, channelId)| > 0 ==>
      var ch := fs.channels[Follows.FindChannel(fs.channels, channelId).value];
      var p := UploadPayload(u, ch.owner, channelId, ch.name, contentId, title, thumbnailUrl);
      && (r.outcome.Success? <==> Validate(p.kind, p.title, p.message).Success? && Dispatcher.FirstFailure(saveOks) == |ids|)
      && (Validate(p.kind, p.title, p.message).Failure? ==> r.world == w)
  {
    var at := Follows.FindChannel(fs.channels, channelId);
    if at.None? {
      return Dispatcher.Dispatch(Success([]), w);
    }
    var followers := BellFollowers(fs.follows, channelId);
    if |followers| == 0 {
      return Dispatcher.Dispatch(Success([]), w);
    }
    var ch := fs.channels[at.value];
    var p := UploadPayload(u, ch.owner, channelId, ch.name, contentId, title, thumbnailUrl);
    r := Dispatcher.SendBatch(w, reg, followers, ids, p, now, answers, saveOks);
    if Validate(p.kind, p.title, p.message).Success? {
      BatchRecordsFanned(w, reg, followers, ids, u, ch.owner, channelId, ch.name, contentId, title, thumbnailUrl,
                         now, answers);
    }
  }

  /** Every record the batch delivers for an upload payload is a fan-out
      record for its follower. */
  lemma BatchRecordsFanned(w: Dispatcher.World, reg: Presence.Registry, followers: seq<Id>, ids: seq<Id>,
                           u: Upload, owner: Option<Id>, channelId: Id, channelName: string,
                           contentId: Id, title: string, thumbnailUrl: string, now: int,
                           answers: seq<Option<seq<bool>>>)
    requires |ids| == |followers| && |answers| == |followers|
    requires var p := UploadPayload(u, owner, channelId, channelName, contentId, title, thumbnailUrl);
      Validate(p.kind, p.title, p.message).Success?
    ensures var p := UploadPayload(u, owner, channelId, channelName, contentId, title, thumbnailUrl);
      var recs := Dispatcher.Created(ids, followers, Validate(p.kind, p.title, p.message).value, p, now);
      var all := Dispatcher.DeliverAll(reg, w.tokens, recs, p, answers);
      forall k :: 0 <= k < |followers| ==> Fanned(all.records[k], u, followers[k], owner, channelId, contentId)
  {
    var p := UploadPayload(u, owner, channelId, channelName, contentId, title, thumbnailUrl);
    var c := Validate(p.kind, p.title, p.message).value;
    KindRoundTrip(UploadKind(u));
    assert c.kind == UploadKind(u);
    var recs := Dispatcher.Created(ids, followers, c, p, now);
    Dispatcher.DeliverAllChangesOnlyFlags(reg, w.tokens, recs, p, answers);
  }

  /** The fan-out reaches exactly the channel's bell-enabled followers. */
  lemma FanOutReachesBellFollowers(fs: Follows.Store, channelId: Id, recs: seq<Notification>, u: Upload,
                                   owner: Option<Id>, contentId: Id)
    requires |recs| == |BellFollowers(fs.follows, channelId)|
    requires forall k :: 0 <= k < |recs| ==>
      Fanned(recs[k], u, BellFollowers(fs.follows, channelId)[k], owner, channelId, contentId)
    ensures (set k | 0 <= k < |recs| :: recs[k].recipient) ==
      (set j | 0 <= j < |fs.follows| && fs.follows[j].channel == channelId && fs.follows[j].notificationsEnabled
             :: fs.follows[j].follower)
  {
    var followers := BellFollowers(fs.follows, channelId);
    var a := set k | 0 <= k < |recs| :: recs[k].recipient;
    var b := set j | 0 <= j < |fs.follows| && fs.follows[j].channel == channelId && fs.follows[j].notificationsEnabled
                   :: fs.follows[j].follower;
    forall user | user in a ensures user in b {
      var k :| 0 <= k < |recs| && recs[k].recipient == user;
      assert followers[k] in followers;
    }
    forall user | user in b ensures user in a {
      assert user in followers;
      var k :| 0 <= k < |followers| && followers[k] == user;
      assert recs[k].recipient == user;
    }
  }

  // ----- Single notifications -----

  /** The outcome of a notification that may be suppressed: None when
      nothing was sent. */
  function Suppressible(d: Dispatcher.Dispatch<Notification>): (r: Dispatcher.Dispatch<Option<Notification>>)
    ensures r.world == d.world
    ensures r.outcome.Success? <==> d.outcome.Success?
    ensures r.outcome.Success? ==> r.outcome.value == Some(d.outcome.value)
    ensures r.outcome.Failure? ==> r.outcome.error == d.outcome.error
  {
    match d.outcome
    case Success(n) => Dispatcher.Dispatch(Success(Some(n)), d.world)
    case Failure(e) => Dispatcher.Dispatch(Failure(e), d.world)
  }

  /** The first 100 UTF-16 units of a comment or reply: the whole text
      when it fits, otherwise a prefix that falls short of 100 units only
      where a surrogate pair would straddle the cut. */
  function Excerpt(text: string): (r: string)
    ensures Text.StartsWith(text, r) && |r| <= Text.Utf16Length(r) <= 100
    ensures Text.Utf16Length(text) <= 100 ==> r == text
    ensures Text.Utf16Length(text) > 100 ==> 99 <= Text.Utf16Length(r)
  {
    Text.Take(text, 100)
  }

  function CommentPayload(ownerId: Id, commenterId: Id, username: string, text: string,
                          t: Content.ContentType, targetId: Id, commentId: Id): Payload
  {
    var word := Text.ToLower(Content.ContentTypeName(t));
    Payload(ownerId, Some(commenterId), None, KindName(CommentOn), username + " commented on your " + word,
            Excerpt(text), Some(Comment), Some(commentId),
            Some(map["commentText" := text, "commenterUsername" := username,
                     "targetType" := Content.ContentTypeName(t), "targetId" := targetId]),
            Some(Medium))
  }

  /** notifyNewComment: the content owner hears about a comment by someone
      else; the record points at the comment and carries its excerpt. */
  function NotifyNewComment(w: Dispatcher.World, reg: Presence.Registry, id: Id, commentId: Id, ownerId: Id,
                            commenterId: Id, username: string, text: string, t: Content.ContentType,
                            targetId: Id, now: int, answers: Option<seq<bool>>, saveOk: bool)
    : (r: Dispatcher.Dispatch<Option<Notification>>)
    ensures ownerId == commenterId ==> r == Dispatcher.Dispatch(Success(None), w)
    ensures r.outcome.Success? && r.outcome.value.Some? ==>
      var n := r.outcome.value.value;
      && ownerId != commenterId
      && n.recipient == ownerId && n.sender == Some(commenterId) && n.kind == CommentOn
      && n.targetType == Some(Comment) && n.targetId == Some(commentId) && n.priority == Medium
      && n.message == Text.Trim(Excerpt(text)) && |n.message| <= 100
      && r.world.notifications == w.notifications + [n]
  {
    if ownerId == commenterId then Dispatcher.Dispatch(Success(None), w)
    else
      var p := CommentPayload(ownerId, commenterId, username, text, t, targetId, commentId);
      KindRoundTrip(CommentOn);
      Suppressible(Dispatcher.SendNotification(w, reg, id, p, now, answers, saveOk))
  }

  function ReplyPayload(ownerId: Id, replierId: Id, username: string, text: string,
                        t: Content.ContentType, targetId: Id, replyId: Id): Payload
  {
    Payload(ownerId, Some(replierId), None, KindName(CommentReply), username + " replied to your comment",
            Excerpt(text), Some(Comment), Some(replyId),
            Some(map["replyText" := text, "replierUsername" := username,
                     "targetType" := Content.ContentTypeName(t), "targetId" := targetId]),
            Some(Medium))
  }

  /** notifyCommentReply: the parent comment's author hears about a reply by
      someone else; the record points at the reply. */
  function NotifyCommentReply(w: Dispatcher.World, reg: Presence.Registry, id: Id, replyId: Id, ownerId: Id,
                              replierId: Id, username: string, text: string, t: Content.ContentType,
                              targetId: Id, now: int, answers: Option<seq<bool>>, saveOk: bool)
    : (r: Dispatcher.Dispatch<Option<Notification>>)
    ensures ownerId == replierId ==> r == Dispatcher.Dispatch(Success(None), w)
    ensures r.outcome.Success? && r.outcome.value.Some? ==>
      var n := r.outcome.value.value;
      && ownerId != replierId
      && n.recipient == ownerId && n.sender == Some(replierId) && n.kind == CommentReply
      && n.targetType == Some(Comment) && n.targetId == Some(replyId) && n.priority == Medium
      && n.message == Text.Trim(Excerpt(text)) && |n.message| <= 100
      && r.world.notifications == w.notifications + [n]
  {
    if ownerId == replierId then Dispatcher.Dispatch(Success(None), w)
    else
      var p := ReplyPayload(ownerId, replierId, username, text, t, targetId, replyId);
      KindRoundTrip(CommentReply);
      Suppressible(Dispatcher.SendNotification(w, reg, id, p, now, answers, saveOk))
  }

  function LikePayload(ownerId: Id, likerId: Id, username: string, t: Content.ContentType, targetId: Id): Payload
  {
    var word := Text.ToLower(Content.ContentTypeName(t));
    Payload(ownerId, Some(likerId), None, KindName(Like), username + " liked your " + word,
            "Your " + word + " received a like", Some(Content.AsTargetType(t)), Some(targetId),
            Some(map["likerUsername" := username, "targetType" := Content.ContentTypeName(t)]),
            Some(Low))
  }

  /** notifyLike: the content owner hears about a like by someone else; the
      record points at the content itself. */
  function NotifyLike(w: Dispatcher.World, reg: Presence.Registry, id: Id, ownerId: Id, likerId: Id,
                      username: string, t: Content.ContentType, targetId: Id, now: int,
                      answers: Option<seq<bool>>, saveOk: bool)
    : (r: Dispatcher.Dispatch<Option<Notification>>)
    ensures ownerId == likerId ==> r == Dispatcher.Dispatch(Success(None), w)
    ensures r.outcome.Success? && r.outcome.value.Some? ==>
      var n := r.outcome.value.value;
      && ownerId != likerId
      && n.recipient == ownerId && n.sender == Some(likerId) && n.kind == Like
      && n.targetType == Some(Content.AsTargetType(t)) && n.targetId == Some(targetId) && n.priority == Low
      && r.world.notifications == w.notifications + [n]
  {
    if ownerId == likerId then Dispatcher.Dispatch(Success(None), w)
    else
      var p := LikePayload(ownerId, likerId, username, t, targetId);
      KindRoundTrip(Like);
      Suppressible(Dispatcher.SendNotification(w, reg, id, p, now, answers, saveOk))
  }

  function FollowerPayload(ownerId: Id, followerId: Id, username: string, channelId: Id, channelName: string): Payload
  {
    Payload(ownerId, Some(followerId), Some(channelId), KindName(NewFollower),
            username + " subscribed to your channel", "You have a new subscriber on " + channelName,
            None, None, Some(map["followerUsername" := username, "channelName" := channelName]), Some(Low))
  }

  /** notifyNewFollower: the channel owner hears about a new subscriber. No
      self-suppression applies. */
  function NotifyNewFollower(w: Dispatcher.World, reg: Presence.Registry, id: Id, ownerId: Id, followerId: Id,
                             username: string, channelId: Id, channelName: string, now: int,
                             answers: Option<seq<bool>>, saveOk: bool)
    : (r: Dispatcher.Dispatch<Notification>)
    ensures r.outcome.Success? ==>
      var n := r.outcome.value;
      && n.recipient == ownerId && n.sender == Some(followerId) && n.kind == NewFollower
      && n.channel == Some(channelId) && n.targetType.None? && n.priority == Low
      && r.world.notifications == w.notifications + [n]
  {
    var p := FollowerPayload(ownerId, followerId, username, channelId, channelName);
    KindRoundTrip(NewFollower);
    Dispatcher.SendNotification(w, reg, id, p, now, answers, saveOk)
  }

  /** A comment, reply or like by the owner stores nothing; by anyone else,
      a record is stored exactly when its payload passes the schema, and
      then it is the only record added. */
  lemma CommentStoresIffNotSelf(w: Dispatcher.World, reg: Presence.Registry, id: Id, commentId: Id, ownerId: Id,
                                commenterId: Id, username: string, text: string, t: Content.ContentType,
                                targetId: Id, now: int, answers: Option<seq<bool>>, saveOk: bool)
    ensures var r := NotifyNewComment(w, reg, id, commentId, ownerId, commenterId, username, text, t, targetId,
                                      now, answers, saveOk);
      var p := CommentPayload(ownerId, commenterId, username, text, t, targetId, commentId);
      && (|r.world.notifications| > |w.notifications| <==>
            ownerId != commenterId && Validate(p.kind, p.title, p.message).Success?)
      && |r.world.notifications| <= |w.notifications| + 1
  {
  }

  lemma LikeStoresIffNotSelf(w: Dispatcher.World, reg: Presence.Registry, id: Id, ownerId: Id, likerId: Id,
                             username: string, t: Content.ContentType, targetId: Id, now: int,
                             answers: Option<seq<bool>>, saveOk: bool)
    ensures var r := NotifyLike(w, reg, id, ownerId, likerId, username, t, targetId, now, answers, saveOk);
      var p := LikePayload(ownerId, likerId, username, t, targetId);
      && (|r.world.notifications| > |w.notifications| <==>
            ownerId != likerId && Validate(p.kind, p.title, p.message).Success?)
      && |r.world.notifications| <= |w.notifications| + 1
  {
  }

  lemma ReplyStoresIffNotSelf(w: Dispatcher.World, reg: Presence.Registry, id: Id, replyId: Id, ownerId: Id,
                              replierId: Id, username: string, text: string, t: Content.ContentType,
                              targetId: Id, now: int, answers: Option<seq<bool>>, saveOk: bool)
    ensures var r := NotifyCommentReply(w, reg, id, replyId, ownerId, replierId, username, text, t, targetId,
                                        now, answers, saveOk);
      var p := ReplyPayload(ownerId, replierId, username, text, t, targetId, replyId);
      && (|r.world.notifications| > |w.notifications| <==>
            ownerId != replierId && Validate(p.kind, p.title, p.message).Success?)
      && |r.world.notifications| <= |w.notifications| + 1
  {
  }

  /** A new follower is announced even when the follower owns the channel:
      a record is stored exactly when the payload passes the schema. */
  lemma FollowerStoresEvenForSelf(w: Dispatcher.World, reg: Presence.Registry, id: Id, ownerId: Id,
                                  username: string, channelId: Id, channelName: string, now: int,
                                  answers: Option<seq<bool>>, saveOk: bool)
    ensures var r := NotifyNewFollower(w, reg, id, ownerId, ownerId, username, channelId, channelName, now,
                                       answers, saveOk);
      var p := FollowerPayload(ownerId, ownerId, username, channelId, channelName);
      |r.world.notifications| > |w.notifications| <==> Validate(p.kind, p.title, p.message).Success?
  {
  }
}

=== FILE: follows.dfy ===
/** Channel subscriptions: toggleFollow, followChannel, toggleNotifications
    (the bell), checkFollowStatus, and the three follow listings with their
    paging flags. A follow is unique per (follower, channel) and carries the
    bell flag. The handlers also `$inc` a channel's `totalfollowers`, a path
    the Channel schema does not declare; the store drops the update, so a
    follow never changes the channel record. CountedStore at the end keeps
    the counter the handlers evidently intended.

    Follows and channels are kept in store order; the clock is an input. */
module Follows {
  import opened Wrappers
  import opened Content
  import Paging

  datatype Follow = Follow(follower: Id, channel: Id, notificationsEnabled: bool, createdAt: int)

  datatype Channel = Channel(id: Id, owner: Option<Id>, name: string, totalViews: int, createdAt: int)

  datatype Store = Store(follows: seq<Follow>, channels: seq<Channel>)

  /** findOne({ follower, channel }): the position of the follow record. */
  function FindFollow(fs: seq<Follow>, user: Id, channel: Id): (r: Option<nat>)
    ensures r.Some? ==> r.value < |fs| && fs[r.value].follower == user && fs[r.value].channel == channel
    ensures r.None? ==> forall k :: 0 <= k < |fs| ==> !(fs[k].follower == user && fs[k].channel == channel)
  {
    if |fs| == 0 then None
    else if fs[0].follower == user && fs[0].channel == channel then Some(0)
    else match FindFollow(fs[1..], user, channel)
      case None => None
      case Some(j) => Some(j + 1)
  }

  /** findById on channels. */
  function FindChannel(cs: seq<Channel>, id: Id): (r: Option<nat>)
    ensures r.Some? ==> r.value < |cs| && cs[r.value].id == id
    ensures r.None? ==> forall k :: 0 <= k < |cs| ==> cs[k].id != id
  {
    if |cs| == 0 then None
    else if cs[0].id == id then Some(0)
    else match FindChannel(cs[1..], id)
      case None => None
      case Some(j) => Some(j + 1)
  }

  predicate IsFollowing(s: Store, user: Id, channel: Id) {
    FindFollow(s.follows, user, channel).Some?
  }

  /** The number of follow records of a channel. */
  function FollowerCount(fs: seq<Follow>, channel: Id): (r: nat)
    ensures r <= |fs|
  {
    if |fs| == 0 then 0
    else FollowerCount(fs[..|fs| - 1], channel) + (if fs[|fs| - 1].channel == channel then 1 else 0)
  }

  /** The unique index on (follower, channel). */
  predicate UniquePairs(fs: seq<Follow>) {
    forall i, j :: 0 <= i < j < |fs| ==> !(fs[i].follower == fs[j].follower && fs[i].channel == fs[j].channel)
  }

  predicate UniqueChannelIds(cs: seq<Channel>) {
    forall i, j :: 0 <= i < j < |cs| ==> cs[i].id != cs[j].id
  }

  /** The unique indexes on (follower, channel) and on the channel id. */
  predicate Consistent(s: Store) {
    UniquePairs(s.follows) && UniqueChannelIds(s.channels)
  }

  datatype Reply =
    | Unauthenticated      // 401
    | BadChannelId         // 400
    | ChannelNotFound      // 404
    | OwnChannel           // 400
    | ServerError          // 500: the channel has no owner, so the owner comparison throws
    | AlreadyFollowing     // 400
    | NotFollowing         // 404
    | Followed             // 201
    | Unfollowed           // 200
    | FollowCreated(follow: Follow)             // 201
    | BellSet(notificationsEnabled: bool)       // 200
    | Status(isFollowing: bool, notificationsEnabled: bool, followedAt: Option<int>)

  /** The checks shared by toggleFollow and followChannel, in order; success
      carries the user and the channel's position. */
  function CheckFollow(s: Store, userId: Option<Id>, channelId: Id): (r: Result<(Id, nat), Reply>)
    ensures !SignedIn(userId) ==> r == Failure(Unauthenticated)
    ensures SignedIn(userId) && !IsObjectId(channelId) ==> r == Failure(BadChannelId)
    ensures SignedIn(userId) && IsObjectId(channelId) ==>
      match FindChannel(s.channels, channelId)
      case None => r == Failure(ChannelNotFound)
      case Some(i) =>
        && (s.channels[i].owner.None? ==> r == Failure(ServerError))
        && (s.channels[i].owner == Some(userId.value) ==> r == Failure(OwnChannel))
        && (s.channels[i].owner.Some? && s.channels[i].owner != Some(userId.value) ==> r == Success((userId.value, i)))
  {
    if !SignedIn(userId) then Failure(Unauthenticated)
    else if !IsObjectId(channelId) then Failure(BadChannelId)
    else match FindChannel(s.channels, channelId)
      case None => Failure(ChannelNotFound)
      case Some(i) =>
        match s.channels[i].owner
        case None => Failure(ServerError)
        case Some(o) => if o == userId.value then Failure(OwnChannel) else Success((userId.value, i))
  }

  function RemoveAt(fs: seq<Follow>, i: nat): (r: seq<Follow>)
    requires i < |fs|
    ensures |r| == |fs| - 1
    ensures forall k :: 0 <= k < i ==> r[k] == fs[k]
    ensures forall k :: i <= k < |r| ==> r[k] == fs[k + 1]
  {
    fs[..i] + fs[i + 1..]
  }

  /** Follow.create with the bell on; the `$inc` that follows it changes
      nothing. */
  function Subscribe(s: Store, user: Id, i: nat, now: int): (r: Store)
    requires i < |s.channels|
  {
    Store(s.follows + [Follow(user, s.channels[i].id, true, now)], s.channels)
  }

  /** toggleFollow: after the checks, an existing follow is deleted;
      otherwise a follow is created with the bell on. The channel record is
      left as it was. */
  function ToggleFollow(s: Store, userId: Option<Id>, channelId: Id, now: int): (r: (Reply, Store))
    ensures CheckFollow(s, userId, channelId).Failure? ==> r == (CheckFollow(s, userId, channelId).error, s)
    ensures CheckFollow(s, userId, channelId).Success? ==>
      var user := userId.value;
      && (r.0 == Unfollowed <==> IsFollowing(s, user, channelId))
      && (r.0 == Followed <==> !IsFollowing(s, user, channelId))
      && (UniquePairs(s.follows) ==> (IsFollowing(r.1, user, channelId) <==> !IsFollowing(s, user, channelId)))
    ensures CheckFollow(s, userId, channelId).Success? ==>
      var user := userId.value;
      match FindFollow(s.follows, user, channelId)
      case Some(j) => r.1 == Store(RemoveAt(s.follows, j), s.channels)
      case None => r.1 == Store(s.follows + [Follow(user, channelId, true, now)], s.channels)
  {
    match CheckFollow(s, userId, channelId)
    case Failure(e) => (e, s)
    case Success((user, i)) =>
      match FindFollow(s.follows, user, channelId)
      case Some(j) =>
        UniqueAfterCheck(s, user, channelId, j);
        (Unfollowed, Store(RemoveAt(s.follows, j), s.channels))
      case None =>
        var r := Subscribe(s, user, i, now);
        assert r.follows[|s.follows|].follower == user;
        (Followed, r)
  }

  /** The checks make the found follow the only one of its pair whenever the
      store keeps its unique index; removing it removes the pair. */
  lemma UniqueAfterCheck(s: Store, user: Id, channel: Id, j: nat)
    requires FindFollow(s.follows, user, channel) == Some(j)
    ensures UniquePairs(s.follows) ==> FindFollow(RemoveAt(s.follows, j), user, channel).None?
  {
    if UniquePairs(s.follows) {
      var r := RemoveAt(s.follows, j);
      forall k | 0 <= k < |r| ensures !(r[k].follower == user && r[k].channel == channel) {
        if k < j {
          assert r[k] == s.follows[k];
        } else {
          assert r[k] == s.follows[k + 1];
        }
      }
    }
  }

  /** followChannel: like toggleFollow but an existing follow is refused. */
  function FollowChannel(s: Store, userId: Option<Id>, channelId: Id, now: int): (r: (Reply, Store))
    ensures CheckFollow(s, userId, channelId).Failure? ==> r == (CheckFollow(s, userId, channelId).error, s)
    ensures CheckFollow(s, userId, channelId).Success? && IsFollowing(s, userId.value, channelId) ==>
              r == (AlreadyFollowing, s)
    ensures CheckFollow(s, userId, channelId).Success? && !IsFollowing(s, userId.value, channelId) ==>
              && r.0 == FollowCreated(Follow(userId.value, channelId, true, now))
              && r.1 == ToggleFollow(s, userId, channelId, now).1
              && r.1 == Store(s.follows + [Follow(userId.value, channelId, true, now)], s.channels)
  {
    match CheckFollow(s, userId, channelId)
    case Failure(e) => (e, s)
    case Success((user, i)) =>
      if FindFollow(s.follows, user, channelId).Some? then (AlreadyFollowing, s)
      else (FollowCreated(Follow(user, channelId, true, now)), Subscribe(s, user, i, now))
  }

  // ----- The invariant -----

  lemma FollowerCountAppend(fs: seq<Follow>, f: Follow, channel: Id)
    ensures FollowerCount(fs + [f], channel) == FollowerCount(fs, channel) + (if f.channel == channel then 1 else 0)
  {
    assert (fs + [f])[..|fs|] == fs;
  }

  lemma {:induction false} FollowerCountRemove(fs: seq<Follow>, i: nat, channel: Id)
    requires i < |fs|
    ensures FollowerCount(RemoveAt(fs, i), channel) ==
              FollowerCount(fs, channel) - (if fs[i].channel == channel then 1 else 0)
    decreases |fs|
  {
    var n := |fs| - 1;
    if i == n {
      assert RemoveAt(fs, i) == fs[..n];
    } else {
      var front := fs[..n];
      FollowerCountRemove(front, i, channel);
      assert RemoveAt(fs, i) == RemoveAt(front, i) + [fs[n]];
      FollowerCountAppend(RemoveAt(front, i), fs[n], channel);
    }
  }

  /** Two follow lists with the same channels in the same places count the
      same. */
  lemma {:induction false} FollowerCountSame(a: seq<Follow>, b: seq<Follow>, channel: Id)
    requires |a| == |b| && forall k :: 0 <= k < |a| ==> a[k].channel == b[k].channel
    ensures FollowerCount(a, channel) == FollowerCount(b, channel)
    decreases |a|
  {
    if |a| > 0 {
      FollowerCountSame(a[..|a| - 1], b[..|b| - 1], channel);
    }
  }

  /** toggleFollow keeps both unique indexes. */
  lemma ToggleFollowKeepsConsistent(s: Store, userId: Option<Id>, channelId: Id, now: int)
    requires Consistent(s)
    ensures Consistent(ToggleFollow(s, userId, channelId, now).1)
  {
    if CheckFollow(s, userId, channelId).Success? {
      var (user, i) := CheckFollow(s, userId, channelId).value;
      match FindFollow(s.follows, user, channelId)
      case Some(j) =>
        var r := ToggleFollow(s, userId, channelId, now).1;
        assert UniquePairs(r.follows) by {
          forall a, b | 0 <= a < b < |r.follows|
            ensures !(r.follows[a].follower == r.follows[b].follower && r.follows[a].channel == r.follows[b].channel)
          {
            var a' := if a < j then a else a + 1;
            var b' := if b < j then b else b + 1;
            assert r.follows[a] == s.follows[a'] && r.follows[b] == s.follows[b'];
          }
        }
      case None =>
        SubscribeKeepsConsistent(s, user, i, now);
    }
  }

  /** Creating a follow for a pair that has none keeps both unique
      indexes. */
  lemma SubscribeKeepsConsistent(s: Store, user: Id, i: nat, now: int)
    requires Consistent(s) && i < |s.channels| && FindFollow(s.follows, user, s.channels[i].id).None?
    ensures Consistent(Subscribe(s, user, i, now))
  {
    var r := Subscribe(s, user, i, now);
    assert UniquePairs(r.follows) by {
      assert forall k :: 0 <= k < |s.follows| ==> r.follows[k] == s.follows[k];
    }
  }

  lemma FollowChannelKeepsConsistent(s: Store, userId: Option<Id>, channelId: Id, now: int)
    requires Consistent(s)
    ensures Consistent(FollowChannel(s, userId, channelId, now).1)
  {
    ToggleFollowKeepsConsistent(s, userId, channelId, now);
  }

  /** As written, a follow or unfollow moves the channel's number of follow
      records by one while the channel record stays as it was: no stored
      field of the channel can track its followers. */
  lemma {:induction false} FollowMovesCountNotChannel(s: Store, userId: Option<Id>, channelId: Id, now: int)
    requires CheckFollow(s, userId, channelId).Success?
    ensures var r := ToggleFollow(s, userId, channelId, now);
      && r.1.channels == s.channels
      && (r.0 == Followed ==> FollowerCount(r.1.follows, channelId) == FollowerCount(s.follows, channelId) + 1)
      && (r.0 == Unfollowed ==> FollowerCount(r.1.follows, channelId) == FollowerCount(s.follows, channelId) - 1)
  {
    var user := userId.value;
    match FindFollow(s.follows, user, channelId)
    case Some(j) =>
      FollowerCountRemove(s.follows, j, channelId);
    case None =>
      FollowerCountAppend(s.follows, Follow(user, channelId, true, now), channelId);
  }

  /** Following then unfollowing a channel restores the store exactly. */
  lemma FollowThenUnfollowRestores(s: Store, userId: Option<Id>, channelId: Id, now: int, later: int)
    requires CheckFollow(s, userId, channelId).Success? && !IsFollowing(s, userId.value, channelId)
    ensures var once := ToggleFollow(s, userId, channelId, now);
      ToggleFollow(once.1, userId, channelId, later) == (Unfollowed, s)
  {
    var (user, i) := CheckFollow(s, userId, channelId).value;
    var once := Subscribe(s, user, i, now);
    assert CheckFollow(once, userId, channelId) == Success((user, i));
    assert FindFollow(once.follows, user, channelId) == Some(|s.follows|) by {
      FindFollowAppend(s.follows, Follow(user, channelId, true, now));
    }
    assert RemoveAt(once.follows, |s.follows|) == s.follows;
  }

  lemma FindFollowAppend(fs: seq<Follow>, f: Follow)
    requires FindFollow(fs, f.follower, f.channel).None?
    ensures FindFollow(fs + [f], f.follower, f.channel) == Some(|fs|)
  {
    assert forall k :: 0 <= k < |fs| ==> (fs + [f])[k] == fs[k];
    assert (fs + [f])[|fs|] == f;
  }

  /** toggleNotifications: flips the bell of an existing follow; a user who
      does not follow the channel gets 404. The channel itself is not
      looked up. */
  function ToggleNotifications(s: Store, userId: Option<Id>, channelId: Id): (r: (Reply, Store))
    ensures !SignedIn(userId) ==> r == (Unauthenticated, s)
    ensures SignedIn(userId) && !IsObjectId(channelId) ==> r == (BadChannelId, s)
    ensures SignedIn(userId) && IsObjectId(channelId) ==>
      match FindFollow(s.follows, userId.value, channelId)
      case None => r == (NotFollowing, s)
      case Some(j) =>
        && r.0 == BellSet(!s.follows[j].notificationsEnabled)
        && |r.1.follows| == |s.follows| && r.1.channels == s.channels
        && r.1.follows[j] == s.follows[j].(notificationsEnabled := !s.follows[j].notificationsEnabled)
        && forall k :: 0 <= k < |s.follows| && k != j ==> r.1.follows[k] == s.follows[k]
  {
    if !SignedIn(userId) then (Unauthenticated, s)
    else if !IsObjectId(channelId) then (BadChannelId, s)
    else match FindFollow(s.follows, userId.value, channelId)
      case None => (NotFollowing, s)
      case Some(j) =>
        var f := s.follows[j];
        var on := !f.notificationsEnabled;
        (BellSet(on), s.(follows := s.follows[j := f.(notificationsEnabled := on)]))
  }

  /** The bell never changes who follows what, so both unique indexes
      still hold and every channel keeps its number of followers. */
  lemma ToggleNotificationsKeepsConsistent(s: Store, userId: Option<Id>, channelId: Id)
    requires Consistent(s)
    ensures Consistent(ToggleNotifications(s, userId, channelId).1)
    ensures forall id :: FollowerCount(ToggleNotifications(s, userId, channelId).1.follows, id) == FollowerCount(s.follows, id)
  {
    var r := ToggleNotifications(s, userId, channelId).1;
    forall id ensures FollowerCount(r.follows, id) == FollowerCount(s.follows, id) {
      FollowerCountSame(r.follows, s.follows, id);
    }
  }

  /** Flipping the bell twice restores the store. */
  lemma ToggleNotificationsTwice(s: Store, userId: Option<Id>, channelId: Id)
    ensures var once := ToggleNotifications(s, userId, channelId);
      ToggleNotifications(once.1, userId, channelId).1 == s
  {
    if SignedIn(userId) && IsObjectId(channelId) && FindFollow(s.follows, userId.value, channelId).Some? {
      var j := FindFollow(s.follows, userId.value, channelId).value;
      var once := ToggleNotifications(s, userId, channelId).1;
      FindFollowSamePairs(once.follows, s.follows, userId.value, channelId);
      assert once.follows[j := s.follows[j]] == s.follows;
    }
  }

  lemma {:induction false} FindFollowSamePairs(a: seq<Follow>, b: seq<Follow>, user: Id, channel: Id)
    requires |a| == |b|
    requires forall k :: 0 <= k < |a| ==> a[k].follower == b[k].follower && a[k].channel == b[k].channel
    ensures FindFollow(a, user, channel) == FindFollow(b, user, channel)
    decreases |a|
  {
    if |a| > 0 && !(a[0].follower == user && a[0].channel == channel) {
      FindFollowSamePairs(a[1..], b[1..], user, channel);
    }
  }

  /** checkFollowStatus: whether the user follows the channel, the bell
      (false when not following) and the follow time. */
  function CheckFollowStatus(s: Store, userId: Option<Id>, channelId: Id): (r: Reply)
    ensures !SignedIn(userId) ==> r == Unauthenticated
    ensures SignedIn(userId) && !IsObjectId(channelId) ==> r == BadChannelId
    ensures SignedIn(userId) && IsObjectId(channelId) ==>
      && r.Status?
      && (r.isFollowing <==> IsFollowing(s, userId.value, channelId))
      && (UniquePairs(s.follows) ==>
            (r.notificationsEnabled <==>
               exists k :: 0 <= k < |s.follows| && s.follows[k].follower == userId.value
                           && s.follows[k].channel == channelId && s.follows[k].notificationsEnabled))
      && (r.followedAt.Some? <==> r.isFollowing)
      && (r.isFollowing ==>
            r.followedAt == Some(s.follows[FindFollow(s.follows, userId.value, channelId).value].createdAt))
  {
    if !SignedIn(userId) then Unauthenticated
    else if !IsObjectId(channelId) then BadChannelId
    else match FindFollow(s.follows, userId.value, channelId)
      case None => Status(false, false, None)
      case Some(j) =>
        var f := s.follows[j];
        assert UniquePairs(s.follows) ==>
          forall k :: 0 <= k < |s.follows| && s.follows[k].follower == userId.value && s.follows[k].channel == channelId
            ==> k == j;
        Status(true, f.notificationsEnabled, Some(f.createdAt))
  }

  // ----- Listings -----

  /** A page of a listing with the pagination block the follow handlers
      return. totalPages is None where Math.ceil(total / 0) is not a finite
      number. */
  datatype Page<T> = Page(items: seq<T>, currentPage: int, totalPages: Option<int>, total: nat,
                          hasNextPage: bool, hasPrevPage: bool)

  /** skip/limit over the sorted result, and the pagination block. A
      negative skip makes the store throw. */
  function PageOf<T>(sorted: seq<T>, page: int, limit: int): (r: Result<Page<T>, Reply>)
    ensures r.Failure? <==> Paging.Skip(page, limit) < 0
    ensures r.Failure? ==> r.error == ServerError
    ensures r.Success? ==>
      && Paging.SkipLimit(sorted, Paging.Skip(page, limit), limit) == Success(r.value.items)
      && r.value.total == |sorted| && r.value.currentPage == page
      && (r.value.totalPages.Some? <==> limit != 0)
      && (limit > 0 ==> r.value.totalPages == Some(Paging.TotalPages(|sorted|, limit)))
      && (r.value.hasPrevPage <==> page > 1)
    ensures r.Success? ==> (r.value.hasNextPage <==> Paging.HasMore(page, limit, |sorted|))
  {
    match Paging.SkipLimit(sorted, Paging.Skip(page, limit), limit)
    case Failure(_) => Failure(ServerError)
    case Success(items) =>
      var pages := if limit == 0 then None else Some(Paging.TotalPages(|sorted|, limit));
      Success(Page(items, page, pages, |sorted|, Paging.HasMore(page, limit, |sorted|), Paging.HasPrev(page)))
  }

  function FollowedAt(f: Follow): int {
    f.createdAt
  }

  /** A follow on a page can be shown only if its channel and the channel's
      owner still exist: the handler reads both unguarded. */
  predicate Presentable(s: Store, f: Follow) {
    var i := FindChannel(s.channels, f.channel);
    i.Some? && s.channels[i.value].owner.Some?
  }

  /** getMyFollowedChannels with the default sort: the user's follows, newest
      first. A follow whose channel or owner is gone makes the handler
      throw. */
  function GetMyFollowedChannels(s: Store, userId: Option<Id>, page: Option<int>, limit: Option<int>)
    : (r: Result<Page<Follow>, Reply>)
    ensures !SignedIn(userId) ==> r == Failure(Unauthenticated)
    ensures r.Success? ==> SignedIn(userId)
    ensures r.Success? ==> forall f :: f in r.value.items ==> f in s.follows && f.follower == userId.value
    ensures r.Success? ==> forall f :: f in r.value.items ==> Presentable(s, f)
    ensures r.Success? ==> Paging.SortedDesc(r.value.items, FollowedAt)
    ensures r.Success? ==> r.value.total == |Paging.Where(s.follows, (f: Follow) => f.follower == userId.value)|
    ensures r.Success? ==>
      var l := if limit.Some? then limit.value else 20;
      && r.value.currentPage == (if page.Some? then page.value else 1)
      && Success(r.value.items) ==
           Paging.SkipLimit(Paging.SortDesc(Paging.Where(s.follows, (f: Follow) => f.follower == userId.value), FollowedAt),
                            Paging.Skip(r.value.currentPage, l), l)
  {
    if !SignedIn(userId) then Failure(Unauthenticated)
    else
      var mine := Paging.Where(s.follows, (f: Follow) => f.follower == userId.value);
      var sorted := Paging.SortDesc(mine, FollowedAt);
      var l := if limit.Some? then limit.value else 20;
      match PageOf(sorted, if page.Some? then page.value else 1, l)
      case Failure(e) => Failure(e)
      case Success(pg) =>
        Paging.SkipLimitWithin(sorted, Paging.Skip(pg.currentPage, l), l);
        Paging.PermutationWithin(sorted, mine);
        Paging.SkipLimitSortedDesc(sorted, Paging.Skip(pg.currentPage, l), l, FollowedAt);
        if forall f :: f in pg.items ==> Presentable(s, f) then Success(pg)
        else Failure(ServerError)
  }

  /** For ordinary paging, hasNextPage holds exactly when asking for the
      next page would return something. */
  lemma NextFlagIffNextPageNonEmpty<T>(sorted: seq<T>, page: int, limit: int)
    requires page >= 1 && limit >= 1
    ensures PageOf(sorted, page, limit).Success? && PageOf(sorted, page + 1, limit).Success?
    ensures PageOf(sorted, page, limit).value.hasNextPage <==> |PageOf(sorted, page + 1, limit).value.items| > 0
  {
    Paging.HasMoreIffNextPageNonEmpty(sorted, page, limit);
  }

  /** getChannelFollowers (no sign-in needed): the channel's follows,
      newest first. */
  function GetChannelFollowers(s: Store, channelId: Id, page: Option<int>, limit: Option<int>)
    : (r: Result<Page<Follow>, Reply>)
    ensures !IsObjectId(channelId) ==> r == Failure(BadChannelId)
    ensures IsObjectId(channelId) && FindChannel(s.channels, channelId).None? ==> r == Failure(ChannelNotFound)
    ensures r.Success? ==> forall f :: f in r.value.items ==> f in s.follows && f.channel == channelId
    ensures r.Success? ==> Paging.SortedDesc(r.value.items, FollowedAt)
    ensures r.Success? ==> r.value.total == FollowerCount(s.follows, channelId)
    ensures r.Success? ==>
      var l := if limit.Some? then limit.value else 20;
      && r.value.currentPage == (if page.Some? then page.value else 1)
      && Success(r.value.items) ==
           Paging.SkipLimit(Paging.SortDesc(Paging.Where(s.follows, (f: Follow) => f.channel == channelId), FollowedAt),
                            Paging.Skip(r.value.currentPage, l), l)
  {
    if !IsObjectId(channelId) then Failure(BadChannelId)
    else if FindChannel(s.channels, channelId).None? then Failure(ChannelNotFound)
    else
      var theirs := Paging.Where(s.follows, (f: Follow) => f.channel == channelId);
      var sorted := Paging.SortDesc(theirs, FollowedAt);
      var l := if limit.Some? then limit.value else 20;
      WhereChannelCount(s.follows, channelId);
      match PageOf(sorted, if page.Some? then page.value else 1, l)
      case Failure(e) => Failure(e)
      case Success(pg) =>
        Paging.SkipLimitWithin(sorted, Paging.Skip(pg.currentPage, l), l);
        Paging.PermutationWithin(sorted, theirs);
        Paging.SkipLimitSortedDesc(sorted, Paging.Skip(pg.currentPage, l), l, FollowedAt);
        Success(pg)
  }

  /** The followers query counts what FollowerCount counts. */
  lemma {:induction false} WhereChannelCount(fs: seq<Follow>, channel: Id)
    ensures |Paging.Where(fs, (f: Follow) => f.channel == channel)| == FollowerCount(fs, channel)
    decreases |fs|
  {
    if |fs| > 0 {
      WhereChannelCount(fs[..|fs| - 1], channel);
    }
  }

  /** The discovery sort: sortBy "totalViews" or "createdAt", anything else
      by totalfollowers, which no channel record holds, so under it every
      channel ties; always descending. */
  function DiscoveryKey(sortBy: string): Channel -> int {
    if sortBy == "totalViews" then (c: Channel) => c.totalViews
    else if sortBy == "createdAt" then (c: Channel) => c.createdAt
    else (c: Channel) => 0
  }

  /** The $nin list: the channels the user follows, then those they own. */
  function Excluded(s: Store, user: Id): (r: set<Id>)
    ensures forall id :: id in r <==>
      (exists k :: 0 <= k < |s.follows| && s.follows[k].follower == user && s.follows[k].channel == id)
      || (exists k :: 0 <= k < |s.channels| && s.channels[k].owner == Some(user) && s.channels[k].id == id)
  {
    var followed := set k | 0 <= k < |s.follows| && s.follows[k].follower == user :: s.follows[k].channel;
    var owned := set k | 0 <= k < |s.channels| && s.channels[k].owner == Some(user) :: s.channels[k].id;
    followed + owned
  }

  /** getUnfollowedChannels: channels with an owner that the user neither
      follows nor owns. */
  function GetUnfollowedChannels(s: Store, userId: Option<Id>, page: Option<int>, limit: Option<int>, sortBy: string)
    : (r: Result<Page<Channel>, Reply>)
    ensures !SignedIn(userId) ==> r == Failure(Unauthenticated)
    ensures r.Success? ==> SignedIn(userId)
    ensures r.Success? ==> forall c :: c in r.value.items ==> c in s.channels && c.id !in Excluded(s, userId.value) && c.owner.Some?
    ensures r.Success? ==> Paging.SortedDesc(r.value.items, DiscoveryKey(sortBy))
    ensures r.Success? ==>
      var l := if limit.Some? then limit.value else 20;
      var excluded := Excluded(s, userId.value);
      && r.value.currentPage == (if page.Some? then page.value else 1)
      && Success(r.value.items) ==
           Paging.SkipLimit(Paging.SortDesc(Paging.Where(s.channels, (c: Channel) => c.id !in excluded && c.owner.Some?),
                                            DiscoveryKey(sortBy)),
                            Paging.Skip(r.value.currentPage, l), l)
  {
    if !SignedIn(userId) then Failure(Unauthenticated)
    else
      var excluded := Excluded(s, userId.value);
      var open := Paging.Where(s.channels, (c: Channel) => c.id !in excluded && c.owner.Some?);
      var sorted := Paging.SortDesc(open, DiscoveryKey(sortBy));
      var l := if limit.Some? then limit.value else 20;
      match PageOf(sorted, if page.Some? then page.value else 1, l)
      case Failure(e) => Failure(e)
      case Success(pg) =>
        Paging.SkipLimitWithin(sorted, Paging.Skip(pg.currentPage, l), l);
        Paging.PermutationWithin(sorted, open);
        Paging.SkipLimitSortedDesc(sorted, Paging.Skip(pg.currentPage, l), l, DiscoveryKey(sortBy));
        Success(pg)
  }

  /** Under the default sort every channel ties, so the page is the window
      of the open channels in store order. */
  lemma DiscoveryDefaultKeepsStoreOrder(s: Store, userId: Option<Id>, page: Option<int>, limit: Option<int>, sortBy: string)
    requires sortBy != "totalViews" && sortBy != "createdAt"
    requires GetUnfollowedChannels(s, userId, page, limit, sortBy).Success?
    ensures var r := GetUnfollowedChannels(s, userId, page, limit, sortBy).value;
      var l := if limit.Some? then limit.value else 20;
      var excluded := Excluded(s, userId.value);
      Success(r.items) ==
        Paging.SkipLimit(Paging.Where(s.channels, (c: Channel) => c.id !in excluded && c.owner.Some?),
                         Paging.Skip(r.currentPage, l), l)
  {
    var excluded := Excluded(s, userId.value);
    Paging.SortDescTies(Paging.Where(s.channels, (c: Channel) => c.id !in excluded && c.owner.Some?), DiscoveryKey(sortBy));
  }

  /** Discovery never offers a channel the user follows or owns, nor one
      without an owner, and with unique channel ids it counts every other
      channel. */
  lemma DiscoveryExcludes(s: Store, userId: Option<Id>, page: Option<int>, limit: Option<int>, sortBy: string)
    requires UniqueChannelIds(s.channels)
    requires GetUnfollowedChannels(s, userId, page, limit, sortBy).Success?
    ensures var r := GetUnfollowedChannels(s, userId, page, limit, sortBy).value;
      forall c :: c in r.items ==>
        && !IsFollowing(s, userId.value, c.id)
        && c.owner.Some? && c.owner != Some(userId.value)
    ensures var r := GetUnfollowedChannels(s, userId, page, limit, sortBy).value;
      r.total == |Paging.Where(s.channels, (c: Channel) =>
                    c.owner.Some? && c.owner != Some(userId.value) && !IsFollowing(s, userId.value, c.id))|
  {
    var user := userId.value;
    var excluded := Excluded(s, user);
    var r := GetUnfollowedChannels(s, userId, page, limit, sortBy).value;
    var p1 := (c: Channel) => c.id !in excluded && c.owner.Some?;
    var p2 := (c: Channel) => c.owner.Some? && c.owner != Some(user) && !IsFollowing(s, user, c.id);
    forall c | c in s.channels ensures p1(c) == p2(c) {
      var i :| 0 <= i < |s.channels| && s.channels[i] == c;
      if c.owner == Some(user) {
        assert c.id in excluded;
      }
      if FindFollow(s.follows, user, c.id).Some? {
        var k := FindFollow(s.follows, user, c.id).value;
        assert c.id in excluded;
      }
      if c.id in excluded && c.owner.Some? && c.owner != Some(user) {
        assert forall k :: 0 <= k < |s.channels| && s.channels[k].id == c.id ==> k == i;
        var k :| 0 <= k < |s.follows| && s.follows[k].follower == user && s.follows[k].channel == c.id;
        assert FindFollow(s.follows, user, c.id).Some?;
      }
    }
    WhereSameOn(s.channels, p1, p2);
  }

  /** Filters that agree on every element give the same result. */
  lemma {:induction false} WhereSameOn(xs: seq<Channel>, p: Channel -> bool, q: Channel -> bool)
    requires forall x :: x in xs ==> p(x) == q(x)
    ensures Paging.Where(xs, p) == Paging.Where(xs, q)
    decreases |xs|
  {
    if |xs| > 0 {
      var n := |xs| - 1;
      assert forall x :: x in xs[..n] ==> x in xs;
      WhereSameOn(xs[..n], p, q);
    }
  }

  // ----- The corrected counter -----

  /** The store as the handlers evidently intended it: the channel schema
      declares totalfollowers, so every `$inc` is kept. `followers` maps a
      channel id to its stored count; a channel without an entry reads as 0,
      as `$inc` treats a missing field. */
  datatype CountedStore = CountedStore(store: Store, followers: map<Id, int>)

  function Counter(m: map<Id, int>, id: Id): int {
    if id in m then m[id] else 0
  }

  /** `$inc: { totalfollowers: delta }` on one channel. */
  function Inc(m: map<Id, int>, id: Id, delta: int): (r: map<Id, int>)
    ensures Counter(r, id) == Counter(m, id) + delta
    ensures forall other :: other != id ==> Counter(r, other) == Counter(m, other)
  {
    m[id := Counter(m, id) + delta]
  }

  /** Every channel's stored count is the number of its follow records. */
  predicate CountsMatch(c: CountedStore) {
    forall i :: 0 <= i < |c.store.channels| ==>
      Counter(c.followers, c.store.channels[i].id) == FollowerCount(c.store.follows, c.store.channels[i].id)
  }

  predicate CountedConsistent(c: CountedStore) {
    Consistent(c.store) && CountsMatch(c)
  }

  /** toggleFollow with the counter kept: the same reply and follow records
      as the code as written, and the channel's count moved by exactly the
      change in its number of follows. */
  function ToggleFollowCounted(c: CountedStore, userId: Option<Id>, channelId: Id, now: int): (r: (Reply, CountedStore))
    ensures var w := ToggleFollow(c.store, userId, channelId, now);
      r.0 == w.0 && r.1.store == w.1
    ensures forall id :: id != channelId ==> Counter(r.1.followers, id) == Counter(c.followers, id)
    ensures Counter(r.1.followers, channelId) - Counter(c.followers, channelId) ==
            FollowerCount(r.1.store.follows, channelId) - FollowerCount(c.store.follows, channelId)
  {
    var w := ToggleFollow(c.store, userId, channelId, now);
    if CheckFollow(c.store, userId, channelId).Failure? then (w.0, CountedStore(w.1, c.followers))
    else
      FollowMovesCountNotChannel(c.store, userId, channelId, now);
      if w.0 == Unfollowed then (w.0, CountedStore(w.1, Inc(c.followers, channelId, -1)))
      else (w.0, CountedStore(w.1, Inc(c.followers, channelId, 1)))
  }

  /** followChannel with the counter kept. */
  function FollowChannelCounted(c: CountedStore, userId: Option<Id>, channelId: Id, now: int): (r: (Reply, CountedStore))
    ensures var w := FollowChannel(c.store, userId, channelId, now);
      r.0 == w.0 && r.1.store == w.1
    ensures forall id :: id != channelId ==> Counter(r.1.followers, id) == Counter(c.followers, id)
    ensures Counter(r.1.followers, channelId) - Counter(c.followers, channelId) ==
            FollowerCount(r.1.store.follows, channelId) - FollowerCount(c.store.follows, channelId)
  {
    var w := FollowChannel(c.store, userId, channelId, now);
    if w.0.FollowCreated? then (w.0, ToggleFollowCounted(c, userId, channelId, now).1)
    else (w.0, c)
  }

  /** The intended invariant: with the counter kept, every channel's count
      stays equal to its follow records across a toggle. */
  lemma ToggleFollowCountedKeepsConsistent(c: CountedStore, userId: Option<Id>, channelId: Id, now: int)
    requires CountedConsistent(c)
    ensures CountedConsistent(ToggleFollowCounted(c, userId, channelId, now).1)
  {
    var s := c.store;
    var r := ToggleFollowCounted(c, userId, channelId, now).1;
    ToggleFollowKeepsConsistent(s, userId, channelId, now);
    if CheckFollow(s, userId, channelId).Success? {
      var user := userId.value;
      forall k | 0 <= k < |r.store.channels|
        ensures Counter(r.followers, r.store.channels[k].id) == FollowerCount(r.store.follows, r.store.channels[k].id)
      {
        var id := s.channels[k].id;
        match FindFollow(s.follows, user, channelId)
        case Some(j) =>
          FollowerCountRemove(s.follows, j, id);
        case None =>
          FollowerCountAppend(s.follows, Follow(user, channelId, true, now), id);
      }
    }
  }

  lemma FollowChannelCountedKeepsConsistent(c: CountedStore, userId: Option<Id>, channelId: Id, now: int)
    requires CountedConsistent(c)
    ensures CountedConsistent(FollowChannelCounted(c, userId, channelId, now).1)
  {
    ToggleFollowCountedKeepsConsistent(c, userId, channelId, now);
  }

  /** With the counter kept, the followers listing's total (countDocuments)
      is the channel's stored count. */
  lemma FollowersTotalIsCounter(c: CountedStore, i: nat, page: Option<int>, limit: Option<int>)
    requires CountedConsistent(c) && i < |c.store.channels|
    requires GetChannelFollowers(c.store, c.store.channels[i].id, page, limit).Success?
    ensures GetChannelFollowers(c.store, c.store.channels[i].id, page, limit).value.total ==
            Counter(c.followers, c.store.channels[i].id)
  {
  }
}

=== FILE: manage_content.dfy ===
/** The admin content screens: getAllContent (one collection, or all three
    merged), getContentDetails and deleteContent. Rows carry the id, the
    kind, a title, the creator's display name and the upload date. */
module ManageContent {
  import opened Wrappers
  import opened Content
  import Paging

  /** The populated channel fields the creator name is read from. */
  datatype ChannelNames = ChannelNames(channelName: Option<string>, name: Option<string>, title: Option<string>)

  /** A stored document as the screens select it: `text` is the title of a
      video or short and the description of a post. */
  datatype Source = Source(id: Id, text: string, createdAt: int, channel: Option<ChannelNames>)

  datatype Store = Store(videos: seq<Source>, shorts: seq<Source>, posts: seq<Source>)

  datatype Row = Row(id: Id, kind: ContentType, title: string, creatorName: string, uploadedDate: int)

  /** `x?.f` is truthy. */
  predicate Truthy(x: Option<string>) {
    x.Some? && x.value != ""
  }

  /** `channel?.channelName || channel?.name || channel?.title || "Unknown"`. */
  function CreatorName(ch: Option<ChannelNames>): (r: string)
    ensures r != ""
    ensures ch.Some? && Truthy(ch.value.channelName) ==> r == ch.value.channelName.value
    ensures ch.Some? && !Truthy(ch.value.channelName) && Truthy(ch.value.name) ==> r == ch.value.name.value
    ensures ch.Some? && !Truthy(ch.value.channelName) && !Truthy(ch.value.name) && Truthy(ch.value.title) ==>
      r == ch.value.title.value
    ensures ch.None? || (!Truthy(ch.value.channelName) && !Truthy(ch.value.name) && !Truthy(ch.value.title)) ==>
      r == "Unknown"
  {
    if ch.None? then "Unknown"
    else if Truthy(ch.value.channelName) then ch.value.channelName.value
    else if Truthy(ch.value.name) then ch.value.name.value
    else if Truthy(ch.value.title) then ch.value.title.value
    else "Unknown"
  }

  /** The creator name is always one of the channel's non-empty names, or
      "Unknown" exactly when it has none. */
  lemma CreatorNameFromChannel(ch: Option<ChannelNames>)
    ensures var r := CreatorName(ch);
      || r == "Unknown"
      || (ch.Some? && (ch.value.channelName == Some(r) || ch.value.name == Some(r) || ch.value.title == Some(r)))
    ensures ch.Some? && (Truthy(ch.value.channelName) || Truthy(ch.value.name) || Truthy(ch.value.title)) ==>
      CreatorName(ch) != "Unknown" || Some("Unknown") in {ch.value.channelName, ch.value.name, ch.value.title}
  {
  }

  /** The row title: a post shows its description, or "Post" when that is
      empty. */
  function RowTitle(kind: ContentType, d: Source): (r: string)
    ensures kind != Post ==> r == d.text
    ensures kind == Post ==> r != ""
    ensures kind == Post && d.text != "" ==> r == d.text
  {
    if kind == Post && d.text == "" then "Post" else d.text
  }

  function Format(kind: ContentType, d: Source): (r: Row)
    ensures r.id == d.id && r.kind == kind && r.uploadedDate == d.createdAt
    ensures r.title == RowTitle(kind, d) && r.creatorName == CreatorName(d.channel)
  {
    Row(d.id, kind, RowTitle(kind, d), CreatorName(d.channel), d.createdAt)
  }

  function Rows(kind: ContentType, ds: seq<Source>): (r: seq<Row>)
    ensures |r| == |ds|
    ensures forall i :: 0 <= i < |r| ==> r[i] == Format(kind, ds[i])
  {
    seq(|ds|, i requires 0 <= i < |ds| => Format(kind, ds[i]))
  }

  function Collection(s: Store, kind: ContentType): seq<Source> {
    match kind
    case Video => s.videos
    case Short => s.shorts
    case Post => s.posts
  }

  /** The `type` query and route values: "video", "short", "post". */
  function ParseKind(t: string): (r: Option<ContentType>)
    ensures r.Some? ==> (t == "video" <==> r.value == Video)
    ensures r.Some? ==> (t == "short" <==> r.value == Short)
    ensures r.Some? ==> (t == "post" <==> r.value == Post)
    ensures r.None? <==> t != "video" && t != "short" && t != "post"
  {
    if t == "video" then Some(Video)
    else if t == "short" then Some(Short)
    else if t == "post" then Some(Post)
    else None
  }

  function Uploaded(r: Row): int {
    r.uploadedDate
  }

  function Created(d: Source): int {
    d.createdAt
  }

  datatype Listing = Listing(page: int, limit: int, total: nat, totalPages: int, data: seq<Row>)

  datatype AdminError =
    | ContentNotFound   // 404
    | ServerError       // 500

  /** The page and limit of the admin listing: `Number(q) || 1` and
      `Number(q) || 10`. */
  function PageNumber(page: Option<int>): (r: int)
    ensures r != 0
  {
    Paging.OrDefault(page, 1)
  }

  function PageSize(limit: Option<int>): (r: int)
    ensures r != 0
  {
    Paging.OrDefault(limit, 10)
  }

  /** One collection: counted, sorted newest first and paged by the store,
      which refuses a negative skip. */
  function ListOne(s: Store, kind: ContentType, page: Option<int>, limit: Option<int>)
    : (r: Result<Listing, AdminError>)
    ensures r.Failure? <==> Paging.Skip(PageNumber(page), PageSize(limit)) < 0
    ensures r.Failure? ==> r.error == ServerError
    ensures r.Success? ==>
      && r.value.total == |Collection(s, kind)|
      && r.value.totalPages == Paging.TotalPages(r.value.total, PageSize(limit))
      && Paging.SortedDesc(r.value.data, Uploaded)
      && (forall row :: row in r.value.data ==> row.kind == kind && exists d :: d in Collection(s, kind) && row == Format(kind, d))
    ensures r.Success? ==>
      var w := Paging.SkipLimit(Paging.SortDesc(Collection(s, kind), Created),
                                Paging.Skip(PageNumber(page), PageSize(limit)), PageSize(limit));
      && r.value.page == PageNumber(page) && r.value.limit == PageSize(limit)
      && w.Success? && r.value.data == Rows(kind, w.value)
  {
    var p := PageNumber(page);
    var l := PageSize(limit);
    var docs := Collection(s, kind);
    var sorted := Paging.SortDesc(docs, Created);
    match Paging.SkipLimit(sorted, Paging.Skip(p, l), l)
    case Failure(_) => Failure(ServerError)
    case Success(pageDocs) =>
      Paging.SkipLimitWithin(sorted, Paging.Skip(p, l), l);
      Paging.SkipLimitSortedDesc(sorted, Paging.Skip(p, l), l, Created);
      Paging.PermutationWithin(sorted, docs);
      var data := Rows(kind, pageDocs);
      assert forall i :: 0 <= i < |data| ==> pageDocs[i] in docs;
      Success(Listing(p, l, |docs|, Paging.TotalPages(|docs|, l), data))
  }

  /** All three collections formatted and concatenated, videos first. */
  function Merged(s: Store): (r: seq<Row>)
    ensures |r| == |s.videos| + |s.shorts| + |s.posts|
  {
    Rows(Video, s.videos) + Rows(Short, s.shorts) + Rows(Post, s.posts)
  }

  /** The all-types listing: the merged rows sorted newest first, the total
      of all three, and the page cut with Array.prototype.slice. */
  function ListAll(s: Store, page: Option<int>, limit: Option<int>): (r: Listing)
    ensures r.total == |s.videos| + |s.shorts| + |s.posts|
    ensures r.page == PageNumber(page) && r.limit == PageSize(limit)
    ensures r.totalPages == Paging.TotalPages(r.total, r.limit)
    ensures Paging.SortedDesc(r.data, Uploaded)
    ensures forall row :: row in r.data ==> row in Merged(s)
  {
    var p := PageNumber(page);
    var l := PageSize(limit);
    var merged := Merged(s);
    var sorted := Paging.SortDesc(merged, Uploaded);
    var skip := Paging.Skip(p, l);
    var data := Paging.JsSlice(sorted, skip, skip + l);
    Paging.JsSliceSortedDesc(sorted, skip, skip + l, Uploaded);
    Paging.PermutationWithin(sorted, merged);
    Listing(p, l, |merged|, Paging.TotalPages(|merged|, l), data)
  }

  /** getAllContent: "video", "short" or "post" pages one collection; any
      other value (or none) lists everything. */
  function GetAllContent(s: Store, page: Option<int>, limit: Option<int>, kind: string)
    : (r: Result<Listing, AdminError>)
    ensures ParseKind(kind).Some? ==> r == ListOne(s, ParseKind(kind).value, page, limit)
    ensures ParseKind(kind).None? ==> r == Success(ListAll(s, page, limit))
    ensures ParseKind(kind).None? ==> r.Success? && r.value.total == |s.videos| + |s.shorts| + |s.posts|
  {
    match ParseKind(kind)
    case Some(k) => ListOne(s, k, page, limit)
    case None => Success(ListAll(s, page, limit))
  }

  /** Every row of the merged listing comes from exactly the collection its
      kind names. */
  lemma MergedRowsFromTheirCollection(s: Store, row: Row)
    requires row in Merged(s)
    ensures exists d :: d in Collection(s, row.kind) && row == Format(row.kind, d)
  {
    var a, b, c := Rows(Video, s.videos), Rows(Short, s.shorts), Rows(Post, s.posts);
    assert row in a || row in b || row in c;
    if row in a {
      InRows(Video, s.videos, row);
    } else if row in b {
      InRows(Short, s.shorts, row);
    } else {
      InRows(Post, s.posts, row);
    }
  }

  lemma InRows(kind: ContentType, ds: seq<Source>, row: Row)
    requires row in Rows(kind, ds)
    ensures row.kind == kind && exists d :: d in ds && row == Format(kind, d)
  {
    var i :| 0 <= i < |ds| && Rows(kind, ds)[i] == row;
    assert ds[i] in ds;
  }

  /** For a positive page and limit the in-memory slice pages exactly like
      the store would. */
  lemma AllPagesLikeStore(s: Store, page: Option<int>, limit: Option<int>)
    requires PageNumber(page) >= 1 && PageSize(limit) >= 1
    ensures var sorted := Paging.SortDesc(Merged(s), Uploaded);
      var skip := Paging.Skip(PageNumber(page), PageSize(limit));
      Paging.SkipLimit(sorted, skip, PageSize(limit)) == Success(ListAll(s, page, limit).data)
  {
    var sorted := Paging.SortDesc(Merged(s), Uploaded);
    var skip := Paging.Skip(PageNumber(page), PageSize(limit));
    Paging.JsSliceIsSkipLimit(sorted, skip, PageSize(limit));
  }

  /** A negative page is not an error on the all-types path: page -1
      reads the rows two limits back from the end, whereas a
      single-collection listing answers 500. */
  lemma NegativePageReadsFromEnd(s: Store, limit: Option<int>, kind: ContentType)
    requires PageSize(limit) > 0 && 2 * PageSize(limit) <= |Merged(s)|
    ensures var sorted := Paging.SortDesc(Merged(s), Uploaded);
      var n, l := |sorted|, PageSize(limit);
      ListAll(s, Some(-1), limit).data == sorted[n - 2 * l..n - l]
    ensures ListOne(s, kind, Some(-1), limit) == Failure(ServerError)
  {
    Paging.JsSliceNegativePage(Paging.SortDesc(Merged(s), Uploaded), PageSize(limit));
  }

  /** findById in the collection; None when nothing has the id. */
  function Find(ds: seq<Source>, id: Id): (r: Option<nat>)
    ensures r.Some? ==> r.value < |ds| && ds[r.value].id == id
    ensures r.None? ==> forall i :: 0 <= i < |ds| ==> ds[i].id != id
  {
    if |ds| == 0 then None
    else if ds[0].id == id then Some(0)
    else match Find(ds[1..], id)
      case None => None
      case Some(i) => Some(i + 1)
  }

  /** getContentDetails: an unknown type is 404; for a known type a
      malformed id makes the store's cast throw (500) and a missing one is
      404. */
  function GetContentDetails(s: Store, kind: string, contentId: string): (r: Result<Source, AdminError>)
    ensures ParseKind(kind).None? ==> r == Failure(ContentNotFound)
    ensures ParseKind(kind).Some? && !IsObjectId(contentId) ==> r == Failure(ServerError)
    ensures r.Success? <==>
      ParseKind(kind).Some? && IsObjectId(contentId) && Find(Collection(s, ParseKind(kind).value), contentId).Some?
    ensures r.Success? ==> r.value in Collection(s, ParseKind(kind).value) && r.value.id == contentId
  {
    match ParseKind(kind)
    case None => Failure(ContentNotFound)
    case Some(k) =>
      if !IsObjectId(contentId) then Failure(ServerError)
      else match Find(Collection(s, k), contentId)
        case None => Failure(ContentNotFound)
        case Some(i) => Success(Collection(s, k)[i])
  }

  function WithCollection(s: Store, kind: ContentType, ds: seq<Source>): (r: Store)
    ensures Collection(r, kind) == ds
    ensures forall k :: k != kind ==> Collection(r, k) == Collection(s, k)
  {
    match kind
    case Video => s.(videos := ds)
    case Short => s.(shorts := ds)
    case Post => s.(posts := ds)
  }

  /** deleteContent: the same checks as the details screen; success removes
      that one document and leaves the other collections alone. */
  function DeleteContent(s: Store, kind: string, contentId: string): (r: (Result<(), AdminError>, Store))
    ensures r.0.Failure? ==> r.1 == s
    ensures r.0.Failure? <==> GetContentDetails(s, kind, contentId).Failure?
    ensures r.0.Failure? ==> r.0.error == GetContentDetails(s, kind, contentId).error
    ensures r.0.Success? ==>
      var k := ParseKind(kind).value;
      var i := Find(Collection(s, k), contentId).value;
      && Collection(r.1, k) == Collection(s, k)[..i] + Collection(s, k)[i + 1..]
      && forall other :: other != k ==> Collection(r.1, other) == Collection(s, other)
  {
    match GetContentDetails(s, kind, contentId)
    case Failure(e) => (Failure(e), s)
    case Success(_) =>
      var k := ParseKind(kind).value;
      var ds := Collection(s, k);
      var i := Find(ds, contentId).value;
      (Success(()), WithCollection(s, k, ds[..i] + ds[i + 1..]))
  }

  predicate UniqueIds(ds: seq<Source>) {
    forall i, j :: 0 <= i < j < |ds| ==> ds[i].id != ds[j].id
  }

  /** With unique ids, a deleted document is gone: its details are 404 and
      a second delete is 404 too, and the collection shrank by one. */
  lemma DeleteThenNotFound(s: Store, kind: string, contentId: string)
    requires ParseKind(kind).Some? && UniqueIds(Collection(s, ParseKind(kind).value))
    requires DeleteContent(s, kind, contentId).0.Success?
    ensures var after := DeleteContent(s, kind, contentId).1;
      && GetContentDetails(after, kind, contentId) == Failure(ContentNotFound)
      && DeleteContent(after, kind, contentId) == (Failure(ContentNotFound), after)
      && |Collection(after, ParseKind(kind).value)| == |Collection(s, ParseKind(kind).value)| - 1
  {
    var k := ParseKind(kind).value;
    var ds := Collection(s, k);
    var i := Find(ds, contentId).value;
    var rest := ds[..i] + ds[i + 1..];
    assert forall j :: 0 <= j < |rest| ==> rest[j].id != contentId by {
      forall j | 0 <= j < |rest| ensures rest[j].id != contentId {
        if j < i { assert rest[j] == ds[j]; } else { assert rest[j] == ds[j + 1]; }
      }
    }
  }
}

=== FILE: media.dfy ===
/** The request-level rules the video and short controllers share: hashtag
    and link parsing, the defaults applied on upload, the streamingUrl rule,
    private access, the publish guard (with the 60-second cap for shorts),
    the public listing and the trending ranking. */
module Media {
  import opened Wrappers
  import opened Content
  import Text
  import Paging

  /** `if (x)` on a request field: present and not the empty string. */
  predicate Given(x: Option<string>) {
    x.Some? && x.value != ""
  }

  /** JSON.parse of a body field as far as the handlers can use it: the
      list of strings, or None when parsing throws or yields a value the
      following `.map` / `startsWith` would throw on. */
  type JsonList = string -> Option<seq<string>>

  /** A parsed list field, or `fallback` when the field is absent or does
      not parse. */
  function ParsedOr(raw: Option<string>, parse: JsonList, fallback: seq<string>): (r: seq<string>)
    ensures Given(raw) && parse(raw.value).Some? ==> r == parse(raw.value).value
    ensures !Given(raw) || parse(raw.value).None? ==> r == fallback
  {
    if Given(raw) && parse(raw.value).Some? then parse(raw.value).value else fallback
  }

  /** One hashtag: a "#" is prefixed unless already there. */
  function Hashtag(tag: string): (r: string)
    ensures Text.StartsWith(r, "#")
    ensures r == tag <==> Text.StartsWith(tag, "#")
    ensures r != tag ==> r == "#" + tag
  {
    if Text.StartsWith(tag, "#") then tag
    else
      var r := "#" + tag;
      assert r[..1] == "#";
      r
  }

  lemma HashtagIdempotent(tag: string)
    ensures Hashtag(Hashtag(tag)) == Hashtag(tag)
  {
  }

  predicate AllTagged(tags: seq<string>) {
    forall i :: 0 <= i < |tags| ==> Text.StartsWith(tags[i], "#")
  }

  function Hashtags(tags: seq<string>): (r: seq<string>)
    ensures |r| == |tags|
    ensures AllTagged(r)
    ensures forall i :: 0 <= i < |r| ==> r[i] == Hashtag(tags[i])
  {
    seq(|tags|, i requires 0 <= i < |tags| => Hashtag(tags[i]))
  }

  /** Already-tagged lists pass through unchanged. */
  lemma HashtagsKeepTagged(tags: seq<string>)
    requires AllTagged(tags)
    ensures Hashtags(tags) == tags
  {
    assert forall i :: 0 <= i < |tags| ==> Hashtags(tags)[i] == tags[i];
  }

  /** Hashtags on upload: absent or unparsable input gives []. */
  function CreateHashtags(raw: Option<string>, parse: JsonList): (r: seq<string>)
    ensures AllTagged(r)
    ensures !Given(raw) || parse(raw.value).None? ==> r == []
    ensures Given(raw) && parse(raw.value).Some? ==> |r| == |parse(raw.value).value|
  {
    if Given(raw) && parse(raw.value).Some? then Hashtags(parse(raw.value).value) else []
  }

  /** Hashtags on update: absent or unparsable input keeps the stored list. */
  function UpdateHashtags(current: seq<string>, raw: Option<string>, parse: JsonList): (r: seq<string>)
    ensures !Given(raw) || parse(raw.value).None? ==> r == current
    ensures Given(raw) && parse(raw.value).Some? ==> AllTagged(r) && |r| == |parse(raw.value).value|
  {
    if Given(raw) && parse(raw.value).Some? then Hashtags(parse(raw.value).value) else current
  }

  /** Both paths tag whatever list they keep: create falls back to [] and
      update to the stored list, and a tagged stored list stays tagged. */
  lemma HashtagsAreParsedOrFallback(current: seq<string>, raw: Option<string>, parse: JsonList)
    requires AllTagged(current)
    ensures CreateHashtags(raw, parse) == Hashtags(ParsedOr(raw, parse, []))
    ensures UpdateHashtags(current, raw, parse) == Hashtags(ParsedOr(raw, parse, current))
    ensures AllTagged(UpdateHashtags(current, raw, parse))
  {
    HashtagsKeepTagged(current);
  }

  /** Links on upload are the parsed list or []; on update the stored
      list survives bad input. */
  function CreateLinks(raw: Option<string>, parse: JsonList): (r: seq<string>)
    ensures r == [] || (Given(raw) && parse(raw.value) == Some(r))
  {
    ParsedOr(raw, parse, [])
  }

  function UpdateLinks(current: seq<string>, raw: Option<string>, parse: JsonList): (r: seq<string>)
    ensures r == current || (Given(raw) && parse(raw.value) == Some(r))
    ensures Given(raw) && parse(raw.value).None? ==> r == current
  {
    ParsedOr(raw, parse, current)
  }

  /** Trimmed and lower-case: what the visibility default produces. */
  predicate Normalised(v: string) {
    Text.Trim(v) == v && Text.ToLower(v) == v
  }

  lemma LowerKeepsSpace(c: char)
    ensures Text.IsSpace(Text.ToLowerChar(c)) <==> Text.IsSpace(c)
  {
  }

  lemma LowerIdempotent(t: string)
    ensures Text.ToLower(Text.ToLower(t)) == Text.ToLower(t)
  {
    var r := Text.ToLower(t);
    forall i | 0 <= i < |r| ensures Text.ToLower(r)[i] == r[i] {
      assert r[i] == Text.ToLowerChar(t[i]);
    }
  }

  lemma LowerTrimIsNormalised(v: string)
    ensures Normalised(Text.ToLower(Text.Trim(v)))
  {
    var t := Text.Trim(v);
    var r := Text.ToLower(t);
    LowerIdempotent(t);
    if |r| > 0 {
      assert r[0] == Text.ToLowerChar(t[0]);
      assert r[|r| - 1] == Text.ToLowerChar(t[|t| - 1]);
      LowerKeepsSpace(t[0]);
      LowerKeepsSpace(t[|t| - 1]);
      Text.TrimUntrimmed(r);
    } else {
      assert |Text.Trim(r)| <= 0;
    }
  }

  /** `visibility ? visibility.trim().toLowerCase() : "public"`. */
  function Visibility(raw: Option<string>): (r: string)
    ensures Normalised(r)
    ensures !Given(raw) ==> r == "public"
    ensures Given(raw) ==> |r| <= |raw.value|
  {
    if Given(raw) then
      LowerTrimIsNormalised(raw.value);
      Text.ToLower(Text.Trim(raw.value))
    else
      PublicNormalised();
      "public"
  }

  lemma PublicNormalised()
    ensures Normalised("public")
  {
    assert Text.ToLower("public") == "public";
    Text.TrimUntrimmed("public");
  }

  /** A value the default already produced is kept as it is. */
  lemma VisibilityFixedPoint(raw: Option<string>)
    requires Visibility(raw) != ""
    ensures Visibility(Some(Visibility(raw))) == Visibility(raw)
  {
  }

  /** `x ? x.trim() : d`: the language ("en"), category and description
      defaults. */
  function TrimmedOr(raw: Option<string>, d: string): (r: string)
    ensures Given(raw) ==> Text.Trim(r) == r
    ensures !Given(raw) ==> r == d
  {
    if Given(raw) then
      Text.TrimIdempotent(raw.value);
      Text.Trim(raw.value)
    else d
  }

  function Language(raw: Option<string>): (r: string)
    ensures Given(raw) ==> Text.Trim(r) == r
    ensures !Given(raw) ==> r == "en"
  {
    TrimmedOr(raw, "en")
  }

  /** The kind of upload: the 60-second cap applies to shorts only. */
  datatype Format = LongForm | ShortForm

  const MaxShortSeconds: int := 60
  /** The trending window: seven days in milliseconds. */
  const TrendingWindow: int := 7 * 24 * 60 * 60 * 1000

  /** A video or short document, reduced to the fields these rules read. */
  datatype Media = Media(
    owner: Id,
    visibility: string,
    transcodeStatus: string,
    videoUrl: string,
    category: string,
    isPublished: bool,
    publishedAt: Option<nat>,
    createdAt: int,
    duration: int,
    totalViews: nat,
    likesCount: nat,
    commentsCount: nat)

  predicate Streamable(m: Media) {
    m.transcodeStatus == "COMPLETE"
  }

  /** The streamingUrl attached to every response: the playlist URL once
      transcoding is complete, null before. */
  function StreamingUrl(m: Media): (r: Option<string>)
    ensures r.Some? <==> Streamable(m)
    ensures r.Some? ==> r.value == m.videoUrl
  {
    if Streamable(m) then Some(m.videoUrl) else None
  }

  /** `owner.toString() === req.userId` */
  predicate IsOwner(m: Media, userId: Option<Id>) {
    userId == Some(m.owner)
  }

  datatype MediaError =
    | BadMediaId       // 400
    | MediaNotFound    // 404
    | Private          // 403
    | NotOwner         // 403
    | NotTranscoded    // 400
    | TooLong          // 400, shorts only

  /** getVideoById / getShortById: a private item is shown to its owner
      only; the response carries the streamingUrl. */
  function GetById(store: map<Id, Media>, id: string, userId: Option<Id>)
    : (r: Result<(Media, Option<string>), MediaError>)
    ensures !IsObjectId(id) ==> r == Failure(BadMediaId)
    ensures IsObjectId(id) && id !in store ==> r == Failure(MediaNotFound)
    ensures IsObjectId(id) && id in store ==>
      if store[id].visibility == "private" && !IsOwner(store[id], userId)
      then r == Failure(Private)
      else r.Success? && r.value.0 == store[id] && (r.value.1.Some? <==> Streamable(store[id]))
  {
    if !IsObjectId(id) then Failure(BadMediaId)
    else if id !in store then Failure(MediaNotFound)
    else
      var m := store[id];
      if m.visibility == "private" && !IsOwner(m, userId) then Failure(Private)
      else Success((m, StreamingUrl(m)))
  }

  /** The owner can always open their own item; anybody else exactly when
      it is not private. */
  lemma ViewAccess(store: map<Id, Media>, id: string, userId: Option<Id>)
    requires IsObjectId(id) && id in store
    ensures IsOwner(store[id], userId) ==> GetById(store, id, userId).Success?
    ensures !IsOwner(store[id], userId) ==>
      (GetById(store, id, userId).Success? <==> store[id].visibility != "private")
  {
  }

  /** `if (duration)`: a present, non-zero duration. */
  predicate DurationGiven(duration: Option<int>) {
    duration.Some? && duration.value != 0
  }

  /** publishVideo / publishShort checks, in the handler's order; success
      carries the published document. */
  function CheckPublish(format: Format, store: map<Id, Media>, id: string, userId: Option<Id>, duration: Option<int>, now: nat)
    : (r: Result<Media, MediaError>)
    ensures r.Success? <==>
      && IsObjectId(id) && id in store
      && IsOwner(store[id], userId)
      && Streamable(store[id])
      && (format == ShortForm && DurationGiven(duration) ==> duration.value <= MaxShortSeconds)
    ensures IsObjectId(id) && id in store && IsOwner(store[id], userId) && !Streamable(store[id]) ==>
      r == Failure(NotTranscoded)
    ensures r.Success? ==>
      && r.value.isPublished && r.value.publishedAt == Some(now)
      && r.value.duration == (if DurationGiven(duration) then duration.value else store[id].duration)
      && r.value.(isPublished := store[id].isPublished, publishedAt := store[id].publishedAt,
                  duration := store[id].duration) == store[id]
  {
    if !IsObjectId(id) then Failure(BadMediaId)
    else if id !in store then Failure(MediaNotFound)
    else
      var m := store[id];
      if !IsOwner(m, userId) then Failure(NotOwner)
      else if !Streamable(m) then Failure(NotTranscoded)
      else if format == ShortForm && DurationGiven(duration) && duration.value > MaxShortSeconds then Failure(TooLong)
      else
        Success(m.(isPublished := true, publishedAt := Some(now),
                   duration := if DurationGiven(duration) then duration.value else m.duration))
  }

  /** The publish endpoint: a refused request changes nothing; an accepted
      one replaces only that document. */
  function Publish(format: Format, store: map<Id, Media>, id: string, userId: Option<Id>, duration: Option<int>, now: nat)
    : (r: (Result<Media, MediaError>, map<Id, Media>))
    ensures r.0 == CheckPublish(format, store, id, userId, duration, now)
    ensures r.0.Failure? ==> r.1 == store
    ensures r.0.Success? ==> id in store && r.1 == store[id := r.0.value] && r.1.Keys == store.Keys
  {
    var c := CheckPublish(format, store, id, userId, duration, now);
    if c.Success? then (c, store[id := c.value]) else (c, store)
  }

  /** Every published document streams: the unconditional streamingUrl in
      the short's publish response is the rule's value. */
  lemma PublishedStreams(format: Format, store: map<Id, Media>, id: string, userId: Option<Id>, duration: Option<int>, now: nat)
    requires CheckPublish(format, store, id, userId, duration, now).Success?
    ensures var m := CheckPublish(format, store, id, userId, duration, now).value;
      StreamingUrl(m) == Some(m.videoUrl)
  {
  }

  predicate ShortsWithinLimit(store: map<Id, Media>) {
    forall k :: k in store ==> store[k].duration <= MaxShortSeconds
  }

  /** Publishing a short never stores a duration above the cap. */
  lemma PublishShortKeepsLimit(store: map<Id, Media>, id: string, userId: Option<Id>, duration: Option<int>, now: nat)
    requires ShortsWithinLimit(store)
    ensures ShortsWithinLimit(Publish(ShortForm, store, id, userId, duration, now).1)
  {
    var r := Publish(ShortForm, store, id, userId, duration, now);
    if r.0.Success? {
      forall k | k in r.1 ensures r.1[k].duration <= MaxShortSeconds {
        if k != id {
          assert r.1[k] == store[k];
        }
      }
    }
  }

  /** Publishing is not refused for an already-published document: a later
      call succeeds again and moves publishedAt. */
  lemma RepublishRestamps(format: Format, store: map<Id, Media>, id: string, userId: Option<Id>, now: nat, later: nat)
    requires CheckPublish(format, store, id, userId, None, now).Success?
    ensures var once := Publish(format, store, id, userId, None, now).1;
      CheckPublish(format, once, id, userId, None, later).Success?
      && Publish(format, once, id, userId, None, later).1[id].publishedAt == Some(later)
  {
  }

  /** The public listing's filter: visibility "public" and, when given,
      the category. */
  predicate Listed(m: Media, category: Option<string>) {
    m.visibility == "public" && (Given(category) ==> m.category == category.value)
  }

  /** publishedAt for sorting: a missing date sorts after every date. */
  function PublishedKey(m: Media): int {
    if m.publishedAt.Some? then m.publishedAt.value else -1
  }

  /** The listing's sortBy: "views", "likes", "recent", else createdAt;
      always descending. */
  function ListKey(sortBy: string): Media -> int {
    if sortBy == "views" then (m: Media) => m.totalViews
    else if sortBy == "likes" then (m: Media) => m.likesCount
    else if sortBy == "recent" then PublishedKey
    else (m: Media) => m.createdAt
  }

  datatype Listing = Listing(items: seq<Media>, currentPage: int, totalPages: int, total: nat, hasMore: bool)

  datatype ListError = ListFailed   // 500

  /** The page slice of a sorted result set and its pagination block:
      exactly the skip/limit window the store cursor returns. */
  function PageOf(sorted: seq<Media>, total: nat, page: Option<int>, limit: Option<int>, key: Media -> int)
    : (r: Result<Listing, ListError>)
    requires |sorted| == total && Paging.SortedDesc(sorted, key)
    ensures r.Failure? <==> Paging.Skip(Paging.OrDefault(page, 1), Paging.OrDefault(limit, 20)) < 0
    ensures r.Success? ==>
      var l := Paging.OrDefault(limit, 20);
      && Success(r.value.items) == Paging.SkipLimit(sorted, Paging.Skip(r.value.currentPage, l), l)
      && (forall m :: m in r.value.items ==> m in sorted)
      && Paging.SortedDesc(r.value.items, key)
      && r.value.total == total
      && r.value.currentPage == Paging.OrDefault(page, 1)
      && r.value.totalPages == Paging.TotalPages(total, l)
      && r.value.hasMore == Paging.HasMore(r.value.currentPage, l, total)
  {
    var p := Paging.OrDefault(page, 1);
    var l := Paging.OrDefault(limit, 20);
    var skip := Paging.Skip(p, l);
    match Paging.SkipLimit(sorted, skip, l)
    case Failure(_) => Failure(ListFailed)
    case Success(items) =>
      Paging.SkipLimitWithin(sorted, skip, l);
      Paging.SkipLimitSortedDesc(sorted, skip, l, key);
      Success(Listing(items, p, Paging.TotalPages(total, l), total, Paging.HasMore(p, l, total)))
  }

  /** The getAll query: public, and in the category when one is given. */
  function ListedIn(category: Option<string>): Media -> bool {
    m => Listed(m, category)
  }

  /** getAllVideos / getAllShorts (without the text search): the page of
      the matching documents in the order sortBy names. */
  function GetAll(items: seq<Media>, page: Option<int>, limit: Option<int>, category: Option<string>, sortBy: string)
    : (r: Result<Listing, ListError>)
    ensures r.Failure? <==> Paging.Skip(Paging.OrDefault(page, 1), Paging.OrDefault(limit, 20)) < 0
    ensures r.Success? ==> forall m :: m in r.value.items ==> m in items && Listed(m, category)
    ensures r.Success? ==> Paging.SortedDesc(r.value.items, ListKey(sortBy))
    ensures r.Success? ==> r.value.total == |Paging.Where(items, ListedIn(category))|
    ensures r.Success? ==>
      var l := Paging.OrDefault(limit, 20);
      Success(r.value.items) ==
        Paging.SkipLimit(Paging.SortDesc(Paging.Where(items, ListedIn(category)), ListKey(sortBy)),
                         Paging.Skip(Paging.OrDefault(page, 1), l), l)
  {
    var matching := Paging.Where(items, ListedIn(category));
    var sorted := Paging.SortDesc(matching, ListKey(sortBy));
    Paging.PermutationWithin(sorted, matching);
    PageOf(sorted, |matching|, page, limit, ListKey(sortBy))
  }

  /** totalViews + 10 * likesCount + 5 * commentsCount */
  function TrendingScore(m: Media): (r: nat)
    ensures r >= m.totalViews && r >= 10 * m.likesCount && r >= 5 * m.commentsCount
  {
    m.totalViews + 10 * m.likesCount + 5 * m.commentsCount
  }

  /** The score's weights: a like counts ten views, a comment five. */
  lemma TrendingWeights(m: Media)
    ensures TrendingScore(m.(likesCount := m.likesCount + 1)) == TrendingScore(m.(totalViews := m.totalViews + 10))
    ensures TrendingScore(m.(commentsCount := m.commentsCount + 1)) == TrendingScore(m.(totalViews := m.totalViews + 5))
    ensures TrendingScore(m.(likesCount := m.likesCount + 1)) > TrendingScore(m)
  {
  }

  /** The trending filter: published, public and published within the last
      seven days. */
  predicate Trending(m: Media, now: int) {
    m.isPublished && m.visibility == "public" && m.publishedAt.Some? && m.publishedAt.value >= now - TrendingWindow
  }

  function TrendingAt(now: int): Media -> bool {
    m => Trending(m, now)
  }

  /** getTrendingVideos / getTrendingShorts: an aggregation whose `$skip`
      and `$limit` stages reject a negative value (500); otherwise the page
      of the trending documents, highest score first. */
  function GetTrending(items: seq<Media>, now: int, page: Option<int>, limit: Option<int>)
    : (r: Result<Listing, ListError>)
    ensures r.Failure? <==>
      Paging.OrDefault(limit, 20) < 0 || Paging.Skip(Paging.OrDefault(page, 1), Paging.OrDefault(limit, 20)) < 0
    ensures r.Success? ==> forall m :: m in r.value.items ==> m in items && Trending(m, now)
    ensures r.Success? ==> Paging.SortedDesc(r.value.items, TrendingScore)
    ensures r.Success? ==> r.value.total == |Paging.Where(items, TrendingAt(now))|
    ensures r.Success? ==>
      var l := Paging.OrDefault(limit, 20);
      && 0 < l && |r.value.items| <= l
      && Success(r.value.items) ==
           Paging.SkipLimit(Paging.SortDesc(Paging.Where(items, TrendingAt(now)), TrendingScore),
                            Paging.Skip(Paging.OrDefault(page, 1), l), l)
  {
    if Paging.OrDefault(limit, 20) < 0 then Failure(ListFailed)
    else
      var matching := Paging.Where(items, TrendingAt(now));
      var sorted := Paging.SortDesc(matching, TrendingScore);
      Paging.PermutationWithin(sorted, matching);
      PageOf(sorted, |matching|, page, limit, TrendingScore)
  }

  /** A public document published at `now` is in the trending set for the
      next seven days and out of it afterwards. */
  lemma PublishedTrendsForAWeek(format: Format, store: map<Id, Media>, id: string, userId: Option<Id>, duration: Option<int>, now: nat, t: int)
    requires CheckPublish(format, store, id, userId, duration, now).Success?
    requires store[id].visibility == "public" && t >= now
    ensures Trending(CheckPublish(format, store, id, userId, duration, now).value, t) <==> t <= now + TrendingWindow
  {
  }
}

=== FILE: notification_model.dfy ===
/** The two notification record schemas: the user notification (ten kinds,
    30-day expiry) and the admin notification (three kinds, 90-day expiry),
    with their enumerations, field bounds and defaults. Schema validation is
    the function Validate; creating a record with the schema defaults is
    NewRecord / NewAdminRecord. */
module NotificationModel {
  import opened Wrappers
  import Text

  type Id = string

  /** The user notification kinds, in schema order. */
  datatype Kind =
    | NewVideo | NewShort | NewPost | CommentOn | CommentReply
    | Like | Dislike | NewFollower | Mention | System

  /** The admin notification kinds. */
  datatype AdminKind = NewUser | NewChannel | NewReport

  datatype Priority = Low | Medium | High

  datatype TargetType = Video | Short | Post | Comment

  datatype Delivery = Delivery(socket: bool, push: bool)

  const MaxTitleLength := 200
  const MaxMessageLength := 500

  /** Seconds after createdAt at which the store's expiry index removes a
      record. */
  const UserTtlSeconds := 2592000
  const AdminTtlSeconds := 7776000

  function KindName(k: Kind): string {
    match k
    case NewVideo => "new_video"
    case NewShort => "new_short"
    case NewPost => "new_post"
    case CommentOn => "comment"
    case CommentReply => "comment_reply"
    case Like => "like"
    case Dislike => "dislike"
    case NewFollower => "new_follower"
    case Mention => "mention"
    case System => "system"
  }

  /** The schema's enum check for the user `type` field. */
  function ParseKind(s: string): (r: Option<Kind>)
    ensures r.Some? ==> KindName(r.value) == s
    ensures r.None? ==> forall k: Kind :: KindName(k) != s
  {
    if s == "new_video" then Some(NewVideo)
    else if s == "new_short" then Some(NewShort)
    else if s == "new_post" then Some(NewPost)
    else if s == "comment" then Some(CommentOn)
    else if s == "comment_reply" then Some(CommentReply)
    else if s == "like" then Some(Like)
    else if s == "dislike" then Some(Dislike)
    else if s == "new_follower" then Some(NewFollower)
    else if s == "mention" then Some(Mention)
    else if s == "system" then Some(System)
    else None
  }

  function AdminKindName(k: AdminKind): string {
    match k
    case NewUser => "new_user"
    case NewChannel => "new_channel"
    case NewReport => "new_report"
  }

  /** The schema's enum check for the admin `type` field. */
  function ParseAdminKind(s: string): (r: Option<AdminKind>)
    ensures r.Some? ==> AdminKindName(r.value) == s
    ensures r.None? ==> forall k: AdminKind :: AdminKindName(k) != s
  {
    if s == "new_user" then Some(NewUser)
    else if s == "new_channel" then Some(NewChannel)
    else if s == "new_report" then Some(NewReport)
    else None
  }

  function PriorityName(p: Priority): string {
    match p
    case Low => "low"
    case Medium => "medium"
    case High => "high"
  }

  function TargetTypeName(t: TargetType): string {
    match t
    case Video => "Video"
    case Short => "Short"
    case Post => "Post"
    case Comment => "Comment"
  }

  /** The enum check for the notification `targetType` field. */
  function ParseTargetType(s: string): (r: Option<TargetType>)
    ensures r.Some? ==> TargetTypeName(r.value) == s
    ensures r.None? ==> forall t: TargetType :: TargetTypeName(t) != s
  {
    if s == "Video" then Some(Video)
    else if s == "Short" then Some(Short)
    else if s == "Post" then Some(Post)
    else if s == "Comment" then Some(Comment)
    else None
  }

  /** Every kind's stored name reads back as that kind. */
  lemma KindRoundTrip(k: Kind)
    ensures ParseKind(KindName(k)) == Some(k)
  {
  }

  lemma AdminKindRoundTrip(k: AdminKind)
    ensures ParseAdminKind(AdminKindName(k)) == Some(k)
  {
  }

  lemma TargetTypeRoundTrip(t: TargetType)
    ensures ParseTargetType(TargetTypeName(t)) == Some(t)
  {
  }

  /** No admin kind is a user kind: an admin type string never passes the
      user schema and vice versa. */
  lemma KindsDisjoint(s: string)
    ensures !(ParseKind(s).Some? && ParseAdminKind(s).Some?)
  {
  }

  /** The fields schema validation can reject. */
  datatype Field = TypeField | TitleField | MessageField

  /** A title or message after the schema's trim, when it is present and
      within its maximum length, counted in UTF-16 units as `maxlength`
      counts them. */
  predicate ValidText(trimmed: string, max: nat) {
    trimmed != "" && Text.Utf16Length(trimmed) <= max
  }

  datatype Checked = Checked(kind: Kind, title: string, message: string)

  /** User schema validation: the type must be one of the ten kinds; title
      and message are trimmed, then required (non-empty) and bounded by 200
      and 500 UTF-16 units. The error lists every failing field. */
  function Validate(kind: string, title: string, message: string): (r: Result<Checked, set<Field>>)
    ensures r.Success? <==> ParseKind(kind).Some? && ValidText(Text.Trim(title), MaxTitleLength)
                            && ValidText(Text.Trim(message), MaxMessageLength)
    ensures r.Success? ==> r.value == Checked(ParseKind(kind).value, Text.Trim(title), Text.Trim(message))
    ensures r.Success? ==> 0 < |r.value.title| <= MaxTitleLength && 0 < |r.value.message| <= MaxMessageLength
    ensures r.Failure? ==>
      && (TypeField in r.error <==> ParseKind(kind).None?)
      && (TitleField in r.error <==> !ValidText(Text.Trim(title), MaxTitleLength))
      && (MessageField in r.error <==> !ValidText(Text.Trim(message), MaxMessageLength))
  {
    var t := Text.Trim(title);
    var m := Text.Trim(message);
    var parsed := ParseKind(kind);
    if parsed.Some? && ValidText(t, MaxTitleLength) && ValidText(m, MaxMessageLength)
    then Success(Checked(parsed.value, t, m))
    else Failure(FailingFields(parsed.Some?, ValidText(t, MaxTitleLength), ValidText(m, MaxMessageLength)))
  }

  function FailingFields(kindOk: bool, titleOk: bool, messageOk: bool): (r: set<Field>)
    ensures TypeField in r <==> !kindOk
    ensures TitleField in r <==> !titleOk
    ensures MessageField in r <==> !messageOk
  {
    (if kindOk then {} else {TypeField})
    + (if titleOk then {} else {TitleField})
    + (if messageOk then {} else {MessageField})
  }

  /** Admin schema validation: the same title and message rules; the kind
      is already one of the three admin kinds. */
  function ValidateAdmin(title: string, message: string): (r: Result<(string, string), set<Field>>)
    ensures r.Success? <==> ValidText(Text.Trim(title), MaxTitleLength) && ValidText(Text.Trim(message), MaxMessageLength)
    ensures r.Success? ==> r.value == (Text.Trim(title), Text.Trim(message))
    ensures r.Failure? ==>
      && TypeField !in r.error
      && (TitleField in r.error <==> !ValidText(Text.Trim(title), MaxTitleLength))
      && (MessageField in r.error <==> !ValidText(Text.Trim(message), MaxMessageLength))
  {
    var t := Text.Trim(title);
    var m := Text.Trim(message);
    if ValidText(t, MaxTitleLength) && ValidText(m, MaxMessageLength) then Success((t, m))
    else Failure(FailingFields(true, ValidText(t, MaxTitleLength), ValidText(m, MaxMessageLength)))
  }

  /** The two schemas apply the same title and message rules: an admin
      title and message pass exactly when they would pass with any valid
      user kind. */
  lemma SameTextRules(kind: string, title: string, message: string)
    requires ParseKind(kind).Some?
    ensures ValidateAdmin(title, message).Success? <==> Validate(kind, title, message).Success?
  {
  }

  /** A stored user notification. Times are abstract clock values in
      seconds. */
  datatype Notification = Notification(
    id: Id,
    recipient: Id,
    sender: Option<Id>,
    channel: Option<Id>,
    kind: Kind,
    title: string,
    message: string,
    targetType: Option<TargetType>,
    targetId: Option<Id>,
    metadata: map<string, string>,
    isRead: bool,
    readAt: Option<int>,
    delivery: Delivery,
    priority: Priority,
    isDeleted: bool,
    createdAt: int)

  /** A stored admin notification. */
  datatype AdminNotification = AdminNotification(
    id: Id,
    kind: AdminKind,
    title: string,
    message: string,
    metadata: map<string, string>,
    isRead: bool,
    readAt: Option<int>,
    delivery: Delivery,
    priority: Priority,
    isDeleted: bool,
    createdAt: int)

  /** What a caller hands to the dispatcher; the kind is still a string
      because callers such as the test endpoint pass request data. */
  datatype Payload = Payload(
    recipient: Id,
    sender: Option<Id>,
    channel: Option<Id>,
    kind: string,
    title: string,
    message: string,
    targetType: Option<TargetType>,
    targetId: Option<Id>,
    metadata: Option<map<string, string>>,
    priority: Option<Priority>)

  /** A fresh record as the store creates it: validated fields, not read,
      no delivery yet, not deleted, priority defaulting to medium and
      metadata to the empty map. */
  function NewRecord(id: Id, p: Payload, now: int): (r: Result<Notification, set<Field>>)
    ensures r.Success? <==> Validate(p.kind, p.title, p.message).Success?
    ensures r.Success? ==>
      && r.value.id == id && r.value.recipient == p.recipient && r.value.createdAt == now
      && KindName(r.value.kind) == p.kind
      && r.value.title == Text.Trim(p.title) && r.value.message == Text.Trim(p.message)
      && !r.value.isRead && r.value.readAt.None? && !r.value.isDeleted
      && r.value.delivery == Delivery(false, false)
      && r.value.priority == p.priority.GetOr(Medium)
      && r.value.metadata == p.metadata.GetOr(map[])
  {
    match Validate(p.kind, p.title, p.message)
    case Failure(e) => Failure(e)
    case Success(c) => Success(Fresh(id, c, p, p.recipient, now))
  }

  /** The record the store creates for one recipient from validated fields,
      with the schema defaults filled in. */
  function Fresh(id: Id, c: Checked, p: Payload, recipient: Id, now: int): (r: Notification)
    ensures r.id == id && r.recipient == recipient && r.createdAt == now
    ensures r.kind == c.kind && r.title == c.title && r.message == c.message
    ensures !r.isRead && r.readAt.None? && !r.isDeleted && r.delivery == Delivery(false, false)
    ensures r.priority == p.priority.GetOr(Medium) && r.metadata == p.metadata.GetOr(map[])
  {
    Notification(id, recipient, p.sender, p.channel, c.kind, c.title, c.message,
                 p.targetType, p.targetId, p.metadata.GetOr(map[]), false, None,
                 Delivery(false, false), p.priority.GetOr(Medium), false, now)
  }

  /** A fresh admin record with the schema defaults. */
  function NewAdminRecord(id: Id, kind: AdminKind, title: string, message: string,
                          metadata: Option<map<string, string>>, priority: Option<Priority>,
                          now: int): (r: Result<AdminNotification, set<Field>>)
    ensures r.Success? <==> ValidateAdmin(title, message).Success?
    ensures r.Success? ==>
      && r.value.id == id && r.value.kind == kind && r.value.createdAt == now
      && r.value.title == Text.Trim(title) && r.value.message == Text.Trim(message)
      && !r.value.isRead && r.value.readAt.None? && !r.value.isDeleted
      && r.value.delivery == Delivery(false, false)
      && r.value.priority == priority.GetOr(Medium)
  {
    match ValidateAdmin(title, message)
    case Failure(e) => Failure(e)
    case Success(tm) =>
      Success(AdminNotification(id, kind, tm.0, tm.1, metadata.GetOr(map[]), false, None,
                                Delivery(false, false), priority.GetOr(Medium), false, now))
  }

  /** A record is still kept by the store at time `now` until its expiry
      interval has passed. */
  predicate Live(n: Notification, now: int) {
    now < n.createdAt + UserTtlSeconds
  }

  predicate AdminLive(n: AdminNotification, now: int) {
    now < n.createdAt + AdminTtlSeconds
  }
}

=== FILE: notification_store.dfy ===
/** The user notification store as the notification service reads and
    writes it: the recipient's listing (read/unread filter, newest first,
    offset paging, a total for the filter and an unread count that ignores
    it), and the mutations scoped to the recipient: mark one read, mark all
    read, soft-delete one, soft-delete all. Also the list and unread-count
    handlers of the notification controller. */
module NotificationStore {
  import opened Wrappers
  import opened NotificationModel
  import Paging
  import Content

  type Store = seq<Notification>

  /** The error a write by id raises: a malformed id fails the cast of the
      `_id` filter, the service rethrows it and the controller answers 500. */
  datatype WriteError = MalformedId

  /** The `filter` query value: "read" and "unread" restrict the listing;
      anything else, or nothing, leaves it unrestricted. */
  datatype ReadFilter = AnyState | ReadOnly | UnreadOnly

  function ParseFilter(q: Option<string>): (r: ReadFilter)
    ensures r == ReadOnly <==> q == Some("read")
    ensures r == UnreadOnly <==> q == Some("unread")
  {
    if q == Some("read") then ReadOnly
    else if q == Some("unread") then UnreadOnly
    else AnyState
  }

  /** The listing query: the recipient's records that are not deleted, with
      the read state the filter asks for. */
  predicate Listed(n: Notification, user: Id, f: ReadFilter) {
    && n.recipient == user && !n.isDeleted
    && (f == ReadOnly ==> n.isRead)
    && (f == UnreadOnly ==> !n.isRead)
  }

  function Query(user: Id, f: ReadFilter): Notification -> bool {
    n => Listed(n, user, f)
  }

  /** The records the query matches, in store order. */
  function Select(s: Store, user: Id, f: ReadFilter): (r: seq<Notification>)
    ensures |r| <= |s|
    ensures forall n :: n in r <==> n in s && Listed(n, user, f)
  {
    Paging.Where(s, Query(user, f))
  }

  /** The count the unread badge shows: unread, non-deleted records of the
      recipient. It is the unread-filter total. */
  function UnreadCount(s: Store, user: Id): nat {
    |Select(s, user, UnreadOnly)|
  }

  function CreatedAt(n: Notification): int {
    n.createdAt
  }

  datatype Listing = Listing(notifications: seq<Notification>, total: nat, unreadCount: nat)

  /** getUserNotifications: the matching records newest first, skipping
      (page - 1) * limit and taking limit; a negative skip makes the store
      query throw. */
  function GetUserNotifications(s: Store, user: Id, page: int, limit: int, f: ReadFilter)
    : (r: Result<Listing, Paging.PageError>)
    ensures r.Failure? <==> Paging.Skip(page, limit) < 0
    ensures r.Success? ==>
      && (forall n :: n in r.value.notifications ==> n in s && Listed(n, user, f))
      && Paging.SortedDesc(r.value.notifications, CreatedAt)
      && r.value.total == |Select(s, user, f)|
      && r.value.unreadCount == UnreadCount(s, user)
      && |r.value.notifications| <= r.value.total
    ensures r.Success? ==>
      Success(r.value.notifications) ==
        Paging.SkipLimit(Paging.SortDesc(Select(s, user, f), CreatedAt), Paging.Skip(page, limit), limit)
  {
    var sorted := Paging.SortDesc(Select(s, user, f), CreatedAt);
    match Paging.SkipLimit(sorted, Paging.Skip(page, limit), limit)
    case Failure(e) => Failure(e)
    case Success(items) =>
      Paging.SkipLimitWithin(sorted, Paging.Skip(page, limit), limit);
      Paging.PermutationWithin(sorted, Select(s, user, f));
      Paging.SkipLimitSortedDesc(sorted, Paging.Skip(page, limit), limit, CreatedAt);
      Success(Listing(items, |Select(s, user, f)|, UnreadCount(s, user)))
  }

  /** The listing under no filter splits into the read and the unread
      listing. */
  lemma {:induction false} FilterPartition(s: Store, user: Id)
    ensures |Select(s, user, AnyState)| == |Select(s, user, ReadOnly)| + |Select(s, user, UnreadOnly)|
    decreases |s|
  {
    if |s| > 0 {
      FilterPartition(s[..|s| - 1], user);
    }
  }

  /** The unread count reported with any listing equals the total of the
      unread-filtered listing, whatever filter and page the listing used. */
  lemma UnreadCountIgnoresFilter(s: Store, user: Id, page: int, limit: int, f: ReadFilter)
    requires Paging.Skip(page, limit) >= 0
    ensures var a := GetUserNotifications(s, user, page, limit, f);
      var u := GetUserNotifications(s, user, 1, 1, UnreadOnly);
      a.Success? && u.Success? && a.value.unreadCount == u.value.total
  {
  }

  /** The position findOneAndUpdate picks for ({_id, recipient}): the
      first record with that id and recipient. */
  function FindOwned(s: Store, nid: Id, user: Id): (r: Option<nat>)
    ensures r.Some? ==> r.value < |s| && s[r.value].id == nid && s[r.value].recipient == user
    ensures r.Some? ==> forall j :: 0 <= j < r.value ==> !(s[j].id == nid && s[j].recipient == user)
    ensures r.None? ==> forall j :: 0 <= j < |s| ==> !(s[j].id == nid && s[j].recipient == user)
  {
    if |s| == 0 then None
    else if s[0].id == nid && s[0].recipient == user then Some(0)
    else match FindOwned(s[1..], nid, user)
      case None => None
      case Some(j) => Some(j + 1)
  }

  /** markAsRead: a malformed id fails; otherwise the record with this id,
      if it belongs to the user, becomes read and its readAt is set to now,
      even when it was already read. Nothing else changes. */
  function MarkAsRead(s: Store, nid: Id, user: Id, now: int): (r: Result<Store, WriteError>)
    ensures r.Failure? <==> !Content.IsObjectId(nid)
    ensures r.Success? ==> |r.value| == |s|
    ensures r.Success? && FindOwned(s, nid, user).None? ==> r.value == s
    ensures r.Success? && FindOwned(s, nid, user).Some? ==>
      var i := FindOwned(s, nid, user).value;
      && r.value[i].isRead && r.value[i].readAt == Some(now)
      && r.value[i].(isRead := s[i].isRead, readAt := s[i].readAt) == s[i]
      && forall j :: 0 <= j < |s| && j != i ==> r.value[j] == s[j]
  {
    if !Content.IsObjectId(nid) then Failure(MalformedId)
    else match FindOwned(s, nid, user)
      case None => Success(s)
      case Some(i) => Success(s[i := s[i].(isRead := true, readAt := Some(now))])
  }

  /** Marking read again moves readAt to the later call's time. */
  lemma MarkAsReadRewritesReadAt(s: Store, nid: Id, user: Id, t1: int, t2: int)
    requires FindOwned(s, nid, user).Some?
    ensures var i := FindOwned(s, nid, user).value;
      var a := MarkAsRead(s, nid, user, t1);
      a.Success? ==>
        var r := MarkAsRead(a.value, nid, user, t2);
        r.Success? && r.value[i].isRead && r.value[i].readAt == Some(t2)
  {
    if Content.IsObjectId(nid) {
      var i := FindOwned(s, nid, user).value;
      var a := MarkAsRead(s, nid, user, t1).value;
      assert a[i].id == nid && a[i].recipient == user;
      assert FindOwned(a, nid, user) == Some(i) by {
        FindOwnedSameKeys(s, a, nid, user);
      }
    }
  }

  /** The first-match position depends only on the ids and recipients. */
  lemma {:induction false} FindOwnedSameKeys(s: Store, t: Store, nid: Id, user: Id)
    requires |s| == |t|
    requires forall j :: 0 <= j < |s| ==> s[j].id == t[j].id && s[j].recipient == t[j].recipient
    ensures FindOwned(s, nid, user) == FindOwned(t, nid, user)
    decreases |s|
  {
    if |s| > 0 {
      FindOwnedSameKeys(s[1..], t[1..], nid, user);
    }
  }

  /** Marking one record read lowers the unread badge by one exactly when
      that record was an unread, non-deleted record of the user. */
  lemma MarkAsReadUnreadCount(s: Store, nid: Id, user: Id, now: int)
    ensures var i := FindOwned(s, nid, user);
      var r := MarkAsRead(s, nid, user, now);
      r.Success? ==>
        UnreadCount(r.value, user) ==
          UnreadCount(s, user) - (if i.Some? && !s[i.value].isRead && !s[i.value].isDeleted then 1 else 0)
  {
    if Content.IsObjectId(nid) {
      match FindOwned(s, nid, user)
      case None =>
      case Some(i) =>
        Paging.WhereUpdateCount(s, i, s[i].(isRead := true, readAt := Some(now)), Query(user, UnreadOnly));
    }
  }

  /** Another user can never mark a record read. */
  lemma MarkAsReadScoped(s: Store, nid: Id, user: Id, now: int, j: nat)
    requires j < |s| && s[j].recipient != user
    ensures var r := MarkAsRead(s, nid, user, now); r.Success? ==> r.value[j] == s[j]
  {
  }

  /** markAllAsRead: every unread record of the user (deleted or not)
      becomes read at now; read records keep their readAt. */
  function MarkAllAsRead(s: Store, user: Id, now: int): (r: Store)
    ensures |r| == |s|
    ensures forall i :: 0 <= i < |s| && s[i].recipient == user && !s[i].isRead ==>
      r[i] == s[i].(isRead := true, readAt := Some(now))
    ensures forall i :: 0 <= i < |s| && !(s[i].recipient == user && !s[i].isRead) ==> r[i] == s[i]
  {
    seq(|s|, i requires 0 <= i < |s| =>
      if s[i].recipient == user && !s[i].isRead then s[i].(isRead := true, readAt := Some(now)) else s[i])
  }

  /** After mark-all the user has no unread records, every other user's
      records are as they were, and the user's listing keeps its size. */
  lemma MarkAllAsReadClearsBadge(s: Store, user: Id, now: int, other: Id)
    requires other != user
    ensures UnreadCount(MarkAllAsRead(s, user, now), user) == 0
    ensures Select(MarkAllAsRead(s, user, now), other, AnyState) == Select(s, other, AnyState)
  {
    var r := MarkAllAsRead(s, user, now);
    Paging.WhereNone(r, Query(user, UnreadOnly));
    Paging.WhereAgree(s, r, Query(other, AnyState));
  }

  /** deleteNotification: a malformed id fails; otherwise the record with
      this id, if it belongs to the user, is soft-deleted and nothing else
      changes. */
  function DeleteNotification(s: Store, nid: Id, user: Id): (r: Result<Store, WriteError>)
    ensures r.Failure? <==> !Content.IsObjectId(nid)
    ensures r.Success? ==> |r.value| == |s|
    ensures r.Success? && FindOwned(s, nid, user).None? ==> r.value == s
    ensures r.Success? && FindOwned(s, nid, user).Some? ==>
      var i := FindOwned(s, nid, user).value;
      && r.value[i].isDeleted && r.value[i].(isDeleted := s[i].isDeleted) == s[i]
      && forall j :: 0 <= j < |s| && j != i ==> r.value[j] == s[j]
  {
    if !Content.IsObjectId(nid) then Failure(MalformedId)
    else match FindOwned(s, nid, user)
      case None => Success(s)
      case Some(i) => Success(s[i := s[i].(isDeleted := true)])
  }

  /** A deleted record leaves every listing, and the listing without a
      filter shrinks by one exactly when the record was listed before. */
  lemma DeleteHidesRecord(s: Store, nid: Id, user: Id, f: ReadFilter)
    requires FindOwned(s, nid, user).Some?
    ensures var i := FindOwned(s, nid, user).value;
      var r := DeleteNotification(s, nid, user);
      r.Success? ==>
        && r.value[i] !in Select(r.value, user, f)
        && |Select(r.value, user, f)| == |Select(s, user, f)| - (if Listed(s[i], user, f) then 1 else 0)
  {
    if Content.IsObjectId(nid) {
      var i := FindOwned(s, nid, user).value;
      Paging.WhereUpdateCount(s, i, s[i].(isDeleted := true), Query(user, f));
    }
  }

  /** clearAllNotifications: every record of the user is soft-deleted. */
  function ClearAll(s: Store, user: Id): (r: Store)
    ensures |r| == |s|
    ensures forall i :: 0 <= i < |s| && s[i].recipient == user ==> r[i] == s[i].(isDeleted := true)
    ensures forall i :: 0 <= i < |s| && s[i].recipient != user ==> r[i] == s[i]
  {
    seq(|s|, i requires 0 <= i < |s| => if s[i].recipient == user then s[i].(isDeleted := true) else s[i])
  }

  /** After clearing, the user's listings are empty under every filter,
      and other users' listings are untouched. */
  lemma ClearAllEmptiesListing(s: Store, user: Id, f: ReadFilter, other: Id)
    requires other != user
    ensures Select(ClearAll(s, user), user, f) == []
    ensures Select(ClearAll(s, user), other, f) == Select(s, other, f)
  {
    var r := ClearAll(s, user);
    Paging.WhereNone(r, Query(user, f));
    Paging.WhereAgree(s, r, Query(other, f));
  }

  // ----- Expiry -----

  function LiveAt(now: int): Notification -> bool {
    n => Live(n, now)
  }

  /** The expiry index on createdAt: at time `now` the store has dropped
      every record older than its interval; the rest keep their order. */
  function Expire(s: Store, now: int): (r: Store)
    ensures |r| <= |s|
    ensures forall n :: n in r <==> n in s && now < n.createdAt + UserTtlSeconds
  {
    Paging.Where(s, LiveAt(now))
  }

  /** After expiry the listing is the old listing minus the expired
      records, in the same order: a listed record stays listed exactly
      while it is Live. */
  lemma ExpiryListing(s: Store, now: int, user: Id, f: ReadFilter)
    ensures Select(Expire(s, now), user, f) == Paging.Where(Select(s, user, f), LiveAt(now))
    ensures forall n :: n in Select(Expire(s, now), user, f) <==> n in Select(s, user, f) && Live(n, now)
  {
    Paging.WhereCommute(s, LiveAt(now), Query(user, f));
  }

  /** Expiry seen at an earlier time and then at a later one is expiry at
      the later time. */
  lemma ExpireLater(s: Store, t1: int, t2: int)
    requires t1 <= t2
    ensures Expire(Expire(s, t1), t2) == Expire(s, t2)
  {
    Paging.WhereNarrow(s, LiveAt(t1), LiveAt(t2));
  }

  datatype PageReply =
    | NotificationPage(notifications: seq<Notification>, page: int, limit: int,
                       total: nat, totalPages: int, unreadCount: nat)
    | ListFailed

  /** getNotifications: page and limit default to 1 and 20 (a missing,
      unparsable or zero value falls back), the filter comes from the query,
      and the page count is the ceiling of total over limit. A store error
      becomes a failure reply. */
  function GetNotifications(s: Store, user: Id, pageQ: Option<int>, limitQ: Option<int>,
                            filterQ: Option<string>): (r: PageReply)
    ensures var page := Paging.OrDefault(pageQ, 1);
      var limit := Paging.OrDefault(limitQ, 20);
      var l := GetUserNotifications(s, user, page, limit, ParseFilter(filterQ));
      && (r.ListFailed? <==> l.Failure?)
      && (r.NotificationPage? ==>
            && r.page == page && r.limit == limit
            && r.notifications == l.value.notifications
            && r.total == l.value.total && r.unreadCount == l.value.unreadCount
            && r.totalPages == Paging.TotalPages(r.total, limit))
  {
    var page := Paging.OrDefault(pageQ, 1);
    var limit := Paging.OrDefault(limitQ, 20);
    match GetUserNotifications(s, user, page, limit, ParseFilter(filterQ))
    case Failure(_) => ListFailed
    case Success(l) => NotificationPage(l.notifications, page, limit, l.total,
                                        Paging.TotalPages(l.total, limit), l.unreadCount)
  }

  /** With no query parameters the handler shows the first twenty records
      newest first, and the page count covers the whole listing. */
  lemma DefaultQueryFirstPage(s: Store, user: Id)
    ensures var r := GetNotifications(s, user, None, None, None);
      && r.NotificationPage? && r.page == 1 && r.limit == 20
      && |r.notifications| == (if r.total < 20 then r.total else 20)
      && ((r.totalPages - 1) * 20 < r.total <= r.totalPages * 20 || (r.total == 0 && r.totalPages == 0))
  {
  }

  /** getUnreadCount: the unread count of a one-record first page, which
      cannot fail. */
  function GetUnreadCountReply(s: Store, user: Id): (r: nat)
    ensures r == |Select(s, user, UnreadOnly)|
  {
    var l := GetUserNotifications(s, user, 1, 1, AnyState);
    l.value.unreadCount
  }

  /** The badge agrees with the listing's unread total, which together with
      the read total makes up the unfiltered total. */
  lemma BadgeMatchesListings(s: Store, user: Id)
    ensures var all := GetNotifications(s, user, None, None, None);
      var read := GetNotifications(s, user, None, None, Some("read"));
      var unread := GetNotifications(s, user, None, None, Some("unread"));
      && all.NotificationPage? && read.NotificationPage? && unread.NotificationPage?
      && GetUnreadCountReply(s, user) == unread.total
      && all.total == read.total + unread.total
  {
    FilterPartition(s, user);
  }
}

=== FILE: paging.dfy ===
/** Offset paging as the list handlers do it: a query value defaulted with
    JavaScript `||`, skip = (page - 1) * limit, the store's skip/limit, the
    page count Math.ceil(total / limit) and the has-more / has-previous
    flags. Also the newest-first ordering every listing applies. */
module Paging {
  import opened Wrappers

  /** `parseInt(q) || d`: a missing, unparsable (NaN) or zero value falls
      back to the default. */
  function OrDefault(q: Option<int>, d: int): (r: int)
    ensures d != 0 ==> r != 0
    ensures q.Some? && q.value != 0 ==> r == q.value
    ensures q.None? || q.value == 0 ==> r == d
  {
    match q
    case Some(v) => if v != 0 then v else d
    case None => d
  }

  /** skip = (page - 1) * limit */
  function Skip(page: int, limit: int): (r: int)
    ensures page >= 1 && limit >= 0 ==> r >= 0
    ensures limit > 0 ==> (r < 0 <==> page < 1)
  {
    (page - 1) * limit
  }

  datatype PageError = NegativeSkip

  /** A cursor's skip(n).limit(m): a negative skip is rejected by the store,
      limit 0 means no limit and a negative limit counts as its absolute
      value. */
  function SkipLimit<T>(xs: seq<T>, skip: int, limit: int): (r: Result<seq<T>, PageError>)
    ensures r.Failure? <==> skip < 0
    ensures r.Success? ==> |r.value| <= |xs|
    ensures r.Success? ==> forall k :: 0 <= k < |r.value| ==> skip + k < |xs| && r.value[k] == xs[skip + k]
    ensures r.Success? && limit != 0 ==> |r.value| <= if limit < 0 then -limit else limit
    ensures r.Success? && skip + (if limit < 0 then -limit else limit) <= |xs| && limit != 0 ==>
              |r.value| == if limit < 0 then -limit else limit
    ensures r.Success? && limit == 0 ==> |r.value| == if skip <= |xs| then |xs| - skip else 0
    ensures r.Success? && limit != 0 ==>
              var n := if limit < 0 then -limit else limit;
              var left := if skip <= |xs| then |xs| - skip else 0;
              |r.value| == if n <= left then n else left
  {
    if skip < 0 then Failure(NegativeSkip)
    else
      var rest := if skip <= |xs| then xs[skip..] else [];
      var n := if limit < 0 then -limit else limit;
      Success(if n == 0 || n >= |rest| then rest else rest[..n])
  }

  /** Math.ceil(total / limit) on integers, for the non-zero limits the
      `|| default` in the handlers guarantees. */
  function TotalPages(total: nat, limit: int): (r: int)
    requires limit != 0
    ensures limit > 0 ==> r >= 0 && (r == 0 <==> total == 0)
    ensures limit > 0 ==> (r - 1) * limit < total <= r * limit || (total == 0 && r == 0)
  {
    if limit > 0 then (total + limit - 1) / limit
    else -(total / -limit)
  }

  /** hasMore / hasNextPage = page * limit < total */
  predicate HasMore(page: int, limit: int, total: int) {
    page * limit < total
  }

  /** hasPrevPage = page > 1 */
  predicate HasPrev(page: int) {
    page > 1
  }

  /** For ordinary positive paging, "has more" holds exactly when the next
      page of the same list is non-empty. */
  lemma HasMoreIffNextPageNonEmpty<T>(xs: seq<T>, page: int, limit: int)
    requires page >= 1 && limit >= 1
    ensures SkipLimit(xs, Skip(page + 1, limit), limit).Success?
    ensures HasMore(page, limit, |xs|) <==> |SkipLimit(xs, Skip(page + 1, limit), limit).value| > 0
  {
    assert Skip(page + 1, limit) == page * limit;
  }

  /** For ordinary positive paging, a page lies within the page count
      exactly when it is non-empty. */
  lemma PageWithinTotalIffNonEmpty<T>(xs: seq<T>, page: int, limit: int)
    requires page >= 1 && limit >= 1
    ensures SkipLimit(xs, Skip(page, limit), limit).Success?
    ensures page <= TotalPages(|xs|, limit) <==> |SkipLimit(xs, Skip(page, limit), limit).value| > 0
  {
    var t := TotalPages(|xs|, limit);
    var s := Skip(page, limit);
    assert s == (page - 1) * limit;
    if page <= t {
      assert (page - 1) * limit <= (t - 1) * limit by {
        MulMonotone(page - 1, t - 1, limit);
      }
    } else {
      assert t * limit <= (page - 1) * limit by {
        MulMonotone(t, page - 1, limit);
      }
    }
  }

  lemma MulMonotone(a: int, b: int, c: nat)
    requires a <= b
    ensures a * c <= b * c
  {
    assert b * c - a * c == (b - a) * c;
  }

  predicate SortedDesc<T>(xs: seq<T>, key: T -> int) {
    forall i, j :: 0 <= i < j < |xs| ==> key(xs[i]) >= key(xs[j])
  }

  /** Lexicographic "not after" on sort keys of two fields, both
      descending: the store's sort({ a: -1, b: -1 }). */
  predicate LexGeq(a: (int, int), b: (int, int)) {
    a.0 > b.0 || (a.0 == b.0 && a.1 >= b.1)
  }

  predicate SortedDescBy<T>(xs: seq<T>, key: T -> (int, int)) {
    forall i, j :: 0 <= i < j < |xs| ==> LexGeq(key(xs[i]), key(xs[j]))
  }

  function InsertDescBy<T>(x: T, xs: seq<T>, key: T -> (int, int)): (r: seq<T>)
    requires SortedDescBy(xs, key)
    ensures |r| == |xs| + 1
    ensures multiset(r) == multiset(xs) + multiset{x}
    ensures SortedDescBy(r, key)
  {
    if |xs| == 0 || LexGeq(key(x), key(xs[0])) then [x] + xs
    else
      var rest := InsertDescBy(x, xs[1..], key);
      assert xs == [xs[0]] + xs[1..];
      assert forall k :: 0 <= k < |rest| ==> LexGeq(key(xs[0]), key(rest[k])) by {
        forall k | 0 <= k < |rest| ensures LexGeq(key(xs[0]), key(rest[k])) {
          assert rest[k] in multiset(rest);
          assert rest[k] == x || rest[k] in multiset(xs[1..]);
          if rest[k] != x {
            var m :| 0 <= m < |xs[1..]| && xs[1..][m] == rest[k];
            assert xs[m + 1] == rest[k];
          }
        }
      }
      [xs[0]] + rest
  }

  /** Orders records by a two-field descending key; the result is a
      permutation of the input. */
  function SortDescBy<T>(xs: seq<T>, key: T -> (int, int)): (r: seq<T>)
    ensures |r| == |xs|
    ensures multiset(r) == multiset(xs)
    ensures SortedDescBy(r, key)
  {
    if |xs| == 0 then []
    else
      assert xs == [xs[0]] + xs[1..];
      InsertDescBy(xs[0], SortDescBy(xs[1..], key), key)
  }

  /** Orders records by a descending key (the store's sort({ field: -1 }));
      the result is a permutation of the input. */
  function SortDesc<T>(xs: seq<T>, key: T -> int): (r: seq<T>)
    ensures |r| == |xs|
    ensures multiset(r) == multiset(xs)
    ensures SortedDesc(r, key)
  {
    var r := SortDescBy(xs, Paired(key));
    assert forall i, j :: 0 <= i < j < |r| ==> LexGeq((key(r[i]), 0), (key(r[j]), 0));
    r
  }

  /** A one-field key as a two-field key with a constant second field. */
  function Paired<T>(key: T -> int): T -> (int, int) {
    x => (key(x), 0)
  }

  /** The sort is stable: when every element has the same key, the list
      keeps its order. */
  lemma {:induction false} SortDescByTies<T>(xs: seq<T>, key: T -> (int, int))
    requires forall x, y :: LexGeq(key(x), key(y))
    ensures SortDescBy(xs, key) == xs
    decreases |xs|
  {
    if |xs| > 0 {
      assert xs == [xs[0]] + xs[1..];
      SortDescByTies(xs[1..], key);
    }
  }

  lemma SortDescTies<T>(xs: seq<T>, key: T -> int)
    requires forall x, y :: key(x) == key(y)
    ensures SortDesc(xs, key) == xs
  {
    forall x, y ensures LexGeq(Paired(key)(x), Paired(key)(y)) {
      assert key(x) == key(y);
    }
    SortDescByTies(xs, Paired(key));
  }

  /** A page of a list holds only the list's elements. */
  lemma SkipLimitWithin<T>(xs: seq<T>, skip: int, limit: int)
    requires SkipLimit(xs, skip, limit).Success?
    ensures forall x :: x in SkipLimit(xs, skip, limit).value ==> x in xs
  {
    var page := SkipLimit(xs, skip, limit).value;
    forall x | x in page ensures x in xs {
      var k :| 0 <= k < |page| && page[k] == x;
      assert xs[skip + k] == x;
    }
  }

  /** A page of a sorted list is sorted. */
  lemma SkipLimitSortedDesc<T>(xs: seq<T>, skip: int, limit: int, key: T -> int)
    requires SortedDesc(xs, key) && SkipLimit(xs, skip, limit).Success?
    ensures SortedDesc(SkipLimit(xs, skip, limit).value, key)
  {
    var page := SkipLimit(xs, skip, limit).value;
    forall i, j | 0 <= i < j < |page| ensures key(page[i]) >= key(page[j]) {
      assert page[i] == xs[skip + i] && page[j] == xs[skip + j];
    }
  }

  lemma SkipLimitSortedDescBy<T>(xs: seq<T>, skip: int, limit: int, key: T -> (int, int))
    requires SortedDescBy(xs, key) && SkipLimit(xs, skip, limit).Success?
    ensures SortedDescBy(SkipLimit(xs, skip, limit).value, key)
  {
    var page := SkipLimit(xs, skip, limit).value;
    forall i, j | 0 <= i < j < |page| ensures LexGeq(key(page[i]), key(page[j])) {
      assert page[i] == xs[skip + i] && page[j] == xs[skip + j];
    }
  }

  /** A permutation holds the same elements. */
  lemma PermutationWithin<T>(xs: seq<T>, ys: seq<T>)
    requires multiset(xs) == multiset(ys)
    ensures forall x :: x in xs ==> x in ys
  {
    forall x | x in xs ensures x in ys {
      assert x in multiset(xs);
    }
  }

  /** A store query's filter: the elements satisfying p, in store order. */
  function Where<T(!new)>(xs: seq<T>, p: T -> bool): (r: seq<T>)
    ensures |r| <= |xs|
    ensures forall x :: x in r <==> x in xs && p(x)
  {
    if |xs| == 0 then []
    else
      var n := |xs| - 1;
      assert xs == xs[..n] + [xs[n]];
      Where(xs[..n], p) + (if p(xs[n]) then [xs[n]] else [])
  }

  /** A filter that every element passes returns the list unchanged. */
  lemma {:induction false} WhereKeepsAll<T(!new)>(xs: seq<T>, p: T -> bool)
    requires forall x :: x in xs ==> p(x)
    ensures Where(xs, p) == xs
  {
    if |xs| > 0 {
      var n := |xs| - 1;
      assert xs == xs[..n] + [xs[n]];
      WhereKeepsAll(xs[..n], p);
    }
  }

  /** Filtering after appending a rejected element is filtering before. */
  lemma WhereAppendRejected<T(!new)>(xs: seq<T>, y: T, p: T -> bool)
    requires !p(y)
    ensures Where(xs + [y], p) == Where(xs, p)
  {
    assert (xs + [y])[..|xs|] == xs;
  }

  /** An element appended at the end is selected when it passes. */
  lemma WhereSnoc<T(!new)>(init: seq<T>, y: T, p: T -> bool)
    ensures |Where(init + [y], p)| == |Where(init, p)| + (if p(y) then 1 else 0)
  {
    var xs := init + [y];
    assert xs[..|xs| - 1] == init;
  }

  /** Counting after replacing one element: the old element's contribution
      goes and the new one's comes. */
  lemma {:induction false} WhereUpdateCount<T(!new)>(xs: seq<T>, i: nat, x: T, p: T -> bool)
    requires i < |xs|
    ensures |Where(xs[i := x], p)| ==
            |Where(xs, p)| - (if p(xs[i]) then 1 else 0) + (if p(x) then 1 else 0)
    decreases |xs|
  {
    var t := xs[i := x];
    var last := |xs| - 1;
    var init := xs[..last];
    assert xs == init + [xs[last]];
    WhereSnoc(init, xs[last], p);
    if i == last {
      assert t == init + [x];
      WhereSnoc(init, x, p);
    } else {
      assert t == t[..last] + [xs[last]];
      assert t[..last] == init[i := x];
      WhereSnoc(t[..last], xs[last], p);
      WhereUpdateCount(xs[..last], i, x, p);
    }
  }

  /** Filtering a list with one element appended. */
  lemma WhereAppend<T(!new)>(xs: seq<T>, y: T, p: T -> bool)
    ensures Where(xs + [y], p) == Where(xs, p) + (if p(y) then [y] else [])
  {
    assert (xs + [y])[..|xs|] == xs;
  }

  /** Two filters applied one after the other select the same list in
      either order. */
  lemma {:induction false} WhereCommute<T(!new)>(xs: seq<T>, p: T -> bool, q: T -> bool)
    ensures Where(Where(xs, p), q) == Where(Where(xs, q), p)
    decreases |xs|
  {
    if |xs| > 0 {
      var n := |xs| - 1;
      var init, y := xs[..n], xs[n];
      assert xs == init + [y];
      var a, b := Where(init, p), Where(init, q);
      WhereCommute(init, p, q);
      WhereAppend(init, y, p);
      WhereAppend(init, y, q);
      if p(y) {
        assert Where(xs, p) == a + [y];
        WhereAppend(a, y, q);
      } else {
        assert Where(xs, p) == a;
      }
      if q(y) {
        assert Where(xs, q) == b + [y];
        WhereAppend(b, y, p);
      } else {
        assert Where(xs, q) == b;
      }
    }
  }

  /** Filtering by a test that implies the first one again adds nothing
      over filtering by it alone. */
  lemma {:induction false} WhereNarrow<T(!new)>(xs: seq<T>, p: T -> bool, q: T -> bool)
    requires forall x :: q(x) ==> p(x)
    ensures Where(Where(xs, p), q) == Where(xs, q)
    decreases |xs|
  {
    if |xs| > 0 {
      var n := |xs| - 1;
      var init, y := xs[..n], xs[n];
      assert xs == init + [y];
      var a := Where(init, p);
      WhereNarrow(init, p, q);
      WhereAppend(init, y, p);
      WhereAppend(init, y, q);
      if p(y) {
        assert Where(xs, p) == a + [y];
        WhereAppend(a, y, q);
      } else {
        assert Where(xs, p) == a;
        assert !q(y);
        assert Where(xs, q) == Where(init, q) + [];
      }
    }
  }

  /** A list in which nothing passes filters to nothing. */
  lemma {:induction false} WhereNone<T(!new)>(xs: seq<T>, p: T -> bool)
    requires forall i :: 0 <= i < |xs| ==> !p(xs[i])
    ensures Where(xs, p) == []
    decreases |xs|
  {
    if |xs| > 0 {
      WhereNone(xs[..|xs| - 1], p);
    }
  }

  /** Lists that agree position by position on every element either of
      them lets through filter to the same list. */
  lemma {:induction false} WhereAgree<T(!new)>(xs: seq<T>, ys: seq<T>, p: T -> bool)
    requires |xs| == |ys|
    requires forall i :: 0 <= i < |xs| ==> (p(xs[i]) || p(ys[i])) ==> xs[i] == ys[i]
    ensures Where(xs, p) == Where(ys, p)
    decreases |xs|
  {
    if |xs| > 0 {
      WhereAgree(xs[..|xs| - 1], ys[..|ys| - 1], p);
    }
  }

  /** Lists that agree position by position on which elements pass filter
      to lists of the same length. */
  lemma {:induction false} WhereSameCount<T(!new)>(xs: seq<T>, ys: seq<T>, p: T -> bool)
    requires |xs| == |ys|
    requires forall i :: 0 <= i < |xs| ==> (p(xs[i]) <==> p(ys[i]))
    ensures |Where(xs, p)| == |Where(ys, p)|
    decreases |xs|
  {
    if |xs| > 0 {
      WhereSameCount(xs[..|xs| - 1], ys[..|ys| - 1], p);
    }
  }

  /** A relative index of Array.prototype.slice: negative counts from the
      end, and the result is clamped to [0, n]. */
  function SliceIndex(i: int, n: nat): (r: nat)
    ensures r <= n
    ensures 0 <= i <= n ==> r == i
  {
    if i < 0 then (if n + i < 0 then 0 else n + i)
    else if i > n then n
    else i
  }

  /** Array.prototype.slice(start, end). */
  function JsSlice<T>(xs: seq<T>, start: int, end: int): (r: seq<T>)
    ensures |r| == if SliceIndex(start, |xs|) < SliceIndex(end, |xs|)
                   then SliceIndex(end, |xs|) - SliceIndex(start, |xs|) else 0
    ensures forall k :: 0 <= k < |r| ==> r[k] == xs[SliceIndex(start, |xs|) + k]
  {
    var b := SliceIndex(start, |xs|);
    var e := SliceIndex(end, |xs|);
    if b < e then xs[b..e] else []
  }

  /** A slice is a run of consecutive elements: it keeps a descending
      order and takes nothing from outside the list. */
  lemma JsSliceSortedDesc<T>(xs: seq<T>, start: int, end: int, key: T -> int)
    requires SortedDesc(xs, key)
    ensures SortedDesc(JsSlice(xs, start, end), key)
    ensures forall x :: x in JsSlice(xs, start, end) ==> x in xs
  {
    var b := SliceIndex(start, |xs|);
    var e := SliceIndex(end, |xs|);
    if b < e {
      assert JsSlice(xs, start, end) == xs[b..e];
    }
  }

  /** For a non-negative skip and a positive limit, slicing in memory
      returns the same page as the store's skip/limit. */
  lemma JsSliceIsSkipLimit<T>(xs: seq<T>, skip: int, limit: int)
    requires skip >= 0 && limit > 0
    ensures SkipLimit(xs, skip, limit) == Success(JsSlice(xs, skip, skip + limit))
  {
    var r := JsSlice(xs, skip, skip + limit);
    var q := SkipLimit(xs, skip, limit).value;
    if skip > |xs| {
      assert |q| == 0;
    } else if skip + limit >= |xs| {
      assert q == xs[skip..];
    } else {
      assert q == xs[skip..][..limit];
    }
    assert |r| == |q|;
    forall k | 0 <= k < |r| ensures r[k] == q[k] {
    }
    assert r == q;
  }

  /** Where the two differ: page -1 makes the skip negative; the store
      rejects it, while slice counts both ends back from the end of the
      list. */
  lemma JsSliceNegativePage<T>(xs: seq<T>, limit: int)
    requires limit > 0 && 2 * limit <= |xs|
    ensures JsSlice(xs, Skip(-1, limit), Skip(-1, limit) + limit) == xs[|xs| - 2 * limit..|xs| - limit]
    ensures SkipLimit(xs, Skip(-1, limit), limit).Failure?
  {
    var r := JsSlice(xs, Skip(-1, limit), Skip(-1, limit) + limit);
    assert |r| == limit;
    assert r == xs[|xs| - 2 * limit..|xs| - limit];
  }
}

=== FILE: presence.dfy ===
/** The multi-socket presence registry of the realtime server
    (SocketManager): a map from user id to the set of that user's socket
    ids, filled by `authenticate`, drained by `disconnect` and `logout`, and
    read by emitToUser, isUserOnline, getOnlineUsers and getUserSocketCount.

    The per-socket `userId` property is kept as the map `bound`, from a live
    socket id to the user id its last successful authenticate decoded. A
    socket that disconnects is forgotten. Events the server sends are
    returned as a list of effects. */
module Presence {
  import opened Wrappers

  type UserId = string
  type SocketId = string

  datatype Status = Online | Offline

  /** Why token verification failed; the registry treats every kind alike. */
  datatype JwtError = TokenExpired | Malformed | OtherError

  /** What one socket event made the server send. */
  datatype Effect =
    | Authenticated(to: SocketId, userId: UserId)
    | AuthenticationError(to: SocketId, message: string)
    | Close(sid: SocketId)
    | UserStatus(userId: UserId, status: Status)
    | Deliver(to: SocketId, event: string)

  datatype Registry = Registry(
    userSockets: map<UserId, set<SocketId>>,
    bound: map<SocketId, UserId>,
    io: bool)

  datatype Step = Step(reg: Registry, effects: seq<Effect>)

  /** The sockets registered for u; an absent key reads as no sockets. */
  function SocketsOf(m: map<UserId, set<SocketId>>, u: UserId): set<SocketId> {
    if u in m then m[u] else {}
  }

  /** The registry never stores an empty set. */
  predicate NoEmptySets(reg: Registry) {
    forall u :: u in reg.userSockets ==> reg.userSockets[u] != {}
  }

  /** Every user other than u keeps exactly the sockets it had. */
  ghost predicate OthersUnchanged(before: map<UserId, set<SocketId>>, after: map<UserId, set<SocketId>>, u: UserId) {
    forall v :: v != u ==> (v in after <==> v in before) && SocketsOf(after, v) == SocketsOf(before, v)
  }

  /** A socket id is counted only for the user it is bound to (the design
      intent that a socket belongs to one user), and the falsy id "", which
      disconnect and logout would never clear, is not registered. */
  predicate OwnersConsistent(reg: Registry) {
    && "" !in reg.userSockets
    && forall u, s :: u in reg.userSockets && s in reg.userSockets[u] ==> s in reg.bound && reg.bound[s] == u
  }

  /** JavaScript truthiness of socket.userId: absent or "" is falsy. */
  function BoundUser(reg: Registry, sid: SocketId): (r: Option<UserId>)
    ensures r.Some? <==> sid in reg.bound && reg.bound[sid] != ""
    ensures r.Some? ==> r.value == reg.bound[sid] && r.value != ""
  {
    if sid in reg.bound && reg.bound[sid] != "" then Some(reg.bound[sid]) else None
  }

  /** emitUserStatus: a user_status broadcast, sent only once the server
      exists. */
  function StatusEffects(io: bool, u: UserId, status: Status): (r: seq<Effect>)
    ensures io <==> r == [UserStatus(u, status)]
    ensures !io <==> r == []
  {
    if io then [UserStatus(u, status)] else []
  }

  /** The `authenticate` handler as written. The token verdict is an input.
      On success the socket joins the decoded user's set, is acknowledged,
      and `online` is broadcast on every success, not only the first. On
      failure the registry is untouched, an error is sent and the socket is
      closed. A socket that was bound to another user stays in that user's
      set. */
  function Authenticate(reg: Registry, sid: SocketId, verdict: Result<UserId, JwtError>): (r: Step)
    ensures verdict.Failure? ==> r.reg == reg
    ensures verdict.Failure? ==> r.effects == [AuthenticationError(sid, "Invalid token"), Close(sid)]
    ensures verdict.Success? ==>
      var u := verdict.value;
      && SocketsOf(r.reg.userSockets, u) == SocketsOf(reg.userSockets, u) + {sid}
      && u in r.reg.userSockets
      && OthersUnchanged(reg.userSockets, r.reg.userSockets, u)
      && r.reg.bound == reg.bound[sid := u]
      && r.reg.io == reg.io
      && r.effects == [Authenticated(sid, u)] + StatusEffects(reg.io, u, Online)
    ensures NoEmptySets(reg) ==> NoEmptySets(r.reg)
  {
    match verdict
    case Failure(_) =>
      Step(reg, [AuthenticationError(sid, "Invalid token"), Close(sid)])
    case Success(u) =>
      var s := SocketsOf(reg.userSockets, u);
      Step(Registry(reg.userSockets[u := s + {sid}], reg.bound[sid := u], reg.io),
           [Authenticated(sid, u)] + StatusEffects(reg.io, u, Online))
  }

  /** removeUserSocket: drops one socket from one user's set; the entry is
      deleted and `offline` broadcast exactly when the set becomes empty. A
      user with no entry is left alone. */
  function RemoveUserSocket(reg: Registry, u: UserId, sid: SocketId): (r: Step)
    ensures SocketsOf(r.reg.userSockets, u) == SocketsOf(reg.userSockets, u) - {sid}
    ensures OthersUnchanged(reg.userSockets, r.reg.userSockets, u)
    ensures r.reg.bound == reg.bound && r.reg.io == reg.io
    ensures u in r.reg.userSockets <==> SocketsOf(reg.userSockets, u) - {sid} != {}
    ensures r.effects == if u in reg.userSockets && reg.userSockets[u] - {sid} == {}
                         then StatusEffects(reg.io, u, Offline) else []
    ensures NoEmptySets(reg) ==> NoEmptySets(r.reg)
  {
    if u in reg.userSockets then
      var rest := reg.userSockets[u] - {sid};
      if rest == {} then
        Step(reg.(userSockets := reg.userSockets - {u}), StatusEffects(reg.io, u, Offline))
      else
        Step(reg.(userSockets := reg.userSockets[u := rest]), [])
    else
      Step(reg, [])
  }

  /** The `disconnect` handler: a socket with a truthy userId is removed from
      that user's set as in removeUserSocket; the socket itself is then
      gone. */
  function Disconnect(reg: Registry, sid: SocketId): (r: Step)
    ensures BoundUser(reg, sid).None? ==> r.reg.userSockets == reg.userSockets && r.effects == []
    ensures BoundUser(reg, sid).Some? ==>
              var removed := RemoveUserSocket(reg, reg.bound[sid], sid);
              r.reg.userSockets == removed.reg.userSockets && r.effects == removed.effects
    ensures r.reg.bound == reg.bound - {sid} && r.reg.io == reg.io
    ensures NoEmptySets(reg) ==> NoEmptySets(r.reg)
  {
    var after := match BoundUser(reg, sid)
                 case Some(u) => RemoveUserSocket(reg, u, sid)
                 case None => Step(reg, []);
    after.(reg := after.reg.(bound := reg.bound - {sid}))
  }

  /** The `logout` handler: the same removal for a socket with a truthy
      userId; the socket stays open and keeps its userId. */
  function Logout(reg: Registry, sid: SocketId): (r: Step)
    ensures BoundUser(reg, sid).None? ==> r == Step(reg, [])
    ensures BoundUser(reg, sid).Some? ==> r == RemoveUserSocket(reg, reg.bound[sid], sid)
    ensures r.reg.bound == reg.bound
    ensures NoEmptySets(reg) ==> NoEmptySets(r.reg)
  {
    match BoundUser(reg, sid)
    case Some(u) => RemoveUserSocket(reg, u, sid)
    case None => Step(reg, [])
  }

  predicate IsUserOnline(reg: Registry, u: UserId) {
    u in reg.userSockets && |reg.userSockets[u]| > 0
  }

  function GetOnlineUsers(reg: Registry): set<UserId> {
    reg.userSockets.Keys
  }

  /** `userSockets.get(u)?.size || 0` */
  function GetUserSocketCount(reg: Registry, u: UserId): (r: nat)
    ensures r == |SocketsOf(reg.userSockets, u)|
  {
    if u in reg.userSockets then |reg.userSockets[u]| else 0
  }

  datatype Emission = Emission(sent: bool, recipients: set<SocketId>)

  /** emitToUser: nothing is sent and false is returned when the server is
      not initialised or the user has no sockets; otherwise the event goes
      to every socket of the user and true is returned. */
  function EmitToUser(reg: Registry, u: UserId, event: string): (r: Emission)
    ensures r.sent <==> reg.io && SocketsOf(reg.userSockets, u) != {}
    ensures r.recipients == if r.sent then SocketsOf(reg.userSockets, u) else {}
  {
    if !reg.io then Emission(false, {})
    else if u !in reg.userSockets || |reg.userSockets[u]| == 0 then Emission(false, {})
    else Emission(true, reg.userSockets[u])
  }

  /** With no empty set stored, being online, being a key of the registry
      and having a positive socket count are the same thing. */
  lemma OnlineIffKey(reg: Registry, u: UserId)
    requires NoEmptySets(reg)
    ensures IsUserOnline(reg, u) <==> u in GetOnlineUsers(reg)
    ensures IsUserOnline(reg, u) <==> GetUserSocketCount(reg, u) > 0
    ensures u !in reg.userSockets ==> GetUserSocketCount(reg, u) == 0
  {
  }

  /** emitToUser succeeds exactly for online users of an initialised server. */
  lemma EmitSucceedsIffOnline(reg: Registry, u: UserId, event: string)
    ensures EmitToUser(reg, u, event).sent <==> reg.io && IsUserOnline(reg, u)
  {
  }

  /** After a successful authenticate the user is online and, on an
      initialised server, `online` was broadcast, however many sockets the
      user already had. */
  lemma AuthenticateMakesOnline(reg: Registry, sid: SocketId, u: UserId)
    ensures var r := Authenticate(reg, sid, Success(u));
      && IsUserOnline(r.reg, u)
      && sid in r.reg.userSockets[u]
      && (reg.io ==> UserStatus(u, Online) in r.effects)
  {
  }

  /** A fresh socket that authenticates and then disconnects leaves the
      user/socket map as it found it; the offline broadcast comes back
      exactly when the user had no other socket. */
  lemma {:induction false} AuthenticateThenDisconnect(reg: Registry, sid: SocketId, u: UserId)
    requires NoEmptySets(reg) && OwnersConsistent(reg)
    requires sid !in reg.bound && u != ""
    ensures var a := Authenticate(reg, sid, Success(u));
      var d := Disconnect(a.reg, sid);
      && d.reg == reg
      && (UserStatus(u, Offline) in d.effects <==> reg.io && u !in reg.userSockets)
  {
    var a := Authenticate(reg, sid, Success(u));
    assert sid !in SocketsOf(reg.userSockets, u);
    assert BoundUser(a.reg, sid) == Some(u);
    var d := Disconnect(a.reg, sid);
    assert SocketsOf(d.reg.userSockets, u) == SocketsOf(reg.userSockets, u);
    assert d.reg.userSockets == reg.userSockets by {
      forall v | v in reg.userSockets ensures v in d.reg.userSockets && d.reg.userSockets[v] == reg.userSockets[v] {
        assert SocketsOf(d.reg.userSockets, v) == SocketsOf(reg.userSockets, v);
      }
      forall v | v in d.reg.userSockets ensures v in reg.userSockets {
        assert SocketsOf(d.reg.userSockets, v) == SocketsOf(reg.userSockets, v);
      }
    }
    assert d.reg.bound == reg.bound;
  }

  /** Consistent ownership means a socket appears in at most one user's set. */
  lemma OwnersConsistentSingleOwner(reg: Registry, s: SocketId, u1: UserId, u2: UserId)
    requires OwnersConsistent(reg)
    requires u1 in reg.userSockets && s in reg.userSockets[u1]
    requires u2 in reg.userSockets && s in reg.userSockets[u2]
    ensures u1 == u2
  {
    assert reg.bound[s] == u1;
  }

  /** Authenticating a socket that is not yet bound, or re-authenticating it
      as the same user, keeps ownership consistent, and so do disconnect and
      logout. */
  lemma AuthenticateFreshKeepsOwners(reg: Registry, sid: SocketId, verdict: Result<UserId, JwtError>)
    requires OwnersConsistent(reg)
    requires verdict.Failure? || sid !in reg.bound || reg.bound[sid] == verdict.value
    requires verdict.Success? ==> verdict.value != ""
    ensures OwnersConsistent(Authenticate(reg, sid, verdict).reg)
  {
    var r := Authenticate(reg, sid, verdict);
    if verdict.Success? {
      var u := verdict.value;
      forall v, s | v in r.reg.userSockets && s in r.reg.userSockets[v]
        ensures s in r.reg.bound && r.reg.bound[s] == v
      {
        assert s in SocketsOf(r.reg.userSockets, v);
        if v != u && s == sid {
          assert s in SocketsOf(reg.userSockets, v);
        }
      }
    }
  }

  lemma DisconnectKeepsOwners(reg: Registry, sid: SocketId)
    requires OwnersConsistent(reg)
    ensures OwnersConsistent(Disconnect(reg, sid).reg)
  {
    var r := Disconnect(reg, sid);
    forall v, s | v in r.reg.userSockets && s in r.reg.userSockets[v]
      ensures s in r.reg.bound && r.reg.bound[s] == v
    {
      assert s in SocketsOf(r.reg.userSockets, v);
      assert s in SocketsOf(reg.userSockets, v);
    }
  }

  lemma LogoutKeepsOwners(reg: Registry, sid: SocketId)
    requires OwnersConsistent(reg)
    ensures OwnersConsistent(Logout(reg, sid).reg)
  {
    var r := Logout(reg, sid);
    forall v, s | v in r.reg.userSockets && s in r.reg.userSockets[v]
      ensures s in r.reg.bound && r.reg.bound[s] == v
    {
      assert s in SocketsOf(r.reg.userSockets, v);
      assert s in SocketsOf(reg.userSockets, v);
    }
  }

  /** As written, re-authenticating a socket as a second user leaves it in
      the first user's set; after it disconnects the first user still counts
      as online through a socket that no longer exists. */
  lemma StaleSocketAfterReauthenticate()
    ensures var reg := Registry(map[], map[], true);
      var a := Authenticate(reg, "s1", Success("alice"));
      var b := Authenticate(a.reg, "s1", Success("bob"));
      var d := Disconnect(b.reg, "s1");
      && !OwnersConsistent(b.reg)
      && "s1" !in d.reg.bound
      && IsUserOnline(d.reg, "alice")
      && "s1" in d.reg.userSockets["alice"]
  {
    var reg := Registry(map[], map[], true);
    var a := Authenticate(reg, "s1", Success("alice"));
    var b := Authenticate(a.reg, "s1", Success("bob"));
    assert "s1" in b.reg.userSockets["alice"] && b.reg.bound["s1"] == "bob";
    var d := Disconnect(b.reg, "s1");
    assert SocketsOf(d.reg.userSockets, "alice") == {"s1"};
  }

  /** Authenticate with the evident intent: a socket already bound to
      another user is first removed from that user's set (with the offline
      broadcast that may cause), then bound to the decoded user. */
  function AuthenticateRebinding(reg: Registry, sid: SocketId, verdict: Result<UserId, JwtError>): (r: Step)
    ensures verdict.Failure? ==> r == Authenticate(reg, sid, verdict)
    ensures verdict.Success? ==>
      var u := verdict.value;
      && SocketsOf(r.reg.userSockets, u) == SocketsOf(reg.userSockets, u) + {sid}
      && r.reg.bound == reg.bound[sid := u]
      && (UserStatus(u, Online) in r.effects <==> reg.io)
    ensures NoEmptySets(reg) ==> NoEmptySets(r.reg)
  {
    if verdict.Success? && sid in reg.bound && reg.bound[sid] != verdict.value then
      var unbound := RemoveUserSocket(reg, reg.bound[sid], sid);
      var a := Authenticate(unbound.reg, sid, verdict);
      Step(a.reg, unbound.effects + a.effects)
    else
      Authenticate(reg, sid, verdict)
  }

  /** The corrected authenticate keeps ownership consistent for every
      socket and every verdict carrying a non-empty id. */
  lemma AuthenticateRebindingKeepsOwners(reg: Registry, sid: SocketId, verdict: Result<UserId, JwtError>)
    requires OwnersConsistent(reg)
    requires verdict.Success? ==> verdict.value != ""
    ensures OwnersConsistent(AuthenticateRebinding(reg, sid, verdict).reg)
  {
    var r := AuthenticateRebinding(reg, sid, verdict);
    if verdict.Success? && sid in reg.bound && reg.bound[sid] != verdict.value {
      var u := verdict.value;
      var old_u := reg.bound[sid];
      var unbound := RemoveUserSocket(reg, old_u, sid);
      forall v, s | v in r.reg.userSockets && s in r.reg.userSockets[v]
        ensures s in r.reg.bound && r.reg.bound[s] == v
      {
        assert s in SocketsOf(r.reg.userSockets, v);
        if v != u {
          assert s in SocketsOf(unbound.reg.userSockets, v);
          assert s in SocketsOf(reg.userSockets, v);
          assert s != sid;
        }
      }
    } else {
      AuthenticateFreshKeepsOwners(reg, sid, verdict);
    }
  }
}

=== FILE: push_gateway.dfy ===
/** The push gateway: one multicast to the recipient's active device
    tokens, deactivation of exactly the tokens the provider reports as
    failed, and success when at least one token was reached. The provider
    is an oracle: its per-token answers are an input, and None stands for a
    provider call (or anything else in the gateway) that throws. */
module PushGateway {
  import opened Wrappers
  import DeviceTokens

  /** What is handed to the provider's multicast call. */
  datatype PushMessage = PushMessage(
    title: string,
    body: string,
    data: map<string, string>,
    imageUrl: Option<string>,
    tokens: seq<string>)

  datatype PushOutcome = PushOutcome(
    delivered: bool,
    sent: Option<PushMessage>,
    store: DeviceTokens.Store)

  /** The tokens whose same-index answer failed. Answers beyond the end of
      the token list, or tokens beyond the end of the answers, name nothing. */
  function FailedTokens(tokens: seq<string>, answers: seq<bool>): (r: set<string>)
    ensures forall t :: t in r <==> exists i :: 0 <= i < |tokens| && i < |answers| && !answers[i] && tokens[i] == t
  {
    set i | 0 <= i < |tokens| && i < |answers| && !answers[i] :: tokens[i]
  }

  /** successCount > 0 */
  predicate AnySucceeded(answers: seq<bool>) {
    exists i :: 0 <= i < |answers| && answers[i]
  }

  /** `if (payload.imageUrl)`: only a non-empty image url is attached. */
  function ImageIfTruthy(imageUrl: Option<string>): (r: Option<string>)
    ensures r.Some? <==> imageUrl.Some? && imageUrl.value != ""
    ensures r.Some? ==> r == imageUrl
  {
    if imageUrl.Some? && imageUrl.value != "" then imageUrl else None
  }

  /** sendPushNotification. With no active token the provider is never
      called and the result is false. Otherwise the one multicast goes to
      the active tokens in store order; a throwing call yields false and
      changes nothing; an answer deactivates exactly the failed tokens and
      the result is whether any token succeeded. */
  function SendPush(store: DeviceTokens.Store, user: string, title: string, body: string,
                    data: map<string, string>, imageUrl: Option<string>,
                    answers: Option<seq<bool>>): (r: PushOutcome)
    ensures var tokens := DeviceTokens.ActiveTokens(store, user);
      && (tokens == [] ==> r == PushOutcome(false, None, store))
      && (tokens != [] ==> r.sent == Some(PushMessage(title, body, data, ImageIfTruthy(imageUrl), tokens)))
      && (r.delivered <==> tokens != [] && answers.Some? && AnySucceeded(answers.value))
      && (answers.None? ==> r.store == store)
      && (tokens != [] && answers.Some? ==> r.store == DeviceTokens.Deactivate(store, FailedTokens(tokens, answers.value)))
  {
    var tokens := DeviceTokens.ActiveTokens(store, user);
    if tokens == [] then PushOutcome(false, None, store)
    else
      var msg := PushMessage(title, body, data, ImageIfTruthy(imageUrl), tokens);
      match answers
      case None => PushOutcome(false, Some(msg), store)
      case Some(a) =>
        PushOutcome(AnySucceeded(a), Some(msg), DeviceTokens.Deactivate(store, FailedTokens(tokens, a)))
  }

  predicate Distinct(ts: seq<string>) {
    forall i, j :: 0 <= i < j < |ts| ==> ts[i] != ts[j]
  }

  /** Under the unique token index, a user's active tokens are distinct. */
  lemma {:induction false} ActiveTokensDistinct(store: DeviceTokens.Store, user: string)
    requires DeviceTokens.Unique(store)
    ensures Distinct(DeviceTokens.ActiveTokens(store, user))
    decreases |store|
  {
    if |store| > 0 {
      var tail := store[1..];
      assert DeviceTokens.Unique(tail) by {
        forall i, j | 0 <= i < j < |tail|
          ensures tail[i].fcmToken != tail[j].fcmToken
          ensures tail[i].user != tail[j].user || tail[i].deviceId != tail[j].deviceId
        {
          assert tail[i] == store[i + 1] && tail[j] == store[j + 1];
        }
      }
      ActiveTokensDistinct(tail, user);
      var rest := DeviceTokens.ActiveTokens(tail, user);
      if store[0].user == user && store[0].isActive {
        forall k | 0 <= k < |rest| ensures rest[k] != store[0].fcmToken {
          assert rest[k] in rest;
          var d :| d in tail && d.user == user && d.isActive && d.fcmToken == rest[k];
          var m :| 0 <= m < |tail| && tail[m] == d;
          assert store[m + 1] == d;
        }
        var ts := [store[0].fcmToken] + rest;
        assert DeviceTokens.ActiveTokens(store, user) == ts;
        forall i, j | 0 <= i < j < |ts| ensures ts[i] != ts[j] {
          if i == 0 {
            assert ts[j] == rest[j - 1];
          } else {
            assert ts[i] == rest[i - 1] && ts[j] == rest[j - 1];
          }
        }
      } else {
        assert DeviceTokens.ActiveTokens(store, user) == rest;
      }
    }
  }

  /** A token whose answer succeeded is still addressed by the next push;
      only the failed ones are dropped. */
  lemma SucceededTokenStaysActive(store: DeviceTokens.Store, user: string, title: string, body: string,
                                  data: map<string, string>, imageUrl: Option<string>,
                                  answers: seq<bool>, i: nat)
    requires DeviceTokens.Unique(store)
    requires i < |DeviceTokens.ActiveTokens(store, user)| && i < |answers| && answers[i]
    ensures var r := SendPush(store, user, title, body, data, imageUrl, Some(answers));
      DeviceTokens.ActiveTokens(store, user)[i] in DeviceTokens.ActiveTokens(r.store, user)
  {
    var tokens := DeviceTokens.ActiveTokens(store, user);
    var t := tokens[i];
    ActiveTokensDistinct(store, user);
    var failed := FailedTokens(tokens, answers);
    forall k | 0 <= k < |tokens| && k < |answers| && !answers[k] ensures tokens[k] != t {
      assert k != i;
    }
    DeviceTokens.DeactivateRemovesFailed(store, failed, user, t);
  }

  /** A token whose answer failed is never addressed again. */
  lemma FailedTokenDropped(store: DeviceTokens.Store, user: string, title: string, body: string,
                           data: map<string, string>, imageUrl: Option<string>,
                           answers: seq<bool>, i: nat)
    requires i < |DeviceTokens.ActiveTokens(store, user)| && i < |answers| && !answers[i]
    ensures var r := SendPush(store, user, title, body, data, imageUrl, Some(answers));
      DeviceTokens.ActiveTokens(store, user)[i] !in DeviceTokens.ActiveTokens(r.store, user)
  {
    var tokens := DeviceTokens.ActiveTokens(store, user);
    DeviceTokens.DeactivateRemovesFailed(store, FailedTokens(tokens, answers), user, tokens[i]);
  }

  /** sendAdminPushNotification: the same gateway for the configured admin
      user, with no image; an unset or empty admin id yields false without
      any lookup. */
  function SendAdminPush(store: DeviceTokens.Store, adminUserId: Option<string>, title: string, body: string,
                         data: map<string, string>, answers: Option<seq<bool>>): (r: PushOutcome)
    ensures !(adminUserId.Some? && adminUserId.value != "") ==> r == PushOutcome(false, None, store)
    ensures adminUserId.Some? && adminUserId.value != "" ==>
      var tokens := DeviceTokens.ActiveTokens(store, adminUserId.value);
      && (tokens == [] || answers.None? ==> r.store == store)
      && (tokens != [] && answers.Some? ==> r.store == DeviceTokens.Deactivate(store, FailedTokens(tokens, answers.value)))
      && (r.delivered <==> DeviceTokens.ActiveTokens(store, adminUserId.value) != [] && answers.Some? && AnySucceeded(answers.value))
      && (r.sent.Some? ==> r.sent.value.imageUrl.None? && r.sent.value.tokens == DeviceTokens.ActiveTokens(store, adminUserId.value))
  {
    if adminUserId.Some? && adminUserId.value != "" then
      SendPush(store, adminUserId.value, title, body, data, None, answers)
    else PushOutcome(false, None, store)
  }
}

=== FILE: react_controller.dfy ===
/** The reaction endpoints for videos, shorts and posts: toggleReaction,
    getUserReaction and getReactionStats. A target is identified by its
    content type and id; the store holds the reaction records and, for each
    existing target, its likesCount and dislikesCount. */
module ReactController {
  import opened Wrappers
  import opened Content
  import opened Reactions

  type TargetKey = (ContentType, Id)

  datatype Store = Store(reactions: map<(Id, TargetKey), Reaction>, targets: map<TargetKey, Counters>)

  /** Every existing target's counters agree with its reaction records. */
  predicate Consistent(s: Store) {
    forall t :: t in s.targets ==> Matches(s.reactions, t, s.targets[t])
  }

  datatype Reply =
    | Unauthenticated      // 401
    | BadTargetType        // 400
    | BadReactionType      // 400
    | BadTargetId          // 400
    | TargetNotFound       // 404
    | ServerError          // 500: a query on a malformed id throws
    | ReactionAdded        // 201
    | ReactionRemoved      // 200
    | ReactionUpdated      // 200

  /** The request checks of toggleReaction, in the order the handler makes
      them; the first failing one decides the reply. */
  function CheckToggle(s: Store, userId: Option<Id>, targetType: string, targetId: string,
                       reactionType: string): (r: Result<(Id, TargetKey, Reaction), Reply>)
    ensures !SignedIn(userId) ==> r == Failure(Unauthenticated)
    ensures SignedIn(userId) ==>
      var t := ParseContentType(targetType);
      var x := ParseReaction(reactionType);
      && (t.None? ==> r == Failure(BadTargetType))
      && (t.Some? && x.None? ==> r == Failure(BadReactionType))
      && (t.Some? && x.Some? && !IsObjectId(targetId) ==> r == Failure(BadTargetId))
      && (t.Some? && x.Some? && IsObjectId(targetId) ==>
            if (t.value, targetId) in s.targets
            then r == Success((userId.value, (t.value, targetId), x.value))
            else r == Failure(TargetNotFound))
  {
    if !SignedIn(userId) then Failure(Unauthenticated)
    else if ParseContentType(targetType).None? then Failure(BadTargetType)
    else if ParseReaction(reactionType).None? then Failure(BadReactionType)
    else if !IsObjectId(targetId) then Failure(BadTargetId)
    else
      var key := (ParseContentType(targetType).value, targetId);
      if key !in s.targets then Failure(TargetNotFound)
      else Success((userId.value, key, ParseReaction(reactionType).value))
  }

  /** toggleReaction. A rejected request changes nothing; an accepted one
      toggles the user's reaction on the target and moves the target's
      counters, leaving every other target's counters as they were. */
  function ToggleReaction(s: Store, userId: Option<Id>, targetType: string, targetId: string,
                          reactionType: string): (r: (Reply, Store))
    ensures var c := CheckToggle(s, userId, targetType, targetId, reactionType);
      && (c.Failure? ==> r == (c.error, s))
      && (c.Success? ==>
            var (user, key, reaction) := c.value;
            var t := Toggle(s.reactions, user, key, reaction, s.targets[key]);
            && r.1 == Store(t.reactions, s.targets[key := t.counters])
            && (r.0 == ReactionAdded <==> t.change == Added)
            && (r.0 == ReactionRemoved <==> t.change == Removed)
            && (r.0 == ReactionUpdated <==> t.change.Switched?))
  {
    match CheckToggle(s, userId, targetType, targetId, reactionType)
    case Failure(e) => (e, s)
    case Success((user, key, reaction)) =>
      var t := Toggle(s.reactions, user, key, reaction, s.targets[key]);
      var reply := match t.change
        case Added => ReactionAdded
        case Removed => ReactionRemoved
        case Switched(_) => ReactionUpdated;
      (reply, Store(t.reactions, s.targets[key := t.counters]))
  }

  /** The counters stay equal to the record counts across every request. */
  lemma ToggleReactionKeepsConsistent(s: Store, userId: Option<Id>, targetType: string, targetId: string,
                                      reactionType: string)
    requires Consistent(s)
    ensures Consistent(ToggleReaction(s, userId, targetType, targetId, reactionType).1)
  {
    var c := CheckToggle(s, userId, targetType, targetId, reactionType);
    if c.Success? {
      var (user, key, reaction) := c.value;
      ToggleKeepsCounters(s.reactions, user, key, reaction, s.targets[key]);
    }
  }

  /** getUserReaction: the user's reaction on the target, if any. The id
      is not checked first, so a malformed one makes `findOne` throw its
      cast error and the handler answer 500. */
  function GetUserReaction(s: Store, userId: Option<Id>, targetType: string, targetId: string)
    : (r: Result<Option<Reaction>, Reply>)
    ensures !SignedIn(userId) ==> r == Failure(Unauthenticated)
    ensures SignedIn(userId) && !IsObjectId(targetId) ==> r == Failure(ServerError)
    ensures r.Success? <==> SignedIn(userId) && IsObjectId(targetId)
    ensures r.Success? ==>
      (r.value.Some? <==> exists t: ContentType :: ContentTypeName(t) == targetType
                                                && (userId.value, (t, targetId)) in s.reactions)
    ensures r.Success? && r.value.Some? ==>
      s.reactions[(userId.value, (ParseContentType(targetType).value, targetId))] == r.value.value
  {
    if !SignedIn(userId) then Failure(Unauthenticated)
    else if !IsObjectId(targetId) then Failure(ServerError)
    else match ParseContentType(targetType)
      case None => Success(None)
      case Some(t) =>
        var key := (userId.value, (t, targetId));
        Success(if key in s.reactions then Some(s.reactions[key]) else None)
  }

  /** getReactionStats: the like and dislike record counts of a target. A
      type outside the three content types matches no record. */
  function GetReactionStats(s: Store, targetType: string, targetId: string): (r: Result<Counters, Reply>)
    ensures r.Failure? <==> !IsObjectId(targetId)
    ensures r.Failure? ==> r.error == BadTargetId
    ensures r.Success? && ParseContentType(targetType).None? ==> r.value == Counters(0, 0)
    ensures r.Success? && ParseContentType(targetType).Some? ==>
      Matches(s.reactions, (ParseContentType(targetType).value, targetId), r.value)
  {
    if !IsObjectId(targetId) then Failure(BadTargetId)
    else match ParseContentType(targetType)
      case None => Success(Counters(0, 0))
      case Some(t) => Success(Counters(Count(s.reactions, (t, targetId), Like), Count(s.reactions, (t, targetId), Dislike)))
  }

  /** While the store is consistent, the stats endpoint reports exactly the
      target's denormalised counters. */
  lemma StatsMatchCounters(s: Store, t: ContentType, targetId: string)
    requires Consistent(s) && IsObjectId(targetId) && (t, targetId) in s.targets
    ensures GetReactionStats(s, ContentTypeName(t), targetId) == Success(s.targets[(t, targetId)])
  {
    ContentTypeRoundTrip(t);
    var c := s.targets[(t, targetId)];
    assert Counter(c, Like) == Count(s.reactions, (t, targetId), Like);
    assert Counter(c, Dislike) == Count(s.reactions, (t, targetId), Dislike);
  }
}

=== FILE: reactions.dfy ===
/** Like/dislike reactions. A user has at most one reaction per target
    (the store's unique index), so the reaction records of one kind of
    target are a finite map from (user, target) to the reaction. A toggle
    moves that entry none -> r, r -> none or r -> r', and the target's
    denormalised like and dislike counters move with it. The generic part
    here is shared by reactions on content and reactions on comments. */
module Reactions {
  import opened Wrappers
  import Content

  type Id = string

  datatype Reaction = Like | Dislike

  function ReactionName(r: Reaction): string {
    match r
    case Like => "like"
    case Dislike => "dislike"
  }

  /** The `["like", "dislike"].includes(reactionType)` check. */
  function ParseReaction(s: string): (r: Option<Reaction>)
    ensures r.Some? ==> ReactionName(r.value) == s
    ensures r.None? ==> forall x: Reaction :: ReactionName(x) != s
  {
    if s == "like" then Some(Like) else if s == "dislike" then Some(Dislike) else None
  }

  /** A target's denormalised likesCount and dislikesCount. */
  datatype Counters = Counters(likes: int, dislikes: int)

  /** The counter of reaction r. */
  function Counter(c: Counters, r: Reaction): int {
    match r
    case Like => c.likes
    case Dislike => c.dislikes
  }

  /** An `$inc` of the counter of r. */
  function Bump(c: Counters, r: Reaction, delta: int): (b: Counters)
    ensures Counter(b, r) == Counter(c, r) + delta
    ensures forall o: Reaction :: o != r ==> Counter(b, o) == Counter(c, o)
  {
    match r
    case Like => c.(likes := c.likes + delta)
    case Dislike => c.(dislikes := c.dislikes + delta)
  }

  /** The number of reaction records of type r on a target: what
      countDocuments returns. */
  function Count<K(==,!new)>(rs: map<(Id, K), Reaction>, target: K, r: Reaction): nat {
    |Hits(rs, target, r)|
  }

  /** The counters of a target agree with its reaction records. */
  predicate Matches<K(==,!new)>(rs: map<(Id, K), Reaction>, target: K, c: Counters) {
    forall r: Reaction :: Counter(c, r) == Count(rs, target, r)
  }

  /** What a toggle did to the user's reaction. */
  datatype Change = Added | Removed | Switched(from: Reaction)

  datatype Toggled<K(==)> = Toggled(reactions: map<(Id, K), Reaction>, counters: Counters, change: Change)

  /** The toggle state machine: no reaction -> create r and increment its
      counter; the same reaction -> delete it and decrement; the other
      reaction -> switch, incrementing the new counter and decrementing the
      old one. */
  function Toggle<K(==,!new)>(rs: map<(Id, K), Reaction>, user: Id, target: K, r: Reaction, c: Counters): (t: Toggled<K>)
    ensures var key := (user, target);
      && (key in t.reactions <==> !(key in rs && rs[key] == r))
      && (key in t.reactions ==> t.reactions[key] == r)
      && (t.change == Added <==> key !in rs)
      && (t.change == Removed <==> key in rs && rs[key] == r)
      && (t.change.Switched? <==> key in rs && rs[key] != r)
      && (t.change.Switched? ==> t.change.from == rs[key])
    ensures forall key :: key != (user, target) ==>
      (key in t.reactions <==> key in rs) && (key in rs ==> t.reactions[key] == rs[key])
  {
    var key := (user, target);
    if key !in rs then
      Toggled(rs[key := r], Bump(c, r, 1), Added)
    else if rs[key] == r then
      Toggled(rs - {key}, Bump(c, r, -1), Removed)
    else
      Toggled(rs[key := r], Bump(Bump(c, r, 1), rs[key], -1), Switched(rs[key]))
  }

  /** The records of type r on a target. */
  function Hits<K(==,!new)>(rs: map<(Id, K), Reaction>, target: K, r: Reaction): set<(Id, K)> {
    set key | key in rs.Keys && key.1 == target && rs[key] == r
  }

  lemma CountSet<K(!new)>(rs: map<(Id, K), Reaction>, key: (Id, K), x: Reaction, target: K, r: Reaction)
    ensures Count(rs[key := x], target, r) ==
      Count(rs, target, r)
      - (if key in rs && key.1 == target && rs[key] == r then 1 else 0)
      + (if key.1 == target && x == r then 1 else 0)
  {
    var a := Hits(rs, target, r);
    var b := Hits(rs[key := x], target, r);
    HitsOutside(rs, key, x, target, r);
    SizeWithout(a, key);
    SizeWithout(b, key);
  }

  lemma HitsOutside<K(!new)>(rs: map<(Id, K), Reaction>, key: (Id, K), x: Reaction, target: K, r: Reaction)
    ensures Hits(rs, target, r) - {key} == Hits(rs[key := x], target, r) - {key}
    ensures key in Hits(rs, target, r) <==> key in rs && key.1 == target && rs[key] == r
    ensures key in Hits(rs[key := x], target, r) <==> key.1 == target && x == r
  {
    var rs' := rs[key := x];
    forall k ensures k in Hits(rs, target, r) - {key} <==> k in Hits(rs', target, r) - {key} {
      if k != key {
        assert k in rs'.Keys <==> k in rs.Keys;
        if k in rs { assert rs'[k] == rs[k]; }
      }
    }
  }

  lemma CountRemove<K(!new)>(rs: map<(Id, K), Reaction>, key: (Id, K), target: K, r: Reaction)
    ensures Count(rs - {key}, target, r) ==
      Count(rs, target, r) - (if key in rs && key.1 == target && rs[key] == r then 1 else 0)
  {
    var a := Hits(rs, target, r);
    assert Hits(rs - {key}, target, r) == a - {key};
    SizeWithout(a, key);
  }

  lemma SizeWithout<T>(s: set<T>, x: T)
    ensures |s| == |s - {x}| + (if x in s then 1 else 0)
  {
    if x in s {
      assert s == (s - {x}) + {x};
    } else {
      assert s - {x} == s;
    }
  }

  /** The counters move in lockstep with the records: if the target's
      counters matched its records before a toggle they still do after, and
      the records of every other target are untouched. */
  lemma ToggleKeepsCounters<K(!new)>(rs: map<(Id, K), Reaction>, user: Id, target: K, r: Reaction, c: Counters)
    requires Matches(rs, target, c)
    ensures var t := Toggle(rs, user, target, r, c);
      && Matches(t.reactions, target, t.counters)
      && forall other: K, x: Reaction :: other != target ==> Count(t.reactions, other, x) == Count(rs, other, x)
  {
    var key := (user, target);
    var t := Toggle(rs, user, target, r, c);
    if key !in rs {
      forall x: Reaction ensures Counter(t.counters, x) == Count(t.reactions, target, x) {
        CountSet(rs, key, r, target, x);
      }
      forall other: K, x: Reaction | other != target
        ensures Count(t.reactions, other, x) == Count(rs, other, x)
      {
        CountSet(rs, key, r, other, x);
      }
    } else if rs[key] == r {
      forall x: Reaction ensures Counter(t.counters, x) == Count(t.reactions, target, x) {
        CountRemove(rs, key, target, x);
      }
      forall other: K, x: Reaction | other != target
        ensures Count(t.reactions, other, x) == Count(rs, other, x)
      {
        CountRemove(rs, key, other, x);
      }
    } else {
      forall x: Reaction ensures Counter(t.counters, x) == Count(t.reactions, target, x) {
        CountSet(rs, key, r, target, x);
      }
      forall other: K, x: Reaction | other != target
        ensures Count(t.reactions, other, x) == Count(rs, other, x)
      {
        CountSet(rs, key, r, other, x);
      }
    }
  }

  /** Toggling the same reaction twice from no reaction restores both the
      records and the counters. */
  lemma ToggleTwiceRestores<K(!new)>(rs: map<(Id, K), Reaction>, user: Id, target: K, r: Reaction, c: Counters)
    requires (user, target) !in rs
    ensures var once := Toggle(rs, user, target, r, c);
      var twice := Toggle(once.reactions, user, target, r, once.counters);
      twice.reactions == rs && twice.counters == c && twice.change == Removed
  {
    var key := (user, target);
    assert rs[key := r] - {key} == rs;
  }
}

=== FILE: saves.dfy ===
/** The saved-content handlers saveContent, unsaveContent and checkSaved.
    Only saveContent is mounted on a route (POST /save); the other two are
    exported handlers without a route.
    Each user owns at most one save document, a list of {type, contentId}
    entries; the handlers treat it as a set keyed by contentId. */
module Saves {
  import opened Wrappers
  import opened Content
  import Text
  import Paging

  datatype Entry = Entry(kind: ContentType, contentId: Id)

  /** The save documents by user, and the (collection, id) pairs of the
      content that exists. */
  datatype Store = Store(saves: map<Id, seq<Entry>>, existing: set<(ContentType, Id)>)

  datatype Reply =
    | BadContentId      // 400
    | BadContentType    // 400
    | ContentNotFound   // 404
    | AlreadySaved      // 400
    | ServerError       // 500: a missing contentType makes charAt throw
    | NotSaved          // 404
    | Saved(list: seq<Entry>)     // 200, the updated document
    | Unsaved(list: seq<Entry>)   // 200, the updated document

  /** The user's list; a user without a document has an empty one. */
  function ListOf(s: Store, user: Id): seq<Entry> {
    if user in s.saves then s.saves[user] else []
  }

  /** The `{user, "savedContent.contentId": id}` lookup finds a document. */
  predicate IsListed(s: Store, user: Id, id: Id) {
    exists e :: e in ListOf(s, user) && e.contentId == id
  }

  /** `charAt(0).toUpperCase() + slice(1).toLowerCase()`. */
  function Normalize(t: string): (r: string)
    ensures |r| == |t|
    ensures |t| > 0 ==> r[0] == Text.ToUpperChar(t[0])
    ensures forall i :: 1 <= i < |t| ==> r[i] == Text.ToLowerChar(t[i])
  {
    if |t| == 0 then "" else Text.ToUpper(t[..1]) + Text.ToLower(t[1..])
  }

  /** A name with an upper-case ASCII first letter and lower-case rest. */
  predicate Capitalised(n: string) {
    && |n| > 0
    && 'A' <= n[0] <= 'Z'
    && forall i :: 1 <= i < |n| ==> 'a' <= n[i] <= 'z'
  }

  lemma UpperCharMatches(c: char, u: char)
    requires 'A' <= u <= 'Z'
    ensures Text.ToUpperChar(c) == u <==> Text.ToLowerChar(c) == Text.ToLowerChar(u)
  {
  }

  /** Normalising accepts a capitalised name exactly when the input equals
      it ignoring ASCII case. */
  lemma NormalizeMatchesIgnoringCase(t: string, n: string)
    requires Capitalised(n)
    ensures Normalize(t) == n <==> Text.ToLower(t) == Text.ToLower(n)
  {
    if |t| == |n| {
      UpperCharMatches(t[0], n[0]);
      if Text.ToLower(t) == Text.ToLower(n) {
        assert Text.ToLower(t)[0] == Text.ToLower(n)[0];
        forall i | 1 <= i < |t| ensures Normalize(t)[i] == n[i] {
          assert Text.ToLower(t)[i] == Text.ToLower(n)[i];
        }
      }
      if Normalize(t) == n {
        assert Normalize(t)[0] == n[0];
        forall i | 0 <= i < |t| ensures Text.ToLower(t)[i] == Text.ToLower(n)[i] {
          assert Normalize(t)[i] == n[i];
        }
      }
    } else {
      assert |Text.ToLower(t)| != |Text.ToLower(n)|;
    }
  }

  /** The three collection names are capitalised, so a content type is
      accepted in any letter case. */
  lemma ContentTypeCaseInsensitive(t: string, k: ContentType)
    ensures ParseContentType(Normalize(t)) == Some(k) <==>
            Text.ToLower(t) == Text.ToLower(ContentTypeName(k))
  {
    var n := ContentTypeName(k);
    assert Capitalised(n) by {
      match k
      case Video => assert n == ['V', 'i', 'd', 'e', 'o'];
      case Short => assert n == ['S', 'h', 'o', 'r', 't'];
      case Post => assert n == ['P', 'o', 's', 't'];
    }
    NormalizeMatchesIgnoringCase(t, n);
    ContentTypeRoundTrip(k);
  }

  /** The body checks of saveContent in the handler's order: the id syntax,
      then the type (absent, it throws), then that the content exists, then
      that it is not already saved (in any collection). Success carries the
      new entry. */
  function CheckSave(s: Store, user: Id, contentType: Option<string>, contentId: string)
    : (r: Result<Entry, Reply>)
    ensures !IsObjectId(contentId) ==> r == Failure(BadContentId)
    ensures IsObjectId(contentId) && contentType.None? ==> r == Failure(ServerError)
    ensures IsObjectId(contentId) && contentType.Some? ==>
      match ParseContentType(Normalize(contentType.value))
      case None => r == Failure(BadContentType)
      case Some(k) =>
        && ((k, contentId) !in s.existing ==> r == Failure(ContentNotFound))
        && ((k, contentId) in s.existing && IsListed(s, user, contentId) ==> r == Failure(AlreadySaved))
    ensures r.Success? <==>
      && IsObjectId(contentId)
      && contentType.Some?
      && ParseContentType(Normalize(contentType.value)).Some?
      && (ParseContentType(Normalize(contentType.value)).value, contentId) in s.existing
      && !IsListed(s, user, contentId)
    ensures r.Success? ==>
      r.value.contentId == contentId && ContentTypeName(r.value.kind) == Normalize(contentType.value)
  {
    if !IsObjectId(contentId) then Failure(BadContentId)
    else if contentType.None? then Failure(ServerError)
    else match ParseContentType(Normalize(contentType.value))
      case None => Failure(BadContentType)
      case Some(k) =>
        if (k, contentId) !in s.existing then Failure(ContentNotFound)
        else if IsListed(s, user, contentId) then Failure(AlreadySaved)
        else Success(Entry(k, contentId))
  }

  /** saveContent. A rejected request changes nothing; an accepted one
      appends exactly one entry to the user's document, creating it if
      needed (the upsert), and touches no other user's document. */
  function SaveContent(s: Store, user: Id, contentType: Option<string>, contentId: string)
    : (r: (Reply, Store))
    ensures CheckSave(s, user, contentType, contentId).Failure? ==>
      r == (CheckSave(s, user, contentType, contentId).error, s)
    ensures CheckSave(s, user, contentType, contentId).Success? ==>
      var e := CheckSave(s, user, contentType, contentId).value;
      && r.1.existing == s.existing
      && user in r.1.saves && r.1.saves[user] == ListOf(s, user) + [e]
      && r.0 == Saved(r.1.saves[user])
      && r.1.saves.Keys == s.saves.Keys + {user}
      && (forall u :: u in s.saves && u != user ==> r.1.saves[u] == s.saves[u])
  {
    match CheckSave(s, user, contentType, contentId)
    case Failure(e) => (e, s)
    case Success(e) =>
      var list := ListOf(s, user) + [e];
      (Saved(list), s.(saves := s.saves[user := list]))
  }

  /** The entries that do not carry the id: the `$pull`. */
  function Without(list: seq<Entry>, id: Id): (r: seq<Entry>)
    ensures forall e :: e in r <==> e in list && e.contentId != id
  {
    Paging.Where(list, (e: Entry) => e.contentId != id)
  }

  /** unsaveContent: rejected when the id is malformed or not saved;
      otherwise every entry with that id leaves the user's document. */
  function UnsaveContent(s: Store, user: Id, contentId: string): (r: (Reply, Store))
    ensures !IsObjectId(contentId) ==> r == (BadContentId, s)
    ensures IsObjectId(contentId) && !IsListed(s, user, contentId) ==> r == (NotSaved, s)
    ensures IsObjectId(contentId) && IsListed(s, user, contentId) ==>
      && r.1.existing == s.existing
      && user in s.saves && user in r.1.saves
      && r.1.saves.Keys == s.saves.Keys
      && r.0 == Unsaved(r.1.saves[user])
      && !IsListed(r.1, user, contentId)
      && (forall e :: e in ListOf(s, user) && e.contentId != contentId ==> e in r.1.saves[user])
      && (forall e :: e in r.1.saves[user] ==> e in ListOf(s, user))
      && (forall u :: u in s.saves && u != user ==> r.1.saves[u] == s.saves[u])
  {
    if !IsObjectId(contentId) then (BadContentId, s)
    else if !IsListed(s, user, contentId) then (NotSaved, s)
    else
      var list := Without(s.saves[user], contentId);
      (Unsaved(list), s.(saves := s.saves[user := list]))
  }

  /** checkSaved: whether the user's document lists the id. */
  function CheckSaved(s: Store, user: Id, contentId: string): (r: Result<bool, Reply>)
    ensures r.Failure? <==> !IsObjectId(contentId)
    ensures r.Failure? ==> r.error == BadContentId
    ensures r.Success? ==> (r.value <==> exists i :: 0 <= i < |ListOf(s, user)| && ListOf(s, user)[i].contentId == contentId)
  {
    if !IsObjectId(contentId) then Failure(BadContentId)
    else
      var listed := IsListed(s, user, contentId);
      assert listed ==> exists i :: 0 <= i < |ListOf(s, user)| && ListOf(s, user)[i].contentId == contentId by {
        if listed {
          var e :| e in ListOf(s, user) && e.contentId == contentId;
          var i :| 0 <= i < |ListOf(s, user)| && ListOf(s, user)[i] == e;
        }
      }
      Success(listed)
  }

  /** After a successful save the content checks as saved, and a second
      save of it is refused. */
  lemma SaveThenCheck(s: Store, user: Id, contentType: Option<string>, contentId: string)
    requires SaveContent(s, user, contentType, contentId).0.Saved?
    ensures var after := SaveContent(s, user, contentType, contentId).1;
      && CheckSaved(after, user, contentId) == Success(true)
      && SaveContent(after, user, contentType, contentId) == (AlreadySaved, after)
  {
    var e := CheckSave(s, user, contentType, contentId).value;
    var after := SaveContent(s, user, contentType, contentId).1;
    assert e in ListOf(after, user);
  }

  /** Unsave undoes save: the user's list is restored, or emptied when the
      save created the document. */
  lemma SaveThenUnsaveRestores(s: Store, user: Id, contentType: Option<string>, contentId: string)
    requires SaveContent(s, user, contentType, contentId).0.Saved?
    ensures var after := SaveContent(s, user, contentType, contentId).1;
      var back := UnsaveContent(after, user, contentId);
      && back.0 == Unsaved(ListOf(s, user))
      && back.1 == s.(saves := s.saves[user := ListOf(s, user)])
      && (user in s.saves ==> back.1 == s)
  {
    var e := CheckSave(s, user, contentType, contentId).value;
    var list := ListOf(s, user);
    var after := SaveContent(s, user, contentType, contentId).1;
    assert after.saves == s.saves[user := list + [e]];
    assert e in ListOf(after, user);
    assert IsListed(after, user, contentId);
    var p := (x: Entry) => x.contentId != contentId;
    assert forall x :: x in list ==> p(x);
    Paging.WhereAppendRejected(list, e, p);
    Paging.WhereKeepsAll(list, p);
    assert Without(list + [e], contentId) == list;
    var back := UnsaveContent(after, user, contentId);
    assert back.1.saves == s.saves[user := list + [e]][user := list];
    UpdateTwice(s.saves, user, list + [e], list);
    assert back.0 == Unsaved(list);
    assert back.1 == s.(saves := s.saves[user := list]);
    if user in s.saves {
      UpdateSame(s.saves, user);
    }
  }

  lemma UpdateTwice<K, V>(m: map<K, V>, k: K, a: V, b: V)
    ensures m[k := a][k := b] == m[k := b]
  {
  }

  lemma UpdateSame<K, V>(m: map<K, V>, k: K)
    requires k in m
    ensures m[k := m[k]] == m
  {
  }

  /** Unsaving one id keeps every other saved id saved. */
  lemma UnsaveKeepsOthers(s: Store, user: Id, contentId: string, other: Id)
    requires other != contentId && IsListed(s, user, other)
    ensures IsListed(UnsaveContent(s, user, contentId).1, user, other)
  {
    var e :| e in ListOf(s, user) && e.contentId == other;
    if IsObjectId(contentId) && IsListed(s, user, contentId) {
      assert e in ListOf(UnsaveContent(s, user, contentId).1, user);
    }
  }

  /** No id is ever listed twice in a document: the save path keeps it so. */
  predicate NoDuplicateIds(list: seq<Entry>) {
    forall i, j :: 0 <= i < j < |list| ==> list[i].contentId != list[j].contentId
  }

  lemma SaveKeepsNoDuplicates(s: Store, user: Id, contentType: Option<string>, contentId: string)
    requires NoDuplicateIds(ListOf(s, user))
    ensures NoDuplicateIds(ListOf(SaveContent(s, user, contentType, contentId).1, user))
  {
    if CheckSave(s, user, contentType, contentId).Success? {
      var list := ListOf(s, user);
      var e := CheckSave(s, user, contentType, contentId).value;
      assert forall i :: 0 <= i < |list| ==> list[i] in list;
    }
  }
}

=== FILE: socket_service.dfy ===
/** The older single-socket registry (socketService): each user id maps to
    at most one socket id, and the last `register` wins. The per-socket
    `data.userId` is kept as the map `socketUser`. */
module SocketService {

  type UserId = string
  type SocketId = string

  datatype Effect =
    | Registered(to: SocketId, success: bool, userId: UserId, socketId: SocketId)
    | Pong(to: SocketId)
    | Deliver(to: SocketId, event: string)

  datatype Service = Service(
    userSocket: map<UserId, SocketId>,
    socketUser: map<SocketId, UserId>,
    io: bool)

  datatype Step = Step(svc: Service, effects: seq<Effect>)

  /** The `register` handler: a truthy user id is mapped to this socket,
      replacing any earlier socket, and acknowledged; a falsy one ("")
      changes nothing and gets no reply. */
  function Register(svc: Service, sid: SocketId, userId: UserId): (r: Step)
    ensures userId == "" ==> r == Step(svc, [])
    ensures userId != "" ==>
      && userId in r.svc.userSocket && r.svc.userSocket[userId] == sid
      && (forall v :: v in svc.userSocket && v != userId ==> v in r.svc.userSocket && r.svc.userSocket[v] == svc.userSocket[v])
      && r.svc.userSocket.Keys == svc.userSocket.Keys + {userId}
      && sid in r.svc.socketUser && r.svc.socketUser[sid] == userId
      && (forall t :: t in svc.socketUser && t != sid ==> t in r.svc.socketUser && r.svc.socketUser[t] == svc.socketUser[t])
      && r.svc.socketUser.Keys == svc.socketUser.Keys + {sid}
      && r.svc.io == svc.io
      && r.effects == [Registered(sid, true, userId, sid)]
  {
    if userId == "" then Step(svc, [])
    else
      Step(svc.(userSocket := svc.userSocket[userId := sid], socketUser := svc.socketUser[sid := userId]),
           [Registered(sid, true, userId, sid)])
  }

  /** The `disconnect` handler: the user id this socket registered is
      removed from the map unconditionally, even when a newer socket has
      since registered the same user. */
  function Disconnect(svc: Service, sid: SocketId): (r: Step)
    ensures r.effects == []
    ensures sid !in r.svc.socketUser
    ensures sid in svc.socketUser && svc.socketUser[sid] != "" ==>
      r.svc.userSocket == svc.userSocket - {svc.socketUser[sid]}
    ensures !(sid in svc.socketUser && svc.socketUser[sid] != "") ==> r.svc.userSocket == svc.userSocket
  {
    var users := if sid in svc.socketUser && svc.socketUser[sid] != ""
                 then svc.userSocket - {svc.socketUser[sid]} else svc.userSocket;
    Step(svc.(userSocket := users, socketUser := svc.socketUser - {sid}), [])
  }

  /** The `ping` handler answers `pong` to the same socket. */
  function Ping(svc: Service, sid: SocketId): (r: Step)
    ensures r.svc == svc && r.effects == [Pong(sid)]
  {
    Step(svc, [Pong(sid)])
  }

  predicate IsUserOnline(svc: Service, userId: UserId) {
    userId in svc.userSocket
  }

  datatype Emission = Emission(sent: bool, recipients: set<SocketId>)

  /** emitToUser: sends to the one mapped socket when there is one (a truthy
      socket id) and the server is initialised. */
  function EmitToUser(svc: Service, userId: UserId, event: string): (r: Emission)
    ensures r.sent <==> svc.io && userId in svc.userSocket && svc.userSocket[userId] != ""
    ensures r.sent ==> r.recipients == {svc.userSocket[userId]}
    ensures !r.sent ==> r.recipients == {}
    ensures |r.recipients| <= 1
  {
    if userId in svc.userSocket && svc.userSocket[userId] != "" && svc.io
    then Emission(true, {svc.userSocket[userId]})
    else Emission(false, {})
  }

  /** Last write wins: after two registrations of the same user from two
      sockets, only the later socket receives that user's events. */
  lemma LastRegisterWins(svc: Service, s1: SocketId, s2: SocketId, u: UserId, event: string)
    requires u != "" && s2 != "" && svc.io
    ensures var a := Register(Register(svc, s1, u).svc, s2, u).svc;
      EmitToUser(a, u, event) == Emission(true, {s2})
  {
  }

  /** The stale-disconnect effect: when an older socket of a user
      disconnects after a newer one registered, the user is reported offline
      although the newer socket is still connected. */
  lemma StaleDisconnectDropsNewerSocket(svc: Service, s1: SocketId, s2: SocketId, u: UserId)
    requires u != "" && s1 != s2
    ensures var a := Register(Register(svc, s1, u).svc, s2, u).svc;
      var d := Disconnect(a, s1).svc;
      && !IsUserOnline(d, u)
      && s2 in d.socketUser && d.socketUser[s2] == u
  {
  }

  /** Registering and then disconnecting a socket for a user who was not
      online leaves the user offline again, and every other user's mapping
      as it was. */
  lemma RegisterThenDisconnect(svc: Service, sid: SocketId, u: UserId)
    requires u != "" && u !in svc.userSocket
    ensures var d := Disconnect(Register(svc, sid, u).svc, sid).svc;
      d.userSocket == svc.userSocket
  {
    var d := Disconnect(Register(svc, sid, u).svc, sid).svc;
    assert d.userSocket == svc.userSocket[u := sid] - {u};
  }
}

=== FILE: text.dfy ===
/** String helpers standing in for the JavaScript string methods the handlers
    call: trim, toLowerCase/toUpperCase, startsWith and substring.
    Whitespace and case mapping cover ASCII only. */
module Text {

  /** The ASCII characters String.prototype.trim removes. */
  predicate IsSpace(c: char) {
    c == ' ' || c == '\t' || c == '\n' || c == '\r' || c == '\U{000B}' || c == '\U{000C}'
  }

  predicate AllSpace(s: string) {
    forall i :: 0 <= i < |s| ==> IsSpace(s[i])
  }

  /** Drops leading whitespace. */
  function TrimStart(s: string): (r: string)
    ensures |r| <= |s| && r == s[|s| - |r|..]
    ensures AllSpace(s[..|s| - |r|])
    ensures |r| == 0 || !IsSpace(r[0])
  {
    if |s| == 0 || !IsSpace(s[0]) then s
    else
      var t := s[1..];
      var r := TrimStart(t);
      assert r == s[|s| - |r|..] by { assert t[|t| - |r|..] == s[|s| - |r|..]; }
      var dropped := s[..|s| - |r|];
      forall i | 0 <= i < |dropped| ensures IsSpace(dropped[i]) {
        if i > 0 { assert dropped[i] == t[..|t| - |r|][i - 1]; }
      }
      r
  }

  /** Drops trailing whitespace. */
  function TrimEnd(s: string): (r: string)
    ensures |r| <= |s| && r == s[..|r|]
    ensures AllSpace(s[|r|..])
    ensures |r| == 0 || !IsSpace(r[|r| - 1])
  {
    if |s| == 0 || !IsSpace(s[|s| - 1]) then s
    else
      var t := s[..|s| - 1];
      var r := TrimEnd(t);
      assert r == s[..|r|] by { assert t[..|r|] == s[..|r|]; }
      var dropped := s[|r|..];
      forall i | 0 <= i < |dropped| ensures IsSpace(dropped[i]) {
        if |r| + i < |t| { assert dropped[i] == t[|r|..][i]; }
      }
      r
  }

  /** The number of whitespace characters at the front of s. */
  function Lead(s: string): (r: nat)
    ensures r <= |s|
    ensures forall i :: 0 <= i < r ==> IsSpace(s[i])
    ensures r == |s| || !IsSpace(s[r])
  {
    if |s| == 0 || !IsSpace(s[0]) then 0 else 1 + Lead(s[1..])
  }

  /** String.prototype.trim: the result neither starts nor ends with
      whitespace, and it is the piece of s after the leading whitespace
      with only whitespace following it. */
  function Trim(s: string): (r: string)
    ensures |r| <= |s|
    ensures |r| == 0 || (!IsSpace(r[0]) && !IsSpace(r[|r| - 1]))
    ensures Lead(s) + |r| <= |s| && r == s[Lead(s)..Lead(s) + |r|]
    ensures forall i :: Lead(s) + |r| <= i < |s| ==> IsSpace(s[i])
  {
    var t := TrimStart(s);
    var r := TrimEnd(t);
    TrimStartLead(s);
    PieceOf(s, t, r);
    r
  }

  lemma {:induction false} TrimStartLead(s: string)
    ensures |s| - |TrimStart(s)| == Lead(s)
    decreases |s|
  {
    if |s| > 0 && IsSpace(s[0]) {
      TrimStartLead(s[1..]);
    }
  }

  /** A prefix of a suffix, and whitespace after it. */
  lemma PieceOf(s: string, t: string, r: string)
    requires |t| <= |s| && t == s[|s| - |t|..] && |r| <= |t| && r == t[..|r|] && AllSpace(t[|r|..])
    ensures r == s[|s| - |t|..|s| - |t| + |r|]
    ensures forall i :: |s| - |t| + |r| <= i < |s| ==> IsSpace(s[i])
  {
    forall i | |s| - |t| + |r| <= i < |s| ensures IsSpace(s[i]) {
      assert t[|r|..][i - (|s| - |t|) - |r|] == s[i];
    }
  }

  lemma {:induction false} TrimStartAllSpace(s: string)
    requires AllSpace(s)
    ensures TrimStart(s) == ""
    decreases |s|
  {
    if |s| > 0 {
      assert IsSpace(s[0]);
      assert AllSpace(s[1..]) by {
        forall i | 0 <= i < |s[1..]| ensures IsSpace(s[1..][i]) {
          assert s[1..][i] == s[i + 1];
        }
      }
      TrimStartAllSpace(s[1..]);
    }
  }

  lemma {:induction false} TrimStartKeepsNonSpace(s: string, i: nat)
    requires i < |s| && !IsSpace(s[i])
    ensures |TrimStart(s)| > 0 && !IsSpace(TrimStart(s)[0])
    decreases i
  {
    if IsSpace(s[0]) {
      assert s[1..][i - 1] == s[i];
      TrimStartKeepsNonSpace(s[1..], i - 1);
    }
  }

  lemma {:induction false} TrimEndKeepsNonSpaceHead(a: string)
    requires |a| > 0 && !IsSpace(a[0])
    ensures |TrimEnd(a)| > 0
    decreases |a|
  {
    if IsSpace(a[|a| - 1]) {
      var b := a[..|a| - 1];
      assert |b| > 0 && b[0] == a[0];
      TrimEndKeepsNonSpaceHead(b);
    }
  }

  /** Trimming is empty exactly when the input is all whitespace; this is
      the test the handlers use for "blank" input. */
  lemma TrimEmptyIffAllSpace(s: string)
    ensures Trim(s) == "" <==> AllSpace(s)
  {
    if AllSpace(s) {
      TrimStartAllSpace(s);
    } else {
      var i :| 0 <= i < |s| && !IsSpace(s[i]);
      TrimStartKeepsNonSpace(s, i);
      TrimEndKeepsNonSpaceHead(TrimStart(s));
    }
  }

  /** A string with no whitespace at either end is its own trim. */
  lemma TrimUntrimmed(s: string)
    requires |s| > 0 && !IsSpace(s[0]) && !IsSpace(s[|s| - 1])
    ensures Trim(s) == s
  {
    assert TrimStart(s) == s;
  }

  /** Trimming twice is trimming once. */
  lemma TrimIdempotent(s: string)
    ensures Trim(Trim(s)) == Trim(s)
  {
    var r := Trim(s);
    assert TrimStart(r) == r;
    assert TrimEnd(r) == r;
  }

  function ToLowerChar(c: char): (r: char)
    ensures 'A' <= c <= 'Z' ==> 'a' <= r <= 'z'
    ensures !('A' <= c <= 'Z') ==> r == c
  {
    if 'A' <= c <= 'Z' then (c as int + 32) as char else c
  }

  function ToUpperChar(c: char): (r: char)
    ensures 'a' <= c <= 'z' ==> 'A' <= r <= 'Z'
    ensures !('a' <= c <= 'z') ==> r == c
  {
    if 'a' <= c <= 'z' then (c as int - 32) as char else c
  }

  /** String.prototype.toLowerCase, ASCII letters only. */
  function ToLower(s: string): (r: string)
    ensures |r| == |s|
    ensures forall i :: 0 <= i < |s| ==> r[i] == ToLowerChar(s[i])
  {
    seq(|s|, i requires 0 <= i < |s| => ToLowerChar(s[i]))
  }

  /** String.prototype.toUpperCase, ASCII letters only. */
  function ToUpper(s: string): (r: string)
    ensures |r| == |s|
    ensures forall i :: 0 <= i < |s| ==> r[i] == ToUpperChar(s[i])
  {
    seq(|s|, i requires 0 <= i < |s| => ToUpperChar(s[i]))
  }

  predicate StartsWith(s: string, prefix: string) {
    |prefix| <= |s| && s[..|prefix|] == prefix
  }

  /** The number of UTF-16 code units JavaScript needs for one character:
      two (a surrogate pair) above the Basic Multilingual Plane. */
  function Units(c: char): (r: nat)
    ensures r == 1 || r == 2
  {
    if c as int >= 0x10000 then 2 else 1
  }

  /** `s.length` in JavaScript: the UTF-16 length, which is what the
      schemas' `maxlength` and `substring` count. */
  function Utf16Length(s: string): (r: nat)
    ensures |s| <= r <= 2 * |s|
  {
    if s == [] then 0 else Units(s[0]) + Utf16Length(s[1..])
  }

  /** Text of Basic Multilingual Plane characters only is as long in
      UTF-16 units as in characters. */
  lemma {:induction false} Utf16LengthBmp(s: string)
    requires forall i :: 0 <= i < |s| ==> s[i] as int < 0x10000
    ensures Utf16Length(s) == |s|
  {
    if s != [] {
      assert forall i :: 0 <= i < |s[1..]| ==> s[1..][i] == s[i + 1];
      Utf16LengthBmp(s[1..]);
    }
  }

  /** String.prototype.substring(0, n) for n >= 0: the longest prefix of
      at most n UTF-16 units. A surrogate pair straddling unit n is left
      out whole (JavaScript keeps its first half). */
  function Take(s: string, n: nat): (r: string)
    ensures StartsWith(s, r)
    ensures Utf16Length(r) <= n
    ensures Utf16Length(s) <= n ==> r == s
    ensures Utf16Length(s) > n ==> |r| < |s| && Utf16Length(r) + Units(s[|r|]) > n
  {
    if s == [] || Units(s[0]) > n then []
    else
      var rest := Take(s[1..], n - Units(s[0]));
      assert [s[0]] + rest == s[..|rest| + 1];
      assert ([s[0]] + rest)[1..] == rest;
      [s[0]] + rest
  }

  /** The position of the first `c` in `s`. */
  function IndexOf(s: string, c: char): (r: nat)
    requires c in s
    ensures r < |s| && s[r] == c
    ensures c !in s[..r]
    ensures forall j :: 0 <= j < r ==> s[j] != c
  {
    if s[0] == c then 0
    else
      assert s == [s[0]] + s[1..];
      var r := IndexOf(s[1..], c) + 1;
      assert s[..r] == [s[0]] + s[1..][..r - 1];
      r
  }

  /** String.prototype.split with a one-character separator: the pieces
      between separators, empty ones included. */
  function Split(s: string, sep: char): (r: seq<string>)
    ensures |r| >= 1
    ensures forall i :: 0 <= i < |r| ==> sep !in r[i]
    ensures sep in s ==> |r| >= 2 && r[0] == s[..IndexOf(s, sep)]
    decreases |s|
  {
    if sep !in s then [s]
    else
      var i := IndexOf(s, sep);
      [s[..i]] + Split(s[i + 1..], sep)
  }

  /** Array.prototype.join with a one-character separator. */
  function Join(parts: seq<string>, sep: char): (r: string)
    requires |parts| >= 1
    decreases |parts|
  {
    if |parts| == 1 then parts[0] else parts[0] + [sep] + Join(parts[1..], sep)
  }

  /** Splitting loses nothing: joining the pieces gives the input back. */
  lemma {:induction false} JoinSplit(s: string, sep: char)
    ensures Join(Split(s, sep), sep) == s
    decreases |s|
  {
    if sep in s {
      var i := IndexOf(s, sep);
      var rest := Split(s[i + 1..], sep);
      assert Split(s, sep) == [s[..i]] + rest;
      assert Split(s, sep)[1..] == rest;
      JoinSplit(s[i + 1..], sep);
      assert s == s[..i] + [sep] + s[i + 1..];
    }
  }

  /** And joining separator-free pieces splits back into them. */
  lemma {:induction false} SplitJoin(parts: seq<string>, sep: char)
    requires |parts| >= 1
    requires forall i :: 0 <= i < |parts| ==> sep !in parts[i]
    ensures Split(Join(parts, sep), sep) == parts
    decreases |parts|
  {
    if |parts| > 1 {
      var s := Join(parts, sep);
      var p := parts[0];
      var tail := Join(parts[1..], sep);
      assert s == p + [sep] + tail;
      assert s[|p|] == sep;
      assert s[..|p|] == p;
      var k := IndexOf(s, sep);
      assert forall j :: 0 <= j < |p| ==> s[j] == p[j];
      assert k == |p|;
      assert s[|p| + 1..] == tail;
      SplitJoin(parts[1..], sep);
      assert parts == [p] + parts[1..];
    }
  }
}

=== FILE: wrappers.dfy ===
/** Option and Result types used across the model for absent values and for
    the error paths of the handlers (a thrown exception or an error reply). */
module Wrappers {

  datatype Option<+T> = None | Some(value: T) {

    /** Returns the value in Some, or the given default for None. */
    function GetOr(default: T): T {
      match this
      case Some(v) => v
      case None => default
    }
  }

  datatype Result<+R, +E> = Success(value: R) | Failure(error: E) {

    predicate IsFailure() {
      Failure?
    }

    function PropagateFailure<U>(): Result<U, E>
      requires Failure?
    {
      Failure(error)
    }

    function Extract(): R
      requires Success?
    {
      value
    }
  }
}
